=== FILE: README.md ===
# piUML core in Dafny

piUML compiles a small, indentation-based UML language into boxes and lines.
This project models the logic at its centre as immutable Dafny datatypes and
pure functions, and proves properties about that model:

- **Containment tree and data model** (`data.dfy`, `style.dfy`): element kind
  tables, identity by id, the parent chains behind `lca` and `lsb`,
  pre-/post-order traversal and `unwind`, multiplicity and attribute text,
  the default style records and the per-item style lookup.
- **Parser semantic actions** (`parser.dfy`, `relations.dfy`). These take
  token values that are already split:
  - the node cache;
  - `name_dequote` and `st_parse`;
  - the indentation stack of `_set_parent`;
  - association and dependency operator decoding;
  - the UML checks on comment lines, dependencies and assemblies;
  - the filling of association ends.
- **Rectangle constraint solver** (`solver.dfy`): the ten constraints as
  updates on a store of box styles keyed by element id, the dependency
  registration of `add`, and the worklist loop of `solve` with its step
  budget of the squared number of constraints.
- **Alignment-to-constraint generation**:
  - `cl.py`, in `cl.dfy`: the line cache, the alignment cache, the default
    row and the `within` inset;
  - `layout/__init__.py`, in `prelayout.dfy`: the defined and default
    alignment lists, and the order of the `_constraint` calls;
  - `gsolver.py`, in `gsolver.dfy`: the "less than" and line-centring
    steps, and the meaning of the generated constraints;
  - `layout/mp.py`, in `mplayout.dfy`: identifier renaming and the pairwise
    equations.
- **Geometry and formatting helpers of the renderers**:
  - `text.dfy`: text placement at a box and the text hint along a line;
  - `cairo.dfy`: name markup, the head compartment size, the minimal box
    size, the line length and the bounding box;
  - `mprender.dfy`: MetaPost identifiers, TeX boxes and the compartment
    list.

Coordinates are exact `real`s. Elements form an inductive tree, `Data.Node`.
Each parent pointer of the source is the node whose children list holds the
element, and is computed from the tree. Where the source raises an exception
or fails an assertion, the model mostly returns `None` or a `Failure` naming
the error. The few places where a precondition excludes the failing input
instead are listed under "## Left out".

## Model

| member | source | states |
|---|---|---|
| Data.ElementTables | src/piuml/data.py:35-43 | The packaging and non-packaging kind tables are disjoint, their union is the table of all kinds, and that table holds 15 distinct kinds. |
| Data.SameNodeById | src/piuml/data.py:91-102 | Node equality is an equivalence that looks only at the id, and equal nodes hash alike. |
| Data.MakeDiagram | src/piuml/data.py:150-165 | The diagram is an iterable container with id `diagram`, holding the given children. |
| Data.MakeGroup | src/piuml/data.py:167-181 | A node group is an iterable container with its id, holding the given children. |
| Data.DiagramParents | src/piuml/data.py:162-163 | Every child of a new diagram has the diagram as its parent. |
| Data.GroupParents | src/piuml/data.py:179-180 | Every child of a new node group has the group as its parent. |
| Data.PathTo | src/piuml/data.py:375-393 | A path goes from the root to the node with the given id, each step to a child. |
| Data.PathToLinked | src/piuml/data.py:381-385 | Each node on a path is a child of the node before it, so the path is the reversed parent chain. |
| Data.Ancestors | src/piuml/data.py:381-385 | The proper ancestors, nearest first, are exactly the reversed path without the node itself. |
| Data.ParentOf | src/piuml/data.py:162-163 | A node has a parent exactly when it lies strictly below the root; the parent holds it among its children. |
| Data.Lca | src/piuml/data.py:375-393 | The result is the first entry of the first node's ancestor chain that is common to every chain. There is no result when no ids are given, an id is missing, or nothing is common. |
| Data.LcaExists | src/piuml/data.py:375-393 | When every given node lies strictly below the root, a lowest common ancestor exists. |
| Data.CommonWithFirst | src/piuml/data.py:386-392 | An entry of the first chain that is common to the other chains is common to all of them. |
| Data.Lift | src/piuml/data.py:396-411 | The lifted node is on the kid's path, and is a child of the entry with the given parent id. |
| Data.Lsb | src/piuml/data.py:396-411 | The result keeps the length and order of the kids: entry i is the child of the parent that holds kid i. It fails exactly when some kid has no such ancestor. |
| Data.Level | src/piuml/layout/cl.py:97-103 | `_level` lifts each node to its ancestor directly below the lowest common ancestor, in order. |
| Data.Preorder | src/piuml/data.py:340-356 | Preorder starts at the root, and without `reverse` yields as many nodes as the tree holds; `Data.UnwindIsPreorder` and `Data.ReversePreorderSameNodes` pin down which. |
| Data.Postorder | src/piuml/data.py:359-372 | Postorder yields as many nodes as the tree holds and ends at the root. |
| Data.UnwindIsPreorder | src/piuml/data.py:436-446 | `unwind` yields exactly the forward preorder. |
| Data.ReversePreorderSameNodes | src/piuml/data.py:340-356 | Reversing only the root's children visits the same nodes as forward preorder, with the root still first. |
| Data.PostorderSameNodes | src/piuml/data.py:359-372 | Postorder and preorder visit the same multiset of nodes. |
| Data.MakeMult | src/piuml/data.py:228-238 | The lower bound defaults to `0` and the upper bound defaults to the lower bound. |
| Data.MultRoundTrip | src/piuml/data.py:241-250 | A multiplicity is read back from its `[l]` or `[l..u]` text. |
| Data.MakeAttribute | src/piuml/data.py:265-270 | A missing name becomes the empty name, and the other parts are kept. |
| Data.AttributeStrIsJoin | src/piuml/data.py:273-284 | The text is the name, then `: type`, ` = value` and the multiplicity, each only when present, joined by spaces in that order. |
| Data.AttributeRoundTrip | src/piuml/data.py:273-284 | An attribute with plain parts is read back from its text. |
| Style.AreaItemsRoundTrip | src/piuml/style.py:71-84 | An area iterates as top, right, bottom, left. Rebuilding an area from that iteration gives it back, so the iteration identifies the area. |
| Style.PosSizeItemsInjective | src/piuml/style.py:30-65 | A position iterates as (x, y) and a size as (width, height). Position equality (`Pos.__eq__`) coincides with equal iterations; sizes are compared as values in the model. |
| Style.DefaultBoxShape | src/piuml/style.py:88-140 | Default box: position (0,0), size = minimal size = 80×40, icon 0×0, compartments `[0]`, margin 10 on every side, padding 5/10/5/10. |
| Style.DefaultLineShape | src/piuml/style.py:144-158 | Default line: minimal length 100, and two edge points, both at the origin. |
| Style.Get | src/piuml/style.py:177-183 | A first lookup stores and returns the initial style; later lookups return the stored style, and no other entry changes. |
| Style.GetStable | src/piuml/style.py:177-183 | A second lookup returns the style handed out by the first, whatever initial style it offers, and stores nothing. |
| Parser.Lookup | src/piuml/parser.py:91-101 | A lookup succeeds exactly for a stored id, and fails with "not defined" otherwise. |
| Parser.Store | src/piuml/parser.py:104-112 | A store succeeds exactly for a new id, and fails with "already defined" otherwise. |
| Parser.StoreLookup | src/piuml/parser.py:91-112 | After a store the id maps to the node, other lookups are unchanged, and storing the same id again fails. |
| Parser.DequoteQuote | src/piuml/parser.py:116-125 | Dequoting undoes the author's escaping of backslash, both quote characters and `#`, for every name. |
| Parser.DequoteExamples | src/piuml/tests/test_scanner.py:44-53 | The scanner tests' dequoting examples give the expected names. |
| Parser.DequotePlain | src/piuml/parser.py:116-125 | A quoted name without backslashes comes back as the text between the quotes. |
| Parser.StParse | src/piuml/parser.py:128-133 | There is always at least one stereotype, and none has surrounding blanks. |
| Parser.StParseFormat | src/piuml/parser.py:128-133 | Trimmed stereotypes without commas or angle brackets come back from their `<<a, b>>` text. |
| Parser.StParseTwoPadded | src/piuml/parser.py:128-133 | Blanks around names and around the comma do not matter. |
| Parser.StParseExamples | src/piuml/tests/test_parser.py:84-97 | The parser tests' stereotype examples give the expected tuples. |
| Parser.PopUntil | src/piuml/parser.py:321-323 | Popping removes the deeper entries and also the first entry at the given level or shallower, whose level it returns. It finds nothing when every entry is deeper. |
| Parser.SetParent | src/piuml/parser.py:307-329 | On success the node is on top and its parent is the entry below it. Failures are "inconsistent indentation", or the index error after the root itself is popped. |
| Parser.SetParentNested | src/piuml/parser.py:307-329 | On a nested stack, placement succeeds exactly when the level is at least the top's or some open node has it; the result stays nested and the parent is the enclosing entry. |
| Parser.SetParentReplace | src/piuml/parser.py:314-318 | An equal level replaces the top, but never the root. |
| Parser.SetParentPush | src/piuml/parser.py:319-320 | A deeper level pushes. |
| Parser.SetParentInconsistent | src/piuml/parser.py:321-325 | Unwinding to a strictly shallower level raises "inconsistent indentation". |
| Parser.WalkConcat | src/piuml/parser.py:284-329 | Reading two blocks of lines is reading the first block, then the second from the stack the first one left. |
| Parser.GroupingSimple | src/piuml/tests/test_parser.py:15-28 | The simple grouping test gives the expected parents. |
| Parser.GroupingComplex | src/piuml/tests/test_parser.py:31-67 | The complex grouping test gives the expected parents. |
| Parser.GroupingWrongIndentation | src/piuml/tests/test_parser.py:70-79 | The wrongly indented input fails with inconsistent indentation. |
| Parser.EdgeTopAsWritten | src/piuml/parser.py:374-389 | A relationship overwrites the top stack entry with itself at level 0. |
| Parser.EdgeTopAsWrittenBreaksNesting | src/piuml/parser.py:386 | After a nested node, the written update leaves two level-0 entries on the stack. |
| Parser.EdgeAfterNestedAsWritten | src/piuml/parser.py:386 | As written, a top-level class that follows a nested class and a relationship gets the earlier class as its parent. |
| Parser.EdgeTop | src/piuml/parser.py:374-389 | The corrected update closes the open nodes and leaves the relationship alone on the root. |
| Parser.EdgeTopNested | src/piuml/parser.py:374-389 | The corrected update keeps the stack nested, with the root enclosing level 0. |
| Parser.EdgeAfterNested | src/piuml/parser.py:374-389 | With the corrected update the same class belongs to the diagram. |
| Relations.Ends | src/piuml/parser.py:391-395 | Both ids must be defined; the first undefined one is reported. |
| Relations.EndOf | src/piuml/parser.py:418-425 | The end kind table maps x, O, *, <, >, = to none, shared, composite, navigable, navigable, unknown, and has no other entries. |
| Relations.MarkEnds | src/piuml/parser.py:427-431 | The first and last characters of an operator give the tail and head kinds. |
| Relations.DirectionMarks | src/piuml/parser.py:432-434 | `=>=` occurs exactly when the direction mark is `>`, and `=<=` exactly when it is `<`. |
| Relations.AssociateDecodes | src/piuml/parser.py:398-445 | The association: both ends must be defined; the kinds come from the marks; `>` points to the head and `<` to the tail; it is an extension exactly between a stereotype and a metaclass. |
| Relations.AssociationDirections | src/piuml/parser.py:432-434 | `=>=` points to the head, `=<=` to the tail, and `==` nowhere. |
| Relations.AddEndFills | src/piuml/parser.py:630-647 | Only an element still called an association fills ends. An end line fills the tail first (unless it starts with `::`), then the head, and nothing else changes. It fails with "too many ends" exactly when the head is set and either the tail is set or the line starts with `::`. |
| Relations.ExtensionEndIsFeature | src/piuml/parser.py:625-647 | Under an extension (the renamed association of parser.py:441-442), an end line never fails and fills no end. It becomes a feature node whose level is the width before the first colon and whose text is the line after its mark, stripped. |
| Relations.IndentWidth | src/piuml/parser.py:625 | The level is the number of characters before the first colon, or the whole line when there is none. |
| Relations.ThirdEndFails | src/piuml/parser.py:631-647 | On a plain association a third end line always fails. |
| Relations.DependAllowed | src/piuml/parser.py:474-497 | A dependency succeeds exactly when its type letter allows the end kinds (`i`: two packages or two use cases; `m`: packages; `e`: use cases). A refusal names the letter's check. |
| Relations.DependDecodes | src/piuml/parser.py:453-486 | The supplier is the tail exactly when the operator starts with `<`. A letter adds its default stereotype first; `i` becomes `import` between packages and `include` otherwise. |
| Relations.DependStereotypes | src/piuml/parser.py:463-486 | A successful dependency keeps the written stereotypes after the first one. The first stereotype is `import` for `i` between packages, `include` for `i` between use cases, and otherwise the letter's default. |
| Relations.ImportStereotype | src/piuml/parser.py:477-491 | A successful `-i>` dependency has both ends declared, and its stereotypes are `import` (packages) or `include` (use cases) followed by the written ones. |
| Relations.CommentLineIff | src/piuml/parser.py:513-523 | A comment line succeeds exactly when one end, and only one, is a comment. |
| Relations.CommentLineExamples | src/piuml/tests/test_parser.py:155-170 | Two comments, or two classes, cannot be joined by a comment line; a comment and a class can. |
| Relations.CheckComponent | src/piuml/parser.py:544-547 | The check passes exactly for a component. |
| Relations.AssembleWired | src/piuml/parser.py:536-555 | Assembly succeeds exactly on two components, adds two connectors, and keeps every interface line a connector to a component. |
| Relations.AssembleLeftWired | src/piuml/parser.py:556-573 | Extending an assembly on the left succeeds exactly on a component and appends one connector. |
| Relations.AssembleRightWired | src/piuml/parser.py:556-573 | Extending an assembly on the right succeeds exactly on a component and appends one connector. |
| Relations.AssemblyExamples | src/piuml/tests/test_parser.py:173-190 | A component and a class cannot be assembled, and a class cannot join an assembly of components. |
| Relations.IfaceDependStereotype | src/piuml/parser.py:576-613 | An interface dependency is `realize` exactly when the symbol's `o` faces the id, and `use` otherwise. It is recorded on the interface and appended to the interface's lines. |
| Solver.ApplyMinSize | src/piuml/layout/solver.py:165-178 | Exactly the changed box is reported, and nothing changes exactly when the box is at least its minimal size. |
| Solver.MinSizePost | src/piuml/layout/solver.py:165-178 | A dimension below its minimum grows by exactly 10, nothing shrinks, and the box is reported exactly when it grew. |
| Solver.Raise | src/piuml/layout/solver.py:198-269 | An edge constraint reports what it changed, and changes nothing exactly when the edges coincide. |
| Solver.EdgeEqPost | src/piuml/layout/solver.py:198-269 | Both edges end at the later of the two original edges, only the box whose edge came first moves, and sizes are kept. |
| Solver.ApplyCenterEq | src/piuml/layout/solver.py:277-299 | Horizontal centring changes nothing exactly when the centres are equal. |
| Solver.CenterEqPost | src/piuml/layout/solver.py:277-299 | Both centres end at the larger original centre; only the other box moves and its width is kept. |
| Solver.ApplyMiddleEq | src/piuml/layout/solver.py:307-329 | Vertical centring changes nothing exactly when the centres are equal. |
| Solver.MiddleEqPost | src/piuml/layout/solver.py:307-329 | Both middles end at the larger original middle; only the other box moves and its height is kept. |
| Solver.ApplyMinHDist | src/piuml/layout/solver.py:351-358 | Nothing changes exactly when `b` already starts at least `dist` right of `a`. |
| Solver.MinHDistPost | src/piuml/layout/solver.py:351-358 | Afterwards `b.x >= a.x + a.width + dist`; `a` is never touched, and `b` moves only when it was too close. |
| Solver.ApplyMinVDist | src/piuml/layout/solver.py:366-373 | Nothing changes exactly when `b` already starts at least `dist` below `a`. |
| Solver.MinVDistPost | src/piuml/layout/solver.py:366-373 | Afterwards `b.y >= a.y + a.height + dist`; `a` is never touched, and `b` moves only when it was too close. |
| Solver.WithinTrace | src/piuml/layout/solver.py:396-413 | The four steps of `Within` only grow the kid's position and the parent's size, and touch no other box. |
| Solver.WithinReports | src/piuml/layout/solver.py:396-413 | `Within` reports the boxes it changed, and changes nothing exactly when the kid already lies inside the inset parent. |
| Solver.WithinPost | src/piuml/layout/solver.py:396-413 | Afterwards the kid lies inside the parent, inset by the padding; the parent keeps its position and the kid its size. |
| Solver.Apply | src/piuml/layout/solver.py:142-153 | A call reports exactly the boxes whose style changed, all among its variables, and changes no other box. |
| Solver.StableIffSatisfied | src/piuml/layout/solver.py:142-153 | A constraint changes nothing exactly when it already holds. |
| Solver.SatisfiedFrame | src/piuml/layout/solver.py:142-145 | Whether a constraint holds depends only on the boxes it names. |
| Solver.Add | src/piuml/layout/solver.py:67-79 | Adding appends the constraint, registers it under each of its variables, and keeps the registry well formed. |
| Solver.AddKeepsRegistered | src/piuml/layout/solver.py:67-79 | Every variable of every constraint stays registered under that constraint's position. |
| Solver.BuildWellFormed | src/piuml/layout/solver.py:67-79 | Adding constraints one by one gives a well-formed solver that holds exactly them. |
| Solver.StepInvariant | src/piuml/layout/solver.py:96-111 | A solving event keeps the queue free of duplicates and mirrored by its set, and every constraint outside the queue still holds. |
| Solver.QueueAppend | src/piuml/layout/solver.py:104-108 | Queueing only the dependants not already queued keeps the queue free of duplicates. |
| Solver.UntouchedStillHolds | src/piuml/layout/solver.py:101-108 | A constraint that names no changed box, and held before, still holds. |
| Solver.Solve | src/piuml/layout/solver.py:82-120 | The loop always terminates. On success every constraint holds; otherwise it gives up after one event more than the square of the number of constraints. |
| GSolver.SolveLessThan | src/piuml/layout/gsolver.py:56-58 | Only `bigger` changes, and only upwards; afterwards `bigger >= smaller + delta` unless it already held. |
| GSolver.SolveLessThanIdempotent | src/piuml/layout/gsolver.py:56-58 | Solving twice changes nothing beyond the first solve. |
| GSolver.LinesCentre | src/piuml/layout/gsolver.py:33-47 | When the centres are apart, both intervals are centred on the larger centre and keep their widths; otherwise nothing changes. |
| GSolver.SolveLinesAnyVar | src/piuml/layout/gsolver.py:33-47 | For distinct variables, the result does not depend on the variable solved for. |
| GSolver.SizeMeaning | src/piuml/layout/gsolver.py:85-88 | The size constraints hold exactly when the box spans at least its size on both axes. |
| GSolver.WithinMeaning | src/piuml/layout/gsolver.py:91-97 | The containment constraints hold exactly when the node's box lies in the parent's, inset as written. |
| GSolver.PairMeaning | src/piuml/layout/gsolver.py:99-134 | `top` equates `ur.y`, `bottom` `ll.y`, `left` `ll.x` and `right` `ur.x`; `center` and `middle` centre the intervals; `hspan` keeps the margins between the boxes. |
| GSolver.HookCons | src/piuml/layout/gsolver.py:143-145 | `_apply` gives one constraint per consecutive pair, in order. |
| GSolver.TopChainAligned | src/piuml/layout/gsolver.py:99-102 | Once the `top` constraints of a group hold, every top edge equals the first node's. |
| GSolver.HspanChainOrdered | src/piuml/layout/gsolver.py:129-133 | Once the `hspan` constraints hold, the boxes run strictly left to right. |
| GSolver.VspanAsWrittenAdmitsOverlap | src/piuml/layout/gsolver.py:135-140 | Two boxes at the same place satisfy the written `vspan`. |
| GSolver.VspanSeparates | src/piuml/layout/gsolver.py:135-140 | The corrected `vspan` holds exactly when the first box is above the second by the margins. |
| GSolver.EdgeMeaning | src/piuml/layout/gsolver.py:148-156 | Once the line constraints hold, the line leaves the tail's right edge at mid height and enters the head's left edge at mid height. |
| GSolver.LayoutSizesDiagram | src/piuml/layout/gsolver.py:79-82 | The diagram is sized to at least 1000 by 1000. |
| Cl.KindOf | src/piuml/layout/cl.py:370-377 | The alignment table gives a kind exactly for its six names. |
| Cl.SpanCrossesAlignment | src/piuml/layout/cl.py:370-377 | `top`, `middle` and `bottom` pair with `hspan`; `left`, `center` and `right` pair with `vspan`. An alignment is unaffected by moves along its span axis. |
| Cl.AlignChain | src/piuml/layout/cl.py:364-366 | One constraint per consecutive pair, in order. |
| Cl.AlignChainNeighbours | src/piuml/layout/cl.py:364-366 | Two boxes are constrained exactly when they are neighbours in the group. |
| Cl.SpanPair | src/piuml/layout/cl.py:342-361 | The gap is the larger of the facing margins and the cached line length. It fails for a node paired with itself. |
| Cl.Spans | src/piuml/layout/cl.py:342-366 | One span constraint per consecutive pair, failing exactly when two neighbours are the same node. |
| Cl.WithinPad | src/piuml/layout/cl.py:278-296 | top is max(margin.top, head compartment + pad.top + pad.bottom); left, right and bottom are the corresponding maxima. An element without compartments fails. |
| Cl.WithinPadClearsHead | src/piuml/layout/cl.py:278-296 | A kid kept inside by this inset lies below the parent's head compartment and clear of the side paddings. |
| Cl.CacheIsLongest | src/piuml/layout/cl.py:66-80 | The line cache is symmetric, and holds the longest minimal length of the lines between each pair of siblings. |
| Cl.LineCacheOf | src/piuml/layout/cl.py:66-80 | The cache built from the diagram's relationships is that symmetric maximum over their lifted ends. |
| Cl.AlignCacheIsGrouping | src/piuml/layout/cl.py:83-94 | An alignment is stored at the lowest common ancestor of its nodes, and only alignments with that ancestor are stored there. |
| Cl.UsedOfIff | src/piuml/layout/cl.py:116-122 | A node is used when a group has it as a non-first member, or as any member of a group that meets the nodes already used. |
| Cl.DefaultRow | src/piuml/layout/cl.py:124-126 | The default row holds exactly the alignable children that no group uses. |
| Cl.GroupsFor | src/piuml/layout/cl.py:124-136 | The default `middle` row comes first, and only when it has two or more members; then come the user groups. |
| Cl.AlignNodesShape | src/piuml/layout/cl.py:106-146 | Every group's alignment and span constraints are generated, and nothing else. |
| Cl.ChainStartsGroup | src/piuml/layout/cl.py:144-146 | Alignment goes on the original nodes first, then spans on their lifted siblings. |
| Cl.InterleaveUsed | src/piuml/tests/test_layout.py:247-250 | Groups `a b` and `d e` leave `a`, `c` and `d` to the default row. |
| Cl.OrphanedUsed | src/piuml/tests/test_layout.py:136-137 | The group `c1 c3 c2` leaves `c1` and `c4` to the default row. |
| Cl.VElement | src/piuml/layout/cl.py:149-163 | A node's constraints start with its minimal size. When it has a parent, its containment follows, with `WithinPad`'s inset. For a packaging element or the diagram, every alignment constraint of its children (`AlignNodes`) is included. It fails exactly when the inset or the alignment fails. |
| Cl.Layout | src/piuml/layout/cl.py:54-64 | On success every generated constraint holds, and every visited node has at least its minimal size. For every packaging element and the diagram, all of its children's alignment constraints hold. |
| Cl.AlignmentsHold | src/piuml/layout/cl.py:135-147 | Once a node's alignment constraints hold, each user group stored at it is aligned along its kind. So is the default middle row when it has two or more members. |
| Cl.MinSizesHold | src/piuml/layout/cl.py:274-275 | When the generated constraints hold, every visited node has at least its minimal size. |
| PreLayout.DefinedAlign | src/piuml/layout/__init__.py:64-91 | Only a group whose word contains `top` or `left` is recorded, at the common parent; nothing else changes. |
| PreLayout.DefinedTop | src/piuml/layout/__init__.py:72-88 | A `top` group adds its ids to the top list and their lifted siblings to the horizontal span list, in the same length and order. |
| PreLayout.DefinedLeft | src/piuml/layout/__init__.py:72-91 | A `left` group adds its ids to the left list and their lifted siblings to the vertical span list. |
| PreLayout.Lost | src/piuml/layout/__init__.py:102-111 | The lost ids are exactly the element children used by none of the eight lists, in child order. |
| PreLayout.DefaultAlignCases | src/piuml/layout/__init__.py:113-123 | The four branches, each stated as an if-and-only-if on the lost ids and the lists present. |
| PreLayout.DefaultAlignDone | src/piuml/layout/__init__.py:113-123 | A change makes every lost id used, and uses nothing else that is new. |
| PreLayout.DefaultAlignIdempotent | src/piuml/layout/__init__.py:94-123 | A second default alignment changes nothing. |
| PreLayout.DefaultAllUncentred | src/piuml/layout/__init__.py:32-48 | After defined alignment alone, default alignment never fails. |
| PreLayout.CreateFails | src/piuml/layout/__init__.py:32-48 | `create` fails exactly when a defined alignment fails. |
| PreLayout.HookCallsGroups | src/piuml/layout/__init__.py:150-157 | Each hook is called on exactly its own groups, in their order. |
| PreLayout.HookCallsOrdered | src/piuml/layout/__init__.py:150-157 | The hooks fire in the fixed order top, right, bottom, left, center, middle, hspan, vspan. |
| PreLayout.Head | src/piuml/layout/__init__.py:144-146 | `size` always comes first; `within` follows exactly when there is a parent. |
| PreLayout.Constrain | src/piuml/layout/__init__.py:136-157 | `size` and `within` come first, then, for packaging nodes only, hook calls. It fails when a group names an unknown id. |
| PreLayout.ConstrainHooks | src/piuml/layout/__init__.py:148-157 | After `size` and `within`, the calls are exactly each hook on its own groups, in the fixed order. |
| PreLayout.ConstrainSized | src/piuml/layout/__init__.py:144 | Constraining a node sizes that node and no other. |
| PreLayout.LayoutSizes | src/piuml/layout/__init__.py:51-55 | Children are sized before their parents: the sizes follow postorder. |
| MpLayout.AsWrittenDigitsGone | src/piuml/layout/mp.py:24-27 | The written renaming leaves no `1` and no `2`, and keeps ids that have none of a, b, 1, 2. |
| MpLayout.AsWrittenNotInjective | src/piuml/layout/mp.py:24-27 | As written, `1a` and `a1` both become `aaa`. |
| MpLayout.IdToMp | src/piuml/layout/mp.py:24-27 | The corrected renaming leaves no `1` and no `2`. |
| MpLayout.MpRoundTrip | src/piuml/layout/mp.py:24-27 | The corrected renaming can be undone. |
| MpLayout.IdToMpInjective | src/piuml/layout/mp.py:24-27 | Different ids get different names. |
| MpLayout.IdToMpPlain | src/piuml/layout/mp.py:24-27 | Ids with none of a, b, 1, 2 keep their name. |
| MpLayout.Dependency | src/piuml/layout/mp.py:93-96 | Length 50 is recorded for both orders of the ends, and no other entry changes. |
| MpLayout.PairEqMeaning | src/piuml/layout/mp.py:39-91 | The span gap is the larger of the facing margins and the recorded edge length (0 when none). Alignments equate one coordinate of both boxes. |
| MpLayout.DependencyWidensSpan | src/piuml/layout/mp.py:75-96 | A dependency between two nodes widens a span between them to at least 50. |
| MpLayout.HookEqs | src/piuml/layout/mp.py:39-91 | Each hook emits exactly one equation per consecutive pair, in order. |
| MpLayout.HookEqsNeighbours | src/piuml/layout/mp.py:39-73 | Two nodes share an alignment equation exactly when they are consecutive in the group. |
| MpLayout.CallEqs | src/piuml/layout/mp.py:32-37 | `size` and `within` emit no equations. |
| Text.AlignX | src/piuml/renderer/text.py:64-99 | The horizontal gaps: outside, the padding separates the text from the box or the text is centred over it; inside, the padding is kept from the near side. |
| Text.AlignY | src/piuml/renderer/text.py:64-99 | The vertical gaps are the same as the horizontal ones, and the middle is computed alike inside and outside. |
| Text.PosAtBox | src/piuml/renderer/text.py:41-100 | The text's corner is offset from the box's position by those gaps. |
| Text.PosAtBoxMirror | src/piuml/renderer/text.py:41-100 | Aligning at the opposite side with mirrored padding gives the mirror image. |
| Text.PosAtBoxTranslates | src/piuml/renderer/text.py:98-100 | Moving the box moves the text by the same amount. |
| Text.InsideFits | src/piuml/renderer/text.py:82-99 | A left- or right-aligned inside text that fits in the padded box stays within it. |
| Text.MiddleSegment | src/piuml/renderer/text.py:231-238 | The middle segment is a consecutive pair; as many points precede it as follow it, or one fewer. |
| Text.Segment | src/piuml/renderer/text.py:212-217 | A tail hint looks at the first segment and a head hint at the last; any other hint looks at the middle one. The result is always a consecutive pair of the line's points. |
| Text.SingleTextHint | src/piuml/renderer/text.py:209-228 | The hint holds exactly when the chosen segment is neither horizontal nor vertical within epsilon, and rises more than 0.6 per unit run. |
| Text.SteepSlope | src/piuml/renderer/text.py:220-228 | abs(dy/dx) > 0.6 is equivalent to 5·abs(dy) > 3·abs(dx). |
| Text.HintReversed | src/piuml/renderer/text.py:209-228 | Reversing a line and swapping tail and head keeps the hint. |
| Cairo.Unescape | src/piuml/renderer/cr.py:49 | No literal `\n` is left, the text never grows, and only the empty name stays empty. |
| Cairo.Name | src/piuml/renderer/cr.py:44-57 | The stereotype span comes first when there are stereotypes. With a name, a line break and the decorated, unescaped name follow; an empty name adds no line. |
| Cairo.UndecorateDecorate | src/piuml/renderer/cr.py:51-56 | Taking off the underline and bold tags and the format gives back the name: the decorated line determines the name. |
| Cairo.NameReadBack | src/piuml/renderer/cr.py:44-57 | After the stereotype line and its break, the markup reads back to the unescaped name. |
| Cairo.Features | src/piuml/renderer/cr.py:60-61 | The text is empty exactly for no features or a single empty name, and holds every name. |
| Cairo.FeaturesSplit | src/piuml/renderer/cr.py:60-61 | For names without line breaks, splitting the text at line breaks gives back the names. |
| Cairo.HeadSizeExamples | src/piuml/renderer/tests/test_cr.py:34-64 | The head sizes of the renderer tests are 25, 30 and 55. |
| Cairo.PadHeightScales | src/piuml/renderer/cr.py:65-69 | The padding taken off for `k` further compartments is `k` times the top plus bottom padding. |
| Cairo.HeadSizeAtMinimum | src/piuml/renderer/cr.py:64-69 | At the measured minimal height, the head compartment is its text height plus one padding per frame. |
| Cairo.MaxWidth | src/piuml/renderer/cr.py:215 | The widest part bounds every part and is one of them. |
| Cairo.FitWidth | src/piuml/renderer/cr.py:215-222 | The box width fits every part with its side padding, never drops below the previous minimum, and equals one of them. |
| Cairo.Measure | src/piuml/renderer/cr.py:189-223 | The compartments record the head text height and the other parts' heights; the minimal size is raised to fit the parts with padding per compartment. |
| Cairo.VElement | src/piuml/renderer/cr.py:167-223 | An actor gets 40×60. Any other element is measured, with the icon term exactly when it has an icon. Without an icon, the head is the name height, and the width is the widest part plus the side padding. |
| Cairo.VElementMeasures | src/piuml/renderer/cr.py:186-223 | The minimal height stacks all parts plus one padding per compartment (one more for a frame). With an icon, the head is at least the icon height and the width makes room for the name, the icon and the paddings. |
| Cairo.VElementAsWritten | src/piuml/renderer/cr.py:189-192 | As written, the icon term is always added. |
| Cairo.IconlessWidened | src/piuml/renderer/cr.py:189-192 | For an element without an icon, the written version is 10 wider than the corrected one. |
| Cairo.VIElement | src/piuml/renderer/cr.py:226-227 | The interface symbol is 36×36, a square, whatever it shows. |
| Cairo.EdgeLength | src/piuml/renderer/cr.py:241-256 | The minimal length is at least 75 and at least twice the total text width, and is one of the two. |
| Cairo.EdgeLengthMonotone | src/piuml/renderer/cr.py:241-256 | More text never makes a line shorter. |
| Cairo.UpdateBBox | src/piuml/renderer/cr.py:86-91 | An empty drawn box changes nothing. Otherwise the result is the least box covering both. |
| Cairo.TrackLeast | src/piuml/renderer/cr.py:81-91 | The tracked box is the least box covering the start box and every non-empty drawn box. |
| Cairo.UpdateBBoxCommutes | src/piuml/renderer/cr.py:86-91 | The order of drawing does not matter. |
| MpRender.AsWrittenNoDash | src/piuml/renderer/mp.py:49-58 | The written renaming leaves no `-`. |
| MpRender.AsWrittenNoDigit | src/piuml/renderer/mp.py:49-58 | The written renaming leaves no digit. |
| MpRender.AsWrittenPlain | src/piuml/renderer/mp.py:53-58 | Ids of lower-case letters and `_` without `dir` are kept. |
| MpRender.AsWrittenCollides | src/piuml/renderer/mp.py:49-58 | As written, `A` and `00` both become `AA`. |
| MpRender.IdToMp | src/piuml/renderer/mp.py:49-58 | The corrected renaming has no `-` and no digit, and keeps plain ids without `dir`. |
| MpRender.MpRoundTrip | src/piuml/renderer/mp.py:49-58 | The corrected renaming can be undone. |
| MpRender.IdToMpInjective | src/piuml/renderer/mp.py:49-58 | Different ids get different names. |
| MpRender.Lines | src/piuml/renderer/mp.py:61-69 | The pieces joined with a literal `\n` give back the text. |
| MpRender.Qstr | src/piuml/renderer/mp.py:61-69 | One line gives `\hbox{text}`; k lines give `\vbox{` followed by k hboxes and `}`. |
| MpRender.QstrOneLine | src/piuml/renderer/mp.py:61-69 | A text without a literal `\n` is a single hbox. |
| MpRender.NameS | src/piuml/renderer/mp.py:558-568 | The name box follows the stereotype line inside the stereotype vbox, which appears only when there are stereotypes. |
| MpRender.NameSInjective | src/piuml/renderer/mp.py:558-568 | With the same stereotypes and options, two names without `}` that give the same TeX are the same name. |
| MpRender.QstrInjective | src/piuml/renderer/mp.py:61-69 | The box of a text without `}` determines the text. |
| MpRender.Compartments | src/piuml/renderer/mp.py:578-601 | Attributes come first, then operations, then one compartment per stereotype group, with ids A, B, C in sequence. There is no result beyond 26 compartments. |
| MpRender.CompartmentsInOrder | src/piuml/renderer/mp.py:588-595 | There are at most 26 compartments. The first is the untitled attributes' box when there are attributes; the next is the untitled operations' box when there are operations; ids follow the position. |
| MpRender.CompartmentOfGroup | src/piuml/renderer/mp.py:596-600 | The `j`-th stereotype group's compartment comes right after the untitled ones. It is titled with the group's stereotype, and its box lists the title and then the group's attributes. |

## Left out

- Scanning and grammar driving (the `spark` library and the `RE_*` token
  regexes) are not modelled. The semantic actions take token values that
  are already split. An association end line gives its name and
  multiplicity directly, instead of through `RE_ASSOCIATION_END`.
- `p_generalization`, `p_stelement`, `p_fdiface`, `p_attribute`,
  `p_operation`, `p_stattributes`, `p_comment` and `p_align` are not
  modelled. They only build nodes and call `_set_parent`, which is
  modelled. Edge ids come from `uuid`; the model takes them as given
  strings.
- Cairo and Pango drawing, `text_size`, `draw_text` and `save_diagram`
  are not modelled. Text sizes enter `Cairo.Measure` as given `Size`
  values.
- `text_pos_at_line` is not modelled: it is trigonometry on floats.
- The `style` parameter of `line_single_text_hint` is unused by the
  source, and the model has no such parameter.
- `st_fmt` (renderer/util.py) is not part of this model. The renderers
  take it as a function parameter.
- MetaPost file writing, subprocess runs, `MRenderer.constraint`, the
  `n_*` emitters and cmd.py are not modelled. Equations are returned as
  values, not written as text.
- The `Between` constraint (layout/solver.py:417-449) is not modelled. Its
  placement sorts with a comparator that is not a total order.
- The timing, logging and debug printing in the solver and the layouts are
  not modelled.
- Graphviz, the router, and the gaphas solving loop behind gsolver.py are
  not modelled. `GSolver` states what the generated constraints mean when
  they hold; only the two constraint classes the source defines are
  solved.
- `MWalker` name-based dispatch is not modelled. Only the traversal order
  and the visited node classes are kept. The same holds for spark's
  dispatch on `n_` plus the node type in the line and
  constraint generators (GSolver.NodeCons): relationships are told apart
  by their element class.
- Cl.AlignCacheOf: the layout section's alignments are given already
  decoded, as a sequence of `Align` values. The selection of the top-level
  nodes named `layout` (cl.py:88) is not modelled, and neither is the
  AttributeError when a user node has that name. Alignment kinds form a
  closed datatype, so the assertions at cl.py:140-141 cannot fail in the
  model.
- Solver.Solve: re-queued dependants are appended in ascending constraint
  order, because the order of Python's set iteration is unspecified.
  Adding the same constraint object twice is not modelled. With no
  constraints, the source's debug statistics evaluate `math.log(0, 2)` and
  raise `ValueError` unless Python runs with `-O`; the model leaves out the
  statistics and succeeds.
- Cairo.VElement: on repeated calls the source keeps appending to the
  compartment list. The model measures one call on the given style.
- Text.PosAtBox: `(width - w) / 2` is exact real division. The renderer is
  Python 3 code, so this is true division on floats.
- Cairo.HeadSize has no contract of its own. It is stated through
  `Cairo.HeadSizeExamples` and `Cairo.HeadSizeAtMinimum`.
- GSolver.PairCons: a `vspan` pair gets the corrected constraint
  (`GSolver.Vspan`, see "## Findings"), not the written
  `add_lt(k1s.ll.y, k2s.ur.y, d)` of gsolver.py:139. `GSolver.HookCons`,
  `GSolver.NodeCons`, `GSolver.WalkCons` and `GSolver.Layout` build on it,
  so they describe the corrected layout.
- GSolver.HookCons: its `vspan` pairs carry the corrected `GSolver.Vspan`,
  not gsolver.py:139 as written.
- MpLayout.PairEq: boxes are named with the corrected `MpLayout.IdToMp`, not
  the written `id2mp` of mp.py:41-42, 80-81 and 89-90. As written, `a11` and
  `aa` both become `aaaa`, so their equations would name the same box.
- MpLayout.PairEqMeaning: states the equations under the corrected renaming.
- MpLayout.HookEqs: names the equations' boxes by the corrected renaming.
- MpLayout.HookEqsNeighbours: the iff holds for the corrected, injective
  renaming only. Under the written `id2mp`, an equation for `a11` also names
  `aa`.
- Style.PosSizeItemsInjective: `Size` and `Area` are modelled as values
  compared field by field. In the source they define no `__eq__` and compare
  by identity; `Cairo.VElementAsWritten` models the one place where that
  matters.
- Floating point: coordinates and sizes are exact reals. The properties
  below hold in exact arithmetic only.
- Solver.CenterEqPost: the kept width is exact; solver.py:290 recomputes the
  width from float coordinates, which may round.
- Text.SteepSlope: `0.6` is read as exactly 3/5; the float literal is
  slightly different.
- Text.AlignX, Text.AlignY and Text.PosAtBox require a valid alignment
  (`IsAlign`). The source's `assert False` branches for other values are not
  modelled as errors.
- Text.Segment and Text.MiddleSegment require a line of at least two points.
  The source would raise `IndexError` on shorter lines.
- Cairo.Measure and Cairo.VElement require at least one compartment height.
  The source would raise `IndexError` at cr.py:193 otherwise.
- Data.Lca: the source fails an assertion when there is no common ancestor;
  the model returns `None`.
- Relations.ThirdEndFails: holds for plain associations only. Under an
  extension every end line becomes a feature (Relations.ExtensionEndIsFeature),
  so there is no third-end failure. The feature's placement is the
  ordinary `Parser.SetParent` step on its level; the feature kind
  (attribute or operation) is not recorded.
- Relations.AssociationDirections: test_parser.py:208-210 expects the strings
  `head` and `tail`, but parser.py:432-434 stores the end nodes. The
  model follows the code and stores the end ids.
- GSolver.WithinMeaning: the third containment constraint uses the
  parent's height as written (gsolver.py:96). The intended inset is unclear,
  so it is not reported as a finding.

## Findings

| source | as written | input that shows it | evidently intended | confidence | as-written member | corrected member |
|---|---|---|---|---|---|---|
| src/piuml/layout/gsolver.py:135-140 | `vspan` asks that the second box's top be at least the margins above the first box's bottom | two 80×40 boxes at the origin with default margins satisfy it while overlapping | the first box lies above the second, separated by the margins, as `hspan` and layout/mp.py:84-91 do | not executed | GSolver.VspanAsWritten, GSolver.VspanAsWrittenAdmitsOverlap | GSolver.Vspan, GSolver.VspanSeparates |
| src/piuml/layout/mp.py:24-27 | `id2mp` replaces a→aa, 1→a, b→bb, 2→b one after another | `1a` and `a1` both become `aaa` | different ids give different MetaPost names | not executed | MpLayout.IdToMpAsWritten, MpLayout.AsWrittenNotInjective | MpLayout.IdToMp, MpLayout.IdToMpInjective |
| src/piuml/renderer/mp.py:49-58 | `id2mp` doubles H, turns `-` into H, doubles `dir`, then turns each digit into a doubled letter | `A` and `00` both become `AA` | different ids give different MetaPost names | not executed | MpRender.IdToMpAsWritten, MpRender.AsWrittenCollides | MpRender.IdToMp, MpRender.IdToMpInjective |
| src/piuml/parser.py:386 | `_edge` overwrites the top of the indentation stack with `(0, edge)`, however deep that entry was | class `c2`, nested class `cls1`, a relationship, then class `c9` at level 0: `c9` gets parent `c2` | the relationship belongs to the diagram, so a following top-level class does too | not executed | Parser.EdgeTopAsWritten, Parser.EdgeAfterNestedAsWritten | Parser.EdgeTop, Parser.EdgeAfterNested |
| src/piuml/renderer/cr.py:189-192 | the icon test `ics != (0, 0)` compares a `Size`, which has no equality, with a tuple, so it always holds | an element without an icon whose name is 100 wide gets width 130 instead of 120 | the icon's width and padding are added only when there is an icon | not executed | Cairo.VElementAsWritten, Cairo.IconlessWidened | Cairo.VElement, Cairo.HeadSizeAtMinimum |

=== FILE: cairo.dfy ===
/** Size arithmetic of the Cairo renderer: the Pango markup of an item's
    name, the height of a box's head compartment, the minimal size of a box
    from the measured sizes of its texts, the minimal length of a line, and
    the running union of drawn bounding boxes. Text measuring itself is done
    by Pango and enters the model as given sizes. */
module Cairo {
  import opened Wrappers
  import opened Style
  import Strings

  // Name markup

  /** A text without the two-character pattern `\n`. */
  predicate NoLiteralNewline(t: string) {
    forall i :: 0 <= i < |t| - 1 ==> !(t[i] == '\\' && t[i + 1] == 'n')
  }

  /** Turns every literal `\n` of a name into a line break. */
  function Unescape(name: string): (r: string)
    ensures |r| <= |name|
    ensures r == [] <==> name == []
    ensures NoLiteralNewline(r)
  {
    UnescapeClean(name);
    Strings.Replace(name, Strings.LiteralNewline, "\n")
  }

  lemma {:induction false} UnescapeClean(s: string)
    ensures var r := Strings.Replace(s, Strings.LiteralNewline, "\n");
            && |r| <= |s|
            && (r == [] <==> s == [])
            && NoLiteralNewline(r)
            && (|s| > 0 ==> r[0] == (if Strings.StartsWith(s, Strings.LiteralNewline) then '\n' else s[0]))
    decreases |s|
  {
    if |s| > 0 {
      if Strings.StartsWith(s, Strings.LiteralNewline) {
        UnescapeClean(s[2..]);
      } else {
        UnescapeClean(s[1..]);
        var t := Strings.Replace(s[1..], Strings.LiteralNewline, "\n");
        if s[0] == '\\' && |t| > 0 {
          assert |s| >= 2;
          assert s[1] != 'n' by {
            assert s[..2] == [s[0], s[1]];
          }
        }
        assert ([s[0]] + t)[1..] == t;
      }
    }
  }

  /** A name that has no literal `\n` is shown as it is. */
  lemma UnescapePlain(name: string)
    requires !Strings.Contains(name, Strings.LiteralNewline)
    ensures Unescape(name) == name
  {
    Strings.ReplaceAbsent(name, Strings.LiteralNewline, "\n");
  }

  /** A format string with a single `%s`: the text before and after it. */
  datatype Format = Format(before: string, after: string)

  const PlainFormat := Format("", "")

  function SmallSpan(t: string): string {
    "<span size=\"small\">" + t + "</span>"
  }

  /** The name line: formatted, then made bold, then underlined. */
  function Decorate(name: string, bold: bool, underline: bool, fmt: Format): (r: string)
    ensures |r| >= |name|
    ensures var f := fmt.before + name + fmt.after;
            var b := if bold then "<b>" + f + "</b>" else f;
            r == (if underline then "<u>" + b + "</u>" else b)
  {
    var f := fmt.before + name + fmt.after;
    var b := if bold then "<b>" + f + "</b>" else f;
    if underline then "<u>" + b + "</u>" else b
  }

  /** The text between `open` and `close`, when `s` is wrapped in them. */
  function Unwrap(s: string, open: string, close: string): (r: Option<string>)
    ensures r.Some? ==> s == open + r.value + close
  {
    if |open| + |close| <= |s| && s[..|open|] == open && s[|s| - |close|..] == close then
      var m := s[|open|..|s| - |close|];
      assert s == s[..|open|] + m + s[|s| - |close|..];
      Some(m)
    else None
  }

  lemma UnwrapWrap(open: string, m: string, close: string)
    ensures Unwrap(open + m + close, open, close) == Some(m)
  {
    var s := open + m + close;
    assert s[..|open|] == open;
    assert s[|s| - |close|..] == close;
    assert s[|open|..|s| - |close|] == m;
  }

  /** Reads the name back from a name line: takes off the underline and
      bold tags, when they were asked for, and then the format around it. */
  function Undecorate(line: string, bold: bool, underline: bool, fmt: Format): Option<string> {
    var b := if underline then Unwrap(line, "<u>", "</u>") else Some(line);
    if b.None? then None
    else
      var f := if bold then Unwrap(b.value, "<b>", "</b>") else b;
      if f.None? then None else Unwrap(f.value, fmt.before, fmt.after)
  }

  /** The decorated name line determines the name: reading it back with the
      same options gives the name. */
  lemma UndecorateDecorate(name: string, bold: bool, underline: bool, fmt: Format)
    ensures Undecorate(Decorate(name, bold, underline, fmt), bold, underline, fmt) == Some(name)
  {
    var f := fmt.before + name + fmt.after;
    var b := if bold then "<b>" + f + "</b>" else f;
    UnwrapWrap(fmt.before, name, fmt.after);
    if bold { UnwrapWrap("<b>", f, "</b>"); }
    if underline { UnwrapWrap("<u>", b, "</u>"); }
  }

  /** `_name`: the stereotype line (when there are stereotypes) and the
      name line (when the name is not empty), one per line. How a list of
      stereotypes is written is given as `stFmt`. */
  function Name(stereotypes: seq<string>, name: string, bold: bool, underline: bool, fmt: Format,
                stFmt: seq<string> -> string): (r: string)
    ensures r == [] <==> |stereotypes| == 0 && name == []
    ensures |stereotypes| > 0 ==> Strings.StartsWith(r, SmallSpan(stFmt(stereotypes)))
    ensures |stereotypes| > 0 && name == [] ==> r == SmallSpan(stFmt(stereotypes))
    ensures |stereotypes| > 0 && name != [] ==>
              r == SmallSpan(stFmt(stereotypes)) + "\n" + Decorate(Unescape(name), bold, underline, fmt)
    ensures |stereotypes| == 0 ==> r == (if name == [] then [] else Decorate(Unescape(name), bold, underline, fmt))
  {
    var st := if |stereotypes| > 0 then [SmallSpan(stFmt(stereotypes))] else [];
    var n := Unescape(name);
    var texts := st + (if n != [] then [Decorate(n, bold, underline, fmt)] else []);
    var r := Strings.Join(texts, "\n");
    if |stereotypes| > 0 && n != [] then
      var a := SmallSpan(stFmt(stereotypes));
      assert texts == [a, Decorate(n, bold, underline, fmt)];
      assert texts[1..] == [Decorate(n, bold, underline, fmt)];
      assert Strings.Join(texts[1..], "\n") == Decorate(n, bold, underline, fmt);
      assert r == texts[0] + "\n" + Strings.Join(texts[1..], "\n");
      assert r == a + "\n" + Decorate(n, bold, underline, fmt);
      assert r[..|a|] == a;
      r
    else
      r
  }

  /** The name can be read back from the markup: after the stereotype line
      and its line break (when there are stereotypes), the rest is the
      decorated name line, which gives back the unescaped name. */
  lemma NameReadBack(stereotypes: seq<string>, name: string, bold: bool, underline: bool, fmt: Format,
                     stFmt: seq<string> -> string)
    requires name != []
    ensures var r := Name(stereotypes, name, bold, underline, fmt, stFmt);
            var k := if |stereotypes| > 0 then |SmallSpan(stFmt(stereotypes))| + 1 else 0;
            k <= |r| && Undecorate(r[k..], bold, underline, fmt) == Some(Unescape(name))
  {
    var d := Decorate(Unescape(name), bold, underline, fmt);
    UndecorateDecorate(Unescape(name), bold, underline, fmt);
    if |stereotypes| > 0 {
      var a := SmallSpan(stFmt(stereotypes)) + "\n";
      assert (a + d)[|a|..] == d;
    }
  }

  /** `_features`: the names of an item's features, one per line. */
  function Features(names: seq<string>): (r: string)
    ensures r == [] <==> |names| == 0 || (|names| == 1 && names[0] == [])
    ensures forall i :: 0 <= i < |names| ==> |names[i]| <= |r|
  {
    JoinLength(names);
    Strings.Join(names, "\n")
  }

  /** Features whose names hold no line break: splitting the text at line
      breaks gives back the names. */
  lemma FeaturesSplit(names: seq<string>)
    requires |names| >= 1
    requires forall i :: 0 <= i < |names| ==> '\n' !in names[i]
    ensures Strings.Split(Features(names), "\n") == names
  {
    Strings.SplitJoin(names, '\n');
  }

  lemma {:induction false} JoinLength(xs: seq<string>)
    ensures |xs| >= 2 ==> |Strings.Join(xs, "\n")| >= |xs| - 1
    ensures |xs| == 0 ==> Strings.Join(xs, "\n") == []
    ensures forall i :: 0 <= i < |xs| ==> |xs[i]| <= |Strings.Join(xs, "\n")|
    decreases |xs|
  {
    if |xs| > 1 {
      JoinLength(xs[1..]);
      forall i | 1 <= i < |xs|
        ensures |xs[i]| <= |Strings.Join(xs, "\n")|
      {
        assert xs[i] == xs[1..][i - 1];
      }
    }
  }

  // Head compartment

  /** `_head_size`: the height of the head compartment of a box, i.e. what
      the other compartments and their paddings leave of its height. */
  function HeadSize(style: BoxStyle): real
  {
    var k := |style.compartment| - 1;
    style.size.height - PadHeight(style.padding, k) - Sum(Heights(style.compartment, 1))
  }

  /** The compartment heights from index `from` on. */
  function Heights(cs: seq<real>, from: nat): seq<real> {
    if from <= |cs| then cs[from..] else []
  }

  function Sum(xs: seq<real>): (r: real)
    ensures (forall i :: 0 <= i < |xs| ==> xs[i] >= 0.0) ==> r >= 0.0
  {
    if |xs| == 0 then 0.0 else xs[0] + Sum(xs[1..])
  }

  lemma {:induction false} SumConcat(a: seq<real>, b: seq<real>)
    ensures Sum(a + b) == Sum(a) + Sum(b)
    decreases |a|
  {
    if |a| > 0 {
      assert (a + b)[1..] == a[1..] + b;
      SumConcat(a[1..], b);
    } else {
      assert a + b == b;
    }
  }

  /** The head sizes the renderer's tests expect for boxes with no, one and
      two additional compartments. */
  lemma HeadSizeExamples()
    ensures HeadSize(DefaultBox.(size := Size(80.0, 25.0), compartment := [10.0])) == 25.0
    ensures HeadSize(DefaultBox.(size := Size(80.0, 55.0), compartment := [10.0, 15.0])) == 30.0
    ensures HeadSize(DefaultBox.(size := Size(80.0, 100.0), compartment := [10.0, 15.0, 10.0])) == 55.0
  {
    assert Heights([10.0, 15.0], 1) == [15.0];
    assert Heights([10.0, 15.0, 10.0], 1) == [15.0, 10.0];
    assert Sum([10.0]) == 10.0;
  }

  // Minimal box size

  /** Measured sizes of the texts of an element: its name, its attributes
      and its operations (absent when there are none), and one per group of
      stereotype attributes. */
  datatype Texts = Texts(name: Size, attrs: Option<Size>, opers: Option<Size>, stattrs: seq<Size>)

  /** The name size, widened by the icon and its padding and raised to the
      icon height when `withIcon` holds. */
  function NameSize(t: Size, icon: Size, pad: Area, withIcon: bool): (r: Size)
    ensures !withIcon ==> r == t
    ensures withIcon ==> (r.height >= t.height && r.height >= icon.height
                          && r.width - t.width == icon.width + pad.right)
  {
    if withIcon then Size(t.width + icon.width + pad.right, Max(t.height, icon.height)) else t
  }

  function Max(a: real, b: real): (r: real)
    ensures r >= a && r >= b && (r == a || r == b)
  {
    if a >= b then a else b
  }

  function OptionList(o: Option<Size>): (r: seq<Size>)
    ensures (o.None? <==> r == []) && (o.Some? ==> r == [o.value])
  {
    if o.Some? then [o.value] else []
  }

  /** The sizes of the compartment texts in drawing order: the name, then
      attributes, operations and the stereotype attribute groups. */
  function Parts(name: Size, t: Texts): (r: seq<Size>)
    ensures |r| >= 1 && r[0] == name
    ensures r[1..] == OptionList(t.attrs) + OptionList(t.opers) + t.stattrs
  {
    [name] + OptionList(t.attrs) + OptionList(t.opers) + t.stattrs
  }

  function SizeHeights(s: seq<Size>): (r: seq<real>)
    ensures |r| == |s| && forall i :: 0 <= i < |s| ==> r[i] == s[i].height
  {
    if |s| == 0 then [] else [s[0].height] + SizeHeights(s[1..])
  }

  /** The widest part. */
  function MaxWidth(s: seq<Size>): (r: real)
    requires |s| >= 1
    ensures forall i :: 0 <= i < |s| ==> s[i].width <= r
    ensures exists i :: 0 <= i < |s| && s[i].width == r
  {
    if |s| == 1 then s[0].width
    else
      var m := MaxWidth(s[1..]);
      assert forall i :: 1 <= i < |s| ==> s[i] == s[1..][i - 1];
      if s[0].width >= m then s[0].width
      else
        assert exists i :: 1 <= i < |s| && s[i].width == m by {
          var j :| 0 <= j < |s[1..]| && s[1..][j].width == m;
          assert s[j + 1].width == m;
        }
        m
  }

  /** The width of a box: wide enough for every part and its left and
      right padding, and no less than `least`; it is either `least` or the
      padded width of some part. */
  function FitWidth(ps: seq<Size>, pad: Area, least: real): (w: real)
    requires |ps| >= 1
    ensures w >= least
    ensures forall i :: 0 <= i < |ps| ==> ps[i].width + pad.left + pad.right <= w
    ensures w == least || exists i :: 0 <= i < |ps| && ps[i].width + pad.left + pad.right == w
  {
    var m := MaxWidth(ps);
    var w := Max(m + pad.left + pad.right, least);
    assert w != least ==> exists i :: 0 <= i < |ps| && ps[i].width + pad.left + pad.right == w by {
      if w != least {
        var j :| 0 <= j < |ps| && ps[j].width == m;
        assert ps[j].width + pad.left + pad.right == w;
      }
    }
    w
  }

  /** The height of a box: the parts stacked, each of the `k` compartments
      with its top and bottom padding, and no less than `least`. */
  function FitHeight(ps: seq<Size>, pad: Area, k: nat, least: real): (h: real)
    ensures h >= least && h >= Sum(SizeHeights(ps)) + PadHeight(pad, k)
    ensures h == least || h == Sum(SizeHeights(ps)) + PadHeight(pad, k)
  {
    Max(Sum(SizeHeights(ps)) + PadHeight(pad, k), least)
  }

  /** A packaging element's frame takes the padding of one more compartment. */
  function Frame(packaging: bool): nat {
    if packaging then 1 else 0
  }

  /** Top and bottom padding of `k` compartments, added up one compartment
      at a time (taken away for a negative `k`). */
  function PadHeight(pad: Area, k: int): real
    decreases if k < 0 then -k else k
  {
    if k == 0 then 0.0
    else if k > 0 then PadHeight(pad, k - 1) + (pad.top + pad.bottom)
    else PadHeight(pad, k + 1) - (pad.top + pad.bottom)
  }

  /** The padding of `k` compartments is `k` times the top and bottom padding. */
  lemma {:induction false} PadHeightScales(pad: Area, k: int)
    ensures PadHeight(pad, k) == (pad.top + pad.bottom) * k as real
    decreases if k < 0 then -k else k
  {
    var ph := pad.top + pad.bottom;
    if k > 0 {
      PadHeightScales(pad, k - 1);
      Distribute(ph, (k - 1) as real, 1.0);
    } else if k < 0 {
      PadHeightScales(pad, k + 1);
      Distribute(ph, k as real, 1.0);
    }
  }

  /** The paddings of two runs of compartments add up. */
  lemma {:induction false} PadHeightAdds(pad: Area, a: nat, b: nat)
    ensures PadHeight(pad, a + b) == PadHeight(pad, a) + PadHeight(pad, b)
    decreases b
  {
    if b > 0 {
      PadHeightAdds(pad, a, b - 1);
      assert a + b - 1 == a + (b - 1);
    }
  }

  /** The measured element: the compartment heights recorded from the
      texts and the minimal size raised to fit them; nothing else changes.
      The icon term is added when `withIcon` holds. */
  function Measure(style: BoxStyle, t: Texts, packaging: bool, withIcon: bool): (r: BoxStyle)
    requires |style.compartment| >= 1
    ensures var ps := Parts(NameSize(t.name, style.iconSize, style.padding, withIcon), t);
            && r.compartment == [ps[0].height] + style.compartment[1..] + SizeHeights(ps[1..])
            && r.minSize == Size(FitWidth(ps, style.padding, style.minSize.width),
                                 FitHeight(ps, style.padding, |r.compartment| + Frame(packaging), style.minSize.height))
    ensures r == style.(compartment := r.compartment, minSize := r.minSize)
  {
    var pad := style.padding;
    var name := NameSize(t.name, style.iconSize, pad, withIcon);
    var ps := Parts(name, t);
    var cs := [name.height] + style.compartment[1..] + SizeHeights(ps[1..]);
    var k := |cs| + Frame(packaging);
    style.(compartment := cs, minSize := Size(FitWidth(ps, pad, style.minSize.width), FitHeight(ps, pad, k, style.minSize.height)))
  }

  /** Whether a box shows an icon: its icon size is not zero. */
  predicate HasIcon(icon: Size) {
    icon != Size(0.0, 0.0)
  }

  /** `v_element`: an actor gets its fixed size; any other element is
      measured, with room for its icon when it has one. */
  function VElement(style: BoxStyle, actor: bool, t: Texts, packaging: bool): (r: BoxStyle)
    requires |style.compartment| >= 1
    ensures |r.compartment| >= 1
    ensures actor ==> r == style.(size := ActorSize)
    ensures !actor ==> r == Measure(style, t, packaging, HasIcon(style.iconSize))
    ensures !actor && !HasIcon(style.iconSize) ==>
              r.compartment[0] == t.name.height
              && r.minSize.width == Max(MaxWidth(Parts(t.name, t)) + style.padding.left + style.padding.right, style.minSize.width)
  {
    if actor then style.(size := ActorSize)
    else if HasIcon(style.iconSize) then Measure(style, t, packaging, true)
    else
      MeasuredIconless(style, t, packaging);
      Measure(style, t, packaging, false)
  }

  /** A measured element's minimal height stacks all its parts, the name
      raised to the icon's height when there is an icon, with one padding
      per compartment (and one more for a packaging frame); with an icon the
      head is at least as high as the icon and the box is wide enough for
      the name, the icon and the paddings. */
  lemma VElementMeasures(style: BoxStyle, t: Texts, packaging: bool)
    requires |style.compartment| >= 1
    ensures var r := VElement(style, false, t, packaging);
            var icon := HasIcon(style.iconSize);
            var ps := Parts(NameSize(t.name, style.iconSize, style.padding, icon), t);
            && r.minSize.height == Max(Sum(SizeHeights(ps)) + PadHeight(style.padding, |r.compartment| + Frame(packaging)),
                                       style.minSize.height)
            && (icon ==> r.compartment[0] == Max(t.name.height, style.iconSize.height)
                         && r.minSize.width >= t.name.width + style.iconSize.width + style.padding.right
                                               + style.padding.left + style.padding.right)
  {
    if HasIcon(style.iconSize) {
      MeasuredIcon(style, t, packaging);
    }
  }

  /** Measuring with an icon makes the head at least as high as the icon and
      the box wide enough for the name, the icon and the paddings. */
  lemma MeasuredIcon(style: BoxStyle, t: Texts, packaging: bool)
    requires |style.compartment| >= 1
    ensures var r := Measure(style, t, packaging, true);
            && r.compartment[0] == Max(t.name.height, style.iconSize.height)
            && r.minSize.width >= t.name.width + style.iconSize.width + style.padding.right
                                  + style.padding.left + style.padding.right
  {
    var n := NameSize(t.name, style.iconSize, style.padding, true);
    assert Parts(n, t)[0] == n;
  }

  /** Measuring without an icon keeps the name as the first part. */
  lemma MeasuredIconless(style: BoxStyle, t: Texts, packaging: bool)
    requires |style.compartment| >= 1
    ensures var r := Measure(style, t, packaging, false);
            && r.compartment[0] == t.name.height
            && r.minSize.width == Max(MaxWidth(Parts(t.name, t)) + style.padding.left + style.padding.right, style.minSize.width)
  {
    assert NameSize(t.name, style.iconSize, style.padding, false) == t.name;
  }

  /** `v_element` as written: the icon test compares a size object with a
      pair, which never holds as equal, so the icon term is always added. */
  function VElementAsWritten(style: BoxStyle, actor: bool, t: Texts, packaging: bool): (r: BoxStyle)
    requires |style.compartment| >= 1
    ensures actor ==> r == style.(size := ActorSize)
    ensures !actor ==> r == Measure(style, t, packaging, true)
  {
    if actor then style.(size := ActorSize)
    else Measure(style, t, packaging, true)
  }

  /** An element without an icon whose name is 100 wide: as written its box
      is widened by the right padding (10) that only an icon should add. */
  lemma IconlessWidened()
    ensures var t := Texts(Size(100.0, 20.0), None, None, []);
            && DefaultBox.iconSize == Size(0.0, 0.0)
            && VElementAsWritten(DefaultBox, false, t, false).minSize.width == 130.0
            && VElement(DefaultBox, false, t, false).minSize.width == 120.0
  {
    var t := Texts(Size(100.0, 20.0), None, None, []);
    assert Parts(t.name, t) == [Size(100.0, 20.0)];
    assert Parts(Size(110.0, 20.0), t) == [Size(110.0, 20.0)];
  }

  /** Measuring a freshly styled box and then giving it exactly its minimal
      height leaves the head compartment its text height plus one padding
      (two for packaging elements). */
  lemma {:induction false} HeadSizeAtMinimum(style: BoxStyle, t: Texts, packaging: bool)
    requires style.compartment == [0.0] && !HasIcon(style.iconSize)
    ensures var r := VElement(style, false, t, packaging);
            var ps := Parts(t.name, t);
            var h := Sum(SizeHeights(ps)) + PadHeight(style.padding, |r.compartment| + Frame(packaging));
            HeadSize(r.(size := Size(r.size.width, h))) == t.name.height + PadHeight(style.padding, 1 + Frame(packaging))
  {
    MeasuredPlain(style, t, packaging);
    var r := VElement(style, false, t, packaging);
    HeadAtHeight(r, Sum(SizeHeights(Parts(t.name, t))) + PadHeight(style.padding, |r.compartment| + Frame(packaging)),
                 t.name.height, Frame(packaging));
  }

  /** A box made exactly as high as its compartments and their paddings,
      `nh` being the first one, has a head of `nh` and one padding. */
  lemma HeadAtHeight(r: BoxStyle, h: real, nh: real, p: nat)
    requires |r.compartment| >= 1
    requires h == nh + Sum(Heights(r.compartment, 1)) + PadHeight(r.padding, |r.compartment| + p)
    ensures HeadSize(r.(size := Size(r.size.width, h))) == nh + PadHeight(r.padding, 1 + p)
  {
    PadHeightAdds(r.padding, |r.compartment| - 1, 1 + p);
    assert |r.compartment| + p == |r.compartment| - 1 + (1 + p);
  }

  /** A freshly styled element without an icon is measured into its name's
      height followed by the heights of its other parts: together they are
      the heights of all its parts. */
  lemma MeasuredPlain(style: BoxStyle, t: Texts, packaging: bool)
    requires style.compartment == [0.0] && !HasIcon(style.iconSize)
    ensures var r := VElement(style, false, t, packaging);
            && |r.compartment| >= 1
            && r.padding == style.padding
            && Sum(SizeHeights(Parts(t.name, t))) == t.name.height + Sum(Heights(r.compartment, 1))
  {
    var r := VElement(style, false, t, packaging);
    var ps := Parts(t.name, t);
    var rest := SizeHeights(ps[1..]);
    assert style.compartment[1..] == [];
    assert r.compartment == [t.name.height] + rest;
    assert Heights(r.compartment, 1) == rest;
    assert SizeHeights(ps) == [t.name.height] + rest;
    SumConcat([t.name.height], rest);
    assert Sum([t.name.height]) == t.name.height;
  }

  lemma Distribute(a: real, x: real, y: real)
    ensures a * (x + y) == a * x + a * y
  {
  }

  /** Fixed sizes of actors and interface elements. */
  const ActorSize := Size(40.0, 60.0)
  const IElementSize := Size(36.0, 36.0)

  /** `v_ielement`: the interface symbol has a fixed size whatever it shows. */
  function VIElement(style: BoxStyle): (r: BoxStyle)
    ensures r.size.width == r.size.height
    ensures r == style.(size := IElementSize)
  {
    style.(size := IElementSize)
  }

  // Minimal line length

  /** Shortest line drawn between two boxes. */
  const MinLineLength: real := 75.0

  /** `_set_edge_len`: the minimal length of a line is twice the width of
      its texts (the name plus `extra`, and the stereotypes when present),
      and never less than 75; the texts' width is returned as well. */
  function EdgeLength(nameWidth: real, extra: real, stereotypesWidth: Option<real>): (r: (real, real))
    ensures r.1 == nameWidth + extra + (if stereotypesWidth.Some? then stereotypesWidth.value else 0.0)
    ensures r.0 >= MinLineLength && r.0 >= 2.0 * r.1
    ensures r.0 == MinLineLength || r.0 == 2.0 * r.1
  {
    var lens := [nameWidth + extra] + (if stereotypesWidth.Some? then [stereotypesWidth.value] else []);
    var total := Sum(lens);
    assert Sum([nameWidth + extra]) == nameWidth + extra;
    assert stereotypesWidth.Some? ==> Sum(lens) == nameWidth + extra + Sum([stereotypesWidth.value]);
    (Max(MinLineLength, 2.0 * total), total)
  }

  /** More text never makes a line shorter. */
  lemma EdgeLengthMonotone(nameWidth: real, extra: real, more: real, st: Option<real>)
    requires more >= extra
    ensures EdgeLength(nameWidth, extra, st).0 <= EdgeLength(nameWidth, more, st).0
  {
  }

  // Bounding box

  /** A bounding box: top-left and bottom-right corner. */
  datatype BBox = BBox(x1: real, y1: real, x2: real, y2: real)

  /** The all-zero box Cairo reports for an operation that drew nothing. */
  const Empty := BBox(0.0, 0.0, 0.0, 0.0)

  /** 64-bit `sys.maxsize`. */
  const MaxSize: real := 9223372036854775807.0

  /** The box before anything is drawn. */
  const Initial := BBox(MaxSize, MaxSize, 0.0, 0.0)

  /** `a` lies within `b`. */
  predicate Within(a: BBox, b: BBox) {
    b.x1 <= a.x1 && b.y1 <= a.y1 && a.x2 <= b.x2 && a.y2 <= b.y2
  }

  /** `_update_bbox`: the union of the current box and a drawn one; an
      empty drawn box leaves the current box as it is. */
  function UpdateBBox(cur: BBox, b: BBox): (r: BBox)
    ensures b == Empty ==> r == cur
    ensures Within(cur, r)
    ensures b != Empty ==> Within(b, r)
    ensures forall c :: Within(cur, c) && (b == Empty || Within(b, c)) ==> Within(r, c)
  {
    if b == Empty then cur
    else BBox(Min(b.x1, cur.x1), Min(b.y1, cur.y1), Max(b.x2, cur.x2), Max(b.y2, cur.y2))
  }

  function Min(a: real, b: real): (r: real)
    ensures r <= a && r <= b && (r == a || r == b)
  {
    if a <= b then a else b
  }

  /** The box after a sequence of drawing operations. */
  function Track(cur: BBox, bs: seq<BBox>): (r: BBox)
    ensures Within(cur, r)
    ensures forall i :: 0 <= i < |bs| && bs[i] != Empty ==> Within(bs[i], r)
    decreases |bs|
  {
    if |bs| == 0 then cur
    else
      var r := Track(UpdateBBox(cur, bs[0]), bs[1..]);
      assert forall i :: 1 <= i < |bs| ==> bs[i] == bs[1..][i - 1];
      r
  }

  /** The tracked box is the least one covering the start box and every
      non-empty drawn box. */
  lemma {:induction false} TrackLeast(cur: BBox, bs: seq<BBox>, c: BBox)
    requires Within(cur, c)
    requires forall i :: 0 <= i < |bs| && bs[i] != Empty ==> Within(bs[i], c)
    ensures Within(Track(cur, bs), c)
    decreases |bs|
  {
    if |bs| > 0 {
      assert bs[0] != Empty ==> Within(bs[0], c);
      assert forall i :: 0 <= i < |bs[1..]| && bs[1..][i] != Empty ==> Within(bs[1..][i], c) by {
        forall i | 0 <= i < |bs[1..]| && bs[1..][i] != Empty
          ensures Within(bs[1..][i], c)
        {
          assert bs[1..][i] == bs[i + 1];
        }
      }
      TrackLeast(UpdateBBox(cur, bs[0]), bs[1..], c);
    }
  }

  /** The order of drawing does not matter to the tracked box. */
  lemma UpdateBBoxCommutes(cur: BBox, a: BBox, b: BBox)
    ensures UpdateBBox(UpdateBBox(cur, a), b) == UpdateBBox(UpdateBBox(cur, b), a)
  {
  }
}

=== FILE: cl.dfy ===
/** Constraint generation for the rectangle solver: the line length cache,
    user alignments stored at the lowest common ancestor of their nodes, the
    default `middle` row of the children nobody aligned, and the pairwise
    alignment and span constraints of every group. */
module Cl {
  import opened Wrappers
  import opened Seqs
  import opened Style
  import opened Data
  import Solver

  // ---------------------------------------------------------------------
  // Alignment kinds and the alignment table

  datatype AlignKind = Top | Middle | Bottom | Left | Center | Right

  /** A user alignment: its kind and the ids of the nodes it lines up, in order. */
  datatype Align = Align(kind: AlignKind, nodes: seq<string>)

  /** The name an alignment kind has in a layout section. */
  function KindName(k: AlignKind): string {
    match k
    case Top => "top"
    case Middle => "middle"
    case Bottom => "bottom"
    case Left => "left"
    case Center => "center"
    case Right => "right"
  }

  /** Looking up a name in the alignment table: the kind of that name, or
      None for a name the table does not hold. */
  function KindOf(name: string): (r: Option<AlignKind>)
    ensures r.Some? ==> KindName(r.value) == name
    ensures forall k :: KindName(k) == name ==> r == Some(k)
  {
    if name == "top" then Some(Top)
    else if name == "middle" then Some(Middle)
    else if name == "bottom" then Some(Bottom)
    else if name == "left" then Some(Left)
    else if name == "center" then Some(Center)
    else if name == "right" then Some(Right)
    else None
  }

  datatype SpanKind = HSpan | VSpan

  /** The span that goes with each alignment kind. */
  function SpanOf(k: AlignKind): SpanKind {
    match k
    case Top | Middle | Bottom => HSpan
    case Left | Center | Right => VSpan
  }

  /** The solver constraint an alignment kind puts between two neighbours. */
  function AlignPair(k: AlignKind, a: string, b: string): (c: Solver.Constraint)
    ensures Solver.Vars(c) == [a, b]
  {
    match k
    case Top => Solver.TopEq(a, b)
    case Middle => Solver.MiddleEq(a, b)
    case Bottom => Solver.BottomEq(a, b)
    case Left => Solver.LeftEq(a, b)
    case Center => Solver.CenterEq(a, b)
    case Right => Solver.RightEq(a, b)
  }

  /** Each alignment is paired with a span along the axis it leaves free: a
      row alignment (spanned horizontally) holds or fails whatever the
      horizontal position of the second box, a column alignment (spanned
      vertically) whatever its vertical position. */
  lemma SpanCrossesAlignment(k: AlignKind, a: string, b: string, s: Solver.Rects, v: real)
    requires a != b
    ensures SpanOf(k) == HSpan ==>
      (Solver.Satisfied(AlignPair(k, a, b), s) <==>
       Solver.Satisfied(AlignPair(k, a, b), s[b := Solver.MoveX(Solver.Box(s, b), v)]))
    ensures SpanOf(k) == VSpan ==>
      (Solver.Satisfied(AlignPair(k, a, b), s) <==>
       Solver.Satisfied(AlignPair(k, a, b), s[b := Solver.MoveY(Solver.Box(s, b), v)]))
  {
  }

  // ---------------------------------------------------------------------
  // Pairwise chaining

  /** The constraints an alignment puts on the consecutive pairs of its nodes. */
  function AlignChain(k: AlignKind, ids: seq<string>): (r: seq<Solver.Constraint>)
    ensures |r| == |Pairs(ids)|
    ensures forall i :: 0 <= i < |r| ==> r[i] == AlignPair(k, ids[i], ids[i + 1])
  {
    var ps := Pairs(ids);
    seq(|ps|, i requires 0 <= i < |ps| => AlignPair(k, ps[i].0, ps[i].1))
  }

  /** An alignment constrains two boxes exactly when they are neighbours in
      its list (in that order), and never a box with one further along. */
  lemma AlignChainNeighbours(k: AlignKind, ids: seq<string>, a: string, b: string)
    ensures AlignPair(k, a, b) in AlignChain(k, ids) <==>
            exists i :: 0 <= i < |ids| - 1 && ids[i] == a && ids[i + 1] == b
  {
    var r := AlignChain(k, ids);
    if AlignPair(k, a, b) in r {
      var i :| 0 <= i < |r| && r[i] == AlignPair(k, a, b);
      assert Solver.Vars(r[i]) == [ids[i], ids[i + 1]];
    }
    if exists i :: 0 <= i < |ids| - 1 && ids[i] == a && ids[i + 1] == b {
      var i :| 0 <= i < |ids| - 1 && ids[i] == a && ids[i + 1] == b;
      assert r[i] == AlignPair(k, a, b);
    }
  }

  // ---------------------------------------------------------------------
  // Spans

  /** Longest line drawn between two siblings, by ordered pair of ids. */
  type LineCache = map<(string, string), real>

  /** The cached length between two siblings, 0 when no line joins them. */
  function Cached(lines: LineCache, a: string, b: string): real {
    if (a, b) in lines then lines[(a, b)] else 0.0
  }

  /** The margins that separate `a` from the following `b` along a span. */
  function MarginGap(sp: SpanKind, boxes: Solver.Rects, a: string, b: string): real {
    match sp
    case HSpan => Solver.Box(boxes, a).margin.right + Solver.Box(boxes, b).margin.left
    case VSpan => Solver.Box(boxes, a).margin.bottom + Solver.Box(boxes, b).margin.top
  }

  /** The distance a span keeps between two neighbours: the larger of their
      margins and the cached line length; None when both are the same node
      (the source asserts they differ). */
  function SpanPair(sp: SpanKind, lines: LineCache, boxes: Solver.Rects, a: string, b: string): (r: Option<Solver.Constraint>)
    ensures r.None? <==> a == b
    ensures r.Some? ==> Solver.Vars(r.value) == [a, b]
    ensures r.Some? ==> (sp == HSpan <==> r.value.MinHDist?) && (sp == VSpan <==> r.value.MinVDist?)
    ensures r.Some? ==> r.value.MinHDist? || r.value.MinVDist?
    ensures r.Some? && (r.value.MinHDist? || r.value.MinVDist?) ==>
              r.value.dist >= Cached(lines, a, b) && r.value.dist >= MarginGap(sp, boxes, a, b)
    ensures r.Some? && (r.value.MinHDist? || r.value.MinVDist?) ==>
              r.value.dist == Cached(lines, a, b) || r.value.dist == MarginGap(sp, boxes, a, b)
  {
    if a == b then None
    else
      var d := Solver.Max(Cached(lines, a, b), MarginGap(sp, boxes, a, b));
      match sp
      case HSpan => Some(Solver.MinHDist(a, b, d))
      case VSpan => Some(Solver.MinVDist(a, b, d))
  }

  /** Span constraints over the consecutive pairs of `ids`; None when two
      neighbours are the same node. */
  function Spans(sp: SpanKind, lines: LineCache, boxes: Solver.Rects, ids: seq<string>): (r: Option<seq<Solver.Constraint>>)
    ensures r.Some? <==> forall i :: 0 <= i < |ids| - 1 ==> ids[i] != ids[i + 1]
    ensures r.Some? ==> |r.value| == |Pairs(ids)|
    ensures r.Some? ==> forall i :: 0 <= i < |r.value| ==> Some(r.value[i]) == SpanPair(sp, lines, boxes, ids[i], ids[i + 1])
    decreases |ids|
  {
    if |ids| <= 1 then Some([])
    else
      var c := SpanPair(sp, lines, boxes, ids[0], ids[1]);
      var rest := Spans(sp, lines, boxes, ids[1..]);
      if c.None? then None
      else if rest.None? then
        assert exists i :: 1 <= i < |ids| - 1 && ids[i] == ids[i + 1] by {
          var j :| 0 <= j < |ids[1..]| - 1 && ids[1..][j] == ids[1..][j + 1];
          assert ids[j + 1] == ids[j + 2];
        }
        None
      else Some([c.value] + rest.value)
  }

  // ---------------------------------------------------------------------
  // Containment

  /** The inset of a kid within its parent: packaged elements go below the
      parent's head compartment (and its padding) and above the rest of it,
      and never closer to an edge than the kid's margin or the parent's
      padding on the sides. None when the parent has no compartment. */
  function WithinPad(kid: BoxStyle, parent: BoxStyle): (r: Option<Area>)
    ensures r.None? <==> |parent.compartment| == 0
    ensures r.Some? ==> var pad := parent.padding;
              var head := parent.compartment[0] + pad.top + pad.bottom;
              && r.value.top >= kid.margin.top && r.value.top >= head
              && (r.value.top == kid.margin.top || r.value.top == head)
              && r.value.left >= kid.margin.left && r.value.left >= pad.left
              && (r.value.left == kid.margin.left || r.value.left == pad.left)
              && r.value.right >= kid.margin.right && r.value.right >= pad.right
              && (r.value.right == kid.margin.right || r.value.right == pad.right)
              && r.value.bottom >= kid.margin.bottom
              && r.value.bottom >= parent.minSize.height - (head + pad.bottom)
              && (r.value.bottom == kid.margin.bottom || r.value.bottom == parent.minSize.height - (head + pad.bottom))
  {
    if |parent.compartment| == 0 then None
    else
      var mar := kid.margin;
      var pad := parent.padding;
      var top := parent.compartment[0] + pad.top + pad.bottom;
      var bottom := parent.minSize.height - (top + pad.bottom);
      Some(Area(Solver.Max(mar.top, top), Solver.Max(mar.right, pad.right),
                Solver.Max(mar.bottom, bottom), Solver.Max(mar.left, pad.left)))
  }

  /** A kid kept within its parent by this inset lies below the parent's head
      compartment, and keeps its own margins and the parent's side padding
      off the parent's edges. */
  lemma WithinPadClearsHead(kid: BoxStyle, parent: BoxStyle, K: BoxStyle, P: BoxStyle)
    requires WithinPad(kid, parent).Some?
    requires Solver.Inside(K, P, WithinPad(kid, parent).value)
    ensures K.pos.y >= P.pos.y + parent.compartment[0] + parent.padding.top + parent.padding.bottom
    ensures K.pos.y >= P.pos.y + kid.margin.top
    ensures K.pos.x >= P.pos.x + kid.margin.left && K.pos.x >= P.pos.x + parent.padding.left
    ensures K.pos.x + K.size.width + kid.margin.right <= P.pos.x + P.size.width
    ensures K.pos.x + K.size.width + parent.padding.right <= P.pos.x + P.size.width
  {
  }

  // ---------------------------------------------------------------------
  // The line cache

  /** A relationship's ends lifted to siblings, with its minimal length. */
  datatype LineEnds = LineEnds(t: string, h: string, len: real)

  /** Minimal length of a line's style; a line never looked up has the default style. */
  function MinLength(styles: Store<LineStyle>, id: string): real {
    if id in styles then styles[id].minLength else DefaultLine.minLength
  }

  /** The relationships among the given nodes, in order. */
  function Relationships(ks: seq<Node>): (r: seq<Node>)
    ensures forall n :: n in r <==> n in ks && n.nclass == RelationshipClass
    decreases |ks|
  {
    if |ks| == 0 then []
    else (if ks[0].nclass == RelationshipClass then [ks[0]] else []) + Relationships(ks[1..])
  }

  /** The id of the lowest common ancestor of the given nodes. */
  function ParentId(root: Node, ids: seq<string>): Option<string> {
    match Lca(root, ids)
    case Some(p) => Some(p.id)
    case None => None
  }

  /** The ids of the siblings below the lowest common ancestor of `t` and `h`
      that contain them. */
  function SiblingIds(root: Node, t: string, h: string): Option<(string, string)> {
    match Level(root, [t, h])
    case Some(l) => Some((l[0].id, l[1].id))
    case None => None
  }

  /** The sibling ids are those of the lifted ends: each is the child of the
      lowest common ancestor that holds the corresponding end. */
  lemma SiblingIdsLift(root: Node, t: string, h: string)
    requires SiblingIds(root, t, h).Some?
    ensures var p := Lca(root, [t, h]);
            p.Some? &&
            Lift(root, p.value.id, t).Some? && Lift(root, p.value.id, t).value.id == SiblingIds(root, t, h).value.0 &&
            Lift(root, p.value.id, h).Some? && Lift(root, p.value.id, h).value.id == SiblingIds(root, t, h).value.1
  {
    var l := Level(root, [t, h]).value;
    assert Lift(root, Lca(root, [t, h]).value.id, [t, h][0]) == Some(l[0]);
    assert Lift(root, Lca(root, [t, h]).value.id, [t, h][1]) == Some(l[1]);
  }

  /** The lifted ends of each relationship: its tail and head replaced by the
      siblings below their lowest common ancestor. None when an end is not in
      the tree or has no common ancestor with the other. */
  function AllLineEnds(root: Node, ls: seq<Node>, styles: Store<LineStyle>): (r: Option<seq<LineEnds>>)
    ensures r.Some? ==> |r.value| == |ls| && forall i :: 0 <= i < |ls| ==> LineEndsOf(root, ls[i], styles) == Some(r.value[i])
    ensures r.None? ==> exists i :: 0 <= i < |ls| && LineEndsOf(root, ls[i], styles).None?
  {
    var es := seq(|ls|, i requires 0 <= i < |ls| => LineEndsOf(root, ls[i], styles));
    var r := AllSome(es);
    if r.None? then
      assert exists i :: 0 <= i < |ls| && LineEndsOf(root, ls[i], styles).None? by {
        var j :| 0 <= j < |es| && es[j].None?;
        assert es[j] == LineEndsOf(root, ls[j], styles);
      }
      r
    else r
  }

  /** The ends and minimal length of one line; None when its ends have no
      common ancestor. */
  function LineEndsOf(root: Node, l: Node, styles: Store<LineStyle>): (r: Option<LineEnds>)
    ensures r.Some? <==> SiblingIds(root, l.tail, l.head).Some?
    ensures r.Some? ==> (r.value.t, r.value.h) == SiblingIds(root, l.tail, l.head).value
    ensures r.Some? ==> r.value.len == MinLength(styles, l.id)
  {
    var ends :- SiblingIds(root, l.tail, l.head);
    Some(LineEnds(ends.0, ends.1, MinLength(styles, l.id)))
  }

  /** Records one line: under both orders of its ends, the longer of the
      cached length (0 when none) and the line's minimal length. */
  function Record(lines: LineCache, e: LineEnds): LineCache {
    var l1 := lines[(e.t, e.h) := Solver.Max(Cached(lines, e.t, e.h), e.len)];
    l1[(e.h, e.t) := Solver.Max(Cached(l1, e.h, e.t), e.len)]
  }

  /** The cache after recording the lines in order. */
  function CacheOf(es: seq<LineEnds>): LineCache
    decreases |es|
  {
    if |es| == 0 then map[] else Record(CacheOf(es[..|es| - 1]), es[|es| - 1])
  }

  /** The line joins siblings `a` and `b`, in either direction. */
  predicate Joins(e: LineEnds, a: string, b: string) {
    (e.t == a && e.h == b) || (e.t == b && e.h == a)
  }

  /** Reference definition: the longest minimal length among the lines that
      join `a` and `b` in either direction, never below 0. */
  function Longest(es: seq<LineEnds>, a: string, b: string): real
    decreases |es|
  {
    if |es| == 0 then 0.0
    else
      var prev := Longest(es[..|es| - 1], a, b);
      if Joins(es[|es| - 1], a, b) then Solver.Max(prev, es[|es| - 1].len) else prev
  }

  /** The line cache is symmetric, and holds for each pair of siblings the
      longest minimal length of the lines between them (0 when there is none). */
  lemma {:induction false} CacheIsLongest(es: seq<LineEnds>, a: string, b: string)
    ensures Cached(CacheOf(es), a, b) == Longest(es, a, b)
    ensures Cached(CacheOf(es), a, b) == Cached(CacheOf(es), b, a)
    decreases |es|
  {
    if |es| > 0 {
      var pre := es[..|es| - 1];
      CacheIsLongest(pre, a, b);
      LongestSymmetric(pre, a, b);
      LongestSymmetric(es, a, b);
    }
  }

  lemma {:induction false} LongestSymmetric(es: seq<LineEnds>, a: string, b: string)
    ensures Longest(es, a, b) == Longest(es, b, a)
    decreases |es|
  {
    if |es| > 0 {
      LongestSymmetric(es[..|es| - 1], a, b);
    }
  }

  /** `_create_line_cache`: the cache built from the relationships that are
      direct children of the diagram. */
  function LineCacheOf(root: Node, styles: Store<LineStyle>): (r: Option<LineCache>)
    ensures r.Some? ==> var es := AllLineEnds(root, Relationships(root.children), styles);
              es.Some? && forall a, b :: Cached(r.value, a, b) == Longest(es.value, a, b) == Cached(r.value, b, a)
  {
    var es :- AllLineEnds(root, Relationships(root.children), styles);
    forall a, b
      ensures Cached(CacheOf(es), a, b) == Longest(es, a, b) == Cached(CacheOf(es), b, a)
    {
      CacheIsLongest(es, a, b);
    }
    Some(CacheOf(es))
  }

  // ---------------------------------------------------------------------
  // The alignment cache

  /** The alignments stored under the node with id `pid`: those whose nodes'
      lowest common ancestor it is, in order. */
  type AlignCache = map<string, seq<Align>>

  function GroupsAt(cache: AlignCache, pid: string): seq<Align> {
    if pid in cache then cache[pid] else []
  }

  /** The id of the lowest common ancestor of each alignment's nodes; None
      when some alignment's nodes have none. */
  function AlignParents(root: Node, aligns: seq<Align>): (r: Option<seq<string>>)
    ensures r.Some? ==> |r.value| == |aligns| && forall i :: 0 <= i < |aligns| ==> ParentId(root, aligns[i].nodes) == Some(r.value[i])
    ensures r.None? ==> exists i :: 0 <= i < |aligns| && ParentId(root, aligns[i].nodes).None?
  {
    var ps := seq(|aligns|, i requires 0 <= i < |aligns| => ParentId(root, aligns[i].nodes));
    var r := AllSome(ps);
    if r.None? then
      assert exists i :: 0 <= i < |aligns| && ParentId(root, aligns[i].nodes).None? by {
        var j :| 0 <= j < |ps| && ps[j].None?;
        assert ps[j] == ParentId(root, aligns[j].nodes);
      }
      r
    else r
  }

  /** Appends each alignment under its parent id, in order. */
  function Group(aligns: seq<Align>, pids: seq<string>): AlignCache
    requires |pids| == |aligns|
    decreases |aligns|
  {
    if |aligns| == 0 then map[]
    else
      var n := |aligns| - 1;
      var pre := Group(aligns[..n], pids[..n]);
      pre[pids[n] := GroupsAt(pre, pids[n]) + [aligns[n]]]
  }

  /** `_create_align_cache`: each alignment appended under the id of the
      lowest common ancestor of its nodes. None when some alignment's nodes
      have no common ancestor. */
  function AlignCacheOf(root: Node, aligns: seq<Align>): Option<AlignCache> {
    var pids :- AlignParents(root, aligns);
    Some(Group(aligns, pids))
  }

  /** Reference definition: the alignments whose parent id is `pid`, in order. */
  function StoredAt(aligns: seq<Align>, pids: seq<string>, pid: string): seq<Align>
    requires |pids| == |aligns|
    decreases |aligns|
  {
    if |aligns| == 0 then []
    else
      var n := |aligns| - 1;
      StoredAt(aligns[..n], pids[..n], pid) + (if pids[n] == pid then [aligns[n]] else [])
  }

  /** Under each parent id the cache holds exactly the alignments with that
      parent, in their original order. */
  lemma {:induction false} GroupIsStoredAt(aligns: seq<Align>, pids: seq<string>, pid: string)
    requires |pids| == |aligns|
    ensures GroupsAt(Group(aligns, pids), pid) == StoredAt(aligns, pids, pid)
    decreases |aligns|
  {
    if |aligns| > 0 {
      var n := |aligns| - 1;
      GroupIsStoredAt(aligns[..n], pids[..n], pid);
    }
  }

  /** An alignment is stored at the lowest common ancestor of its nodes, and
      every stored alignment is one whose nodes have that ancestor. */
  lemma AlignCacheIsGrouping(root: Node, aligns: seq<Align>, pid: string)
    requires AlignCacheOf(root, aligns).Some?
    ensures forall a :: a in GroupsAt(AlignCacheOf(root, aligns).value, pid) ==>
              exists i :: 0 <= i < |aligns| && aligns[i] == a && ParentId(root, a.nodes) == Some(pid)
    ensures forall i :: 0 <= i < |aligns| && ParentId(root, aligns[i].nodes) == Some(pid) ==>
              aligns[i] in GroupsAt(AlignCacheOf(root, aligns).value, pid)
  {
    var pids := AlignParents(root, aligns).value;
    GroupIsStoredAt(aligns, pids, pid);
    StoredAtMembers(aligns, pids, pid);
  }

  lemma {:induction false} StoredAtMembers(aligns: seq<Align>, pids: seq<string>, pid: string)
    requires |pids| == |aligns|
    ensures forall a :: a in StoredAt(aligns, pids, pid) ==> exists i :: 0 <= i < |aligns| && aligns[i] == a && pids[i] == pid
    ensures forall i :: 0 <= i < |aligns| && pids[i] == pid ==> aligns[i] in StoredAt(aligns, pids, pid)
    decreases |aligns|
  {
    if |aligns| > 0 {
      var n := |aligns| - 1;
      StoredAtMembers(aligns[..n], pids[..n], pid);
      assert forall i :: 0 <= i < n ==> aligns[..n][i] == aligns[i] && pids[..n][i] == pids[i];
    }
  }

  // ---------------------------------------------------------------------
  // Aligning the children of a node

  function Ids(ns: seq<Node>): (r: seq<string>)
    ensures |r| == |ns| && forall i :: 0 <= i < |ns| ==> r[i] == ns[i].id
  {
    seq(|ns|, i requires 0 <= i < |ns| => ns[i].id)
  }

  /** The ids of the children of node `pid` that hold the given nodes. */
  function SiblingsOf(root: Node, pid: string, ids: seq<string>): Option<seq<string>> {
    match Lsb(root, pid, ids)
    case Some(ns) => Some(Ids(ns))
    case None => None
  }

  /** Lifted siblings keep the length and order of the nodes they come
      from: each is the id of the child of `pid` holding the corresponding node. */
  lemma SiblingsLift(root: Node, pid: string, ids: seq<string>)
    requires SiblingsOf(root, pid, ids).Some?
    ensures |SiblingsOf(root, pid, ids).value| == |ids|
    ensures forall i :: 0 <= i < |ids| ==>
              Lift(root, pid, ids[i]).Some? && SiblingsOf(root, pid, ids).value[i] == Lift(root, pid, ids[i]).value.id
  {
  }

  /** The lifted nodes of every group. */
  function LiftGroups(root: Node, pid: string, groups: seq<Align>): (r: Option<seq<seq<string>>>)
    ensures r.Some? ==> |r.value| == |groups|
    ensures r.Some? ==> forall i :: 0 <= i < |groups| ==> SiblingsOf(root, pid, groups[i].nodes) == Some(r.value[i])
    decreases |groups|
  {
    if |groups| == 0 then Some([])
    else
      var v :- SiblingsOf(root, pid, groups[0].nodes);
      var rest :- LiftGroups(root, pid, groups[1..]);
      Some([v] + rest)
  }

  function Elems(v: seq<string>): set<string> {
    set x | x in v
  }

  function Tail(v: seq<string>): seq<string> {
    if |v| == 0 then [] else v[1..]
  }

  /** Some node of `v` is in `used`. */
  predicate Meets(used: set<string>, v: seq<string>) {
    exists i :: 0 <= i < |v| && v[i] in used
  }

  /** The nodes the user groups use, collected group by group: all of a
      group's lifted nodes, except its first one when the group shares no
      node with those already used. */
  function UsedOf(vs: seq<seq<string>>): set<string>
    decreases |vs|
  {
    if |vs| == 0 then {}
    else
      var n := |vs| - 1;
      var before := UsedOf(vs[..n]);
      before + (if Meets(before, vs[n]) then Elems(vs[n]) else Elems(Tail(vs[n])))
  }

  /** Group `i` uses `x`: as a member other than its first, or as any
      member when it shares a node with those used by the groups before it. */
  predicate UsedBy(vs: seq<seq<string>>, i: nat, x: string)
    requires i < |vs|
  {
    x in Tail(vs[i]) || (x in vs[i] && Meets(UsedOf(vs[..i]), vs[i]))
  }

  /** A node is used exactly when some group uses it. */
  lemma {:induction false} UsedOfIff(vs: seq<seq<string>>, x: string)
    ensures x in UsedOf(vs) <==> exists i :: 0 <= i < |vs| && UsedBy(vs, i, x)
    decreases |vs|
  {
    if |vs| > 0 {
      var n := |vs| - 1;
      var pre := vs[..n];
      UsedOfIff(pre, x);
      forall i | 0 <= i < n
        ensures UsedBy(pre, i, x) <==> UsedBy(vs, i, x)
      {
        assert pre[i] == vs[i] && pre[..i] == vs[..i];
      }
      if x in UsedOf(vs) && x !in UsedOf(pre) {
        assert UsedBy(vs, n, x);
      }
      if UsedBy(vs, n, x) {
        assert x in UsedOf(vs);
      }
    }
  }

  /** Children that may join the default row: plain and packaging elements
      (diagrams, node groups and relationships never do). */
  predicate Alignable(k: Node) {
    k.nclass == ElementClass || k.nclass == PackagingClass
  }

  /** The ids of the alignable children no group uses, in order. */
  function Unaligned(ks: seq<Node>, used: set<string>): seq<string>
    decreases |ks|
  {
    if |ks| == 0 then []
    else (if ks[0].id !in used && Alignable(ks[0]) then [ks[0].id] else []) + Unaligned(ks[1..], used)
  }

  lemma {:induction false} UnalignedMembers(ks: seq<Node>, used: set<string>)
    ensures |Unaligned(ks, used)| <= |ks|
    ensures forall x :: x in Unaligned(ks, used) <==> exists k :: k in ks && k.id == x && x !in used && Alignable(k)
    decreases |ks|
  {
    if |ks| > 0 {
      UnalignedMembers(ks[1..], used);
      assert forall k :: k in ks <==> k == ks[0] || k in ks[1..];
    }
  }

  /** The default row: exactly the alignable children outside every group,
      each once per occurrence among the children. */
  function DefaultRow(ks: seq<Node>, used: set<string>): (r: seq<string>)
    ensures |r| <= |ks|
    ensures forall x :: x in r <==> exists k :: k in ks && k.id == x && x !in used && Alignable(k)
  {
    UnalignedMembers(ks, used);
    Unaligned(ks, used)
  }

  /** The constraints of one group: its alignment on the given nodes, then
      its span on their siblings below `pid`. */
  function GroupConstraints(root: Node, pid: string, a: Align, boxes: Solver.Rects, lines: LineCache): Option<seq<Solver.Constraint>> {
    var v :- SiblingsOf(root, pid, a.nodes);
    var spans :- Spans(SpanOf(a.kind), lines, boxes, v);
    Some(AlignChain(a.kind, a.nodes) + spans)
  }

  /** The blocks concatenated in order; None when some block is None. */
  function Concat<T>(bs: seq<Option<seq<T>>>): (r: Option<seq<T>>)
    decreases |bs|
  {
    if |bs| == 0 then Some([])
    else
      var first :- bs[0];
      var rest :- Concat(bs[1..]);
      Some(first + rest)
  }

  /** A concatenation holds every element of every block and nothing else. */
  lemma {:induction false} ConcatMembers<T>(bs: seq<Option<seq<T>>>)
    requires Concat(bs).Some?
    ensures forall i :: 0 <= i < |bs| ==> bs[i].Some?
    ensures forall i, x :: 0 <= i < |bs| && x in bs[i].value ==> x in Concat(bs).value
    ensures forall x :: x in Concat(bs).value ==> exists i :: 0 <= i < |bs| && x in bs[i].value
    decreases |bs|
  {
    if |bs| > 0 {
      ConcatMembers(bs[1..]);
      assert forall i :: 1 <= i < |bs| ==> bs[i] == bs[1..][i - 1];
      forall x | x in Concat(bs).value
        ensures exists i :: 0 <= i < |bs| && x in bs[i].value
      {
        if x !in bs[0].value {
          var j :| 0 <= j < |bs[1..]| && x in bs[1..][j].value;
          assert bs[1..][j] == bs[j + 1];
        }
      }
    }
  }

  function Blocks<T>(gs: seq<Align>, f: Align -> Option<seq<T>>): (r: seq<Option<seq<T>>>)
    ensures |r| == |gs| && forall i :: 0 <= i < |gs| ==> r[i] == f(gs[i])
  {
    seq(|gs|, i requires 0 <= i < |gs| => f(gs[i]))
  }

  /** Blocks of an optional leading group followed by the user groups: the
      leading block starts the concatenation, every user block is in it, and
      it holds nothing else. */
  lemma LeadingBlocks<T>(lead: seq<Align>, user: seq<Align>, f: Align -> Option<seq<T>>)
    requires |lead| <= 1
    requires Concat(Blocks(lead + user, f)).Some?
    ensures var r := Concat(Blocks(lead + user, f)).value;
            && (|lead| == 1 ==> f(lead[0]).Some? && f(lead[0]).value <= r)
            && (forall i, x :: 0 <= i < |user| && f(user[i]).Some? && x in f(user[i]).value ==> x in r)
            && (forall i :: 0 <= i < |user| ==> f(user[i]).Some?)
            && (forall x :: x in r ==>
                  (|lead| == 1 && f(lead[0]).Some? && x in f(lead[0]).value) ||
                  exists i :: 0 <= i < |user| && f(user[i]).Some? && x in f(user[i]).value)
  {
    var gs := lead + user;
    var bs := Blocks(gs, f);
    var k := |lead|;
    ConcatMembers(bs);
    var r := Concat(bs).value;
    forall i | 0 <= i < |user|
      ensures bs[i + k] == f(user[i])
      ensures f(user[i]).Some? && forall x :: x in f(user[i]).value ==> x in r
    {
      assert gs[i + k] == user[i];
      assert bs[i + k].Some?;
    }
    forall x | x in r
      ensures (|lead| == 1 && f(lead[0]).Some? && x in f(lead[0]).value) ||
              exists i :: 0 <= i < |user| && f(user[i]).Some? && x in f(user[i]).value
    {
      var j :| 0 <= j < |bs| && x in bs[j].value;
      if j >= k {
        assert bs[j] == f(user[j - k]);
      }
    }
    if k == 1 {
      assert Concat(bs).value == bs[0].value + Concat(bs[1..]).value;
    }
  }

  /** The constraints of the groups, group after group. */
  function AllGroups(root: Node, pid: string, gs: seq<Align>, boxes: Solver.Rects, lines: LineCache): Option<seq<Solver.Constraint>> {
    Concat(Blocks(gs, a => GroupConstraints(root, pid, a, boxes, lines)))
  }

  /** The groups applied to a node's children: a default `middle` row of the
      alignable children no user group uses, placed first and only when it
      has at least two members, then the user groups in order. */
  function GroupsFor(root: Node, node: Node, user: seq<Align>): (r: Option<seq<Align>>)
    ensures r.Some? ==> LiftGroups(root, node.id, user).Some?
    ensures r.Some? ==> var dflt := DefaultRow(node.children, UsedOf(LiftGroups(root, node.id, user).value));
              r.value == (if |dflt| > 1 then [Align(Middle, dflt)] else []) + user
  {
    var lifted :- LiftGroups(root, node.id, user);
    var dflt := DefaultRow(node.children, UsedOf(lifted));
    Some((if |dflt| > 1 then [Align(Middle, dflt)] else []) + user)
  }

  /** `_align_nodes`: the constraints of the default row and of the user
      groups stored at the node. */
  function AlignNodes(root: Node, node: Node, user: seq<Align>, boxes: Solver.Rects, lines: LineCache): Option<seq<Solver.Constraint>> {
    var gs :- GroupsFor(root, node, user);
    AllGroups(root, node.id, gs, boxes, lines)
  }

  /** The default row starts the node's constraints when it has two or more
      members, each user group's alignment and span constraints are all
      there, and every constraint comes from the default row or a user group. */
  lemma AlignNodesShape(root: Node, node: Node, user: seq<Align>, boxes: Solver.Rects, lines: LineCache)
    requires AlignNodes(root, node, user, boxes, lines).Some?
    ensures var r := AlignNodes(root, node, user, boxes, lines).value;
            var dflt := DefaultRow(node.children, UsedOf(LiftGroups(root, node.id, user).value));
            && (|dflt| > 1 ==> AlignChain(Middle, dflt) <= r)
            && (forall i :: 0 <= i < |user| ==> GroupConstraints(root, node.id, user[i], boxes, lines).Some?)
            && (forall i, c :: (0 <= i < |user| && GroupConstraints(root, node.id, user[i], boxes, lines).Some? &&
                                c in GroupConstraints(root, node.id, user[i], boxes, lines).value) ==> c in r)
            && (forall c :: c in r ==>
                  (|dflt| > 1 && GroupConstraints(root, node.id, Align(Middle, dflt), boxes, lines).Some? &&
                   c in GroupConstraints(root, node.id, Align(Middle, dflt), boxes, lines).value) ||
                  exists i :: 0 <= i < |user| && GroupConstraints(root, node.id, user[i], boxes, lines).Some? &&
                    c in GroupConstraints(root, node.id, user[i], boxes, lines).value)
  {
    var dflt := DefaultRow(node.children, UsedOf(LiftGroups(root, node.id, user).value));
    var lead := if |dflt| > 1 then [Align(Middle, dflt)] else [];
    var f := a => GroupConstraints(root, node.id, a, boxes, lines);
    assert GroupsFor(root, node, user).value == lead + user;
    assert AlignNodes(root, node, user, boxes, lines) == Concat(Blocks(lead + user, f));
    LeadingBlocks(lead, user, f);
    if |dflt| > 1 {
      ChainStartsGroup(root, node.id, Align(Middle, dflt), boxes, lines);
    }
  }

  /** A group's alignment constraints come first among its constraints. */
  lemma ChainStartsGroup(root: Node, pid: string, a: Align, boxes: Solver.Rects, lines: LineCache)
    requires GroupConstraints(root, pid, a, boxes, lines).Some?
    ensures AlignChain(a.kind, a.nodes) <= GroupConstraints(root, pid, a, boxes, lines).value
  {
  }

  // ---------------------------------------------------------------------
  // Visiting the tree

  /** The nodes with a visitor: plain and packaging elements and the diagram
      (node groups and relationships are passed over). */
  predicate Visited(n: Node) {
    n.nclass == ElementClass || n.nclass == PackagingClass || n.nclass == DiagramClass
  }

  /** The nodes whose children `v_element` aligns: packaging elements and
      the diagram. */
  predicate Aligning(n: Node) {
    n.nclass == PackagingClass || n.nclass == DiagramClass
  }

  /** The id of the parent of the node with the given id. */
  function ParentIdOf(root: Node, id: string): Option<string> {
    match ParentOf(root, id)
    case Some(p) => Some(p.id)
    case None => None
  }

  /** `v_element`: the node's minimal size, its containment in its parent
      when it has one, and for the diagram and packaging elements the
      alignment of its children. */
  function VElement(root: Node, node: Node, cache: AlignCache, boxes: Solver.Rects, lines: LineCache): (r: Option<seq<Solver.Constraint>>)
    ensures r.Some? ==> |r.value| >= 1 && r.value[0] == Solver.MinSize(node.id)
    ensures r.Some? && ParentIdOf(root, node.id).Some? ==>
              |r.value| >= 2 && r.value[1].Within? &&
              r.value[1].kid == node.id && r.value[1].parent == ParentIdOf(root, node.id).value
    ensures r.Some? && ParentIdOf(root, node.id).Some? ==>
              var p := ParentIdOf(root, node.id).value;
              WithinPad(Solver.Box(boxes, node.id), Solver.Box(boxes, p)).Some? &&
              r.value[1] == Solver.Within(node.id, p, WithinPad(Solver.Box(boxes, node.id), Solver.Box(boxes, p)).value)
    ensures r.Some? && Aligning(node) ==>
              AlignNodes(root, node, GroupsAt(cache, node.id), boxes, lines).Some? &&
              forall c :: c in AlignNodes(root, node, GroupsAt(cache, node.id), boxes, lines).value ==> c in r.value
    ensures r.None? <==>
              (ParentIdOf(root, node.id).Some? &&
               WithinPad(Solver.Box(boxes, node.id), Solver.Box(boxes, ParentIdOf(root, node.id).value)).None?) ||
              (Aligning(node) && AlignNodes(root, node, GroupsAt(cache, node.id), boxes, lines).None?)
  {
    var within :- Containment(root, node, boxes);
    var align :- ChildAlignment(root, node, cache, boxes, lines);
    Some([Solver.MinSize(node.id)] + within + align)
  }

  /** The containment part of `v_element`: nothing at the root, otherwise the
      node within its parent with `WithinPad`'s inset. */
  function Containment(root: Node, node: Node, boxes: Solver.Rects): (r: Option<seq<Solver.Constraint>>)
    ensures ParentIdOf(root, node.id).None? ==> r == Some([])
    ensures ParentIdOf(root, node.id).Some? ==>
              var p := ParentIdOf(root, node.id).value;
              var pad := WithinPad(Solver.Box(boxes, node.id), Solver.Box(boxes, p));
              (r.Some? <==> pad.Some?) && (r.Some? ==> r.value == [Solver.Within(node.id, p, pad.value)])
  {
    match ParentIdOf(root, node.id)
    case Some(p) =>
      (match WithinPad(Solver.Box(boxes, node.id), Solver.Box(boxes, p))
       case Some(pad) => Some([Solver.Within(node.id, p, pad)])
       case None => None)
    case None => Some([])
  }

  /** The alignment part of `v_element`: the children's alignment for a
      packaging element or the diagram, nothing otherwise. */
  function ChildAlignment(root: Node, node: Node, cache: AlignCache, boxes: Solver.Rects, lines: LineCache)
    : (r: Option<seq<Solver.Constraint>>)
    ensures !Aligning(node) ==> r == Some([])
    ensures Aligning(node) ==> r == AlignNodes(root, node, GroupsAt(cache, node.id), boxes, lines)
  {
    if Aligning(node) then AlignNodes(root, node, GroupsAt(cache, node.id), boxes, lines) else Some([])
  }

  /** Every visited node of `ns` has its minimal size among `cs`, and its
      containment in its parent when it has one. */
  ghost predicate Generated(root: Node, ns: seq<Node>, cs: seq<Solver.Constraint>) {
    && (forall n :: n in ns && Visited(n) ==> Solver.MinSize(n.id) in cs)
    && (forall n :: n in ns && Visited(n) && ParentIdOf(root, n.id).Some? ==>
          exists pad :: Solver.Within(n.id, ParentIdOf(root, n.id).value, pad) in cs)
  }

  /** Every packaging element and the diagram among `ns` has all of its
      children's alignment constraints among `cs`. */
  ghost predicate AlignGenerated(root: Node, ns: seq<Node>, cache: AlignCache, boxes: Solver.Rects, lines: LineCache,
                                 cs: seq<Solver.Constraint>) {
    forall n :: n in ns && Aligning(n) ==> AlignedIn(root, n, cache, boxes, lines, cs)
  }

  /** The node's alignment constraints exist and are all among `cs`. */
  ghost predicate AlignedIn(root: Node, n: Node, cache: AlignCache, boxes: Solver.Rects, lines: LineCache,
                            cs: seq<Solver.Constraint>) {
    && AlignNodes(root, n, GroupsAt(cache, n.id), boxes, lines).Some?
    && forall c :: c in AlignNodes(root, n, GroupsAt(cache, n.id), boxes, lines).value ==> c in cs
  }

  /** The node's alignment constraints exist and all hold on `rects`. */
  ghost predicate AlignedHold(root: Node, n: Node, cache: AlignCache, boxes: Solver.Rects, lines: LineCache,
                              rects: Solver.Rects) {
    && AlignNodes(root, n, GroupsAt(cache, n.id), boxes, lines).Some?
    && forall c :: c in AlignNodes(root, n, GroupsAt(cache, n.id), boxes, lines).value ==> Solver.Satisfied(c, rects)
  }

  lemma AlignGeneratedCons(root: Node, n: Node, ns: seq<Node>, cache: AlignCache, boxes: Solver.Rects, lines: LineCache,
                           first: seq<Solver.Constraint>, rest: seq<Solver.Constraint>)
    requires AlignGenerated(root, ns, cache, boxes, lines, rest)
    requires Aligning(n) ==> AlignedIn(root, n, cache, boxes, lines, first)
    ensures AlignGenerated(root, [n] + ns, cache, boxes, lines, first + rest)
  {
    forall m | m in [n] + ns && Aligning(m)
      ensures AlignedIn(root, m, cache, boxes, lines, first + rest)
    {
      if m == n {
        assert AlignedIn(root, m, cache, boxes, lines, first);
      } else {
        assert AlignedIn(root, m, cache, boxes, lines, rest);
      }
    }
  }

  lemma GeneratedCons(root: Node, n: Node, ns: seq<Node>, first: seq<Solver.Constraint>, rest: seq<Solver.Constraint>)
    requires Generated(root, ns, rest)
    requires Visited(n) ==> |first| >= 1 && first[0] == Solver.MinSize(n.id)
    requires Visited(n) && ParentIdOf(root, n.id).Some? ==>
               |first| >= 2 && first[1].Within? && first[1].kid == n.id && first[1].parent == ParentIdOf(root, n.id).value
    ensures Generated(root, [n] + ns, first + rest)
  {
    if Visited(n) {
      assert first[0] in first + rest;
      if ParentIdOf(root, n.id).Some? {
        assert first[1] in first + rest;
      }
    }
  }

  /** The constraints of the visited nodes among `ns`, in order. */
  function VisitAll(root: Node, ns: seq<Node>, cache: AlignCache, boxes: Solver.Rects, lines: LineCache): (r: Option<seq<Solver.Constraint>>)
    ensures r.Some? ==> Generated(root, ns, r.value)
    ensures r.Some? ==> AlignGenerated(root, ns, cache, boxes, lines, r.value)
    decreases |ns|
  {
    if |ns| == 0 then Some([])
    else
      var first :- if Visited(ns[0]) then VElement(root, ns[0], cache, boxes, lines) else Some([]);
      var rest :- VisitAll(root, ns[1..], cache, boxes, lines);
      GeneratedCons(root, ns[0], ns[1..], first, rest);
      AlignGeneratedCons(root, ns[0], ns[1..], cache, boxes, lines, first, rest);
      assert [ns[0]] + ns[1..] == ns;
      Some(first + rest)
  }

  /** `layout`: the alignment and line caches, then every node visited in
      preorder with the diagram's own children taken last to first. */
  function LayoutConstraints(root: Node, aligns: seq<Align>, boxes: Solver.Rects, styles: Store<LineStyle>): (r: Option<seq<Solver.Constraint>>)
    ensures r.Some? ==> Generated(root, Preorder(root, true), r.value)
    ensures r.Some? ==> AlignCacheOf(root, aligns).Some? && LineCacheOf(root, styles).Some? &&
                        AlignGenerated(root, Preorder(root, true), AlignCacheOf(root, aligns).value, boxes,
                                       LineCacheOf(root, styles).value, r.value)
  {
    var cache :- AlignCacheOf(root, aligns);
    var lines :- LineCacheOf(root, styles);
    VisitAll(root, Preorder(root, true), cache, boxes, lines)
  }

  /** Why the layout failed: the tree or an alignment is malformed (an
      ancestor is missing, a compartment is missing, or a span names the same
      node twice in a row), or the solver gave up. */
  datatype LayoutError = Malformed | Unsolved(err: Solver.SolverError)

  /** `ConstraintLayout.layout`: generates the constraints and solves them on
      the given boxes. On success every generated constraint holds, and in
      particular every visited node has at least its minimal size. */
  method Layout(root: Node, aligns: seq<Align>, boxes: Solver.Rects, styles: Store<LineStyle>)
    returns (r: Result<Solver.Rects, LayoutError>)
    ensures LayoutConstraints(root, aligns, boxes, styles).None? ==> r == Failure(Malformed)
    ensures r.Success? ==> var cs := LayoutConstraints(root, aligns, boxes, styles).value;
              forall c :: c in cs ==> Solver.Satisfied(c, r.value)
    ensures r.Success? ==> forall n :: n in Preorder(root, true) && Visited(n) ==>
              Solver.Box(r.value, n.id).size.width >= Solver.Box(r.value, n.id).minSize.width &&
              Solver.Box(r.value, n.id).size.height >= Solver.Box(r.value, n.id).minSize.height
    ensures r.Success? ==> forall n :: n in Preorder(root, true) && Aligning(n) ==>
              AlignedHold(root, n, AlignCacheOf(root, aligns).value, boxes, LineCacheOf(root, styles).value, r.value)
  {
    var cs := LayoutConstraints(root, aligns, boxes, styles);
    if cs.None? {
      return Failure(Malformed);
    }
    Solver.BuildWellFormed(cs.value);
    var sv := Solver.AddAll(Solver.EmptySolver, cs.value);
    var res := Solver.Solve(sv, boxes);
    match res {
      case Failure(e) =>
        return Failure(Unsolved(e));
      case Success(rects) =>
        MinSizesHold(root, Preorder(root, true), cs.value, rects);
        AlignsHoldAll(root, Preorder(root, true), AlignCacheOf(root, aligns).value, boxes, LineCacheOf(root, styles).value,
                      cs.value, rects);
        return Success(rects);
    }
  }

  /** When all generated constraints hold, so does every alignment constraint
      of each packaging element and the diagram. */
  lemma AlignsHoldAll(root: Node, ns: seq<Node>, cache: AlignCache, boxes: Solver.Rects, lines: LineCache,
                      cs: seq<Solver.Constraint>, rects: Solver.Rects)
    requires AlignGenerated(root, ns, cache, boxes, lines, cs)
    requires forall c :: c in cs ==> Solver.Satisfied(c, rects)
    ensures forall n :: n in ns && Aligning(n) ==> AlignedHold(root, n, cache, boxes, lines, rects)
  {
    forall n | n in ns && Aligning(n)
      ensures AlignedHold(root, n, cache, boxes, lines, rects)
    {
      assert AlignedIn(root, n, cache, boxes, lines, cs);
    }
  }

  /** Once a node's alignment constraints hold, each user group stored at the
      node is aligned along its kind, and so is the default middle row when it
      has two or more members. */
  lemma AlignmentsHold(root: Node, node: Node, user: seq<Align>, boxes: Solver.Rects, lines: LineCache, rects: Solver.Rects)
    requires AlignNodes(root, node, user, boxes, lines).Some?
    requires forall c :: c in AlignNodes(root, node, user, boxes, lines).value ==> Solver.Satisfied(c, rects)
    ensures forall i, c :: 0 <= i < |user| && c in AlignChain(user[i].kind, user[i].nodes) ==> Solver.Satisfied(c, rects)
    ensures var dflt := DefaultRow(node.children, UsedOf(LiftGroups(root, node.id, user).value));
            |dflt| > 1 ==> forall c :: c in AlignChain(Middle, dflt) ==> Solver.Satisfied(c, rects)
  {
    AlignNodesShape(root, node, user, boxes, lines);
    var r := AlignNodes(root, node, user, boxes, lines).value;
    forall i, c | 0 <= i < |user| && c in AlignChain(user[i].kind, user[i].nodes)
      ensures Solver.Satisfied(c, rects)
    {
      var g := GroupConstraints(root, node.id, user[i], boxes, lines);
      ChainStartsGroup(root, node.id, user[i], boxes, lines);
      assert c in g.value;
    }
  }

  /** When all generated constraints hold, every visited node has at least
      its minimal size. */
  lemma MinSizesHold(root: Node, ns: seq<Node>, cs: seq<Solver.Constraint>, rects: Solver.Rects)
    requires Generated(root, ns, cs)
    requires forall c :: c in cs ==> Solver.Satisfied(c, rects)
    ensures forall n :: n in ns && Visited(n) ==>
              Solver.Box(rects, n.id).size.width >= Solver.Box(rects, n.id).minSize.width &&
              Solver.Box(rects, n.id).size.height >= Solver.Box(rects, n.id).minSize.height
  {
    forall n | n in ns && Visited(n)
      ensures Solver.Satisfied(Solver.MinSize(n.id), rects)
    {
      assert Solver.MinSize(n.id) in cs;
    }
  }

  // ---------------------------------------------------------------------
  // The default row on the layouts of the layout tests

  function Cls(id: string): Node {
    Node(ElementClass, "class", id, "", [], "", "", [])
  }

  lemma UnalignedCons(k: Node, ks: seq<Node>, used: set<string>)
    ensures Unaligned([k] + ks, used) == (if k.id !in used && Alignable(k) then [k.id] else []) + Unaligned(ks, used)
  {
    assert ([k] + ks)[1..] == ks;
  }

  lemma UsedOfSnoc(vs: seq<seq<string>>, v: seq<string>)
    ensures UsedOf(vs + [v]) == UsedOf(vs) + (if Meets(UsedOf(vs), v) then Elems(v) else Elems(Tail(v)))
  {
    assert (vs + [v])[..|vs|] == vs;
  }

  /** `left: a b` and `right: d e` leave `a`, `c` and `d` to the default row. */
  lemma InterleaveUsed()
    ensures UsedOf([["a", "b"], ["d", "e"]]) == {"b", "e"}
  {
    UsedOfSnoc([], ["a", "b"]);
    assert Elems(Tail(["a", "b"])) == {"b"} by { assert Tail(["a", "b"]) == ["b"]; }
    UsedOfSnoc([["a", "b"]], ["d", "e"]);
    assert Elems(Tail(["d", "e"])) == {"e"} by { assert Tail(["d", "e"]) == ["e"]; }
    assert [["a", "b"]] + [["d", "e"]] == [["a", "b"], ["d", "e"]];
  }

  lemma InterleaveRow()
    ensures Unaligned([Cls("a"), Cls("b"), Cls("c"), Cls("d"), Cls("e")], {"b", "e"}) == ["a", "c", "d"]
  {
  }

  /** `right: c1 c3 c2` leaves `c1` and `c4` to the default row. */
  lemma OrphanedUsed()
    ensures UsedOf([["c1", "c3", "c2"]]) == {"c3", "c2"}
  {
    UsedOfSnoc([], ["c1", "c3", "c2"]);
    assert Elems(Tail(["c1", "c3", "c2"])) == {"c3", "c2"} by { assert Tail(["c1", "c3", "c2"]) == ["c3", "c2"]; }
  }

  lemma OrphanedRow()
    ensures Unaligned([Cls("c1"), Cls("c2"), Cls("c3"), Cls("c4")], {"c3", "c2"}) == ["c1", "c4"]
  {
  }

  /** `middle: a b c` and `center: d b e`: the second group meets the first,
      so all its nodes are used, and the single node left makes no default row. */
  lemma StarUsed()
    ensures UsedOf([["a", "b", "c"], ["d", "b", "e"]]) == {"b", "c", "d", "e"}
  {
    UsedOfSnoc([], ["a", "b", "c"]);
    assert Elems(Tail(["a", "b", "c"])) == {"b", "c"} by { assert Tail(["a", "b", "c"]) == ["b", "c"]; }
    UsedOfSnoc([["a", "b", "c"]], ["d", "b", "e"]);
    assert Meets({"b", "c"}, ["d", "b", "e"]) by {
      assert ["d", "b", "e"][1] == "b";
    }
    assert Elems(["d", "b", "e"]) == {"d", "b", "e"};
    assert [["a", "b", "c"]] + [["d", "b", "e"]] == [["a", "b", "c"], ["d", "b", "e"]];
  }

  lemma StarRow()
    ensures Unaligned([Cls("a"), Cls("b"), Cls("c"), Cls("d"), Cls("e")], {"b", "c", "d", "e"}) == ["a"]
  {
    var U: set<string> := {"b", "c", "d", "e"};
    var a, b, c, d, e := Cls("a"), Cls("b"), Cls("c"), Cls("d"), Cls("e");
    assert Unaligned([d, e], U) == [] by {
      UnalignedCons(e, [], U);
      UnalignedCons(d, [e], U);
      assert [d] + [e] == [d, e];
    }
    assert Unaligned([b, c, d, e], U) == [] by {
      UnalignedCons(c, [d, e], U);
      assert [c] + [d, e] == [c, d, e];
      UnalignedCons(b, [c, d, e], U);
      assert [b] + [c, d, e] == [b, c, d, e];
    }
    UnalignedCons(a, [b, c, d, e], U);
    assert [a] + [b, c, d, e] == [a, b, c, d, e];
  }
}

=== FILE: data.dfy ===
/** The containment tree built by the parser: element kinds, nodes compared
    by id, parent chains, lowest common ancestor, sibling lifting, traversal
    orders, and the multiplicity and attribute texts. */
module Data {
  import opened Wrappers
  import opened Seqs
  import Strings

  /** Kinds of elements that may package other elements. */
  const PElements: seq<string> := ["artifact", "class", "component", "device", "node",
    "instance", "package", "profile", "subsystem"]

  /** Kinds of elements that never package other elements. */
  const NElements: seq<string> := ["actor", "comment", "interface", "metaclass",
    "stereotype", "usecase"]

  /** All supported element kinds. */
  const Elements: seq<string> := PElements + NElements

  /** Element kinds and stereotypes that are shown as keywords. */
  const Keywords: seq<string> := ["artifact", "metaclass", "component", "device",
    "interface", "profile", "stereotype", "subsystem", "realization"]

  /** No kind is both packaging and non-packaging, every supported kind is one
      of the two, and the table lists each kind once. */
  lemma ElementTables()
    ensures forall s :: s in PElements ==> s !in NElements
    ensures forall s :: s in Elements <==> s in PElements || s in NElements
    ensures |Elements| == 15 && Distinct(Elements)
  {
  }

  /** The Python class of a tree node. Packaging elements, diagrams and node
      groups are iterable (they have packaged children); plain elements and
      relationships are not. */
  datatype NodeClass = ElementClass | PackagingClass | DiagramClass | GroupClass | RelationshipClass

  /** A tree node: its class, UML class name (`cls`), unique id, name,
      stereotypes, the ids of the ends of a relationship, and the children
      of an iterable node. */
  datatype Node = Node(
    nclass: NodeClass,
    cls: string,
    id: string,
    name: string,
    stereotypes: seq<string>,
    tail: string,
    head: string,
    children: seq<Node>)
  {
    predicate Iterable() {
      nclass == PackagingClass || nclass == DiagramClass || nclass == GroupClass
    }
  }

  /** Node equality: two nodes are equal when their ids are. */
  predicate SameNode(a: Node, b: Node) {
    a.id == b.id
  }

  /** Node hash: the hash of the id. */
  function NodeHash(n: Node, hash: string -> int): int {
    hash(n.id)
  }

  /** Node equality is an equivalence that ignores everything but the id, and
      equal nodes hash alike whatever string hash is used. */
  lemma SameNodeById(a: Node, b: Node, c: Node, hash: string -> int)
    ensures SameNode(a, a)
    ensures SameNode(a, b) == SameNode(b, a)
    ensures SameNode(a, b) && SameNode(b, c) ==> SameNode(a, c)
    ensures SameNode(a, b) ==> NodeHash(a, hash) == NodeHash(b, hash)
    ensures SameNode(a, b) <==> SameNode(a.(name := b.name, cls := b.cls), b)
  {
  }

  /** The diagram: the root container, whose id is always "diagram". */
  function MakeDiagram(children: seq<Node>): (d: Node)
    ensures d.Iterable() && d.id == "diagram" && d.children == children
  {
    Node(DiagramClass, "diagram", "diagram", "", [], "", "", children)
  }

  /** A node group: an iterable container with the given id. */
  function MakeGroup(id: string, children: seq<Node>): (g: Node)
    ensures g.Iterable() && g.id == id && g.children == children
  {
    Node(GroupClass, "nodegroup", id, "", [], "", "", children)
  }

  // ---------------------------------------------------------------------
  // Paths and parent chains

  /** A root-first chain of nodes where each node is a child of the previous one. */
  predicate Linked(p: seq<Node>) {
    forall k :: 0 <= k < |p| - 1 ==> p[k + 1] in p[k].children
  }

  /** The path from `n` down to the first node (in preorder) with the given id. */
  function PathTo(n: Node, id: string): (r: Option<seq<Node>>)
    ensures r.Some? ==> |r.value| >= 1 && r.value[0] == n && r.value[|r.value| - 1].id == id
    ensures r.Some? && |r.value| >= 2 ==> r.value[|r.value| - 1] in r.value[|r.value| - 2].children
    decreases n
  {
    if n.id == id then Some([n])
    else if !n.Iterable() then None
    else match PathAmong(n.children, id)
      case Some(p) => Some([n] + p)
      case None => None
  }

  /** The path from the first of `ks` whose subtree holds the id. */
  function PathAmong(ks: seq<Node>, id: string): (r: Option<seq<Node>>)
    ensures r.Some? ==> |r.value| >= 1 && r.value[0] in ks && r.value[|r.value| - 1].id == id
    ensures r.Some? && |r.value| >= 2 ==> r.value[|r.value| - 1] in r.value[|r.value| - 2].children
    decreases ks
  {
    if |ks| == 0 then None
    else match PathTo(ks[0], id)
      case Some(p) => Some(p)
      case None => PathAmong(ks[1..], id)
  }

  /** Each node on a path is a child of the one before it. */
  lemma {:induction false} PathToLinked(n: Node, id: string)
    ensures PathTo(n, id).Some? ==> Linked(PathTo(n, id).value)
    decreases n
  {
    if n.id != id && n.Iterable() {
      PathAmongLinked(n.children, id);
      match PathAmong(n.children, id)
      case Some(p) =>
        var r := [n] + p;
        forall k | 0 <= k < |r| - 1
          ensures r[k + 1] in r[k].children
        {
          if k > 0 {
            assert r[k] == p[k - 1] && r[k + 1] == p[k];
          }
        }
      case None =>
    }
  }

  lemma {:induction false} PathAmongLinked(ks: seq<Node>, id: string)
    ensures PathAmong(ks, id).Some? ==> Linked(PathAmong(ks, id).value)
    decreases ks
  {
    if |ks| > 0 {
      PathToLinked(ks[0], id);
      PathAmongLinked(ks[1..], id);
    }
  }

  /** The proper ancestors of the node with the given id, nearest first: the
      chain followed by repeatedly taking `parent` until the root. */
  function Ancestors(root: Node, id: string): (r: Option<seq<Node>>)
    ensures r.Some? <==> PathTo(root, id).Some?
    ensures r.Some? ==> var p := PathTo(root, id).value;
              |r.value| == |p| - 1 && forall k :: 0 <= k < |r.value| ==> r.value[k] == p[|p| - 2 - k]
  {
    match PathTo(root, id)
    case None => None
    case Some(p) => Some(Reverse(p[..|p| - 1]))
  }

  /** The parent of the node with the given id, if it has one. */
  function ParentOf(root: Node, id: string): (r: Option<Node>)
    ensures r.Some? <==> PathTo(root, id).Some? && |PathTo(root, id).value| >= 2
    ensures r.Some? ==> var p := PathTo(root, id).value; r.value == p[|p| - 2] && p[|p| - 1] in r.value.children
  {
    match Ancestors(root, id)
    case Some(c) => if |c| > 0 then Some(c[0]) else None
    case None => None
  }

  /** Every child of a new diagram has the diagram as parent (when the child's
      id is neither the diagram's nor found in an earlier sibling's subtree). */
  lemma {:induction false} DiagramParents(children: seq<Node>, i: nat)
    requires i < |children| && children[i].id != "diagram"
    requires forall j :: 0 <= j < i ==> PathTo(children[j], children[i].id).None?
    ensures ParentOf(MakeDiagram(children), children[i].id) == Some(MakeDiagram(children))
  {
    AmongPrefix(children, i, children[i].id);
    assert PathTo(children[i], children[i].id) == Some([children[i]]);
  }

  /** A node group likewise becomes the parent of each of its children. */
  lemma {:induction false} GroupParents(id: string, children: seq<Node>, i: nat)
    requires i < |children| && children[i].id != id
    requires forall j :: 0 <= j < i ==> PathTo(children[j], children[i].id).None?
    ensures ParentOf(MakeGroup(id, children), children[i].id) == Some(MakeGroup(id, children))
  {
    AmongPrefix(children, i, children[i].id);
    assert PathTo(children[i], children[i].id) == Some([children[i]]);
  }

  /** When no earlier sibling holds the id, the path among siblings is the path in `ks[i]`. */
  lemma {:induction false} AmongPrefix(ks: seq<Node>, i: nat, id: string)
    requires i < |ks| && PathTo(ks[i], id).Some?
    requires forall j :: 0 <= j < i ==> PathTo(ks[j], id).None?
    ensures PathAmong(ks, id) == PathTo(ks[i], id)
    decreases i
  {
    if i > 0 {
      assert ks[1..][i - 1] == ks[i];
      AmongPrefix(ks[1..], i - 1, id);
    }
  }

  // ---------------------------------------------------------------------
  // Lowest common ancestor

  predicate InChain(id: string, chain: seq<Node>) {
    exists k :: 0 <= k < |chain| && chain[k].id == id
  }

  /** The id is on every one of the chains. */
  predicate CommonTo(id: string, chains: seq<seq<Node>>) {
    forall c :: c in chains ==> InChain(id, c)
  }

  /** Ancestor chains of the given ids, or None when some id is not in the tree. */
  function Chains(root: Node, ids: seq<string>): (r: Option<seq<seq<Node>>>)
    ensures r.Some? <==> forall i :: 0 <= i < |ids| ==> Ancestors(root, ids[i]).Some?
    ensures r.Some? ==> |r.value| == |ids| && forall i :: 0 <= i < |ids| ==> r.value[i] == Ancestors(root, ids[i]).value
  {
    if |ids| == 0 then Some([])
    else
      match Ancestors(root, ids[0])
      case None => None
      case Some(c) =>
        match Chains(root, ids[1..])
        case None =>
          assert forall i :: 1 <= i < |ids| ==> ids[i] == ids[1..][i - 1];
          None
        case Some(cs) => Some([c] + cs)
  }

  /** The first position in `c0` from `from` on whose id is common to `rest`. */
  function FirstCommon(c0: seq<Node>, rest: seq<seq<Node>>, from: nat): (r: Option<nat>)
    requires from <= |c0|
    ensures r.Some? ==> from <= r.value < |c0| && CommonTo(c0[r.value].id, rest)
    ensures r.Some? ==> forall j :: from <= j < r.value ==> !CommonTo(c0[j].id, rest)
    ensures r.None? ==> forall j :: from <= j < |c0| ==> !CommonTo(c0[j].id, rest)
    decreases |c0| - from
  {
    if from == |c0| then None
    else if CommonTo(c0[from].id, rest) then Some(from)
    else FirstCommon(c0, rest, from + 1)
  }

  /** Lowest common ancestor of the nodes with the given ids: the nearest
      proper ancestor of the first node that is also a proper ancestor of all
      the others. None when no ids are given, an id is not in the tree, or
      there is no common proper ancestor (the source fails an assertion then). */
  function Lca(root: Node, ids: seq<string>): (r: Option<Node>)
    ensures r.Some? ==> |ids| >= 1 && Chains(root, ids).Some?
    ensures r.Some? ==> var cs := Chains(root, ids).value;
              CommonTo(r.value.id, cs) &&
              exists k :: 0 <= k < |cs[0]| && cs[0][k] == r.value &&
                forall j :: 0 <= j < k ==> !CommonTo(cs[0][j].id, cs)
  {
    if |ids| == 0 then None
    else
      match Chains(root, ids)
      case None => None
      case Some(cs) =>
        match FirstCommon(cs[0], cs[1..], 0)
        case None => None
        case Some(k) =>
          CommonWithFirst(cs, cs[0][k].id, k);
          forall j | 0 <= j < k
            ensures !CommonTo(cs[0][j].id, cs)
          {
            CommonRest(cs, cs[0][j].id);
          }
          Some(cs[0][k])
  }

  /** An entry of the first chain common to the other chains is common to all of them. */
  lemma CommonWithFirst(cs: seq<seq<Node>>, id: string, k: nat)
    requires |cs| >= 1 && k < |cs[0]| && cs[0][k].id == id && CommonTo(id, cs[1..])
    ensures CommonTo(id, cs)
  {
    forall c | c in cs
      ensures InChain(id, c)
    {
      if c != cs[0] {
        var i :| 0 <= i < |cs| && cs[i] == c;
        assert cs[1..][i - 1] == c;
      }
    }
  }

  /** What is common to all chains is common to all but the first. */
  lemma CommonRest(cs: seq<seq<Node>>, id: string)
    requires |cs| >= 1
    ensures CommonTo(id, cs) ==> CommonTo(id, cs[1..])
  {
    forall c | c in cs[1..]
      ensures c in cs
    {
      var i :| 0 <= i < |cs[1..]| && cs[1..][i] == c;
      assert cs[i + 1] == c;
    }
  }

  /** When every given node lies strictly below the root, a lowest common
      ancestor exists: the root is an ancestor of them all. */
  lemma LcaExists(root: Node, ids: seq<string>)
    requires |ids| >= 1
    requires forall i :: 0 <= i < |ids| ==> PathTo(root, ids[i]).Some? && |PathTo(root, ids[i]).value| >= 2
    ensures Lca(root, ids).Some?
  {
    var cs := Chains(root, ids).value;
    forall c | c in cs[1..]
      ensures InChain(root.id, c)
    {
      var i :| 0 <= i < |cs[1..]| && cs[1..][i] == c;
      var p := PathTo(root, ids[i + 1]).value;
      assert c[|c| - 1] == p[0];
    }
    var p0 := PathTo(root, ids[0]).value;
    assert cs[0][|cs[0]| - 1] == p0[0] == root;
    assert CommonTo(cs[0][|cs[0]| - 1].id, cs[1..]);
  }

  // ---------------------------------------------------------------------
  // Lifting descendants to siblings

  /** The position `j` on a root-first path whose node is the nearest to the
      path's end (among positions `<= from`) whose parent `p[j - 1]` has id `pid`. */
  function LiftIndex(p: seq<Node>, pid: string, from: nat): (r: Option<nat>)
    requires from < |p|
    ensures r.Some? ==> 1 <= r.value <= from && p[r.value - 1].id == pid
    ensures r.Some? ==> forall k :: r.value <= k < from ==> p[k].id != pid
    ensures r.None? ==> forall k :: 0 <= k < from ==> p[k].id != pid
    decreases from
  {
    if from == 0 then None
    else if p[from - 1].id == pid then Some(from)
    else LiftIndex(p, pid, from - 1)
  }

  /** The ancestor-or-self of the node `kid` whose parent has id `pid`. */
  function Lift(root: Node, pid: string, kid: string): (r: Option<Node>)
    ensures r.Some? ==> PathTo(root, kid).Some?
    ensures r.Some? ==> var p := PathTo(root, kid).value;
              var j := LiftIndex(p, pid, |p| - 1);
              j.Some? && r.value == p[j.value] && r.value in p[j.value - 1].children
  {
    match PathTo(root, kid)
    case None => None
    case Some(p) =>
      match LiftIndex(p, pid, |p| - 1)
      case None => None
      case Some(j) =>
        PathToLinked(root, kid);
        assert p[j - 1 + 1] in p[j - 1].children;
        Some(p[j])
  }

  /** For each descendant of the node with id `pid`, the child of that node
      that contains it (or the descendant itself when it is a child). None
      when some kid has no ancestor with that id (the source fails on
      reaching the root then). */
  function Lsb(root: Node, pid: string, kids: seq<string>): (r: Option<seq<Node>>)
    ensures r.Some? <==> forall i :: 0 <= i < |kids| ==> Lift(root, pid, kids[i]).Some?
    ensures r.Some? ==> (|r.value| == |kids| &&
              forall i :: 0 <= i < |kids| ==> r.value[i] == Lift(root, pid, kids[i]).value)
  {
    if |kids| == 0 then Some([])
    else
      match Lift(root, pid, kids[0])
      case None => None
      case Some(n) =>
        match Lsb(root, pid, kids[1..])
        case None =>
          assert forall i :: 1 <= i < |kids| ==> kids[i] == kids[1..][i - 1];
          None
        case Some(ns) => Some([n] + ns)
  }

  /** The siblings of the given nodes below their lowest common ancestor. */
  function Level(root: Node, ids: seq<string>): (r: Option<seq<Node>>)
    ensures r.Some? ==> Lca(root, ids).Some? && |r.value| == |ids|
    ensures r.Some? ==> forall i :: 0 <= i < |ids| ==>
              Lift(root, Lca(root, ids).value.id, ids[i]) == Some(r.value[i])
  {
    match Lca(root, ids)
    case None => None
    case Some(p) => Lsb(root, p.id, ids)
  }

  // ---------------------------------------------------------------------
  // Traversals

  /** Number of nodes reachable through children of iterable nodes. */
  function Count(n: Node): nat
    decreases n
  {
    1 + (if n.Iterable() then CountAll(n.children) else 0)
  }

  function CountAll(ks: seq<Node>): nat
    decreases ks
  {
    if |ks| == 0 then 0 else Count(ks[0]) + CountAll(ks[1..])
  }

  /** Preorder: the node, then each child's subtree left to right (right to
      left when `reverse`; the flag is not passed on to the subtrees). */
  function Preorder(n: Node, reverse: bool): (r: seq<Node>)
    ensures |r| >= 1 && r[0] == n
    ensures !reverse ==> |r| == Count(n)
    decreases n
  {
    [n] + (if !n.Iterable() then []
           else if reverse then PreorderBack(n.children)
           else PreorderAll(n.children))
  }

  /** Concatenated preorders of the subtrees, left to right. */
  function PreorderAll(ks: seq<Node>): (r: seq<Node>)
    ensures |r| == CountAll(ks)
    decreases ks
  {
    if |ks| == 0 then [] else Preorder(ks[0], false) + PreorderAll(ks[1..])
  }

  /** Concatenated preorders of the subtrees, right to left. */
  function PreorderBack(ks: seq<Node>): (r: seq<Node>)
    decreases ks
  {
    if |ks| == 0 then []
    else Preorder(ks[|ks| - 1], false) + PreorderBack(ks[..|ks| - 1])
  }

  /** Postorder: each child's subtree left to right, then the node. */
  function Postorder(n: Node): (r: seq<Node>)
    ensures |r| == Count(n) && r[|r| - 1] == n
    decreases n
  {
    (if n.Iterable() then PostorderAll(n.children) else []) + [n]
  }

  function PostorderAll(ks: seq<Node>): (r: seq<Node>)
    ensures |r| == CountAll(ks)
    decreases ks
  {
    if |ks| == 0 then [] else Postorder(ks[0]) + PostorderAll(ks[1..])
  }

  /** The flattening generator: the node, then for each child either its own
      flattening (iterable child) or the child itself. */
  function Unwind(n: Node): seq<Node>
    decreases n
  {
    [n] + (if n.Iterable() then UnwindAll(n.children) else [])
  }

  function UnwindAll(ks: seq<Node>): seq<Node>
    decreases ks
  {
    if |ks| == 0 then []
    else (if ks[0].Iterable() then Unwind(ks[0]) else [ks[0]]) + UnwindAll(ks[1..])
  }

  /** Flattening visits the nodes in exactly the (forward) preorder. */
  lemma {:induction false} UnwindIsPreorder(n: Node)
    ensures Unwind(n) == Preorder(n, false)
    decreases n
  {
    if n.Iterable() {
      UnwindAllIsPreorder(n.children);
    }
  }

  lemma {:induction false} UnwindAllIsPreorder(ks: seq<Node>)
    ensures UnwindAll(ks) == PreorderAll(ks)
    decreases ks
  {
    if |ks| > 0 {
      UnwindIsPreorder(ks[0]);
      UnwindAllIsPreorder(ks[1..]);
    }
  }

  lemma {:induction false} PreorderAllSnoc(ks: seq<Node>)
    requires |ks| > 0
    ensures PreorderAll(ks) == PreorderAll(ks[..|ks| - 1]) + Preorder(ks[|ks| - 1], false)
    decreases |ks|
  {
    if |ks| > 1 {
      var init := ks[..|ks| - 1];
      PreorderAllSnoc(ks[1..]);
      assert ks[1..][..|ks[1..]| - 1] == init[1..];
      assert ks[1..][|ks[1..]| - 1] == ks[|ks| - 1];
      assert init[0] == ks[0];
    } else {
      assert ks[1..] == [];
    }
  }

  lemma {:induction false} PreorderBackSameNodes(ks: seq<Node>)
    ensures multiset(PreorderBack(ks)) == multiset(PreorderAll(ks))
    decreases |ks|
  {
    if |ks| > 0 {
      PreorderAllSnoc(ks);
      PreorderBackSameNodes(ks[..|ks| - 1]);
    }
  }

  /** Reversing the root's children visits the same nodes, the root still
      first, each subtree still in forward preorder. */
  lemma ReversePreorderSameNodes(n: Node)
    ensures multiset(Preorder(n, true)) == multiset(Preorder(n, false))
    ensures Preorder(n, true)[0] == Preorder(n, false)[0] == n
  {
    if n.Iterable() {
      PreorderBackSameNodes(n.children);
    }
  }

  /** Postorder and preorder visit the same nodes. */
  lemma {:induction false} PostorderSameNodes(n: Node)
    ensures multiset(Postorder(n)) == multiset(Preorder(n, false))
    decreases n
  {
    if n.Iterable() {
      PostorderAllSameNodes(n.children);
    }
  }

  lemma {:induction false} PostorderAllSameNodes(ks: seq<Node>)
    ensures multiset(PostorderAll(ks)) == multiset(PreorderAll(ks))
    decreases ks
  {
    if |ks| > 0 {
      PostorderSameNodes(ks[0]);
      PostorderAllSameNodes(ks[1..]);
    }
  }

  // ---------------------------------------------------------------------
  // Multiplicity and attribute texts

  /** Attribute multiplicity bounds, as written in the source text. */
  datatype Mult = Mult(lower: string, upper: string)

  /** Lower bound defaults to "0", upper bound to the lower bound. */
  function MakeMult(lower: Option<string>, upper: Option<string>): (m: Mult)
    ensures lower.Some? ==> m.lower == lower.value
    ensures lower.None? ==> m.lower == "0"
    ensures upper.Some? ==> m.upper == upper.value
    ensures upper.None? ==> m.upper == m.lower
  {
    var l := lower.GetOr("0");
    Mult(l, upper.GetOr(l))
  }

  /** `[l]` for equal bounds, `[l..u]` otherwise. */
  function MultStr(m: Mult): string {
    if m.lower == m.upper then "[" + m.lower + "]"
    else "[" + m.lower + ".." + m.upper + "]"
  }

  /** Reads a multiplicity text back: a bracketed text, split at its first "..". */
  function ParseMult(s: string): Option<Mult> {
    if |s| < 2 || s[0] != '[' || s[|s| - 1] != ']' then None
    else
      var inner := s[1..|s| - 1];
      var i := Strings.Find(inner, "..");
      if i < 0 then Some(Mult(inner, inner))
      else Some(Mult(inner[..i], inner[i + 2..]))
  }

  /** A multiplicity whose lower bound has no '.' is read back from its text. */
  lemma MultRoundTrip(m: Mult)
    requires '.' !in m.lower
    ensures ParseMult(MultStr(m)) == Some(m)
  {
    var s := MultStr(m);
    var inner := s[1..|s| - 1];
    if m.lower == m.upper {
      assert inner == m.lower;
      Strings.AbsentFirstChar(inner, "..");
    } else {
      assert inner == m.lower + ".." + m.upper;
      var i := |m.lower|;
      assert Strings.OccursAt(inner, "..", i);
      forall j | 0 <= j < i
        ensures !Strings.OccursAt(inner, "..", j)
      {
        assert inner[j] == m.lower[j];
      }
      assert Strings.Find(inner, "..") == i;
      assert inner[..i] == m.lower;
      assert inner[i + 2..] == m.upper;
    }
  }

  /** A UML attribute: name, optional type, default value and multiplicity. */
  datatype Attribute = Attribute(name: string, typ: Option<string>, value: Option<string>, mult: Option<Mult>)

  /** A missing name becomes the empty name. */
  function MakeAttribute(name: Option<string>, typ: Option<string>, value: Option<string>,
                         mult: Option<Mult>): (a: Attribute)
    ensures a.name == name.GetOr("") && a.typ == typ && a.value == value && a.mult == mult
  {
    Attribute(name.GetOr(""), typ, value, mult)
  }

  /** The attribute text: name, then ": type", " = value" and " mult", each
      only when present and in that order. */
  function AttributeStr(a: Attribute): string {
    a.name
    + (if a.typ.Some? then ": " + a.typ.value else "")
    + (if a.value.Some? then " = " + a.value.value else "")
    + (if a.mult.Some? then " " + MultStr(a.mult.value) else "")
  }

  /** The space-separated words of an attribute text. */
  function AttributeWords(a: Attribute): seq<string> {
    NameWords(a) + ValueWords(a) + MultWords(a)
  }

  function NameWords(a: Attribute): seq<string> {
    if a.typ.Some? then [a.name + ":", a.typ.value] else [a.name]
  }

  function ValueWords(a: Attribute): seq<string> {
    if a.value.Some? then ["=", a.value.value] else []
  }

  function MultWords(a: Attribute): seq<string> {
    if a.mult.Some? then [MultStr(a.mult.value)] else []
  }

  /** Reads an attribute back from its words. */
  function ParseAttributeWords(ws: seq<string>): Option<Attribute> {
    if |ws| == 0 then None
    else
      var w := ws[0];
      var (name, typ, rest) :=
        if |w| > 0 && w[|w| - 1] == ':' && |ws| >= 2 then (w[..|w| - 1], Some(ws[1]), ws[2..])
        else (w, None, ws[1..]);
      var (value, rest2) :=
        if |rest| >= 2 && rest[0] == "=" then (Some(rest[1]), rest[2..]) else (None, rest);
      if |rest2| == 0 then Some(Attribute(name, typ, value, None))
      else if |rest2| == 1 then
        match ParseMult(rest2[0])
        case Some(m) => Some(Attribute(name, typ, value, Some(m)))
        case None => None
      else None
  }

  /** Reads an attribute back from its text. */
  function ParseAttribute(s: string): Option<Attribute> {
    ParseAttributeWords(Strings.Split(s, " "))
  }

  /** The parts of an attribute that contain no space, the name no ':' and
      the multiplicity bounds no '.'. */
  predicate PlainAttribute(a: Attribute) {
    && ' ' !in a.name && ':' !in a.name
    && (a.typ.Some? ==> ' ' !in a.typ.value)
    && (a.value.Some? ==> ' ' !in a.value.value)
    && (a.mult.Some? ==> ' ' !in a.mult.value.lower && ' ' !in a.mult.value.upper
                         && '.' !in a.mult.value.lower)
  }

  lemma NameWordsJoin(a: Attribute)
    ensures Strings.Join(NameWords(a), " ") == a.name + (if a.typ.Some? then ": " + a.typ.value else "")
  {
    if a.typ.Some? {
      assert NameWords(a)[1..] == [a.typ.value];
    }
  }

  lemma ValueWordsJoin(a: Attribute)
    ensures Strings.Join(NameWords(a) + ValueWords(a), " ")
         == a.name + (if a.typ.Some? then ": " + a.typ.value else "") + (if a.value.Some? then " = " + a.value.value else "")
  {
    NameWordsJoin(a);
    if a.value.Some? {
      JoinAppend(NameWords(a), ValueWords(a));
      assert ValueWords(a)[1..] == [a.value.value];
    } else {
      assert NameWords(a) + ValueWords(a) == NameWords(a);
    }
  }

  lemma {:induction false} AttributeStrIsJoin(a: Attribute)
    ensures AttributeStr(a) == Strings.Join(AttributeWords(a), " ")
  {
    ValueWordsJoin(a);
    var front := NameWords(a) + ValueWords(a);
    if a.mult.Some? {
      JoinAppend(front, MultWords(a));
    } else {
      assert front + MultWords(a) == front;
    }
  }

  lemma {:induction false} JoinAppend(xs: seq<string>, ys: seq<string>)
    requires |xs| > 0
    ensures Strings.Join(xs + ys, " ") ==
            if |ys| == 0 then Strings.Join(xs, " ") else Strings.Join(xs, " ") + " " + Strings.Join(ys, " ")
    decreases |xs|
  {
    if |ys| == 0 {
      assert xs + ys == xs;
    } else if |xs| == 1 {
      assert (xs + ys)[1..] == ys;
    } else {
      assert (xs + ys)[1..] == xs[1..] + ys;
      JoinAppend(xs[1..], ys);
    }
  }

  /** An attribute with plain parts is read back from its text. */
  lemma AttributeRoundTrip(a: Attribute)
    requires PlainAttribute(a)
    ensures ParseAttribute(AttributeStr(a)) == Some(a)
  {
    AttributeSplits(a);
    AttributeWordsRoundTrip(a);
  }

  /** The text of an attribute with plain parts splits back into its words. */
  lemma AttributeSplits(a: Attribute)
    requires PlainAttribute(a)
    ensures Strings.Split(AttributeStr(a), " ") == AttributeWords(a)
  {
    var ws := AttributeWords(a);
    AttributeStrIsJoin(a);
    forall i | 0 <= i < |ws|
      ensures ' ' !in ws[i]
    {
      if a.mult.Some? && i == |ws| - 1 {
        assert ws[i] == MultStr(a.mult.value);
      }
    }
    Strings.SplitJoin(ws, ' ');
  }

  /** The words of an attribute with plain parts are read back as it. */
  lemma AttributeWordsRoundTrip(a: Attribute)
    requires PlainAttribute(a)
    ensures ParseAttributeWords(AttributeWords(a)) == Some(a)
  {
    var ws := AttributeWords(a);
    if a.mult.Some? {
      MultRoundTrip(a.mult.value);
    }
    if a.typ.None? {
      assert ws[0] == a.name;
      if |a.name| > 0 {
        assert a.name[|a.name| - 1] != ':';
      }
      assert ws[1..] == ValueWords(a) + MultWords(a);
    } else {
      var w := a.name + ":";
      assert w[..|w| - 1] == a.name;
      assert ws[2..] == ValueWords(a) + MultWords(a);
    }
  }
}

=== FILE: gsolver.dfy ===
/** The constraint back end over corner variables: every box has a lower-left
    and an upper-right corner, each hook of the pre-layout pass becomes
    equalities, centring or "at least" constraints between consecutive
    nodes, and two of the constraint kinds carry their own solving step. */
module GSolver {
  import opened Wrappers
  import opened Seqs
  import opened Style
  import opened Data
  import PreLayout

  // ---------------------------------------------------------------------
  // Variables and valuations

  datatype Axis = X | Y
  datatype Corner = Ll | Ur

  /** A solver variable: a coordinate of a corner of a box, or of a point of a line. */
  datatype GVar = BoxVar(id: string, corner: Corner, axis: Axis) | PointVar(id: string, index: nat, axis: Axis)

  /** Current values of the variables; a variable never set is at the origin. */
  type Valuation = map<GVar, real>

  function Val(m: Valuation, v: GVar): real {
    if v in m then m[v] else 0.0
  }

  function Left(m: Valuation, id: string): real { Val(m, BoxVar(id, Ll, X)) }
  function Right(m: Valuation, id: string): real { Val(m, BoxVar(id, Ur, X)) }
  function Lower(m: Valuation, id: string): real { Val(m, BoxVar(id, Ll, Y)) }
  function Upper(m: Valuation, id: string): real { Val(m, BoxVar(id, Ur, Y)) }

  /** The tolerance below which two centres count as equal. */
  const Eps: real := 0.000001

  function Abs(x: real): real { if x < 0.0 then -x else x }
  function Max(a: real, b: real): real { if a >= b then a else b }

  // ---------------------------------------------------------------------
  // Constraints

  /** `LessThanConstraint`, the library's equality and centre constraints,
      and `CenterLinesConstraint` over two intervals. */
  datatype GConstraint =
    | LessThan(smaller: GVar, bigger: GVar, delta: real)
    | Equals(a: GVar, b: GVar)
    | CenterOf(lo: GVar, hi: GVar, center: GVar)
    | CenterLines(l1: (GVar, GVar), l2: (GVar, GVar))

  /** Width of an interval and its centre. */
  function Width(m: Valuation, l: (GVar, GVar)): real { Val(m, l.1) - Val(m, l.0) }
  function Centre(m: Valuation, l: (GVar, GVar)): real { Val(m, l.0) + Width(m, l) / 2.0 }

  /** All constraints of a sequence hold. */
  predicate AllHold(m: Valuation, cs: seq<GConstraint>) {
    forall i :: 0 <= i < |cs| ==> Holds(m, cs[i])
  }

  /** When a constraint is satisfied. */
  predicate Holds(m: Valuation, c: GConstraint) {
    match c
    case LessThan(s, b, d) => Val(m, b) >= Val(m, s) + d
    case Equals(a, b) => Val(m, a) == Val(m, b)
    case CenterOf(lo, hi, ce) => (Val(m, lo) + Val(m, hi)) / 2.0 == Val(m, ce)
    case CenterLines(l1, l2) => Abs(Centre(m, l1) - Centre(m, l2)) <= Eps
  }

  /** `LessThanConstraint.solve_for`: when `smaller` is not below `bigger - delta`,
      `bigger` is raised to `smaller + delta`. Only `bigger` ever changes, and
      only upwards; afterwards the constraint holds unless both are one variable. */
  function SolveLessThan(m: Valuation, smaller: GVar, bigger: GVar, delta: real): (r: Valuation)
    ensures forall v :: v != bigger ==> Val(r, v) == Val(m, v)
    ensures Val(r, bigger) >= Val(m, bigger)
    ensures smaller != bigger ==> Holds(r, LessThan(smaller, bigger, delta))
    ensures Val(m, smaller) < Val(m, bigger) - delta ==> r == m
    ensures r != m ==> Val(r, bigger) == Val(m, smaller) + delta
  {
    if Val(m, smaller) >= Val(m, bigger) - delta then m[bigger := Val(m, smaller) + delta] else m
  }

  /** Solving a "less than" twice changes nothing the first solve left. */
  lemma SolveLessThanIdempotent(m: Valuation, smaller: GVar, bigger: GVar, delta: real)
    requires smaller != bigger
    ensures var r := SolveLessThan(m, smaller, bigger, delta);
            SolveLessThan(r, smaller, bigger, delta) == r
  {
    var r := SolveLessThan(m, smaller, bigger, delta);
    if Val(r, smaller) >= Val(r, bigger) - delta {
      assert Val(r, bigger) == Val(r, smaller) + delta;
      assert r[bigger := Val(r, smaller) + delta] == r;
    }
  }

  /** The centring step on an ordered pair of intervals. */
  function Lines(m: Valuation, l1: (GVar, GVar), l2: (GVar, GVar)): Valuation {
    var w1 := Width(m, l1);
    var w2 := Width(m, l2);
    var v1 := Centre(m, l1);
    var v2 := Centre(m, l2);
    if Abs(v1 - v2) > Eps then
      var c := Max(v1, v2);
      m[l1.0 := c - w1 / 2.0][l1.1 := c + w1 / 2.0][l2.0 := c - w2 / 2.0][l2.1 := c + w2 / 2.0]
    else m
  }

  /** `CenterLinesConstraint.solve_for`: the intervals swap roles when the
      variable solved for belongs to the second one. */
  function SolveLines(m: Valuation, l1: (GVar, GVar), l2: (GVar, GVar), v: GVar): Valuation {
    if v == l2.0 || v == l2.1 then Lines(m, l2, l1) else Lines(m, l1, l2)
  }

  predicate FourVars(l1: (GVar, GVar), l2: (GVar, GVar)) {
    l1.0 != l1.1 && l1.0 != l2.0 && l1.0 != l2.1 && l1.1 != l2.0 && l1.1 != l2.1 && l2.0 != l2.1
  }

  /** For four distinct variables the centring step is symmetric, so the
      variable solved for does not matter. */
  lemma SolveLinesAnyVar(m: Valuation, l1: (GVar, GVar), l2: (GVar, GVar), v: GVar)
    requires FourVars(l1, l2)
    ensures SolveLines(m, l1, l2, v) == Lines(m, l1, l2)
  {
    var w1, w2 := Width(m, l1), Width(m, l2);
    var v1, v2 := Centre(m, l1), Centre(m, l2);
    if Abs(v1 - v2) > Eps {
      var c := Max(v1, v2);
      assert Max(v2, v1) == c;
      assert Abs(v2 - v1) > Eps;
      var a := m[l1.0 := c - w1 / 2.0][l1.1 := c + w1 / 2.0][l2.0 := c - w2 / 2.0][l2.1 := c + w2 / 2.0];
      var b := m[l2.0 := c - w2 / 2.0][l2.1 := c + w2 / 2.0][l1.0 := c - w1 / 2.0][l1.1 := c + w1 / 2.0];
      assert a == b;
    } else {
      assert Abs(v2 - v1) <= Eps;
    }
  }

  /** After the centring step on distinct variables: when the centres were
      apart, both intervals are centred on the larger centre and keep their
      widths; otherwise nothing changes. No other variable changes. */
  lemma LinesCentre(m: Valuation, l1: (GVar, GVar), l2: (GVar, GVar))
    requires FourVars(l1, l2)
    ensures var r := Lines(m, l1, l2);
            forall v :: v != l1.0 && v != l1.1 && v != l2.0 && v != l2.1 ==> Val(r, v) == Val(m, v)
    ensures var r := Lines(m, l1, l2);
            Abs(Centre(m, l1) - Centre(m, l2)) > Eps ==>
              Centre(r, l1) == Centre(r, l2) == Max(Centre(m, l1), Centre(m, l2)) &&
              Width(r, l1) == Width(m, l1) && Width(r, l2) == Width(m, l2) && Holds(r, CenterLines(l1, l2))
    ensures Abs(Centre(m, l1) - Centre(m, l2)) <= Eps ==> Lines(m, l1, l2) == m
  {
  }

  // ---------------------------------------------------------------------
  // Constraint generation

  function Var(id: string, c: Corner, a: Axis): GVar { BoxVar(id, c, a) }

  /** `size`: the upper-right corner is at least the current size away from the lower-left one. */
  function SizeCons(boxes: Store<BoxStyle>, id: string): (r: seq<GConstraint>)
    ensures |r| == 2
  {
    var s := BoxOf(boxes, id).size;
    [LessThan(Var(id, Ll, X), Var(id, Ur, X), s.width), LessThan(Var(id, Ll, Y), Var(id, Ur, Y), s.height)]
  }

  /** `within`: the node sits inside its parent, inset by the parent's left and
      right padding, its height from below, and its bottom padding from above. */
  function WithinCons(boxes: Store<BoxStyle>, p: string, n: string): (r: seq<GConstraint>)
    ensures |r| == 4
  {
    var ps := BoxOf(boxes, p);
    [LessThan(Var(p, Ll, X), Var(n, Ll, X), ps.padding.left),
     LessThan(Var(n, Ur, X), Var(p, Ur, X), ps.padding.right),
     LessThan(Var(p, Ll, Y), Var(n, Ll, Y), ps.size.height),
     LessThan(Var(n, Ur, Y), Var(p, Ur, Y), ps.padding.bottom)]
  }

  /** The size constraints hold exactly when the box is at least its current size. */
  lemma SizeMeaning(m: Valuation, boxes: Store<BoxStyle>, id: string)
    ensures AllHold(m, SizeCons(boxes, id)) <==>
              Right(m, id) >= Left(m, id) + BoxOf(boxes, id).size.width &&
              Upper(m, id) >= Lower(m, id) + BoxOf(boxes, id).size.height
  {
    var cs := SizeCons(boxes, id);
    if Holds(m, cs[0]) && Holds(m, cs[1]) {
      forall i | 0 <= i < |cs|
        ensures Holds(m, cs[i])
      {
      }
    }
  }

  /** The containment constraints hold exactly when the node's box lies in
      the parent's, inset by the parent's left padding, right padding, height
      (from below) and bottom padding (from above). */
  lemma WithinMeaning(m: Valuation, boxes: Store<BoxStyle>, p: string, n: string)
    ensures var ps := BoxOf(boxes, p);
            AllHold(m, WithinCons(boxes, p, n)) <==>
              Left(m, n) >= Left(m, p) + ps.padding.left && Right(m, p) >= Right(m, n) + ps.padding.right &&
              Lower(m, n) >= Lower(m, p) + ps.size.height && Upper(m, p) >= Upper(m, n) + ps.padding.bottom
  {
    var cs := WithinCons(boxes, p, n);
    if Holds(m, cs[0]) && Holds(m, cs[1]) && Holds(m, cs[2]) && Holds(m, cs[3]) {
      forall i | 0 <= i < |cs|
        ensures Holds(m, cs[i])
      {
      }
    }
  }

  /** The constraint a hook puts between two consecutive nodes. The vertical
      span is the corrected one, see `VspanAsWritten`. */
  function PairCons(h: PreLayout.Hook, boxes: Store<BoxStyle>, a: string, b: string): GConstraint {
    match h
    case TopHook => Equals(Var(a, Ur, Y), Var(b, Ur, Y))
    case BottomHook => Equals(Var(a, Ll, Y), Var(b, Ll, Y))
    case LeftHook => Equals(Var(a, Ll, X), Var(b, Ll, X))
    case RightHook => Equals(Var(a, Ur, X), Var(b, Ur, X))
    case CenterHook => CenterLines((Var(a, Ll, X), Var(a, Ur, X)), (Var(b, Ll, X), Var(b, Ur, X)))
    case MiddleHook => CenterLines((Var(a, Ll, Y), Var(a, Ur, Y)), (Var(b, Ll, Y), Var(b, Ur, Y)))
    case HspanHook =>
      LessThan(Var(a, Ur, X), Var(b, Ll, X), BoxOf(boxes, a).margin.right + BoxOf(boxes, b).margin.left)
    case VspanHook => Vspan(boxes, a, b)
  }

  /** `vspan` as the source writes it: the second box's top at least the
      margins above the first box's bottom. */
  function VspanAsWritten(boxes: Store<BoxStyle>, a: string, b: string): GConstraint {
    LessThan(Var(a, Ll, Y), Var(b, Ur, Y), BoxOf(boxes, a).margin.bottom + BoxOf(boxes, b).margin.top)
  }

  /** `vspan` as intended: the first box stands above the second, its bottom
      at least the margins above the second box's top. */
  function Vspan(boxes: Store<BoxStyle>, a: string, b: string): GConstraint {
    LessThan(Var(b, Ur, Y), Var(a, Ll, Y), BoxOf(boxes, a).margin.bottom + BoxOf(boxes, b).margin.top)
  }

  /** Two boxes lie one above the other, `gap` apart. */
  predicate Stacked(m: Valuation, a: string, b: string, gap: real) {
    Lower(m, a) >= Upper(m, b) + gap
  }

  /** Boxes whose vertical extents overlap. */
  predicate OverlapY(m: Valuation, a: string, b: string) {
    Lower(m, a) < Upper(m, b) && Lower(m, b) < Upper(m, a)
  }

  /** The written `vspan` is met by two boxes at the same place: with default
      margins, two 80 by 40 boxes at the origin overlap yet satisfy it. */
  lemma VspanAsWrittenAdmitsOverlap()
    ensures var m: Valuation := map[Var("a", Ll, X) := 0.0, Var("a", Ur, X) := 80.0, Var("a", Ll, Y) := 0.0,
                                    Var("a", Ur, Y) := 40.0, Var("b", Ll, X) := 0.0, Var("b", Ur, X) := 80.0,
                                    Var("b", Ll, Y) := 0.0, Var("b", Ur, Y) := 40.0];
            Holds(m, VspanAsWritten(map[], "a", "b")) && OverlapY(m, "a", "b") && !Holds(m, Vspan(map[], "a", "b"))
  {
  }

  /** The corrected `vspan` separates the boxes: when it holds and margins are
      not negative, the first box is entirely above the second. */
  lemma VspanSeparates(m: Valuation, boxes: Store<BoxStyle>, a: string, b: string)
    requires BoxOf(boxes, a).margin.bottom + BoxOf(boxes, b).margin.top >= 0.0
    requires Lower(m, a) <= Upper(m, a) && Lower(m, b) <= Upper(m, b)
    ensures Holds(m, Vspan(boxes, a, b)) <==> Stacked(m, a, b, BoxOf(boxes, a).margin.bottom + BoxOf(boxes, b).margin.top)
    ensures Holds(m, Vspan(boxes, a, b)) ==> !OverlapY(m, a, b)
  {
  }

  /** What each hook means for two consecutive boxes once its constraint holds. */
  lemma PairMeaning(m: Valuation, boxes: Store<BoxStyle>, a: string, b: string)
    ensures Holds(m, PairCons(PreLayout.TopHook, boxes, a, b)) <==> Upper(m, a) == Upper(m, b)
    ensures Holds(m, PairCons(PreLayout.BottomHook, boxes, a, b)) <==> Lower(m, a) == Lower(m, b)
    ensures Holds(m, PairCons(PreLayout.LeftHook, boxes, a, b)) <==> Left(m, a) == Left(m, b)
    ensures Holds(m, PairCons(PreLayout.RightHook, boxes, a, b)) <==> Right(m, a) == Right(m, b)
    ensures Holds(m, PairCons(PreLayout.CenterHook, boxes, a, b)) <==>
              Abs((Left(m, a) + Right(m, a)) / 2.0 - (Left(m, b) + Right(m, b)) / 2.0) <= Eps
    ensures Holds(m, PairCons(PreLayout.MiddleHook, boxes, a, b)) <==>
              Abs((Lower(m, a) + Upper(m, a)) / 2.0 - (Lower(m, b) + Upper(m, b)) / 2.0) <= Eps
    ensures Holds(m, PairCons(PreLayout.HspanHook, boxes, a, b)) <==>
              Left(m, b) >= Right(m, a) + BoxOf(boxes, a).margin.right + BoxOf(boxes, b).margin.left
  {
  }

  /** `_apply`: the hook's constraint on each consecutive pair of nodes, in order. */
  function HookCons(h: PreLayout.Hook, boxes: Store<BoxStyle>, ids: seq<string>): (r: seq<GConstraint>)
    ensures |ids| >= 1 ==> |r| == |ids| - 1
    ensures |ids| == 0 ==> r == []
    ensures forall i :: 0 <= i < |r| ==> r[i] == PairCons(h, boxes, ids[i], ids[i + 1])
  {
    var ps := Pairs(ids);
    seq(|ps|, i requires 0 <= i < |ps| => PairCons(h, boxes, ps[i].0, ps[i].1))
  }

  /** Chained equalities align the whole group: once the `top` constraints of
      a group hold, every node's top edge equals the first node's. */
  lemma {:induction false} TopChainAligned(m: Valuation, boxes: Store<BoxStyle>, ids: seq<string>, k: nat)
    requires AllHold(m, HookCons(PreLayout.TopHook, boxes, ids))
    requires k < |ids|
    ensures Upper(m, ids[k]) == Upper(m, ids[0])
    decreases k
  {
    if k > 0 {
      TopChainAligned(m, boxes, ids, k - 1);
      PairMeaning(m, boxes, ids[k - 1], ids[k]);
      assert Holds(m, HookCons(PreLayout.TopHook, boxes, ids)[k - 1]);
    }
  }

  /** Chained horizontal spans order the group: once they hold (with margins
      not negative and boxes not inverted), the boxes run strictly left to right. */
  lemma {:induction false} HspanChainOrdered(m: Valuation, boxes: Store<BoxStyle>, ids: seq<string>, j: nat, k: nat)
    requires AllHold(m, HookCons(PreLayout.HspanHook, boxes, ids))
    requires forall i :: 0 <= i < |ids| ==> BoxOf(boxes, ids[i]).margin.left >= 0.0 && BoxOf(boxes, ids[i]).margin.right >= 0.0
    requires forall i :: 0 <= i < |ids| ==> Left(m, ids[i]) <= Right(m, ids[i])
    requires j < k < |ids|
    ensures Right(m, ids[j]) <= Left(m, ids[k])
    decreases k - j
  {
    PairMeaning(m, boxes, ids[k - 1], ids[k]);
    assert Holds(m, HookCons(PreLayout.HspanHook, boxes, ids)[k - 1]);
    if j < k - 1 {
      HspanChainOrdered(m, boxes, ids, j, k - 1);
    }
  }

  /** The constraints of one pre-layout call. */
  function CallCons(boxes: Store<BoxStyle>, c: PreLayout.Call): seq<GConstraint> {
    match c
    case SizeCall(id) => SizeCons(boxes, id)
    case WithinCall(p, id) => WithinCons(boxes, p, id)
    case HookCall(h, ids) => HookCons(h, boxes, ids)
  }

  /** The names of the relationships `n_dependency` handles. */
  predicate Connecting(k: Node) {
    k.nclass == RelationshipClass &&
    (k.cls == "dependency" || k.cls == "commentline" || k.cls == "connector" ||
     k.cls == "generalization" || k.cls == "association")
  }

  /** `n_dependency`: the line's first point on the right edge of the tail,
      vertically centred on it, and its second point on the left edge of the
      head, centred on it. None when the line does not have exactly two
      points (the source fails to unpack them). */
  function EdgeCons(lines: Store<LineStyle>, e: Node): (r: Option<seq<GConstraint>>)
    ensures r.Some? <==> (e.id in lines ==> |lines[e.id].edges| == 2)
    ensures r.Some? ==> |r.value| == 4
  {
    var n := if e.id in lines then |lines[e.id].edges| else |DefaultLine.edges|;
    if n != 2 then None
    else
      var p1x, p1y := PointVar(e.id, 0, X), PointVar(e.id, 0, Y);
      var p2x, p2y := PointVar(e.id, 1, X), PointVar(e.id, 1, Y);
      Some([Equals(Var(e.tail, Ur, X), p1x), CenterOf(Var(e.tail, Ll, Y), Var(e.tail, Ur, Y), p1y),
            Equals(Var(e.head, Ll, X), p2x), CenterOf(Var(e.head, Ll, Y), Var(e.head, Ur, Y), p2y)])
  }

  /** Once the line constraints hold, the line leaves the tail's right edge at
      its middle height and enters the head's left edge at its middle height. */
  lemma EdgeMeaning(m: Valuation, lines: Store<LineStyle>, e: Node)
    requires EdgeCons(lines, e).Some? && AllHold(m, EdgeCons(lines, e).value)
    ensures Val(m, PointVar(e.id, 0, X)) == Right(m, e.tail)
    ensures Val(m, PointVar(e.id, 0, Y)) == (Lower(m, e.tail) + Upper(m, e.tail)) / 2.0
    ensures Val(m, PointVar(e.id, 1, X)) == Left(m, e.head)
    ensures Val(m, PointVar(e.id, 1, Y)) == (Lower(m, e.head) + Upper(m, e.head)) / 2.0
  {
    var cs := EdgeCons(lines, e).value;
    assert Holds(m, cs[0]) && Holds(m, cs[1]) && Holds(m, cs[2]) && Holds(m, cs[3]);
  }

  function Flatten(css: seq<seq<GConstraint>>): seq<GConstraint> {
    if |css| == 0 then [] else css[0] + Flatten(css[1..])
  }

  /** The constraints of a node as the traversal meets it. */
  function NodeCons(root: Node, infos: PreLayout.Infos, boxes: Store<BoxStyle>, lines: Store<LineStyle>, k: Node): Option<seq<GConstraint>> {
    if PreLayout.Constrained(k) then
      var calls :- PreLayout.Constrain(root, infos, k);
      Some(Flatten(seq(|calls|, i requires 0 <= i < |calls| => CallCons(boxes, calls[i]))))
    else if Connecting(k) then EdgeCons(lines, k)
    else Some([])
  }

  function WalkCons(root: Node, infos: PreLayout.Infos, boxes: Store<BoxStyle>, lines: Store<LineStyle>, ns: seq<Node>): Option<seq<GConstraint>>
    decreases |ns|
  {
    if |ns| == 0 then Some([])
    else
      var mine :- NodeCons(root, infos, boxes, lines, ns[0]);
      var rest :- WalkCons(root, infos, boxes, lines, ns[1..]);
      Some(mine + rest)
  }

  /** The diagram is given a 1000 by 1000 size before the constraints are made. */
  function Sized1000(root: Node, boxes: Store<BoxStyle>): (r: Store<BoxStyle>)
    ensures BoxOf(r, root.id).size == Size(1000.0, 1000.0)
    ensures forall id :: id != root.id ==> BoxOf(r, id) == BoxOf(boxes, id)
  {
    boxes[root.id := BoxOf(boxes, root.id).(size := Size(1000.0, 1000.0))]
  }

  /** `layout`: the diagram's size, then the constraints of every node in
      postorder, which the library solver then solves. */
  function Layout(root: Node, infos: PreLayout.Infos, boxes: Store<BoxStyle>, lines: Store<LineStyle>): Option<seq<GConstraint>> {
    WalkCons(root, infos, Sized1000(root, boxes), lines, Postorder(root))
  }

  /** The diagram's own size constraints ask for at least 1000 by 1000. */
  lemma LayoutSizesDiagram(root: Node, boxes: Store<BoxStyle>)
    ensures SizeCons(Sized1000(root, boxes), root.id) ==
            [LessThan(Var(root.id, Ll, X), Var(root.id, Ur, X), 1000.0), LessThan(Var(root.id, Ll, Y), Var(root.id, Ur, Y), 1000.0)]
  {
  }
}

=== FILE: mplayout.dfy ===
/** The MetaPost layout back end: node ids become MetaPost names without the
    digits 1 and 2, and each alignment hook emits one equation per pair of
    consecutive nodes, spans keeping the larger of the margins and the
    recorded line length apart. */
module MpLayout {
  import opened Wrappers
  import opened Seqs
  import opened Style
  import Strings
  import PreLayout

  // ---------------------------------------------------------------------
  // Names

  /** `id2mp` as the source writes it: `a` doubled, then `1` to `a`, `b`
      doubled, then `2` to `b`. */
  function IdToMpAsWritten(id: string): string {
    var s1 := Strings.Replace(id, "a", "aa");
    var s2 := Strings.Replace(s1, "1", "a");
    var s3 := Strings.Replace(s2, "b", "bb");
    Strings.Replace(s3, "2", "b")
  }

  /** The written renaming leaves no `1` and no `2`, and leaves alone any id
      with none of `a`, `b`, `1`, `2`. */
  lemma AsWrittenDigitsGone(id: string)
    ensures '1' !in IdToMpAsWritten(id) && '2' !in IdToMpAsWritten(id)
    ensures ('a' !in id && 'b' !in id && '1' !in id && '2' !in id) ==> IdToMpAsWritten(id) == id
  {
    var s1 := Strings.Replace(id, "a", "aa");
    var s2 := Strings.Replace(s1, "1", "a");
    var s3 := Strings.Replace(s2, "b", "bb");
    var r := Strings.Replace(s3, "2", "b");
    if '1' in r {
      Strings.ReplaceCharChars(s3, '2', "b", '1');
      Strings.ReplaceCharChars(s2, 'b', "bb", '1');
      Strings.ReplaceCharChars(s1, '1', "a", '1');
    }
    if '2' in r {
      Strings.ReplaceCharChars(s3, '2', "b", '2');
    }
    if 'a' !in id && 'b' !in id && '1' !in id && '2' !in id {
      Strings.AbsentFirstChar(id, "a");
      Strings.ReplaceAbsent(id, "a", "aa");
      Strings.AbsentFirstChar(id, "1");
      Strings.ReplaceAbsent(id, "1", "a");
      Strings.AbsentFirstChar(id, "b");
      Strings.ReplaceAbsent(id, "b", "bb");
      Strings.AbsentFirstChar(id, "2");
      Strings.ReplaceAbsent(id, "2", "b");
    }
  }

  /** The written renaming merges ids: `1a` and `a1` both become `aaa`. */
  lemma AsWrittenNotInjective()
    ensures IdToMpAsWritten("1a") == IdToMpAsWritten("a1") == "aaa"
  {
    assert Strings.Replace("1a", "a", "aa") == "1aa" by {
      assert !Strings.StartsWith("1a", "a");
      assert "1a"[1..] == "a";
      assert Strings.StartsWith("a", "a");
      assert "a"[1..] == "";
    }
    assert Strings.Replace("1aa", "1", "a") == "aaa" by {
      assert Strings.StartsWith("1aa", "1");
      assert "1aa"[1..] == "aa";
      Strings.AbsentFirstChar("aa", "1");
      Strings.ReplaceAbsent("aa", "1", "a");
    }
    assert Strings.Replace("a1", "a", "aa") == "aa1" by {
      assert Strings.StartsWith("a1", "a");
      assert "a1"[1..] == "1";
      Strings.AbsentFirstChar("1", "a");
      Strings.ReplaceAbsent("1", "a", "aa");
    }
    assert Strings.Replace("aa1", "1", "a") == "aaa" by {
      Strings.ReplaceCharConcat("aa", "1", "1", "a");
      assert "aa" + "1" == "aa1";
      Strings.AbsentFirstChar("aa", "1");
      Strings.ReplaceAbsent("aa", "1", "a");
      assert Strings.StartsWith("1", "1");
      assert "1"[1..] == "";
    }
    Strings.AbsentFirstChar("aaa", "b");
    Strings.ReplaceAbsent("aaa", "b", "bb");
    Strings.AbsentFirstChar("aaa", "2");
    Strings.ReplaceAbsent("aaa", "2", "b");
  }

  /** The code of one character: `a`, `1`, `b`, `2` become two letters each,
      the first letter telling the pair apart from every other code. */
  function Code(c: char): (r: string)
    ensures '1' !in r && '2' !in r
    ensures (c != 'a' && c != 'b' && c != '1' && c != '2') <==> r == [c]
  {
    if c == 'a' then "aa" else if c == '1' then "ab"
    else if c == 'b' then "bb" else if c == '2' then "ba"
    else [c]
  }

  /** `id2mp` as intended: a digit-free name from which the id can be read back. */
  function IdToMp(id: string): (r: string)
    ensures '1' !in r && '2' !in r
    decreases |id|
  {
    if |id| == 0 then [] else Code(id[0]) + IdToMp(id[1..])
  }

  /** Reading a name back into the id. */
  function MpToId(t: string): string
    decreases |t|
  {
    if |t| == 0 then []
    else if |t| >= 2 && t[0] == 'a' then (if t[1] == 'a' then "a" else "1") + MpToId(t[2..])
    else if |t| >= 2 && t[0] == 'b' then (if t[1] == 'b' then "b" else "2") + MpToId(t[2..])
    else [t[0]] + MpToId(t[1..])
  }

  /** The intended renaming can be undone. */
  lemma {:induction false} MpRoundTrip(id: string)
    ensures MpToId(IdToMp(id)) == id
    decreases |id|
  {
    if |id| > 0 {
      MpRoundTrip(id[1..]);
      var c := id[0];
      var t := IdToMp(id);
      assert t == Code(c) + IdToMp(id[1..]);
      if c == 'a' || c == '1' || c == 'b' || c == '2' {
        assert t[2..] == IdToMp(id[1..]);
      } else {
        assert t[1..] == IdToMp(id[1..]);
      }
      assert id == [c] + id[1..];
    }
  }

  /** So different ids get different names. */
  lemma IdToMpInjective(x: string, y: string)
    ensures IdToMp(x) == IdToMp(y) ==> x == y
  {
    MpRoundTrip(x);
    MpRoundTrip(y);
  }

  /** Ids with none of `a`, `b`, `1`, `2` keep their name. */
  lemma {:induction false} IdToMpPlain(id: string)
    requires 'a' !in id && 'b' !in id && '1' !in id && '2' !in id
    ensures IdToMp(id) == id
    decreases |id|
  {
    if |id| > 0 {
      assert id[0] in id;
      assert Code(id[0]) == [id[0]];
      assert forall c :: c in id[1..] ==> c in id;
      IdToMpPlain(id[1..]);
      assert id == [id[0]] + id[1..];
    }
  }

  // ---------------------------------------------------------------------
  // Equations

  /** Line lengths recorded between pairs of node ids. */
  type Edges = map<(string, string), real>

  /** `n_dependency`: the length 50 is recorded both ways. */
  function Dependency(edges: Edges, t: string, h: string): (r: Edges)
    ensures r.Keys == edges.Keys + {(t, h), (h, t)}
    ensures r[(t, h)] == 50.0 && r[(h, t)] == 50.0
    ensures forall k :: k in edges && k != (t, h) && k != (h, t) ==> r[k] == edges[k]
  {
    edges[(t, h) := 50.0][(h, t) := 50.0]
  }

  /** An equation of the MetaPost layout: a coordinate of a named point of
      two boxes set equal (`ypart a.n = ypart b.n;`), or the distance between
      points of two boxes fixed (`xpart b.w - xpart a.e = gap;`). */
  datatype MpEq =
    | Same(part: string, point: string, a: string, b: string)
    | Distance(part: string, p1: string, x: string, p2: string, y: string, gap: real)

  function Get(edges: Edges, k: (string, string)): real {
    if k in edges then edges[k] else 0.0
  }

  function MaxR(a: real, b: real): real { if a >= b then a else b }

  /** The equation a hook emits for two consecutive nodes. */
  function PairEq(h: PreLayout.Hook, boxes: Store<BoxStyle>, edges: Edges, k1: string, k2: string): MpEq {
    var id1, id2 := IdToMp(k1), IdToMp(k2);
    match h
    case TopHook => Same("ypart", "n", id1, id2)
    case BottomHook => Same("ypart", "s", id1, id2)
    case LeftHook => Same("xpart", "w", id1, id2)
    case RightHook => Same("xpart", "e", id1, id2)
    case CenterHook => Same("xpart", "c", id1, id2)
    case MiddleHook => Same("ypart", "c", id1, id2)
    case HspanHook =>
      var w := BoxOf(boxes, k1).margin.right + BoxOf(boxes, k2).margin.left;
      Distance("xpart", "w", id2, "e", id1, MaxR(w, Get(edges, (k1, k2))))
    case VspanHook =>
      var w := BoxOf(boxes, k1).margin.bottom + BoxOf(boxes, k2).margin.top;
      Distance("ypart", "s", id1, "n", id2, MaxR(w, Get(edges, (k1, k2))))
  }

  /** A span keeps the boxes the larger of their facing margins and the line
      recorded between them (0 when none) apart; the alignment hooks equate one
      coordinate of the same point of both boxes. */
  lemma PairEqMeaning(h: PreLayout.Hook, boxes: Store<BoxStyle>, edges: Edges, k1: string, k2: string)
    ensures var e := PairEq(h, boxes, edges, k1, k2);
            (e.Distance? <==> h == PreLayout.HspanHook || h == PreLayout.VspanHook) &&
            (e.Same? ==> e.a == IdToMp(k1) && e.b == IdToMp(k2))
    ensures var e := PairEq(PreLayout.HspanHook, boxes, edges, k1, k2);
            var w := BoxOf(boxes, k1).margin.right + BoxOf(boxes, k2).margin.left;
            e.gap >= w && e.gap >= Get(edges, (k1, k2)) && (e.gap == w || e.gap == Get(edges, (k1, k2))) &&
            e.x == IdToMp(k2) && e.y == IdToMp(k1)
    ensures var e := PairEq(PreLayout.VspanHook, boxes, edges, k1, k2);
            var w := BoxOf(boxes, k1).margin.bottom + BoxOf(boxes, k2).margin.top;
            e.gap >= w && e.gap >= Get(edges, (k1, k2)) && (e.gap == w || e.gap == Get(edges, (k1, k2))) &&
            e.x == IdToMp(k1) && e.y == IdToMp(k2)
  {
  }

  /** A dependency between two nodes widens a span between them to at least 50. */
  lemma DependencyWidensSpan(boxes: Store<BoxStyle>, edges: Edges, t: string, h: string)
    ensures PairEq(PreLayout.HspanHook, boxes, Dependency(edges, t, h), t, h).gap >= 50.0
    ensures PairEq(PreLayout.HspanHook, boxes, Dependency(edges, t, h), h, t).gap >= 50.0
    ensures PairEq(PreLayout.VspanHook, boxes, Dependency(edges, t, h), t, h).gap >= 50.0
  {
  }

  /** The hook's equations: exactly one per consecutive pair, in order. */
  function HookEqs(h: PreLayout.Hook, boxes: Store<BoxStyle>, edges: Edges, ids: seq<string>): (r: seq<MpEq>)
    ensures |ids| >= 1 ==> |r| == |ids| - 1
    ensures |ids| == 0 ==> r == []
    ensures forall i :: 0 <= i < |r| ==> r[i] == PairEq(h, boxes, edges, ids[i], ids[i + 1])
  {
    var ps := Pairs(ids);
    seq(|ps|, i requires 0 <= i < |ps| => PairEq(h, boxes, edges, ps[i].0, ps[i].1))
  }

  /** The equation sets a coordinate of boxes `a` and `b` equal. */
  predicate Joins(e: MpEq, a: string, b: string) {
    e.Same? && e.a == IdToMp(a) && e.b == IdToMp(b)
  }

  /** Equations only ever join neighbours: two nodes share an equation of an
      alignment group exactly when they are consecutive in it. */
  lemma HookEqsNeighbours(h: PreLayout.Hook, boxes: Store<BoxStyle>, edges: Edges, ids: seq<string>, a: string, b: string)
    requires h != PreLayout.HspanHook && h != PreLayout.VspanHook
    ensures (exists e :: e in HookEqs(h, boxes, edges, ids) && Joins(e, a, b)) <==>
            exists i :: 0 <= i < |ids| - 1 && ids[i] == a && ids[i + 1] == b
  {
    if exists e :: e in HookEqs(h, boxes, edges, ids) && Joins(e, a, b) {
      JoinedAreNeighbours(h, boxes, edges, ids, a, b);
    }
    if exists i :: 0 <= i < |ids| - 1 && ids[i] == a && ids[i + 1] == b {
      NeighboursAreJoined(h, boxes, edges, ids, a, b);
    }
  }

  lemma JoinedAreNeighbours(h: PreLayout.Hook, boxes: Store<BoxStyle>, edges: Edges, ids: seq<string>, a: string, b: string)
    requires h != PreLayout.HspanHook && h != PreLayout.VspanHook
    requires exists e :: e in HookEqs(h, boxes, edges, ids) && Joins(e, a, b)
    ensures exists i :: 0 <= i < |ids| - 1 && ids[i] == a && ids[i + 1] == b
  {
    var r := HookEqs(h, boxes, edges, ids);
    var e :| e in r && Joins(e, a, b);
    var i :| 0 <= i < |r| && r[i] == e;
    PairEqMeaning(h, boxes, edges, ids[i], ids[i + 1]);
    IdToMpInjective(ids[i], a);
    IdToMpInjective(ids[i + 1], b);
  }

  lemma NeighboursAreJoined(h: PreLayout.Hook, boxes: Store<BoxStyle>, edges: Edges, ids: seq<string>, a: string, b: string)
    requires h != PreLayout.HspanHook && h != PreLayout.VspanHook
    requires exists i :: 0 <= i < |ids| - 1 && ids[i] == a && ids[i + 1] == b
    ensures exists e :: e in HookEqs(h, boxes, edges, ids) && Joins(e, a, b)
  {
    var r := HookEqs(h, boxes, edges, ids);
    var i :| 0 <= i < |ids| - 1 && ids[i] == a && ids[i + 1] == b;
    PairEqMeaning(h, boxes, edges, a, b);
    assert Joins(r[i], a, b);
  }

  /** The equations of one pre-layout call: size and containment emit none. */
  function CallEqs(boxes: Store<BoxStyle>, edges: Edges, c: PreLayout.Call): (r: seq<MpEq>)
    ensures !c.HookCall? ==> r == []
  {
    match c
    case HookCall(h, ids) => HookEqs(h, boxes, edges, ids)
    case _ => []
  }
}

=== FILE: mprender.dfy ===
/** Token helpers of the MetaPost renderer: MetaPost names for element ids,
    TeX boxes for texts, the TeX form of an element's name, and the list of
    compartments drawn below the name. */
module MpRender {
  import opened Wrappers
  import Strings

  /** The `i`-th capital letter, `A` to `Z`. */
  function Letter(i: nat): char
    requires i < 26
  {
    ('A' as int + i) as char
  }

  /** The `i`-th digit, `0` to `9`. */
  function Digit(i: nat): char
    requires i < 10
  {
    ('0' as int + i) as char
  }

  predicate IsUpper(c: char) {
    'A' <= c <= 'Z'
  }

  // ---------------------------------------------------------------------
  // Names as written

  /** Steps `i` to 9 of the renaming loop: the `i`-th capital letter is
      doubled, then the `i`-th digit becomes that letter. */
  function Shift(id: string, i: nat): string
    requires i <= 10
    decreases 10 - i
  {
    if i == 10 then id
    else
      var l := Letter(i);
      Shift(Strings.Replace(Strings.Replace(id, [l], [l, l]), [Digit(i)], [l]), i + 1)
  }

  /** `id2mp` as the source writes it: `H` doubled and `-` turned into `H`,
      the MetaPost keyword `dir` doubled, then the capital letters `A` to
      `J` doubled and the digits `0` to `9` turned into them. */
  function IdToMpAsWritten(id: string): string {
    var s1 := Strings.Replace(Strings.Replace(id, "H", "HH"), "-", "H");
    var s2 := Strings.Replace(s1, "dir", "dirdir");
    Shift(s2, 0)
  }

  /** A character that is never a capital letter survives the loop only
      if it was there before. */
  lemma {:induction false} ShiftKeepsOut(id: string, i: nat, c: char)
    requires i <= 10 && c !in id && !IsUpper(c)
    ensures c !in Shift(id, i)
    decreases 10 - i
  {
    if i < 10 {
      var l := Letter(i);
      var t := Strings.Replace(id, [l], [l, l]);
      Strings.ReplaceKeepsOut(id, [l], [l, l], c);
      Strings.ReplaceKeepsOut(t, [Digit(i)], [l], c);
      ShiftKeepsOut(Strings.Replace(t, [Digit(i)], [l]), i + 1, c);
    }
  }

  /** The loop removes the digits it reaches: only digits below the `i`-th
      can be left. */
  lemma {:induction false} ShiftRemovesDigits(id: string, i: nat)
    requires i <= 10
    ensures forall c :: c in Shift(id, i) && IsDigit(c) ==> c as int - '0' as int < i
    decreases 10 - i
  {
    if i < 10 {
      var l := Letter(i);
      var t := Strings.Replace(Strings.Replace(id, [l], [l, l]), [Digit(i)], [l]);
      if Digit(i) in t {
        Strings.ReplaceCharChars(Strings.Replace(id, [l], [l, l]), Digit(i), [l], Digit(i));
      }
      ShiftKeepsOut(t, i + 1, Digit(i));
      ShiftRemovesDigits(t, i + 1);
    }
  }

  /** A text with none of the letters and digits still to come passes the
      rest of the loop unchanged. */
  lemma {:induction false} ShiftPlain(id: string, i: nat)
    requires i <= 10
    requires forall j :: i <= j < 10 ==> Letter(j) !in id && Digit(j) !in id
    ensures Shift(id, i) == id
    decreases 10 - i
  {
    if i < 10 {
      var l := Letter(i);
      Strings.AbsentFirstChar(id, [l]);
      Strings.ReplaceAbsent(id, [l], [l, l]);
      Strings.AbsentFirstChar(id, [Digit(i)]);
      Strings.ReplaceAbsent(id, [Digit(i)], [l]);
      ShiftPlain(id, i + 1);
    }
  }

  predicate IsDigit(c: char) {
    '0' <= c <= '9'
  }

  /** A character of an id that is left as it is: a lower-case letter or `_`. */
  predicate IsPlain(c: char) {
    'a' <= c <= 'z' || c == '_'
  }

  /** The written renaming leaves no `-`. */
  lemma AsWrittenNoDash(id: string)
    ensures '-' !in IdToMpAsWritten(id)
  {
    var s0 := Strings.Replace(id, "H", "HH");
    var s1 := Strings.Replace(s0, "-", "H");
    var s2 := Strings.Replace(s1, "dir", "dirdir");
    if '-' in s1 {
      Strings.ReplaceCharChars(s0, '-', "H", '-');
    }
    Strings.ReplaceKeepsOut(s1, "dir", "dirdir", '-');
    ShiftKeepsOut(s2, 0, '-');
  }

  /** The written renaming leaves no digit. */
  lemma AsWrittenNoDigit(id: string)
    ensures forall c :: c in IdToMpAsWritten(id) ==> !IsDigit(c)
  {
    var s1 := Strings.Replace(Strings.Replace(id, "H", "HH"), "-", "H");
    var s2 := Strings.Replace(s1, "dir", "dirdir");
    ShiftRemovesDigits(s2, 0);
  }

  /** The written renaming keeps any id of lower-case letters and `_` that
      does not contain `dir`. */
  lemma AsWrittenPlain(id: string)
    requires forall c :: c in id ==> IsPlain(c)
    requires !Strings.Contains(id, "dir")
    ensures IdToMpAsWritten(id) == id
  {
    Strings.AbsentFirstChar(id, "H");
    Strings.ReplaceAbsent(id, "H", "HH");
    Strings.AbsentFirstChar(id, "-");
    Strings.ReplaceAbsent(id, "-", "H");
    Strings.ReplaceAbsent(id, "dir", "dirdir");
    forall j | 0 <= j < 10
      ensures Letter(j) !in id && Digit(j) !in id
    {
      assert !IsPlain(Letter(j)) && !IsPlain(Digit(j));
    }
    ShiftPlain(id, 0);
  }

  /** The written renaming merges ids: `A` and `00` both become `AA`. */
  lemma AsWrittenCollides()
    ensures IdToMpAsWritten("A") == IdToMpAsWritten("00") == "AA"
  {
    PrefixSteps("A");
    PrefixSteps("00");
    assert Strings.Replace("A", "A", "AA") == "AA" by {
      assert Strings.StartsWith("A", "A");
      assert "A"[1..] == [];
    }
    Strings.AbsentFirstChar("AA", "0");
    Strings.ReplaceAbsent("AA", "0", "A");
    Strings.AbsentFirstChar("00", "A");
    Strings.ReplaceAbsent("00", "A", "AA");
    assert Strings.Replace("00", "0", "A") == "AA" by {
      assert Strings.StartsWith("00", "0");
      assert "00"[1..] == "0";
      assert Strings.StartsWith("0", "0");
      assert "0"[1..] == [];
    }
    ShiftPlain("AA", 1);
  }

  /** The steps before the loop leave a text of capital letters other
      than `H` and of digits unchanged. */
  lemma PrefixSteps(id: string)
    requires forall c :: c in id ==> c == 'A' || c == '0'
    ensures Strings.Replace(Strings.Replace(Strings.Replace(id, "H", "HH"), "-", "H"), "dir", "dirdir") == id
  {
    Strings.AbsentFirstChar(id, "H");
    Strings.ReplaceAbsent(id, "H", "HH");
    Strings.AbsentFirstChar(id, "-");
    Strings.ReplaceAbsent(id, "-", "H");
    Strings.AbsentFirstChar(id, "dir");
    Strings.ReplaceAbsent(id, "dir", "dirdir");
  }

  // ---------------------------------------------------------------------
  // Names as intended

  /** The capital letters `A` to `J` that stand in for the digits. */
  predicate IsDigitLetter(c: char) {
    'A' <= c <= 'J'
  }

  /** The code of one character: a letter `A`..`J` is doubled, a digit
      becomes its letter followed by `Z`, and `-` becomes `HY`; any other
      character stays. */
  function Code(c: char): (r: string)
    ensures forall d :: d in r ==> !IsDigit(d) && d != '-'
    ensures IsPlain(c) ==> r == [c]
  {
    if IsDigitLetter(c) then [c, c]
    else if IsDigit(c) then [(c as int - '0' as int + 'A' as int) as char, 'Z']
    else if c == '-' then "HY"
    else [c]
  }

  function Encode(s: string): (r: string)
    ensures forall d :: d in r ==> !IsDigit(d) && d != '-'
    ensures (forall c :: c in s ==> IsPlain(c)) ==> r == s
    decreases |s|
  {
    if |s| == 0 then []
    else
      var r := Code(s[0]) + Encode(s[1..]);
      assert forall c :: c in s[1..] ==> c in s;
      r
  }

  /** Reading codes back into characters. */
  function Decode(t: string): string
    decreases |t|
  {
    if |t| == 0 then []
    else if |t| >= 2 && IsDigitLetter(t[0]) then
      (if t[1] == 'Z' then [(t[0] as int - 'A' as int + '0' as int) as char]
       else if t[0] == 'H' && t[1] == 'Y' then "-"
       else [t[0]]) + Decode(t[2..])
    else [t[0]] + Decode(t[1..])
  }

  lemma {:induction false} DecodeEncode(s: string)
    ensures Decode(Encode(s)) == s
    decreases |s|
  {
    if |s| > 0 {
      DecodeEncode(s[1..]);
      DecodeCode(s[0], Encode(s[1..]));
      assert s == [s[0]] + s[1..];
    }
  }

  /** Decoding reads one character's code back, whatever follows it. */
  lemma DecodeCode(c: char, rest: string)
    ensures Decode(Code(c) + rest) == [c] + Decode(rest)
  {
    var t := Code(c) + rest;
    if IsDigitLetter(c) || IsDigit(c) || c == '-' {
      assert t[2..] == rest;
    } else {
      assert t[1..] == rest;
    }
  }

  /** Halving each doubled `dir`. */
  function UnDir(t: string): string
    decreases |t|
  {
    if Strings.StartsWith(t, "dirdir") then "dir" + UnDir(t[6..])
    else if |t| == 0 then []
    else [t[0]] + UnDir(t[1..])
  }

  /** Doubling `dir` can be undone. */
  lemma {:induction false} UnDirDoubled(s: string)
    ensures UnDir(Strings.Replace(s, "dir", "dirdir")) == s
    decreases |s|
  {
    var t := Strings.Replace(s, "dir", "dirdir");
    if |s| > 0 {
      if Strings.StartsWith(s, "dir") {
        UnDirDoubled(s[3..]);
        assert t == "dirdir" + Strings.Replace(s[3..], "dir", "dirdir");
        assert t[..6] == "dirdir" && t[6..] == Strings.Replace(s[3..], "dir", "dirdir");
        assert s == "dir" + s[3..];
      } else {
        UnDirDoubled(s[1..]);
        NotDoubledHere(s);
        assert t[1..] == Strings.Replace(s[1..], "dir", "dirdir");
        assert s == [s[0]] + s[1..];
      }
    }
  }

  /** A text that does not start with `dir` does not start with `dirdir`
      once its `dir`s are doubled. */
  lemma NotDoubledHere(s: string)
    requires |s| > 0 && !Strings.StartsWith(s, "dir")
    ensures !Strings.StartsWith(Strings.Replace(s, "dir", "dirdir"), "dirdir")
  {
    var t := Strings.Replace(s, "dir", "dirdir");
    var s1 := s[1..];
    var r1 := Strings.Replace(s1, "dir", "dirdir");
    assert t == [s[0]] + r1;
    if s[0] != 'd' {
      MismatchAt(t, "dirdir", 0);
    } else if |s1| > 0 {
      Strings.ReplaceHead(s1, "dir", "dirdir");
      if s1[0] != 'i' {
        MismatchAt(t, "dirdir", 1);
      } else {
        var s2 := s1[1..];
        var r2 := Strings.Replace(s2, "dir", "dirdir");
        assert r1 == [s1[0]] + r2;
        if |s2| > 0 {
          Strings.ReplaceHead(s2, "dir", "dirdir");
          assert s2[0] != 'r' by {
            assert s[..3] == [s[0], s1[0], s2[0]];
          }
          MismatchAt(t, "dirdir", 2);
        }
      }
    }
  }

  /** A text that differs from `p` at a position of both does not start with `p`. */
  lemma MismatchAt(t: string, p: string, k: nat)
    requires k < |p| && (k < |t| ==> t[k] != p[k])
    ensures !Strings.StartsWith(t, p)
  {
    if |p| <= |t| {
      assert t[..|p|][k] != p[k];
    }
  }

  /** `id2mp` as intended: a MetaPost token without `-` and digits from
      which the id can be read back; plain ids keep their name. */
  function IdToMp(id: string): (r: string)
    ensures '-' !in r && forall c :: c in r ==> !IsDigit(c)
    ensures (forall c :: c in id ==> IsPlain(c)) && !Strings.Contains(id, "dir") ==> r == id
  {
    DirAbsent(id);
    Encode(Strings.Replace(id, "dir", "dirdir"))
  }

  lemma DirAbsent(id: string)
    ensures !Strings.Contains(id, "dir") ==> Strings.Replace(id, "dir", "dirdir") == id
  {
    if !Strings.Contains(id, "dir") {
      Strings.ReplaceAbsent(id, "dir", "dirdir");
    }
  }

  /** Reading a name back into the id. */
  function MpToId(t: string): string {
    UnDir(Decode(t))
  }

  lemma MpRoundTrip(id: string)
    ensures MpToId(IdToMp(id)) == id
  {
    DecodeEncode(Strings.Replace(id, "dir", "dirdir"));
    UnDirDoubled(id);
  }

  /** Different ids get different names. */
  lemma IdToMpInjective(x: string, y: string)
    ensures IdToMp(x) == IdToMp(y) <==> x == y
  {
    MpRoundTrip(x);
    MpRoundTrip(y);
  }

  // ---------------------------------------------------------------------
  // TeX boxes

  function HBox(s: string): string {
    "\\hbox{" + s + "}"
  }

  /** The horizontal boxes of some lines, one after the other. */
  function HBoxes(ls: seq<string>): (r: string)
    ensures |ls| > 0 ==> Strings.StartsWith(r, "\\hbox{")
    ensures |r| >= 7 * |ls|
  {
    if |ls| == 0 then [] else HBox(ls[0]) + HBoxes(ls[1..])
  }

  /** The lines of a text written with literal `\n` between them. */
  function Lines(text: string): (r: seq<string>)
    ensures |r| >= 1
    ensures Strings.Join(r, Strings.LiteralNewline) == text
  {
    Strings.JoinSplit(text, Strings.LiteralNewline);
    Strings.Split(text, Strings.LiteralNewline)
  }

  /** `qstr`: a one-line text goes into an `\hbox`, a text of several
      lines into a `\vbox` of one `\hbox` per line. */
  function Qstr(text: string): (r: string)
    ensures |Lines(text)| == 1 ==> r == HBox(text)
    ensures |Lines(text)| > 1 ==> r == "\\vbox{" + HBoxes(Lines(text)) + "}"
  {
    var ls := Lines(text);
    if |ls| > 1 then "\\vbox{" + HBoxes(ls) + "}"
    else
      assert Strings.Join(ls, Strings.LiteralNewline) == ls[0];
      HBox(ls[0])
  }

  /** The text between a common prefix and a common suffix is determined. */
  lemma StripAround(p: string, x: string, y: string, q: string)
    requires p + x + q == p + y + q
    ensures x == y
  {
    assert |x| == |y|;
    assert x == (p + x + q)[|p|..|p| + |x|];
    assert y == (p + y + q)[|p|..|p| + |y|];
  }

  /** Inside a box followed by anything, the `n`-th character after
      `\hbox{` closes the box exactly at the end of the line, or is a
      character of the line. */
  lemma BoxCloseAt(a: string, rest: string, n: nat)
    requires n <= |a|
    ensures 6 + n < |HBox(a) + rest|
    ensures n == |a| ==> (HBox(a) + rest)[6 + n] == '}'
    ensures (HBox(a) + rest)[6 + n] == '}' ==> n == |a| || '}' in a
  {
    if n < |a| {
      assert (HBox(a) + rest)[6 + n] == a[n];
    }
  }

  /** Lines without a closing brace are determined by their boxes. */
  lemma {:induction false} HBoxesInjective(xs: seq<string>, ys: seq<string>)
    requires forall i :: 0 <= i < |xs| ==> '}' !in xs[i]
    requires forall i :: 0 <= i < |ys| ==> '}' !in ys[i]
    requires HBoxes(xs) == HBoxes(ys)
    ensures xs == ys
    decreases |xs|
  {
    if |xs| > 0 && |ys| > 0 {
      var a, b := xs[0], ys[0];
      var l, r := HBoxes(xs), HBoxes(ys);
      assert l == HBox(a) + HBoxes(xs[1..]) && r == HBox(b) + HBoxes(ys[1..]);
      // compare the first boxes where the shorter line ends
      var n := if |a| < |b| then |a| else |b|;
      BoxCloseAt(a, HBoxes(xs[1..]), n);
      BoxCloseAt(b, HBoxes(ys[1..]), n);
      assert |a| == |b|;
      assert a == l[6..6 + |a|] && b == r[6..6 + |b|];
      assert HBoxes(xs[1..]) == l[7 + |a|..] && HBoxes(ys[1..]) == r[7 + |b|..];
      HBoxesInjective(xs[1..], ys[1..]);
      assert xs == [a] + xs[1..] && ys == [b] + ys[1..];
    } else {
      assert |HBoxes(xs)| >= 7 * |xs| && |HBoxes(ys)| >= 7 * |ys|;
    }
  }

  /** The lines of a text without a closing brace have none either. */
  lemma LinesKeepOut(text: string)
    requires '}' !in text
    ensures forall i :: 0 <= i < |Lines(text)| ==> '}' !in Lines(text)[i]
  {
    Strings.SplitFromKeepsOut(text, Strings.LiteralNewline, [], '}');
  }

  /** The box of a text without a closing brace determines the text: a
      one-line text gives an `\hbox` and a longer one a `\vbox`, and the
      boxes give back the lines, which give back the text. */
  lemma QstrInjective(x: string, y: string)
    requires '}' !in x && '}' !in y
    requires Qstr(x) == Qstr(y)
    ensures x == y
  {
    var lx, ly := Lines(x), Lines(y);
    assert Qstr(x)[1] == (if |lx| == 1 then 'h' else 'v');
    assert Qstr(y)[1] == (if |ly| == 1 then 'h' else 'v');
    if |lx| == 1 {
      StripAround("\\hbox{", x, y, "}");
    } else {
      StripAround("\\vbox{", HBoxes(lx), HBoxes(ly), "}");
      LinesKeepOut(x);
      LinesKeepOut(y);
      HBoxesInjective(lx, ly);
    }
  }

  /** With the same options, the name's box determines a name without a
      closing brace. */
  lemma NameBoxInjective(x: string, y: string, underline: bool, bold: bool)
    requires '}' !in x && '}' !in y
    requires NameBox(x, underline, bold) == NameBox(y, underline, bold)
    ensures x == y
  {
    var nx := if bold then "\\bf " + Qstr(x) else Qstr(x);
    var ny := if bold then "\\bf " + Qstr(y) else Qstr(y);
    if underline {
      StripAround("\\underbar{", nx, ny, "}");
    }
    assert nx == ny;
    if bold {
      StripAround("\\bf ", Qstr(x), Qstr(y), []);
    }
    QstrInjective(x, y);
  }

  /** `_name_s` keeps names apart: with the same stereotypes and options,
      two names without a closing brace give the same TeX only when they
      are the same name. */
  lemma NameSInjective(stereotypes: seq<string>, x: string, y: string, underline: bool, bold: bool,
                       stFmt: seq<string> -> string)
    requires '}' !in x && '}' !in y
    requires NameS(stereotypes, x, underline, bold, stFmt) == NameS(stereotypes, y, underline, bold, stFmt)
    ensures x == y
  {
    if |stereotypes| > 0 {
      var p := StereotypeOpen + StFmt(stereotypes, stFmt) + StereotypeSep;
      StripAround(p, NameBox(x, underline, bold), NameBox(y, underline, bold), StereotypeClose);
    }
    NameBoxInjective(x, y, underline, bold);
  }

  /** A text with no literal `\n` is one line. */
  lemma {:induction false} SplitAbsent(s: string, sep: string, cur: string)
    requires |sep| > 0 && !Strings.Contains(s, sep)
    ensures Strings.SplitFrom(s, sep, cur) == [cur + s]
    decreases |s|
  {
    if Strings.StartsWith(s, sep) {
      assert Strings.OccursAt(s, sep, 0);
    } else if |s| > 0 {
      assert !Strings.Contains(s[1..], sep) by {
        if Strings.Contains(s[1..], sep) {
          var i :| 0 <= i <= |s[1..]| && Strings.OccursAt(s[1..], sep, i);
          assert s[1..][i..i + |sep|] == s[i + 1..i + 1 + |sep|];
          assert Strings.OccursAt(s, sep, i + 1);
        }
      }
      SplitAbsent(s[1..], sep, cur + [s[0]]);
      assert cur + [s[0]] + s[1..] == cur + s;
    } else {
      assert cur + s == cur;
    }
  }

  lemma QstrOneLine(text: string)
    requires !Strings.Contains(text, Strings.LiteralNewline)
    ensures Qstr(text) == HBox(text)
  {
    SplitAbsent(text, Strings.LiteralNewline, []);
    assert [] + text == text;
  }

  // ---------------------------------------------------------------------
  // Names and compartments

  /** The stereotype line of the MetaPost renderer: the common format with
      the guillemet pairs `<<` and `>>` turned into TeX symbols. How a list
      of stereotypes is written is given as `stFmt`. */
  function StFmt(stereotypes: seq<string>, stFmt: seq<string> -> string): string {
    Strings.Replace(Strings.Replace(stFmt(stereotypes), "<<", "$\\ll$"), ">>", "$\\gg$")
  }

  const StereotypeOpen := "\\vbox{\\halign{\\hfil \\quad # \\hfil \\cr "
  const StereotypeSep := " \\cr "
  const StereotypeClose := " \\cr}}"

  /** The name's box, in bold face and underlined as asked. */
  function NameBox(name: string, underline: bool, bold: bool): (r: string)
    ensures bold && !underline ==> r == "\\bf " + Qstr(name)
    ensures underline ==> Strings.StartsWith(r, "\\underbar{")
    ensures !bold && !underline ==> r == Qstr(name)
  {
    var n := if bold then "\\bf " + Qstr(name) else Qstr(name);
    if underline then "\\underbar{" + n + "}" else n
  }

  /** `_name_s`: the name's box, stacked below the stereotype line when
      the element has stereotypes. */
  function NameS(stereotypes: seq<string>, name: string, underline: bool, bold: bool,
                 stFmt: seq<string> -> string): (r: string)
    ensures |stereotypes| == 0 ==> r == NameBox(name, underline, bold)
    ensures |stereotypes| > 0 ==>
      r == StereotypeOpen + StFmt(stereotypes, stFmt) + StereotypeSep + NameBox(name, underline, bold) + StereotypeClose
  {
    var n := NameBox(name, underline, bold);
    if |stereotypes| > 0 then StereotypeOpen + StFmt(stereotypes, stFmt) + StereotypeSep + n + StereotypeClose
    else n
  }

  /** A feature listed inside an element: an attribute, an operation, a
      group of stereotype attributes, or anything else. */
  datatype Feature = Attribute(name: string) | Operation(name: string)
                   | StAttributes(name: string, attrs: seq<string>) | OtherFeature

  datatype Compartment = Compartment(id: char, title: string, data: string)

  function AttrNames(fs: seq<Feature>): (r: seq<string>)
    ensures |r| <= |fs|
    ensures forall n :: n in r <==> Attribute(n) in fs
  {
    if |fs| == 0 then []
    else
      var rest := AttrNames(fs[1..]);
      assert forall f :: f in fs <==> f == fs[0] || f in fs[1..];
      if fs[0].Attribute? then [fs[0].name] + rest else rest
  }

  function OperNames(fs: seq<Feature>): (r: seq<string>)
    ensures |r| <= |fs|
    ensures forall n :: n in r <==> Operation(n) in fs
  {
    if |fs| == 0 then []
    else
      var rest := OperNames(fs[1..]);
      assert forall f :: f in fs <==> f == fs[0] || f in fs[1..];
      if fs[0].Operation? then [fs[0].name] + rest else rest
  }

  function StGroups(fs: seq<Feature>): (r: seq<Feature>)
    ensures |r| <= |fs|
    ensures forall f :: f in r <==> f in fs && f.StAttributes?
  {
    if |fs| == 0 then []
    else
      var rest := StGroups(fs[1..]);
      assert forall f :: f in fs <==> f == fs[0] || f in fs[1..];
      if fs[0].StAttributes? then [fs[0]] + rest else rest
  }

  /** `_comp_s`: a compartment's box: its title line, when there is one,
      and one line per entry. */
  function CompS(comp: seq<string>, title: string): string {
    "\\vbox{" + (if title != [] then HBox(title) else []) + HBoxes(comp) + "}"
  }

  /** The title and contents of each compartment, before ids are given. */
  function Contents(fs: seq<Feature>, stFmt: seq<string> -> string): (r: seq<(string, string)>)
    ensures |r| == (if |AttrNames(fs)| > 0 then 1 else 0) + (if |OperNames(fs)| > 0 then 1 else 0) + |StGroups(fs)|
  {
    Untitled(fs) + GroupContents(StGroups(fs), stFmt)
  }

  /** The untitled compartments: attributes, then operations, each when
      there are any. */
  function Untitled(fs: seq<Feature>): (r: seq<(string, string)>)
    ensures |r| == (if |AttrNames(fs)| > 0 then 1 else 0) + (if |OperNames(fs)| > 0 then 1 else 0)
  {
    var attrs := AttrNames(fs);
    var opers := OperNames(fs);
    (if |attrs| > 0 then [("", CompS(attrs, ""))] else [])
      + (if |opers| > 0 then [("", CompS(opers, ""))] else [])
  }

  /** A stereotype attribute group's compartment, titled with its stereotype. */
  function GroupContent(g: Feature, stFmt: seq<string> -> string): (string, string)
    requires g.StAttributes?
  {
    var title := StFmt([g.name], stFmt);
    (title, CompS(g.attrs, title))
  }

  function GroupContents(gs: seq<Feature>, stFmt: seq<string> -> string): (r: seq<(string, string)>)
    requires forall i :: 0 <= i < |gs| ==> gs[i].StAttributes?
    ensures |r| == |gs| && forall i :: 0 <= i < |gs| ==> r[i] == GroupContent(gs[i], stFmt)
  {
    seq(|gs|, i requires 0 <= i < |gs| => GroupContent(gs[i], stFmt))
  }

  /** `_compartments`: the attributes' compartment (when there are
      attributes), then the operations' one (when there are operations),
      then one per stereotype attribute group, named `A`, `B`, `C`, ... in
      turn. There are only 26 names: a 27th compartment is an error. */
  function Compartments(fs: seq<Feature>, stFmt: seq<string> -> string): (r: Option<seq<Compartment>>)
    ensures r.None? <==> |Contents(fs, stFmt)| > 26
    ensures r.Some? ==> |r.value| == |Contents(fs, stFmt)|
    ensures r.Some? ==> forall i :: 0 <= i < |r.value| ==>
              r.value[i].id == Letter(i) && (r.value[i].title, r.value[i].data) == Contents(fs, stFmt)[i]
    ensures r.Some? && |AttrNames(fs)| > 0 ==> r.value[0].data == CompS(AttrNames(fs), "")
    ensures r.Some? && |AttrNames(fs)| == 0 && |OperNames(fs)| > 0 ==> r.value[0].data == CompS(OperNames(fs), "")
  {
    var cs := Contents(fs, stFmt);
    if |cs| > 26 then None
    else Some(seq(|cs|, i requires 0 <= i < |cs| => Compartment(Letter(i), cs[i].0, cs[i].1)))
  }
  /** Each compartment's kind can be read from its position: the
      attributes' box comes first when there are attributes, then the
      operations' box when there are operations, both untitled, then one
      compartment per stereotype attribute group (see `CompartmentOfGroup`);
      the ids run `A`, `B`, `C`, ... */
  lemma CompartmentsInOrder(fs: seq<Feature>, stFmt: seq<string> -> string)
    requires Compartments(fs, stFmt).Some?
    ensures var cs := Compartments(fs, stFmt).value;
            var a := if |AttrNames(fs)| > 0 then 1 else 0;
            var o := if |OperNames(fs)| > 0 then 1 else 0;
            && |cs| == a + o + |StGroups(fs)| <= 26
            && (a == 1 ==> cs[0] == Compartment('A', "", CompS(AttrNames(fs), "")))
            && (o == 1 ==> cs[a] == Compartment(Letter(a), "", CompS(OperNames(fs), "")))
  {
    ContentsHead(fs, stFmt);
  }

  /** The compartment of the `j`-th stereotype attribute group follows the
      untitled ones, is titled with the group's stereotype, and lists the
      group's attributes below the title. */
  lemma CompartmentOfGroup(fs: seq<Feature>, stFmt: seq<string> -> string, j: nat)
    requires Compartments(fs, stFmt).Some? && j < |StGroups(fs)|
    ensures var cs := Compartments(fs, stFmt).value;
            var k := (if |AttrNames(fs)| > 0 then 1 else 0) + (if |OperNames(fs)| > 0 then 1 else 0) + j;
            var g := StGroups(fs)[j];
            var title := StFmt([g.name], stFmt);
            && k < |cs| && k < 26
            && cs[k] == Compartment(Letter(k), title, CompS(g.attrs, title))
  {
    ContentsGroup(fs, stFmt, j);
  }

  /** The untitled compartments come first in the contents. */
  lemma ContentsHead(fs: seq<Feature>, stFmt: seq<string> -> string)
    ensures var ct := Contents(fs, stFmt);
            var a := if |AttrNames(fs)| > 0 then 1 else 0;
            && (a == 1 ==> ct[0] == ("", CompS(AttrNames(fs), "")))
            && (|OperNames(fs)| > 0 ==> ct[a] == ("", CompS(OperNames(fs), "")))
  {
    var pre := Untitled(fs);
    assert Contents(fs, stFmt)[..|pre|] == pre;
  }

  /** The `j`-th stereotype group's compartment follows the untitled ones. */
  lemma ContentsGroup(fs: seq<Feature>, stFmt: seq<string> -> string, j: nat)
    requires j < |StGroups(fs)|
    ensures StGroups(fs)[j].StAttributes?
    ensures |Untitled(fs)| + j < |Contents(fs, stFmt)|
    ensures Contents(fs, stFmt)[|Untitled(fs)| + j] == GroupContent(StGroups(fs)[j], stFmt)
  {
    var pre := Untitled(fs);
    var gs := GroupContents(StGroups(fs), stFmt);
    assert (pre + gs)[|pre| + j] == gs[j];
  }


}

=== FILE: parser.dfy ===
/** The semantic actions of the piUML parser, taken over token values the
    scanner has already split: the node cache, name and stereotype decoding,
    the indentation stack that parents nodes, and the decoding and UML checks
    of the relationship lines. Nodes are seen through the cache as their
    element kind (`class`, `component`, `comment`, ...). */
module Parser {
  import opened Wrappers
  import Strings

  /** Why a line is rejected. The `Uml` cases are the source's `UMLError`s,
      the other named ones its plain `ParseError`s; `NoParent` and `UnknownEnd`
      are the bare index and key errors the written code lets escape. */
  datatype Error =
    | NotDefined(id: string)
    | AlreadyDefined(id: string)
    | InconsistentIndentation
    | NoParent
    | UnknownEnd(c: char)
    | CommentLineEnds
    | ImportEnds
    | MergeEnds
    | ExtendEnds
    | NotComponent(id: string)
    | TooManyEnds
  {
    predicate Uml() {
      CommentLineEnds? || ImportEnds? || MergeEnds? || ExtendEnds? || NotComponent? || TooManyEnds?
    }
  }

  // ---------------------------------------------------------------------
  // Node cache

  /** The nodes defined so far, by id. */
  type Cache<V> = map<string, V>

  /** Looking a node up: an absent id is an error. */
  function Lookup<V>(c: Cache<V>, id: string): (r: Result<V, Error>)
    ensures r.Success? <==> id in c
    ensures r.Success? ==> r.value == c[id]
    ensures r.Failure? ==> r.error == NotDefined(id)
  {
    if id in c then Success(c[id]) else Failure(NotDefined(id))
  }

  /** Storing a node: an id may be defined only once. */
  function Store<V>(c: Cache<V>, id: string, v: V): (r: Result<Cache<V>, Error>)
    ensures r.Success? <==> id !in c
    ensures r.Failure? ==> r.error == AlreadyDefined(id)
    ensures r.Success? ==> r.value.Keys == c.Keys + {id}
  {
    if id in c then Failure(AlreadyDefined(id)) else Success(c[id := v])
  }

  /** After a successful store the node is found under its id, every other
      lookup answers as before, and storing the same id again fails. */
  lemma StoreLookup<V>(c: Cache<V>, id: string, v: V, other: string, w: V)
    requires Store(c, id, v).Success?
    ensures Lookup(Store(c, id, v).value, id) == Success(v)
    ensures other != id ==> Lookup(Store(c, id, v).value, other) == Lookup(c, other)
    ensures Store(Store(c, id, v).value, id, w) == Failure(AlreadyDefined(id))
  {
  }

  // ---------------------------------------------------------------------
  // Names

  /** `name_dequote`: drop the quote characters at both ends, then unescape
      `\"`, `\'`, `\\` and `\#`, one pass each, in that order. */
  function NameDequote(n: string): string {
    var inner := if |n| < 2 then [] else n[1..|n| - 1];
    var s1 := Strings.Replace(inner, "\\\"", "\"");
    var s2 := Strings.Replace(s1, "\\'", "'");
    var s3 := Strings.Replace(s2, "\\\\", "\\");
    Strings.Replace(s3, "\\#", "#")
  }

  /** How a diagram author writes a character inside a quoted name:
      backslash, both quote characters and `#` (which would otherwise start a
      comment) are escaped with a backslash. */
  function Escape(c: char): (r: string)
    ensures |r| > 0 && r[0] != '"' && r[0] != '\'' && r[0] != '#'
  {
    if c == '\\' || c == '"' || c == '\'' || c == '#' then ['\\', c] else [c]
  }

  function EscapeAll(s: string): string {
    if |s| == 0 then [] else Escape(s[0]) + EscapeAll(s[1..])
  }

  /** A name as written in a diagram: escaped and put between quotes `q`
      (the scanner accepts `"` and `'`). */
  function NameQuote(q: char, s: string): string {
    [q] + EscapeAll(s) + [q]
  }

  // The text after each of the first three unescaping passes.

  function AfterQuotes(s: string): string {
    if |s| == 0 then []
    else if s[0] == '\\' || s[0] == '\'' || s[0] == '#' then ['\\', s[0]] + AfterQuotes(s[1..])
    else [s[0]] + AfterQuotes(s[1..])
  }

  function AfterApostrophes(s: string): string {
    if |s| == 0 then []
    else if s[0] == '\\' || s[0] == '#' then ['\\', s[0]] + AfterApostrophes(s[1..])
    else [s[0]] + AfterApostrophes(s[1..])
  }

  function AfterBackslashes(s: string): string {
    if |s| == 0 then []
    else if s[0] == '#' then "\\#" + AfterBackslashes(s[1..])
    else [s[0]] + AfterBackslashes(s[1..])
  }

  lemma EscapeAllHead(s: string)
    ensures |EscapeAll(s)| == 0 || EscapeAll(s)[0] != '"'
  {
    if |s| > 0 {
      assert EscapeAll(s)[0] == Escape(s[0])[0];
    }
  }

  lemma AfterQuotesHead(s: string)
    ensures |AfterQuotes(s)| == 0 || AfterQuotes(s)[0] != '\''
  {
  }

  lemma AfterBackslashesHead(s: string)
    ensures |AfterBackslashes(s)| == 0 || AfterBackslashes(s)[0] != '#'
  {
  }

  lemma {:induction false} UnescapeQuotes(s: string)
    ensures Strings.Replace(EscapeAll(s), "\\\"", "\"") == AfterQuotes(s)
    decreases |s|
  {
    if |s| > 0 {
      var c, e := s[0], EscapeAll(s[1..]);
      UnescapeQuotes(s[1..]);
      assert EscapeAll(s) == Escape(c) + e;
      if c == '"' {
        Strings.ReplacePairHit('\\', '"', e, "\"");
      } else if c == '\\' {
        EscapeAllHead(s[1..]);
        Strings.ReplacePairMiss('\\', '"', c, e, "\"");
        Strings.ReplaceLoneHead('\\', '"', e, "\"");
      } else if c == '\'' || c == '#' {
        Strings.ReplacePairMiss('\\', '"', c, e, "\"");
        Strings.ReplaceFreePrefix([c], e, "\\\"", "\"");
      } else {
        Strings.ReplaceFreePrefix([c], e, "\\\"", "\"");
      }
    }
  }

  lemma {:induction false} UnescapeApostrophes(s: string)
    ensures Strings.Replace(AfterQuotes(s), "\\'", "'") == AfterApostrophes(s)
    decreases |s|
  {
    if |s| > 0 {
      var c, q := s[0], AfterQuotes(s[1..]);
      UnescapeApostrophes(s[1..]);
      if c == '\'' {
        Strings.ReplacePairHit('\\', '\'', q, "'");
      } else if c == '\\' {
        AfterQuotesHead(s[1..]);
        Strings.ReplacePairMiss('\\', '\'', c, q, "'");
        Strings.ReplaceLoneHead('\\', '\'', q, "'");
      } else if c == '#' {
        Strings.ReplacePairMiss('\\', '\'', c, q, "'");
        Strings.ReplaceFreePrefix([c], q, "\\'", "'");
      } else {
        Strings.ReplaceFreePrefix([c], q, "\\'", "'");
      }
    }
  }

  lemma {:induction false} UnescapeBackslashes(s: string)
    ensures Strings.Replace(AfterApostrophes(s), "\\\\", "\\") == AfterBackslashes(s)
    decreases |s|
  {
    if |s| > 0 {
      var c, a := s[0], AfterApostrophes(s[1..]);
      UnescapeBackslashes(s[1..]);
      if c == '\\' {
        Strings.ReplacePairHit('\\', '\\', a, "\\");
      } else if c == '#' {
        Strings.ReplacePairMiss('\\', '\\', c, a, "\\");
        Strings.ReplaceFreePrefix([c], a, "\\\\", "\\");
      } else {
        Strings.ReplaceFreePrefix([c], a, "\\\\", "\\");
      }
    }
  }

  lemma {:induction false} UnescapeHashes(s: string)
    ensures Strings.Replace(AfterBackslashes(s), "\\#", "#") == s
    decreases |s|
  {
    if |s| > 0 {
      var c, b := s[0], AfterBackslashes(s[1..]);
      UnescapeHashes(s[1..]);
      if c == '#' {
        Strings.ReplacePairHit('\\', '#', b, "#");
      } else if c == '\\' {
        AfterBackslashesHead(s[1..]);
        Strings.ReplaceLoneHead('\\', '#', b, "#");
      } else {
        Strings.ReplaceFreePrefix([c], b, "\\#", "#");
      }
      assert [c] + s[1..] == s;
    }
  }

  /** Dequoting undoes quoting: every name, whatever characters it holds,
      comes back unchanged from its written form. */
  lemma DequoteQuote(q: char, s: string)
    ensures NameDequote(NameQuote(q, s)) == s
  {
    var n := NameQuote(q, s);
    assert n[1..|n| - 1] == EscapeAll(s);
    UnescapeQuotes(s);
    UnescapeApostrophes(s);
    UnescapeBackslashes(s);
    UnescapeHashes(s);
  }

  // Each dequoting example of the scanner tests is the written form of its
  // expected result.

  lemma DequoteExample1()
    ensures NameDequote("\"aaa\"") == "aaa"
  {
    assert NameQuote('"', "aaa") == "\"aaa\"";
    DequoteQuote('"', "aaa");
  }

  lemma DequoteExample2()
    ensures NameDequote("'aaa'") == "aaa"
  {
    assert NameQuote('\'', "aaa") == "'aaa'";
    DequoteQuote('\'', "aaa");
  }

  lemma DequoteExample3()
    ensures NameDequote("'aa\\\\a'") == "aa\\a"
  {
    assert NameQuote('\'', "aa\\a") == "'aa\\\\a'";
    DequoteQuote('\'', "aa\\a");
  }

  lemma DequoteExample4()
    ensures NameDequote("\"aa\\\"a\"") == "aa\"a"
  {
    assert NameQuote('"', "aa\"a") == "\"aa\\\"a\"";
    DequoteQuote('"', "aa\"a");
  }

  lemma DequoteExample5()
    ensures NameDequote("'aa\\\\\\'a'") == "aa\\'a"
  {
    assert NameQuote('\'', "aa\\'a") == "'aa\\\\\\'a'";
    DequoteQuote('\'', "aa\\'a");
  }

  lemma DequoteExample6()
    ensures NameDequote("'aa\\\"a'") == "aa\"a"
  {
    assert NameQuote('\'', "aa\"a") == "'aa\\\"a'";
    DequoteQuote('\'', "aa\"a");
  }

  lemma DequoteExample7()
    ensures NameDequote("'aa\\#a'") == "aa#a"
  {
    assert NameQuote('\'', "aa#a") == "'aa\\#a'";
    DequoteQuote('\'', "aa#a");
  }

  /** The dequoting examples of the scanner tests. */
  lemma DequoteExamples()
    ensures NameDequote("\"aaa\"") == "aaa"
    ensures NameDequote("'aaa'") == "aaa"
    ensures NameDequote("'aa\\\\a'") == "aa\\a"
    ensures NameDequote("\"aa\\\"a\"") == "aa\"a"
    ensures NameDequote("'aa\\\\\\'a'") == "aa\\'a"
    ensures NameDequote("'aa\\\"a'") == "aa\"a"
    ensures NameDequote("'aa\\#a'") == "aa#a"
  {
    DequoteExample1();
    DequoteExample2();
    DequoteExample3();
    DequoteExample4();
    DequoteExample5();
    DequoteExample6();
    DequoteExample7();
  }

  /** A quoted name without backslashes is returned as it stands between
      the quotes. */
  lemma DequotePlain(q: char, s: string, q2: char)
    requires '\\' !in s
    ensures NameDequote([q] + s + [q2]) == s
  {
    var n := [q] + s + [q2];
    assert n[1..|n| - 1] == s;
    Strings.AbsentFirstChar(s, "\\\"");
    Strings.ReplaceAbsent(s, "\\\"", "\"");
    Strings.AbsentFirstChar(s, "\\'");
    Strings.ReplaceAbsent(s, "\\'", "'");
    Strings.AbsentFirstChar(s, "\\\\");
    Strings.ReplaceAbsent(s, "\\\\", "\\");
    Strings.AbsentFirstChar(s, "\\#");
    Strings.ReplaceAbsent(s, "\\#", "#");
  }

  // ---------------------------------------------------------------------
  // Stereotypes

  function StripAll(xs: seq<string>): (r: seq<string>)
    ensures |r| == |xs|
    ensures forall i :: 0 <= i < |r| ==> r[i] == Strings.Strip(xs[i])
  {
    if |xs| == 0 then [] else [Strings.Strip(xs[0])] + StripAll(xs[1..])
  }

  /** `st_parse`: remove every `<<` and `>>`, split on commas and strip each
      piece. There is always at least one stereotype, and none has
      surrounding blanks. */
  function StParse(st: string): (r: seq<string>)
    ensures |r| >= 1
    ensures forall i :: 0 <= i < |r| ==> Strings.Trimmed(r[i])
  {
    var s := Strings.Replace(Strings.Replace(st, "<<", ""), ">>", "");
    StripAll(Strings.Split(s, ","))
  }

  /** How stereotypes are written on a line: between guillemets, separated by
      commas. */
  function StFormat(xs: seq<string>): string {
    "<<" + Strings.Join(xs, ",") + ">>"
  }

  /** Removing the guillemets from a written stereotype list leaves the list
      between them. */
  lemma RemoveGuillemets(j: string)
    requires '<' !in j && '>' !in j
    ensures Strings.Replace(Strings.Replace("<<" + j + ">>", "<<", ""), ">>", "") == j
  {
    var w := "<<" + j + ">>";
    assert Strings.StartsWith(w, "<<") by { assert w[..2] == "<<"; }
    assert w[2..] == j + ">>";
    assert '<' !in j + ">>";
    Strings.AbsentFirstChar(j + ">>", "<<");
    Strings.ReplaceAbsent(j + ">>", "<<", "");
    assert Strings.Replace(w, "<<", "") == j + ">>";
    Strings.ReplaceFreePrefix(j, ">>", ">>", "");
    assert Strings.StartsWith(">>", ">>");
    assert Strings.Replace(">>", ">>", "") == "" + Strings.Replace("", ">>", "");
    assert j + "" == j;
  }

  /** Pieces that hold no comma and no angle bracket are read back from their
      written form with their blanks stripped. */
  lemma StParsePieces(ps: seq<string>)
    requires |ps| >= 1
    requires forall i :: 0 <= i < |ps| ==> ',' !in ps[i] && '<' !in ps[i] && '>' !in ps[i]
    ensures StParse(StFormat(ps)) == StripAll(ps)
  {
    var j := Strings.Join(ps, ",");
    assert '<' !in j && '>' !in j by {
      if '<' in j { Strings.JoinChars(ps, ",", '<'); }
      if '>' in j { Strings.JoinChars(ps, ",", '>'); }
    }
    RemoveGuillemets(j);
    Strings.SplitJoin(ps, ',');
  }

  lemma StripPaddedPiece(w1: string, t: string, w2: string)
    requires Strings.AllSpace(w1) && Strings.AllSpace(w2) && Strings.Trimmed(t)
    ensures Strings.Strip(w1 + t + w2) == t
  {
    Strings.StripPadded(w1, t, w2);
  }

  /** One written stereotype, read back without its surrounding blanks. */
  lemma StParseOnePadded(w1: string, t: string, w2: string)
    requires Strings.AllSpace(w1) && Strings.AllSpace(w2) && Strings.Trimmed(t)
    requires forall x | x in [w1, t, w2] :: ',' !in x && '<' !in x && '>' !in x
    ensures StParse("<<" + w1 + t + w2 + ">>") == [t]
  {
    var ps := [w1 + t + w2];
    assert Strings.Join(ps, ",") == w1 + t + w2;
    assert StFormat(ps) == "<<" + w1 + t + w2 + ">>";
    StParsePieces(ps);
    StripPaddedPiece(w1, t, w2);
  }

  lemma StParsePair(a: string, b: string)
    requires ',' !in a && '<' !in a && '>' !in a
    requires ',' !in b && '<' !in b && '>' !in b
    ensures StParse("<<" + a + "," + b + ">>") == [Strings.Strip(a), Strings.Strip(b)]
  {
    var ps := [a, b];
    assert ps[1..] == [b];
    assert Strings.Join(ps[1..], ",") == b;
    assert Strings.Join(ps, ",") == a + "," + b;
    assert StFormat(ps) == "<<" + a + "," + b + ">>";
    StParsePieces(ps);
  }

  /** Two written stereotypes, each read back without its surrounding
      blanks. */
  lemma StParseTwoPadded(w1: string, t: string, w2: string, w3: string, u: string, w4: string)
    requires Strings.AllSpace(w1) && Strings.AllSpace(w2) && Strings.Trimmed(t)
    requires Strings.AllSpace(w3) && Strings.AllSpace(w4) && Strings.Trimmed(u)
    requires forall x | x in [w1, t, w2, w3, u, w4] :: ',' !in x && '<' !in x && '>' !in x
    ensures StParse("<<" + w1 + t + w2 + "," + w3 + u + w4 + ">>") == [t, u]
  {
    var a, b := w1 + t + w2, w3 + u + w4;
    assert "<<" + w1 + t + w2 + "," + w3 + u + w4 + ">>" == "<<" + a + "," + b + ">>";
    StParsePair(a, b);
    StripPaddedPiece(w1, t, w2);
    StripPaddedPiece(w3, u, w4);
  }

  lemma StParseExample1()
    ensures StParse("<<test>>") == ["test"]
  {
    assert "<<" + "" + "test" + "" + ">>" == "<<test>>";
    StParseOnePadded("", "test", "");
  }

  lemma StParseExample2()
    ensures StParse("<< test >>") == ["test"]
  {
    assert "<<" + " " + "test" + " " + ">>" == "<< test >>";
    StParseOnePadded(" ", "test", " ");
  }

  lemma StParseExample3()
    ensures StParse("<<t1,t2>>") == ["t1", "t2"]
  {
    assert "<<" + "" + "t1" + "" + "," + "" + "t2" + "" + ">>" == "<<t1,t2>>";
    StParseTwoPadded("", "t1", "", "", "t2", "");
  }

  lemma StParseExample4()
    ensures StParse("<<t1, t2>>") == ["t1", "t2"]
  {
    assert "<<" + "" + "t1" + "" + "," + " " + "t2" + "" + ">>" == "<<t1, t2>>";
    StParseTwoPadded("", "t1", "", " ", "t2", "");
  }

  lemma StParseExample5()
    ensures StParse("<< t1,t2>>") == ["t1", "t2"]
  {
    assert "<<" + " " + "t1" + "" + "," + "" + "t2" + "" + ">>" == "<< t1,t2>>";
    StParseTwoPadded(" ", "t1", "", "", "t2", "");
  }

  lemma StParseExample6()
    ensures StParse("<< t1   ,   t2   >>") == ["t1", "t2"]
  {
    assert "<<" + " " + "t1" + "   " + "," + "   " + "t2" + "   " + ">>" == "<< t1   ,   t2   >>";
    StParseTwoPadded(" ", "t1", "   ", "   ", "t2", "   ");
  }

  /** The stereotype examples of the parser tests: blanks around names and
      commas do not matter. */
  lemma StParseExamples()
    ensures StParse("<<test>>") == ["test"]
    ensures StParse("<< test >>") == ["test"]
    ensures StParse("<<t1,t2>>") == ["t1", "t2"]
    ensures StParse("<<t1, t2>>") == ["t1", "t2"]
    ensures StParse("<< t1,t2>>") == ["t1", "t2"]
    ensures StParse("<< t1   ,   t2   >>") == ["t1", "t2"]
  {
    StParseExample1();
    StParseExample2();
    StParseExample3();
    StParseExample4();
    StParseExample5();
    StParseExample6();
  }

  lemma StripAllTrimmed(xs: seq<string>)
    requires forall i :: 0 <= i < |xs| ==> Strings.Trimmed(xs[i])
    ensures StripAll(xs) == xs
  {
    forall i | 0 <= i < |xs|
      ensures StripAll(xs)[i] == xs[i]
    {
      Strings.StripOfTrimmed(xs[i]);
    }
  }

  /** Trimmed stereotypes without commas or angle brackets survive writing and
      reading back. */
  lemma StParseFormat(xs: seq<string>)
    requires |xs| >= 1
    requires forall i :: 0 <= i < |xs| ==> Strings.Trimmed(xs[i])
    requires forall i :: 0 <= i < |xs| ==> ',' !in xs[i] && '<' !in xs[i] && '>' !in xs[i]
    ensures StParse(StFormat(xs)) == xs
  {
    StParsePieces(xs);
    StripAllTrimmed(xs);
  }

  // ---------------------------------------------------------------------
  // Indentation stack

  /** An open node on the indentation stack: its indentation and its id. */
  datatype Entry = Entry(level: nat, id: string)

  /** The shallower-line branch of `_set_parent`: pop until an entry at
      `level` or shallower has itself been popped. Gives the remaining stack
      and the level of that last popped entry, or nothing when the stack
      runs out (a pop from an empty list). */
  function PopUntil(st: seq<Entry>, level: nat): (r: Option<(seq<Entry>, nat)>)
    ensures r.Some? ==> |r.value.0| < |st| && r.value.0 == st[..|r.value.0|]
    ensures r.Some? ==> st[|r.value.0|].level == r.value.1 <= level
    ensures r.Some? ==> forall i :: |r.value.0| < i < |st| ==> st[i].level > level
    ensures r.None? <==> forall i :: 0 <= i < |st| ==> st[i].level > level
    decreases |st|
  {
    if |st| == 0 then None
    else if st[|st| - 1].level > level then PopUntil(st[..|st| - 1], level)
    else Some((st[..|st| - 1], st[|st| - 1].level))
  }

  /** `_set_parent`: place node `id`, indented by `level`, on the stack and
      give back the new stack and the id of the parent it is appended to. An
      equal level replaces the top (the root excepted), a deeper one pushes,
      a shallower one unwinds to an entry of the same level and replaces it.
      The new node always ends on top. */
  function SetParent(st: seq<Entry>, level: nat, id: string): (r: Result<(seq<Entry>, string), Error>)
    ensures r.Success? ==> |r.value.0| >= 2 && r.value.0[|r.value.0| - 1] == Entry(level, id)
    ensures r.Success? ==> r.value.1 == r.value.0[|r.value.0| - 2].id
    ensures r.Failure? ==> r.error == InconsistentIndentation || r.error == NoParent
  {
    if |st| == 0 then Failure(NoParent)
    else
      var top := st[|st| - 1].level;
      var pushed :- if top == level then
                      Success((if |st| > 1 then st[..|st| - 1] else st) + [Entry(level, id)])
                    else if top < level then
                      Success(st + [Entry(level, id)])
                    else
                      match PopUntil(st, level)
                      case None => Failure(NoParent)
                      case Some((rest, i)) =>
                        if i < level then Failure(InconsistentIndentation)
                        else Success(rest + [Entry(level, id)]);
      if |pushed| < 2 then Failure(NoParent)
      else Success((pushed, pushed[|pushed| - 2].id))
  }

  /** The stack shape the parser keeps: the root at the bottom, at level 0,
      and the open nodes above it strictly deeper one after the other. */
  predicate Nested(st: seq<Entry>, root: string) {
    && |st| >= 1
    && st[0] == Entry(0, root)
    && forall i, j :: 1 <= i < j < |st| ==> st[i].level < st[j].level
  }

  /** Reference definition of the parent of a node indented by `level`: the
      nearest open node that is indented less, or the root when there is
      none. */
  function Enclosing(st: seq<Entry>, level: nat): string
    requires |st| >= 1
  {
    if |st| == 1 then st[0].id
    else if st[|st| - 1].level < level then st[|st| - 1].id
    else Enclosing(st[..|st| - 1], level)
  }

  lemma {:induction false} EnclosingBelow(st: seq<Entry>, k: nat, level: nat)
    requires 1 <= k <= |st|
    requires forall i :: k <= i < |st| ==> st[i].level >= level
    ensures Enclosing(st, level) == Enclosing(st[..k], level)
    decreases |st|
  {
    if |st| > k {
      assert st[|st| - 1].level >= level;
      assert st[..|st| - 1][..k] == st[..k];
      EnclosingBelow(st[..|st| - 1], k, level);
    } else {
      assert st[..k] == st;
    }
  }

  lemma NestedPrefix(st: seq<Entry>, root: string, k: nat)
    requires Nested(st, root) && 1 <= k <= |st|
    ensures Nested(st[..k], root)
  {
  }

  lemma SetParentLevel(st: seq<Entry>, root: string, level: nat, id: string)
    requires Nested(st, root) && st[|st| - 1].level == level
    ensures SetParent(st, level, id).Success?
    ensures Nested(SetParent(st, level, id).value.0, root)
    ensures SetParent(st, level, id).value.1 == Enclosing(st, level)
  {
    var n := |st|;
    if n > 1 {
      EnclosingBelow(st, n - 1, level);
      if n > 2 {
        assert st[n - 2].level < level;
        assert Enclosing(st[..n - 1], level) == st[n - 2].id;
      }
    }
  }

  lemma SetParentDeeper(st: seq<Entry>, root: string, level: nat, id: string)
    requires Nested(st, root) && st[|st| - 1].level < level
    ensures SetParent(st, level, id).Success?
    ensures Nested(SetParent(st, level, id).value.0, root)
    ensures SetParent(st, level, id).value.1 == Enclosing(st, level)
  {
  }

  /** Unwinding stops at an open node of the same indentation. */
  lemma UnwindHit(st: seq<Entry>, root: string, level: nat, id: string, k: nat)
    requires Nested(st, root) && st[|st| - 1].level > level
    requires 1 <= k < |st| && PopUntil(st, level) == Some((st[..k], st[k].level)) && st[k].level == level
    ensures SetParent(st, level, id).Success?
    ensures Nested(SetParent(st, level, id).value.0, root)
    ensures SetParent(st, level, id).value.1 == Enclosing(st, level)
  {
    var pushed := st[..k] + [Entry(level, id)];
    assert SetParent(st, level, id) == Success((pushed, st[k - 1].id));
    assert Nested(pushed, root) by {
      forall i, j | 1 <= i < j < |pushed|
        ensures pushed[i].level < pushed[j].level
      {
        assert pushed[i] == st[i];
        if j < k {
          assert pushed[j] == st[j];
        } else {
          assert st[i].level < st[k].level;
        }
      }
    }
    assert Enclosing(st, level) == st[k - 1].id by {
      EnclosingBelow(st, k + 1, level);
      assert st[..k + 1][..k] == st[..k];
      if k > 1 {
        assert st[k - 1].level < st[k].level;
      }
    }
  }

  /** Unwinding past every open node of the same indentation fails. */
  lemma UnwindMiss(st: seq<Entry>, root: string, level: nat, id: string, k: nat)
    requires Nested(st, root) && st[|st| - 1].level > level
    requires k < |st| && PopUntil(st, level) == Some((st[..k], st[k].level))
    requires k == 0 || st[k].level < level
    ensures forall j :: 1 <= j < |st| ==> st[j].level != level
    ensures SetParent(st, level, id) == Failure(if level == 0 then NoParent else InconsistentIndentation)
  {
    forall j | 1 <= j < |st|
      ensures st[j].level != level
    {
      if j <= k {
        assert j == k || st[j].level < st[k].level;
      }
    }
  }

  lemma {:induction false} SetParentShallower(st: seq<Entry>, root: string, level: nat, id: string)
    requires Nested(st, root) && st[|st| - 1].level > level
    ensures SetParent(st, level, id).Success? <==> exists i :: 1 <= i < |st| && st[i].level == level
    ensures SetParent(st, level, id).Failure? ==>
      SetParent(st, level, id).error == (if level == 0 then NoParent else InconsistentIndentation)
    ensures SetParent(st, level, id).Success? ==>
      && Nested(SetParent(st, level, id).value.0, root)
      && SetParent(st, level, id).value.1 == Enclosing(st, level)
  {
    var p := PopUntil(st, level);
    assert p.Some? by {
      assert st[0].level <= level;
    }
    var k := |p.value.0|;
    if k > 0 && st[k].level == level {
      UnwindHit(st, root, level, id, k);
    } else {
      UnwindMiss(st, root, level, id, k);
    }
  }

  /** On a nested stack, placing a node fails exactly when it is less
      indented than the top and no open node has its indentation; the root
      counts for that only through the bare index error it leads to. On
      success the stack stays nested and the parent is the enclosing node. */
  lemma {:induction false} SetParentNested(st: seq<Entry>, root: string, level: nat, id: string)
    requires Nested(st, root)
    ensures SetParent(st, level, id).Success?
      <==> (level >= st[|st| - 1].level || exists i :: 1 <= i < |st| && st[i].level == level)
    ensures SetParent(st, level, id).Failure? ==>
      SetParent(st, level, id).error == (if level == 0 then NoParent else InconsistentIndentation)
    ensures SetParent(st, level, id).Success? ==>
      && Nested(SetParent(st, level, id).value.0, root)
      && SetParent(st, level, id).value.1 == Enclosing(st, level)
  {
    var top := st[|st| - 1].level;
    if top == level {
      SetParentLevel(st, root, level, id);
    } else if top < level {
      SetParentDeeper(st, root, level, id);
    } else {
      SetParentShallower(st, root, level, id);
    }
  }

  /** A line of a diagram as far as parenting goes: a node placed by its
      indentation (an element, a feature, ...) or a relationship line. */
  datatype Line = Placed(level: nat, id: string) | EdgeLine(id: string)

  /** `_edge` as written: the relationship overwrites the top entry of the
      stack with itself at level 0, however deep that entry was. */
  function EdgeTopAsWritten(st: seq<Entry>, id: string): (r: seq<Entry>)
    requires |st| >= 1
    ensures |r| == |st| && r[..|r| - 1] == st[..|st| - 1] && r[|r| - 1] == Entry(0, id)
  {
    st[..|st| - 1] + [Entry(0, id)]
  }

  /** The stack update a relationship evidently needs: it belongs to the
      diagram, so the open nodes are closed and it alone sits on the root,
      where following association-end lines find it. */
  function EdgeTop(st: seq<Entry>, id: string): (r: seq<Entry>)
    requires |st| >= 1
    ensures |r| == 2 && r[0] == st[0] && r[1] == Entry(0, id)
  {
    [st[0], Entry(0, id)]
  }

  /** The corrected update keeps the stack nested; the written one does not:
      after a nested node the relationship lands at level 0 above an entry
      of level 0. */
  lemma EdgeTopNested(st: seq<Entry>, root: string, id: string)
    requires Nested(st, root)
    ensures Nested(EdgeTop(st, id), root)
    ensures Enclosing(EdgeTop(st, id), 0) == root
  {
  }

  lemma EdgeTopAsWrittenBreaksNesting()
    ensures Nested([Entry(0, "diagram"), Entry(0, "c2"), Entry(4, "cls1")], "diagram")
    ensures !Nested(EdgeTopAsWritten([Entry(0, "diagram"), Entry(0, "c2"), Entry(4, "cls1")], "e"), "diagram")
  {
    var r := EdgeTopAsWritten([Entry(0, "diagram"), Entry(0, "c2"), Entry(4, "cls1")], "e");
    assert r[1].level == r[2].level;
  }

  /** Parents of the lines in order, threading the indentation stack from
      the root and recording each parent in `acc` as the line is read;
      relationships are appended to the root. `written` selects the
      relationship stack update as written. Gives back the final stack and
      the recorded parents. */
  function Walk(root: string, st: seq<Entry>, lines: seq<Line>, written: bool, acc: map<string, string>)
    : (r: Result<(seq<Entry>, map<string, string>), Error>)
    requires |st| >= 1
    ensures r.Success? ==> |r.value.0| >= 1
    decreases |lines|
  {
    if |lines| == 0 then Success((st, acc))
    else match lines[0]
      case Placed(level, id) =>
        var placed :- SetParent(st, level, id);
        Walk(root, placed.0, lines[1..], written, acc[id := placed.1])
      case EdgeLine(id) =>
        var next := if written then EdgeTopAsWritten(st, id) else EdgeTop(st, id);
        Walk(root, next, lines[1..], written, acc[id := root])
  }

  /** Walking two blocks of lines is walking the first, then the second
      from where the first left off. */
  lemma {:induction false} WalkConcat(root: string, st: seq<Entry>, a: seq<Line>, b: seq<Line>, written: bool,
                                      acc: map<string, string>)
    requires |st| >= 1
    ensures Walk(root, st, a + b, written, acc)
         == (var r :- Walk(root, st, a, written, acc); Walk(root, r.0, b, written, r.1))
    decreases |a|
  {
    if |a| == 0 {
      assert a + b == b;
    } else {
      assert (a + b)[0] == a[0];
      assert (a + b)[1..] == a[1..] + b;
      match a[0]
      case Placed(level, id) =>
        var placed := SetParent(st, level, id);
        if placed.Success? {
          WalkConcat(root, placed.value.0, a[1..], b, written, acc[id := placed.value.1]);
        }
      case EdgeLine(id) =>
        var next := if written then EdgeTopAsWritten(st, id) else EdgeTop(st, id);
        WalkConcat(root, next, a[1..], b, written, acc[id := root]);
    }
  }

  // One line of the walk at a time.

  lemma WalkPlaced(root: string, st: seq<Entry>, lines: seq<Line>, written: bool, acc: map<string, string>,
                   next: seq<Entry>, parent: string)
    requires |st| >= 1 && |lines| >= 1 && lines[0].Placed?
    requires SetParent(st, lines[0].level, lines[0].id) == Success((next, parent))
    ensures Walk(root, st, lines, written, acc) == Walk(root, next, lines[1..], written, acc[lines[0].id := parent])
  {
  }

  lemma WalkEdge(root: string, st: seq<Entry>, id: string, lines: seq<Line>, written: bool, acc: map<string, string>)
    requires |st| >= 1 && |lines| >= 1 && lines[0] == EdgeLine(id)
    ensures Walk(root, st, lines, written, acc)
         == Walk(root, if written then EdgeTopAsWritten(st, id) else EdgeTop(st, id), lines[1..], written, acc[id := root])
  {
  }

  function ParentsAsWritten(root: string, lines: seq<Line>): Result<map<string, string>, Error> {
    var r :- Walk(root, [Entry(0, root)], lines, true, map[]);
    Success(r.1)
  }

  function Parents(root: string, lines: seq<Line>): Result<map<string, string>, Error> {
    var r :- Walk(root, [Entry(0, root)], lines, false, map[]);
    Success(r.1)
  }

  // The three branches of `_set_parent`, each as one exact step.

  lemma SetParentPush(st: seq<Entry>, level: nat, id: string)
    requires |st| >= 1 && st[|st| - 1].level < level
    ensures SetParent(st, level, id) == Success((st + [Entry(level, id)], st[|st| - 1].id))
  {
  }

  lemma SetParentReplace(st: seq<Entry>, level: nat, id: string)
    requires |st| >= 1 && st[|st| - 1].level == level
    ensures |st| == 1 ==> SetParent(st, level, id) == Success((st + [Entry(level, id)], st[0].id))
    ensures |st| > 1 ==> SetParent(st, level, id) == Success((st[..|st| - 1] + [Entry(level, id)], st[|st| - 2].id))
  {
  }

  lemma SetParentUnwind(st: seq<Entry>, k: nat, level: nat, id: string)
    requires 1 <= k < |st| && st[k].level == level
    requires forall i :: k < i < |st| ==> st[i].level > level
    requires k < |st| - 1
    ensures SetParent(st, level, id) == Success((st[..k] + [Entry(level, id)], st[k - 1].id))
  {
    var p := PopUntil(st, level);
    assert p.Some?;
    assert |p.value.0| == k;
  }

  lemma SetParentInconsistent(st: seq<Entry>, k: nat, level: nat, id: string)
    requires k < |st| - 1 && st[k].level < level
    requires forall i :: k < i < |st| ==> st[i].level > level
    ensures SetParent(st, level, id) == Failure(InconsistentIndentation)
  {
    var p := PopUntil(st, level);
    assert p.Some?;
    assert |p.value.0| == k;
  }

  lemma SetParentPopsRoot(st: seq<Entry>, id: string)
    requires |st| >= 2 && st[0].level == 0
    requires forall i :: 0 < i < |st| ==> st[i].level > 0
    ensures SetParent(st, 0, id) == Failure(NoParent)
  {
    var p := PopUntil(st, 0);
    assert p.Some?;
    assert |p.value.0| == 0;
  }

  // The blocks of the complex grouping example, one line at a time.

  lemma GroupingComplex1()
    ensures Walk("diagram", [Entry(0, "diagram")], [Placed(0, "c1"), Placed(0, "c2"), Placed(4, "cls1"), Placed(4, "cls2")], false, map[])
         == Success(([Entry(0, "diagram"), Entry(0, "c2"), Entry(4, "cls2")], map["c1" := "diagram", "c2" := "diagram", "cls1" := "c2", "cls2" := "c2"]))
  {
    calc {
      Walk("diagram", [Entry(0, "diagram")], [Placed(0, "c1"), Placed(0, "c2"), Placed(4, "cls1"), Placed(4, "cls2")], false, map[]);
    == { SetParentReplace([Entry(0, "diagram")], 0, "c1"); assert [Entry(0, "diagram")] + [Entry(0, "c1")] == [Entry(0, "diagram"), Entry(0, "c1")]; WalkPlaced("diagram", [Entry(0, "diagram")], [Placed(0, "c1"), Placed(0, "c2"), Placed(4, "cls1"), Placed(4, "cls2")], false, map[], [Entry(0, "diagram"), Entry(0, "c1")], "diagram"); assert [Placed(0, "c1"), Placed(0, "c2"), Placed(4, "cls1"), Placed(4, "cls2")][1..] == [Placed(0, "c2"), Placed(4, "cls1"), Placed(4, "cls2")]; }
      Walk("diagram", [Entry(0, "diagram"), Entry(0, "c1")], [Placed(0, "c2"), Placed(4, "cls1"), Placed(4, "cls2")], false, map["c1" := "diagram"]);
    == { SetParentReplace([Entry(0, "diagram"), Entry(0, "c1")], 0, "c2"); assert [Entry(0, "diagram"), Entry(0, "c1")][..1] + [Entry(0, "c2")] == [Entry(0, "diagram"), Entry(0, "c2")]; WalkPlaced("diagram", [Entry(0, "diagram"), Entry(0, "c1")], [Placed(0, "c2"), Placed(4, "cls1"), Placed(4, "cls2")], false, map["c1" := "diagram"], [Entry(0, "diagram"), Entry(0, "c2")], "diagram"); assert [Placed(0, "c2"), Placed(4, "cls1"), Placed(4, "cls2")][1..] == [Placed(4, "cls1"), Placed(4, "cls2")]; }
      Walk("diagram", [Entry(0, "diagram"), Entry(0, "c2")], [Placed(4, "cls1"), Placed(4, "cls2")], false, map["c1" := "diagram", "c2" := "diagram"]);
    == { SetParentPush([Entry(0, "diagram"), Entry(0, "c2")], 4, "cls1"); assert [Entry(0, "diagram"), Entry(0, "c2")] + [Entry(4, "cls1")] == [Entry(0, "diagram"), Entry(0, "c2"), Entry(4, "cls1")]; WalkPlaced("diagram", [Entry(0, "diagram"), Entry(0, "c2")], [Placed(4, "cls1"), Placed(4, "cls2")], false, map["c1" := "diagram", "c2" := "diagram"], [Entry(0, "diagram"), Entry(0, "c2"), Entry(4, "cls1")], "c2"); assert [Placed(4, "cls1"), Placed(4, "cls2")][1..] == [Placed(4, "cls2")]; }
      Walk("diagram", [Entry(0, "diagram"), Entry(0, "c2"), Entry(4, "cls1")], [Placed(4, "cls2")], false, map["c1" := "diagram", "c2" := "diagram", "cls1" := "c2"]);
    == { SetParentReplace([Entry(0, "diagram"), Entry(0, "c2"), Entry(4, "cls1")], 4, "cls2"); assert [Entry(0, "diagram"), Entry(0, "c2"), Entry(4, "cls1")][..2] + [Entry(4, "cls2")] == [Entry(0, "diagram"), Entry(0, "c2"), Entry(4, "cls2")]; WalkPlaced("diagram", [Entry(0, "diagram"), Entry(0, "c2"), Entry(4, "cls1")], [Placed(4, "cls2")], false, map["c1" := "diagram", "c2" := "diagram", "cls1" := "c2"], [Entry(0, "diagram"), Entry(0, "c2"), Entry(4, "cls2")], "c2"); assert [Placed(4, "cls2")][1..] == []; }
      Walk("diagram", [Entry(0, "diagram"), Entry(0, "c2"), Entry(4, "cls2")], [], false, map["c1" := "diagram", "c2" := "diagram", "cls1" := "c2", "cls2" := "c2"]);
    ==
      Success(([Entry(0, "diagram"), Entry(0, "c2"), Entry(4, "cls2")], map["c1" := "diagram", "c2" := "diagram", "cls1" := "c2", "cls2" := "c2"]));
    }
  }

  lemma GroupingComplex2()
    ensures Walk("diagram", [Entry(0, "diagram"), Entry(0, "c2"), Entry(4, "cls2")], [Placed(8, "cls3"), Placed(8, "cls4"), Placed(12, "cls5"), Placed(4, "cls6")], false, map["c1" := "diagram", "c2" := "diagram", "cls1" := "c2", "cls2" := "c2"])
         == Success(([Entry(0, "diagram"), Entry(0, "c2"), Entry(4, "cls6")], map["c1" := "diagram", "c2" := "diagram", "cls1" := "c2", "cls2" := "c2", "cls3" := "cls2", "cls4" := "cls2", "cls5" := "cls4", "cls6" := "c2"]))
  {
    calc {
      Walk("diagram", [Entry(0, "diagram"), Entry(0, "c2"), Entry(4, "cls2")], [Placed(8, "cls3"), Placed(8, "cls4"), Placed(12, "cls5"), Placed(4, "cls6")], false, map["c1" := "diagram", "c2" := "diagram", "cls1" := "c2", "cls2" := "c2"]);
    == { SetParentPush([Entry(0, "diagram"), Entry(0, "c2"), Entry(4, "cls2")], 8, "cls3"); assert [Entry(0, "diagram"), Entry(0, "c2"), Entry(4, "cls2")] + [Entry(8, "cls3")] == [Entry(0, "diagram"), Entry(0, "c2"), Entry(4, "cls2"), Entry(8, "cls3")]; WalkPlaced("diagram", [Entry(0, "diagram"), Entry(0, "c2"), Entry(4, "cls2")], [Placed(8, "cls3"), Placed(8, "cls4"), Placed(12, "cls5"), Placed(4, "cls6")], false, map["c1" := "diagram", "c2" := "diagram", "cls1" := "c2", "cls2" := "c2"], [Entry(0, "diagram"), Entry(0, "c2"), Entry(4, "cls2"), Entry(8, "cls3")], "cls2"); assert [Placed(8, "cls3"), Placed(8, "cls4"), Placed(12, "cls5"), Placed(4, "cls6")][1..] == [Placed(8, "cls4"), Placed(12, "cls5"), Placed(4, "cls6")]; }
      Walk("diagram", [Entry(0, "diagram"), Entry(0, "c2"), Entry(4, "cls2"), Entry(8, "cls3")], [Placed(8, "cls4"), Placed(12, "cls5"), Placed(4, "cls6")], false, map["c1" := "diagram", "c2" := "diagram", "cls1" := "c2", "cls2" := "c2", "cls3" := "cls2"]);
    == { SetParentReplace([Entry(0, "diagram"), Entry(0, "c2"), Entry(4, "cls2"), Entry(8, "cls3")], 8, "cls4"); assert [Entry(0, "diagram"), Entry(0, "c2"), Entry(4, "cls2"), Entry(8, "cls3")][..3] + [Entry(8, "cls4")] == [Entry(0, "diagram"), Entry(0, "c2"), Entry(4, "cls2"), Entry(8, "cls4")]; WalkPlaced("diagram", [Entry(0, "diagram"), Entry(0, "c2"), Entry(4, "cls2"), Entry(8, "cls3")], [Placed(8, "cls4"), Placed(12, "cls5"), Placed(4, "cls6")], false, map["c1" := "diagram", "c2" := "diagram", "cls1" := "c2", "cls2" := "c2", "cls3" := "cls2"], [Entry(0, "diagram"), Entry(0, "c2"), Entry(4, "cls2"), Entry(8, "cls4")], "cls2"); assert [Placed(8, "cls4"), Placed(12, "cls5"), Placed(4, "cls6")][1..] == [Placed(12, "cls5"), Placed(4, "cls6")]; }
      Walk("diagram", [Entry(0, "diagram"), Entry(0, "c2"), Entry(4, "cls2"), Entry(8, "cls4")], [Placed(12, "cls5"), Placed(4, "cls6")], false, map["c1" := "diagram", "c2" := "diagram", "cls1" := "c2", "cls2" := "c2", "cls3" := "cls2", "cls4" := "cls2"]);
    == { SetParentPush([Entry(0, "diagram"), Entry(0, "c2"), Entry(4, "cls2"), Entry(8, "cls4")], 12, "cls5"); assert [Entry(0, "diagram"), Entry(0, "c2"), Entry(4, "cls2"), Entry(8, "cls4")] + [Entry(12, "cls5")] == [Entry(0, "diagram"), Entry(0, "c2"), Entry(4, "cls2"), Entry(8, "cls4"), Entry(12, "cls5")]; WalkPlaced("diagram", [Entry(0, "diagram"), Entry(0, "c2"), Entry(4, "cls2"), Entry(8, "cls4")], [Placed(12, "cls5"), Placed(4, "cls6")], false, map["c1" := "diagram", "c2" := "diagram", "cls1" := "c2", "cls2" := "c2", "cls3" := "cls2", "cls4" := "cls2"], [Entry(0, "diagram"), Entry(0, "c2"), Entry(4, "cls2"), Entry(8, "cls4"), Entry(12, "cls5")], "cls4"); assert [Placed(12, "cls5"), Placed(4, "cls6")][1..] == [Placed(4, "cls6")]; }
      Walk("diagram", [Entry(0, "diagram"), Entry(0, "c2"), Entry(4, "cls2"), Entry(8, "cls4"), Entry(12, "cls5")], [Placed(4, "cls6")], false, map["c1" := "diagram", "c2" := "diagram", "cls1" := "c2", "cls2" := "c2", "cls3" := "cls2", "cls4" := "cls2", "cls5" := "cls4"]);
    == { SetParentUnwind([Entry(0, "diagram"), Entry(0, "c2"), Entry(4, "cls2"), Entry(8, "cls4"), Entry(12, "cls5")], 2, 4, "cls6"); assert [Entry(0, "diagram"), Entry(0, "c2"), Entry(4, "cls2"), Entry(8, "cls4"), Entry(12, "cls5")][..2] + [Entry(4, "cls6")] == [Entry(0, "diagram"), Entry(0, "c2"), Entry(4, "cls6")]; WalkPlaced("diagram", [Entry(0, "diagram"), Entry(0, "c2"), Entry(4, "cls2"), Entry(8, "cls4"), Entry(12, "cls5")], [Placed(4, "cls6")], false, map["c1" := "diagram", "c2" := "diagram", "cls1" := "c2", "cls2" := "c2", "cls3" := "cls2", "cls4" := "cls2", "cls5" := "cls4"], [Entry(0, "diagram"), Entry(0, "c2"), Entry(4, "cls6")], "c2"); assert [Placed(4, "cls6")][1..] == []; }
      Walk("diagram", [Entry(0, "diagram"), Entry(0, "c2"), Entry(4, "cls6")], [], false, map["c1" := "diagram", "c2" := "diagram", "cls1" := "c2", "cls2" := "c2", "cls3" := "cls2", "cls4" := "cls2", "cls5" := "cls4", "cls6" := "c2"]);
    ==
      Success(([Entry(0, "diagram"), Entry(0, "c2"), Entry(4, "cls6")], map["c1" := "diagram", "c2" := "diagram", "cls1" := "c2", "cls2" := "c2", "cls3" := "cls2", "cls4" := "cls2", "cls5" := "cls4", "cls6" := "c2"]));
    }
  }

  lemma GroupingComplex3()
    ensures Walk("diagram", [Entry(0, "diagram"), Entry(0, "c2"), Entry(4, "cls6")], [Placed(8, "cls7"), Placed(4, "cls8"), Placed(0, "cls9")], false, map["c1" := "diagram", "c2" := "diagram", "cls1" := "c2", "cls2" := "c2", "cls3" := "cls2", "cls4" := "cls2", "cls5" := "cls4", "cls6" := "c2"])
         == Success(([Entry(0, "diagram"), Entry(0, "cls9")], map["c1" := "diagram", "c2" := "diagram", "cls1" := "c2", "cls2" := "c2", "cls3" := "cls2", "cls4" := "cls2", "cls5" := "cls4", "cls6" := "c2", "cls7" := "cls6", "cls8" := "c2", "cls9" := "diagram"]))
  {
    calc {
      Walk("diagram", [Entry(0, "diagram"), Entry(0, "c2"), Entry(4, "cls6")], [Placed(8, "cls7"), Placed(4, "cls8"), Placed(0, "cls9")], false, map["c1" := "diagram", "c2" := "diagram", "cls1" := "c2", "cls2" := "c2", "cls3" := "cls2", "cls4" := "cls2", "cls5" := "cls4", "cls6" := "c2"]);
    == { SetParentPush([Entry(0, "diagram"), Entry(0, "c2"), Entry(4, "cls6")], 8, "cls7"); assert [Entry(0, "diagram"), Entry(0, "c2"), Entry(4, "cls6")] + [Entry(8, "cls7")] == [Entry(0, "diagram"), Entry(0, "c2"), Entry(4, "cls6"), Entry(8, "cls7")]; WalkPlaced("diagram", [Entry(0, "diagram"), Entry(0, "c2"), Entry(4, "cls6")], [Placed(8, "cls7"), Placed(4, "cls8"), Placed(0, "cls9")], false, map["c1" := "diagram", "c2" := "diagram", "cls1" := "c2", "cls2" := "c2", "cls3" := "cls2", "cls4" := "cls2", "cls5" := "cls4", "cls6" := "c2"], [Entry(0, "diagram"), Entry(0, "c2"), Entry(4, "cls6"), Entry(8, "cls7")], "cls6"); assert [Placed(8, "cls7"), Placed(4, "cls8"), Placed(0, "cls9")][1..] == [Placed(4, "cls8"), Placed(0, "cls9")]; }
      Walk("diagram", [Entry(0, "diagram"), Entry(0, "c2"), Entry(4, "cls6"), Entry(8, "cls7")], [Placed(4, "cls8"), Placed(0, "cls9")], false, map["c1" := "diagram", "c2" := "diagram", "cls1" := "c2", "cls2" := "c2", "cls3" := "cls2", "cls4" := "cls2", "cls5" := "cls4", "cls6" := "c2", "cls7" := "cls6"]);
    == { SetParentUnwind([Entry(0, "diagram"), Entry(0, "c2"), Entry(4, "cls6"), Entry(8, "cls7")], 2, 4, "cls8"); assert [Entry(0, "diagram"), Entry(0, "c2"), Entry(4, "cls6"), Entry(8, "cls7")][..2] + [Entry(4, "cls8")] == [Entry(0, "diagram"), Entry(0, "c2"), Entry(4, "cls8")]; WalkPlaced("diagram", [Entry(0, "diagram"), Entry(0, "c2"), Entry(4, "cls6"), Entry(8, "cls7")], [Placed(4, "cls8"), Placed(0, "cls9")], false, map["c1" := "diagram", "c2" := "diagram", "cls1" := "c2", "cls2" := "c2", "cls3" := "cls2", "cls4" := "cls2", "cls5" := "cls4", "cls6" := "c2", "cls7" := "cls6"], [Entry(0, "diagram"), Entry(0, "c2"), Entry(4, "cls8")], "c2"); assert [Placed(4, "cls8"), Placed(0, "cls9")][1..] == [Placed(0, "cls9")]; }
      Walk("diagram", [Entry(0, "diagram"), Entry(0, "c2"), Entry(4, "cls8")], [Placed(0, "cls9")], false, map["c1" := "diagram", "c2" := "diagram", "cls1" := "c2", "cls2" := "c2", "cls3" := "cls2", "cls4" := "cls2", "cls5" := "cls4", "cls6" := "c2", "cls7" := "cls6", "cls8" := "c2"]);
    == { SetParentUnwind([Entry(0, "diagram"), Entry(0, "c2"), Entry(4, "cls8")], 1, 0, "cls9"); assert [Entry(0, "diagram"), Entry(0, "c2"), Entry(4, "cls8")][..1] + [Entry(0, "cls9")] == [Entry(0, "diagram"), Entry(0, "cls9")]; WalkPlaced("diagram", [Entry(0, "diagram"), Entry(0, "c2"), Entry(4, "cls8")], [Placed(0, "cls9")], false, map["c1" := "diagram", "c2" := "diagram", "cls1" := "c2", "cls2" := "c2", "cls3" := "cls2", "cls4" := "cls2", "cls5" := "cls4", "cls6" := "c2", "cls7" := "cls6", "cls8" := "c2"], [Entry(0, "diagram"), Entry(0, "cls9")], "diagram"); assert [Placed(0, "cls9")][1..] == []; }
      Walk("diagram", [Entry(0, "diagram"), Entry(0, "cls9")], [], false, map["c1" := "diagram", "c2" := "diagram", "cls1" := "c2", "cls2" := "c2", "cls3" := "cls2", "cls4" := "cls2", "cls5" := "cls4", "cls6" := "c2", "cls7" := "cls6", "cls8" := "c2", "cls9" := "diagram"]);
    ==
      Success(([Entry(0, "diagram"), Entry(0, "cls9")], map["c1" := "diagram", "c2" := "diagram", "cls1" := "c2", "cls2" := "c2", "cls3" := "cls2", "cls4" := "cls2", "cls5" := "cls4", "cls6" := "c2", "cls7" := "cls6", "cls8" := "c2", "cls9" := "diagram"]));
    }
  }

  /** The grouping examples of the parser tests. */
  lemma GroupingSimple()
    ensures Parents("diagram", [Placed(0, "c1"), Placed(0, "c2"), Placed(4, "cls1")])
      == Success(map["c1" := "diagram", "c2" := "diagram", "cls1" := "c2"])
  {
  }

  /** The complex example, its eleven lines given in three blocks. */
  lemma GroupingComplex()
    ensures Parents("diagram", [Placed(0, "c1"), Placed(0, "c2"), Placed(4, "cls1"), Placed(4, "cls2")]
                               + [Placed(8, "cls3"), Placed(8, "cls4"), Placed(12, "cls5"), Placed(4, "cls6")]
                               + [Placed(8, "cls7"), Placed(4, "cls8"), Placed(0, "cls9")])
      == Success(map["c1" := "diagram", "c2" := "diagram", "cls1" := "c2", "cls2" := "c2",
                 "cls3" := "cls2", "cls4" := "cls2", "cls5" := "cls4", "cls6" := "c2",
                 "cls7" := "cls6", "cls8" := "c2", "cls9" := "diagram"])
  {
    var a := [Placed(0, "c1"), Placed(0, "c2"), Placed(4, "cls1"), Placed(4, "cls2")];
    var b := [Placed(8, "cls3"), Placed(8, "cls4"), Placed(12, "cls5"), Placed(4, "cls6")];
    var c := [Placed(8, "cls7"), Placed(4, "cls8"), Placed(0, "cls9")];
    GroupingComplex1();
    GroupingComplex2();
    GroupingComplex3();
    WalkConcat("diagram", [Entry(0, "diagram")], a, b, false, map[]);
    WalkConcat("diagram", [Entry(0, "diagram")], a + b, c, false, map[]);
  }

  lemma GroupingWrongIndentation()
    ensures Parents("diagram", [Placed(0, "c1"), Placed(0, "c2"), Placed(4, "cls1"), Placed(2, "cls2")])
      == Failure(InconsistentIndentation)
  {
  }

  /** An indented first line followed by an unindented one pops the root
      itself, and the written code then fails on a bare index error. */
  lemma IndentedFirstLine()
    ensures Parents("diagram", [Placed(4, "a"), Placed(0, "b")])
      == Failure(NoParent)
  {
  }

  /** With the written relationship update, a top-level class after a nested
      class and a relationship is parented to the earlier top-level class. */
  lemma EdgeAfterNestedAsWritten()
    ensures ParentsAsWritten("diagram", [Placed(0, "c2"), Placed(4, "cls1"), EdgeLine("e"), Placed(0, "c9")])
      == Success(map["c2" := "diagram", "cls1" := "c2", "e" := "diagram", "c9" := "c2"])
  {
  }

  /** With the corrected update the same class belongs to the diagram. */
  lemma EdgeAfterNested()
    ensures Parents("diagram", [Placed(0, "c2"), Placed(4, "cls1"), EdgeLine("e"), Placed(0, "c9")])
      == Success(map["c2" := "diagram", "cls1" := "c2", "e" := "diagram", "c9" := "diagram"])
  {
  }

}

=== FILE: prelayout.dfy ===
/** The pre-layout pass of the older layout front end: user alignments are
    recorded at the lowest common ancestor of their nodes, every packaging
    node gets a default alignment for the children nobody aligned, and each
    diagram and element is then constrained in postorder through eight
    alignment hooks called in a fixed order. */
module PreLayout {
  import opened Wrappers
  import opened Data
  import Strings
  import Cl

  // ---------------------------------------------------------------------
  // Alignment records

  /** An `align` node: its alignment word and the ids of the nodes it lines up. */
  datatype AlignDef = AlignDef(element: string, ids: seq<string>)

  type Groups = seq<seq<string>>

  /** The alignment information of a packaging node: eight lists of groups of ids. */
  datatype AlignInfo = AlignInfo(
    top: Groups, right: Groups, bottom: Groups, left: Groups,
    center: Groups, middle: Groups, hspan: Groups, vspan: Groups)

  const NoAlign := AlignInfo([], [], [], [], [], [], [], [])

  /** Alignment information of every packaging node, by node id. */
  type Infos = map<string, AlignInfo>

  function InfoOf(infos: Infos, id: string): AlignInfo {
    if id in infos then infos[id] else NoAlign
  }

  // ---------------------------------------------------------------------
  // Defined alignment

  /** `_defined_align`: a group whose word contains `top` goes to the top and
      horizontal span lists of the common parent, one containing `left` to
      its left and vertical span lists; the span holds the children of the
      parent that contain the aligned nodes. Any other word records nothing.
      None when the nodes have no common parent or a node cannot be lifted
      to a child of it (the source fails there). */
  function DefinedAlign(root: Node, infos: Infos, a: AlignDef): (r: Option<Infos>)
    ensures r.Some? ==> Cl.ParentId(root, a.ids).Some?
    ensures r.Some? ==> forall q :: q != Cl.ParentId(root, a.ids).value ==> InfoOf(r.value, q) == InfoOf(infos, q)
    ensures (Cl.ParentId(root, a.ids).Some? && !Strings.Contains(a.element, "top") &&
             !Strings.Contains(a.element, "left")) ==> r == Some(infos)
  {
    var p :- Cl.ParentId(root, a.ids);
    var info := InfoOf(infos, p);
    if Strings.Contains(a.element, "top") then
      var span :- Cl.SiblingsOf(root, p, a.ids);
      Some(infos[p := info.(top := info.top + [a.ids], hspan := info.hspan + [span])])
    else if Strings.Contains(a.element, "left") then
      var span :- Cl.SiblingsOf(root, p, a.ids);
      Some(infos[p := info.(left := info.left + [a.ids], vspan := info.vspan + [span])])
    else Some(infos)
  }

  /** What a recorded `top` group adds at the common parent: the ids
      themselves to the top list and their lifted siblings, of the same
      length and in the same order, to the horizontal span list. Nothing
      else of the parent's information changes. */
  lemma DefinedTop(root: Node, infos: Infos, a: AlignDef)
    requires Strings.Contains(a.element, "top")
    requires DefinedAlign(root, infos, a).Some?
    ensures var p := Cl.ParentId(root, a.ids).value;
            var before := InfoOf(infos, p);
            var after := InfoOf(DefinedAlign(root, infos, a).value, p);
            after.top == before.top + [a.ids] &&
            |after.hspan| == |before.hspan| + 1 && after.hspan[..|before.hspan|] == before.hspan &&
            after == before.(top := after.top, hspan := after.hspan) &&
            var span := after.hspan[|before.hspan|];
            |span| == |a.ids| &&
            forall i :: 0 <= i < |a.ids| ==> Lift(root, p, a.ids[i]).Some? && span[i] == Lift(root, p, a.ids[i]).value.id
  {
    var p := Cl.ParentId(root, a.ids).value;
    Cl.SiblingsLift(root, p, a.ids);
  }

  /** The same for a `left` group, with the left and vertical span lists. */
  lemma DefinedLeft(root: Node, infos: Infos, a: AlignDef)
    requires !Strings.Contains(a.element, "top") && Strings.Contains(a.element, "left")
    requires DefinedAlign(root, infos, a).Some?
    ensures var p := Cl.ParentId(root, a.ids).value;
            var before := InfoOf(infos, p);
            var after := InfoOf(DefinedAlign(root, infos, a).value, p);
            after.left == before.left + [a.ids] &&
            |after.vspan| == |before.vspan| + 1 && after.vspan[..|before.vspan|] == before.vspan &&
            after == before.(left := after.left, vspan := after.vspan) &&
            var span := after.vspan[|before.vspan|];
            |span| == |a.ids| &&
            forall i :: 0 <= i < |a.ids| ==> Lift(root, p, a.ids[i]).Some? && span[i] == Lift(root, p, a.ids[i]).value.id
  {
    var p := Cl.ParentId(root, a.ids).value;
    Cl.SiblingsLift(root, p, a.ids);
  }

  /** The four lists a defined alignment never writes. */
  predicate SameUnwritten(x: AlignInfo, y: AlignInfo) {
    x.right == y.right && x.bottom == y.bottom && x.center == y.center && x.middle == y.middle
  }

  /** The defined alignments of all `align` nodes, in tree order. */
  function DefinedAll(root: Node, infos: Infos, aligns: seq<AlignDef>): (r: Option<Infos>)
    ensures r.Some? ==> forall q :: SameUnwritten(InfoOf(r.value, q), InfoOf(infos, q))
    decreases |aligns|
  {
    if |aligns| == 0 then Some(infos)
    else
      var next :- DefinedAlign(root, infos, aligns[0]);
      assert forall q :: SameUnwritten(InfoOf(next, q), InfoOf(infos, q));
      DefinedAll(root, next, aligns[1..])
  }

  // ---------------------------------------------------------------------
  // Default alignment

  /** All groups of the eight lists, in the order the source sums them. */
  function Defined(info: AlignInfo): Groups {
    info.top + info.right + info.bottom + info.left + info.center + info.middle + info.hspan + info.vspan
  }

  /** The ids that occur in some group. */
  function Members(gs: Groups): set<string> {
    set g, x | g in gs && x in g :: x
  }

  /** The ids some alignment already uses. */
  function Done(info: AlignInfo): set<string> {
    Members(Defined(info))
  }

  /** The element children of the node that no alignment uses, in child order. */
  function Lost(node: Node, info: AlignInfo): (r: seq<string>)
    ensures forall x :: x in r <==> x !in Done(info) && exists k :: k in node.children && k.id == x && Cl.Alignable(k)
  {
    Cl.DefaultRow(node.children, Done(info))
  }

  /** The first group extended by `xs`. */
  function Extend(gs: Groups, xs: seq<string>): (r: Groups)
    requires |gs| > 0
    ensures |r| == |gs| && r[0] == gs[0] + xs && r[1..] == gs[1..]
  {
    [gs[0] + xs] + gs[1..]
  }

  /** `_default_align`: one lost id joins the first `center` group and the
      first vertical span when there are centre groups but no middle group;
      two or more join the first `middle` group and first horizontal span
      when there is a middle group, and form a new middle group and
      horizontal span otherwise. None when the span list to extend is empty
      (the source indexes past its end). */
  function DefaultAlign(node: Node, info: AlignInfo): (r: Option<AlignInfo>)
  {
    var lost := Lost(node, info);
    if |lost| == 1 && |info.middle| == 0 && |info.center| > 0 then
      if |info.vspan| == 0 then None
      else Some(info.(center := Extend(info.center, lost), vspan := Extend(info.vspan, lost)))
    else if |lost| > 1 && |info.middle| > 0 then
      if |info.hspan| == 0 then None
      else Some(info.(middle := Extend(info.middle, lost), hspan := Extend(info.hspan, lost)))
    else if |lost| > 1 then
      Some(info.(middle := info.middle + [lost], hspan := info.hspan + [lost]))
    else Some(info)
  }

  /** The four branches of the default alignment, each as an if-and-only-if
      on the lost ids and the lists present. */
  lemma DefaultAlignCases(node: Node, info: AlignInfo)
    ensures var lost := Lost(node, info); var r := DefaultAlign(node, info);
            (r.None? <==> (|lost| == 1 && |info.middle| == 0 && |info.center| > 0 && |info.vspan| == 0) ||
                          (|lost| > 1 && |info.middle| > 0 && |info.hspan| == 0))
    ensures var lost := Lost(node, info); var r := DefaultAlign(node, info);
            (|lost| == 1 && |info.middle| == 0 && |info.center| > 0 && |info.vspan| > 0) <==>
            (r.Some? && r.value.center != info.center)
    ensures var lost := Lost(node, info); var r := DefaultAlign(node, info);
            (|lost| > 1 && |info.middle| > 0 && |info.hspan| > 0) <==>
            (r.Some? && |r.value.middle| == |info.middle| && r.value.middle != info.middle)
    ensures var lost := Lost(node, info); var r := DefaultAlign(node, info);
            (|lost| > 1 && |info.middle| == 0) <==> (r.Some? && |r.value.middle| == 1 + |info.middle|)
    ensures var lost := Lost(node, info); var r := DefaultAlign(node, info);
            (|lost| == 0 || (|lost| == 1 && (|info.middle| > 0 || |info.center| == 0))) <==> r == Some(info)
  {
    var lost := Lost(node, info);
    if |lost| > 0 && |info.center| > 0 {
      assert |Extend(info.center, lost)[0]| > |info.center[0]|;
    }
    if |lost| > 0 && |info.middle| > 0 {
      assert |Extend(info.middle, lost)[0]| > |info.middle[0]|;
    }
  }

  lemma MembersAppend(gs: Groups, xs: seq<string>)
    ensures Members(gs + [xs]) == Members(gs) + Cl.Elems(xs)
  {
    forall x | x in Members(gs + [xs])
      ensures x in Members(gs) + Cl.Elems(xs)
    {
      var g :| g in gs + [xs] && x in g;
      if g != xs { assert g in gs; }
    }
    forall x | x in Members(gs) + Cl.Elems(xs)
      ensures x in Members(gs + [xs])
    {
      if x in Members(gs) {
        var g :| g in gs && x in g;
        assert g in gs + [xs];
      } else {
        assert xs in gs + [xs];
      }
    }
  }

  lemma MembersExtend(gs: Groups, xs: seq<string>)
    requires |gs| > 0
    ensures Members(Extend(gs, xs)) == Members(gs) + Cl.Elems(xs)
  {
    var r := Extend(gs, xs);
    assert gs == [gs[0]] + gs[1..];
    assert r == [gs[0] + xs] + gs[1..];
    forall x | x in Members(r)
      ensures x in Members(gs) + Cl.Elems(xs)
    {
      var g :| g in r && x in g;
      if g == gs[0] + xs {
        if x !in xs { assert x in gs[0]; assert gs[0] in gs; }
      } else {
        assert g in gs[1..];
        assert g in gs;
      }
    }
    forall x | x in Members(gs) + Cl.Elems(xs)
      ensures x in Members(r)
    {
      if x in Cl.Elems(xs) || x in gs[0] {
        assert x in gs[0] + xs && (gs[0] + xs) in r;
      } else {
        var g :| g in gs && x in g;
        assert g in gs[1..];
        assert g in r;
      }
    }
  }

  lemma {:induction false} MembersConcat(a: Groups, b: Groups)
    ensures Members(a + b) == Members(a) + Members(b)
  {
    forall x | x in Members(a + b)
      ensures x in Members(a) + Members(b)
    {
      var g :| g in a + b && x in g;
      if g in a { assert x in Members(a); } else { assert g in b; assert x in Members(b); }
    }
    forall x | x in Members(a) + Members(b)
      ensures x in Members(a + b)
    {
      if x in Members(a) {
        var g :| g in a && x in g;
        assert g in a + b;
      } else {
        var g :| g in b && x in g;
        assert g in a + b;
      }
    }
  }

  /** The used ids are the union of the ids used by each of the eight lists. */
  lemma DoneSplit(info: AlignInfo)
    ensures Done(info) == Members(info.top) + Members(info.right) + Members(info.bottom) + Members(info.left) +
                          Members(info.center) + Members(info.middle) + Members(info.hspan) + Members(info.vspan)
  {
    var t, ri, b, l, c, m, h, v := info.top, info.right, info.bottom, info.left, info.center, info.middle, info.hspan, info.vspan;
    MembersConcat(t, ri);
    MembersConcat(t + ri, b);
    MembersConcat(t + ri + b, l);
    MembersConcat(t + ri + b + l, c);
    MembersConcat(t + ri + b + l + c, m);
    MembersConcat(t + ri + b + l + c + m, h);
    MembersConcat(t + ri + b + l + c + m + h, v);
  }

  /** A default alignment that changes anything makes every lost id used,
      and uses nothing else new. */
  lemma DefaultAlignDone(node: Node, info: AlignInfo)
    requires DefaultAlign(node, info).Some? && DefaultAlign(node, info).value != info
    ensures Done(DefaultAlign(node, info).value) == Done(info) + Cl.Elems(Lost(node, info))
  {
    var lost := Lost(node, info);
    var r := DefaultAlign(node, info).value;
    if |lost| == 1 && |info.middle| == 0 && |info.center| > 0 {
      MembersExtend(info.center, lost);
      MembersExtend(info.vspan, lost);
      DoneCenterVspan(info, r, lost);
    } else if |lost| > 1 && |info.middle| > 0 {
      MembersExtend(info.middle, lost);
      MembersExtend(info.hspan, lost);
      DoneMiddleHspan(info, r, lost);
    } else {
      MembersAppend(info.middle, lost);
      MembersAppend(info.hspan, lost);
      DoneMiddleHspan(info, r, lost);
    }
  }

  /** Adding ids to the center and vertical span lists adds them to the used ids. */
  lemma DoneCenterVspan(info: AlignInfo, r: AlignInfo, xs: seq<string>)
    requires r == info.(center := r.center, vspan := r.vspan)
    requires Members(r.center) == Members(info.center) + Cl.Elems(xs)
    requires Members(r.vspan) == Members(info.vspan) + Cl.Elems(xs)
    ensures Done(r) == Done(info) + Cl.Elems(xs)
  {
    DoneSplit(info);
    DoneSplit(r);
  }

  /** Adding ids to the middle and horizontal span lists adds them to the used ids. */
  lemma DoneMiddleHspan(info: AlignInfo, r: AlignInfo, xs: seq<string>)
    requires r == info.(middle := r.middle, hspan := r.hspan)
    requires Members(r.middle) == Members(info.middle) + Cl.Elems(xs)
    requires Members(r.hspan) == Members(info.hspan) + Cl.Elems(xs)
    ensures Done(r) == Done(info) + Cl.Elems(xs)
  {
    DoneSplit(info);
    DoneSplit(r);
  }

  /** Default alignment is idempotent: once applied, no child is lost any more
      or the lost child has nowhere to go, so a second pass changes nothing. */
  lemma DefaultAlignIdempotent(node: Node, info: AlignInfo)
    requires DefaultAlign(node, info).Some?
    ensures DefaultAlign(node, DefaultAlign(node, info).value) == DefaultAlign(node, info)
  {
    var r := DefaultAlign(node, info).value;
    if r != info {
      DefaultAlignDone(node, info);
      var lost := Lost(node, info);
      forall k | k in node.children && Cl.Alignable(k)
        ensures k.id in Done(r)
      {
        if k.id !in Done(info) {
          assert k.id in lost;
        }
      }
      NothingLost(node.children, Done(r));
    }
  }

  /** When every alignable child is used, nothing is lost. */
  lemma {:induction false} NothingLost(ks: seq<Node>, used: set<string>)
    requires forall k :: k in ks && Cl.Alignable(k) ==> k.id in used
    ensures Cl.DefaultRow(ks, used) == []
    decreases |ks|
  {
    if |ks| > 0 {
      assert forall k :: k in ks[1..] ==> k in ks;
      NothingLost(ks[1..], used);
    }
  }

  /** The default alignment of every packaging node among `ns`, in order. */
  function DefaultAll(ns: seq<Node>, infos: Infos): (r: Option<Infos>)
    ensures r.Some? ==> forall q :: (forall i :: 0 <= i < |ns| && ns[i].Iterable() ==> ns[i].id != q) ==>
              InfoOf(r.value, q) == InfoOf(infos, q)
    decreases |ns|
  {
    if |ns| == 0 then Some(infos)
    else if ns[0].Iterable() then
      var info :- DefaultAlign(ns[0], InfoOf(infos, ns[0].id));
      var r := DefaultAll(ns[1..], infos[ns[0].id := info]);
      assert forall i :: 1 <= i < |ns| ==> ns[1..][i - 1] == ns[i];
      r
    else
      var r := DefaultAll(ns[1..], infos);
      assert forall i :: 1 <= i < |ns| ==> ns[1..][i - 1] == ns[i];
      r
  }

  /** `create`: the defined alignments of the `align` nodes, then the default
      alignment of every packaging node in tree order. */
  function Create(root: Node, aligns: seq<AlignDef>): Option<Infos> {
    var defined :- DefinedAll(root, map[], aligns);
    DefaultAll(Unwind(root), defined)
  }

  /** Defined alignments never write centre or middle groups, so the default
      alignment of a node can only add a new middle row and horizontal span
      (of two or more lost ids) or leave the node alone; it never fails. */
  lemma {:induction false} DefaultAllUncentred(ns: seq<Node>, infos: Infos)
    requires forall i, j :: 0 <= i < j < |ns| ==> ns[i].id != ns[j].id
    requires forall i :: 0 <= i < |ns| ==> InfoOf(infos, ns[i].id).center == [] && InfoOf(infos, ns[i].id).middle == []
    ensures DefaultAll(ns, infos).Some?
    decreases |ns|
  {
    if |ns| > 0 {
      var rest := ns[1..];
      assert forall i :: 0 <= i < |rest| ==> rest[i] == ns[i + 1];
      if ns[0].Iterable() {
        var info := InfoOf(infos, ns[0].id);
        var lost := Lost(ns[0], info);
        var d := DefaultAlign(ns[0], info);
        assert d.Some?;
        DefaultAllUncentred(rest, infos[ns[0].id := d.value]);
      } else {
        DefaultAllUncentred(rest, infos);
      }
    }
  }

  /** No two nodes share an id (the parser's node table refuses duplicates). */
  predicate UniqueIds(ns: seq<Node>) {
    forall i, j :: 0 <= i < j < |ns| ==> ns[i].id != ns[j].id
  }

  /** `create` fails exactly when a defined alignment fails. */
  lemma CreateFails(root: Node, aligns: seq<AlignDef>)
    requires UniqueIds(Unwind(root))
    ensures Create(root, aligns).None? <==> DefinedAll(root, map[], aligns).None?
  {
    var d := DefinedAll(root, map[], aligns);
    if d.Some? {
      assert forall q :: SameUnwritten(InfoOf(d.value, q), InfoOf(map[], q));
      DefaultAllUncentred(Unwind(root), d.value);
    }
  }

  // ---------------------------------------------------------------------
  // Constraining a node

  /** The eight alignment hooks. */
  datatype Hook = TopHook | RightHook | BottomHook | LeftHook | CenterHook | MiddleHook | HspanHook | VspanHook

  /** The fixed order in which `_constraint` calls them. */
  const HookOrder: seq<Hook> := [TopHook, RightHook, BottomHook, LeftHook, CenterHook, MiddleHook, HspanHook, VspanHook]

  function Rank(h: Hook): nat {
    match h
    case TopHook => 0
    case RightHook => 1
    case BottomHook => 2
    case LeftHook => 3
    case CenterHook => 4
    case MiddleHook => 5
    case HspanHook => 6
    case VspanHook => 7
  }

  /** The list of groups a hook is called with. */
  function GroupsOf(info: AlignInfo, h: Hook): Groups {
    match h
    case TopHook => info.top
    case RightHook => info.right
    case BottomHook => info.bottom
    case LeftHook => info.left
    case CenterHook => info.center
    case MiddleHook => info.middle
    case HspanHook => info.hspan
    case VspanHook => info.vspan
  }

  /** One call `_constraint` makes: the size of a node, its containment in
      its parent, or an alignment hook on the nodes of one group. */
  datatype Call = SizeCall(id: string) | WithinCall(parent: string, id: string) | HookCall(hook: Hook, ids: seq<string>)

  function Tagged(h: Hook, gs: Groups): (r: seq<Call>)
    ensures |r| == |gs| && forall i :: 0 <= i < |gs| ==> r[i] == HookCall(h, gs[i])
  {
    seq(|gs|, i requires 0 <= i < |gs| => HookCall(h, gs[i]))
  }

  /** The hook calls for the hooks `hs`, each on all its groups in turn. */
  function HookCalls(info: AlignInfo, hs: seq<Hook>): (r: seq<Call>)
    ensures forall c :: c in r ==> c.HookCall? && c.hook in hs
    decreases |hs|
  {
    if |hs| == 0 then []
    else Tagged(hs[0], GroupsOf(info, hs[0])) + HookCalls(info, hs[1..])
  }

  predicate Ascending(hs: seq<Hook>) {
    forall i, j :: 0 <= i < j < |hs| ==> Rank(hs[i]) < Rank(hs[j])
  }

  /** Each hook sits in the fixed order at the position of its rank. */
  lemma HookOrderRanks()
    ensures Ascending(HookOrder)
    ensures forall h :: HookOrder[Rank(h)] == h
  {
    assert forall i :: 0 <= i < |HookOrder| ==> Rank(HookOrder[i]) == i;
  }

  /** Hook calls after a prefix `n` of other calls, in hook order. */
  predicate HooksFrom(r: seq<Call>, n: nat) {
    forall i, j :: n <= i < j < |r| ==> r[i].HookCall? && r[j].HookCall? && Rank(r[i].hook) <= Rank(r[j].hook)
  }

  lemma HooksAfter(head: seq<Call>, hooks: seq<Call>)
    requires HooksFrom(hooks, 0)
    ensures HooksFrom(head + hooks, |head|)
  {
    var r := head + hooks;
    forall i, j | |head| <= i < j < |r|
      ensures r[i].HookCall? && r[j].HookCall? && Rank(r[i].hook) <= Rank(r[j].hook)
    {
      assert r[i] == hooks[i - |head|] && r[j] == hooks[j - |head|];
    }
  }

  /** The groups a hook is called with, in call order. */
  function CalledWith(cs: seq<Call>, h: Hook): Groups
    decreases |cs|
  {
    if |cs| == 0 then []
    else (if cs[0].HookCall? && cs[0].hook == h then [cs[0].ids] else []) + CalledWith(cs[1..], h)
  }

  lemma {:induction false} CalledWithConcat(a: seq<Call>, b: seq<Call>, h: Hook)
    ensures CalledWith(a + b, h) == CalledWith(a, h) + CalledWith(b, h)
    decreases |a|
  {
    if |a| == 0 {
      assert a + b == b;
    } else {
      assert (a + b)[0] == a[0];
      assert (a + b)[1..] == a[1..] + b;
      CalledWithConcat(a[1..], b, h);
    }
  }

  lemma {:induction false} CalledWithTagged(g: Hook, gs: Groups, h: Hook)
    ensures CalledWith(Tagged(g, gs), h) == if g == h then gs else []
    decreases |gs|
  {
    if |gs| > 0 {
      assert Tagged(g, gs) == [HookCall(g, gs[0])] + Tagged(g, gs[1..]);
      CalledWithConcat([HookCall(g, gs[0])], Tagged(g, gs[1..]), h);
      CalledWithTagged(g, gs[1..], h);
      assert [gs[0]] + gs[1..] == gs;
    }
  }

  /** Each hook is called on exactly its own groups, in their order, when it
      occurs once in `hs`, and not at all when it does not occur. */
  lemma {:induction false} HookCallsGroups(info: AlignInfo, hs: seq<Hook>, h: Hook)
    requires Ascending(hs)
    ensures CalledWith(HookCalls(info, hs), h) == if h in hs then GroupsOf(info, h) else []
    decreases |hs|
  {
    if |hs| > 0 {
      var rest := hs[1..];
      assert Ascending(rest);
      CalledWithConcat(Tagged(hs[0], GroupsOf(info, hs[0])), HookCalls(info, rest), h);
      CalledWithTagged(hs[0], GroupsOf(info, hs[0]), h);
      HookCallsGroups(info, rest, h);
      if h == hs[0] {
        assert h !in rest;
      }
    }
  }

  /** The hooks fire in the order of `hs`: a call never follows a call of a later hook. */
  lemma {:induction false} HookCallsOrdered(info: AlignInfo, hs: seq<Hook>)
    requires Ascending(hs)
    ensures HooksFrom(HookCalls(info, hs), 0)
    decreases |hs|
  {
    if |hs| > 0 {
      var rest := hs[1..];
      assert Ascending(rest);
      HookCallsOrdered(info, rest);
      var tail := HookCalls(info, rest);
      forall c | c in tail
        ensures c.HookCall? && Rank(hs[0]) < Rank(c.hook)
      {
        var k :| 0 <= k < |rest| && rest[k] == c.hook;
        assert hs[k + 1] == c.hook;
      }
      OrderedAfterTagged(hs[0], GroupsOf(info, hs[0]), tail);
    }
  }

  /** The calls of one hook followed by ordered calls of later hooks are ordered. */
  lemma OrderedAfterTagged(g: Hook, gs: Groups, tail: seq<Call>)
    requires HooksFrom(tail, 0)
    requires forall c :: c in tail ==> c.HookCall? && Rank(g) < Rank(c.hook)
    ensures HooksFrom(Tagged(g, gs) + tail, 0)
  {
    var t := Tagged(g, gs);
    var r := t + tail;
    forall i, j | 0 <= i < j < |r|
      ensures r[i].HookCall? && r[j].HookCall? && Rank(r[i].hook) <= Rank(r[j].hook)
    {
      if j < |t| {
        assert r[i] == t[i] && r[j] == t[j];
      } else if i < |t| {
        assert r[i] == t[i];
        assert r[j] == tail[j - |t|];
        assert r[j] in tail;
      } else {
        assert r[i] == tail[i - |t|] && r[j] == tail[j - |t|];
      }
    }
  }
  /** A node id the node table knows. */
  predicate Known(root: Node, id: string) {
    PathTo(root, id).Some?
  }

  predicate AllKnown(root: Node, gs: Groups) {
    forall g, id :: g in gs && id in g ==> Known(root, id)
  }

  /** Every group of the node's alignment names only nodes of the tree. */
  predicate Resolvable(root: Node, info: AlignInfo) {
    forall i :: 0 <= i < |HookOrder| ==> AllKnown(root, GroupsOf(info, HookOrder[i]))
  }

  /** The size call of a node, then its containment in its parent when it has one. */
  function Head(root: Node, node: Node): (r: seq<Call>)
    ensures 1 <= |r| <= 2 && r[0] == SizeCall(node.id)
    ensures |r| == 2 <==> Cl.ParentIdOf(root, node.id).Some?
    ensures |r| == 2 ==> r[1] == WithinCall(Cl.ParentIdOf(root, node.id).value, node.id)
  {
    match Cl.ParentIdOf(root, node.id)
    case Some(p) => [SizeCall(node.id), WithinCall(p, node.id)]
    case None => [SizeCall(node.id)]
  }

  /** `_constraint`: the node's size, its containment in its parent when it
      has one, then for a packaging node the hooks and nothing else. None
      when a group names an unknown node (the source fails to look it up). */
  function Constrain(root: Node, infos: Infos, node: Node): (r: Option<seq<Call>>)
    ensures r.None? <==> node.Iterable() && !Resolvable(root, InfoOf(infos, node.id))
    ensures r.Some? ==> |Head(root, node)| <= |r.value| && r.value[..|Head(root, node)|] == Head(root, node)
    ensures r.Some? ==> forall c :: c in r.value[|Head(root, node)|..] ==> c.HookCall?
    ensures r.Some? && !node.Iterable() ==> r.value == Head(root, node)
  {
    var head := Head(root, node);
    if node.Iterable() then
      var info := InfoOf(infos, node.id);
      if Resolvable(root, info) then
        var hooks := HookCalls(info, HookOrder);
        assert (head + hooks)[|head|..] == hooks;
        Some(head + hooks)
      else None
    else Some(head)
  }

  /** For a packaging node, the calls after size and containment are exactly
      the hook calls: each hook on its own groups in order, the hooks in the
      fixed order top, right, bottom, left, center, middle, hspan, vspan. */
  lemma ConstrainHooks(root: Node, infos: Infos, node: Node, h: Hook)
    requires node.Iterable() && Constrain(root, infos, node).Some?
    ensures var r := Constrain(root, infos, node).value;
            CalledWith(r[|Head(root, node)|..], h) == GroupsOf(InfoOf(infos, node.id), h) &&
            HooksFrom(r, |Head(root, node)|)
  {
    var info := InfoOf(infos, node.id);
    var head := Head(root, node);
    var hooks := HookCalls(info, HookOrder);
    assert Constrain(root, infos, node).value == head + hooks;
    assert (head + hooks)[|head|..] == hooks;
    HookOrderRanks();
    HookCallsGroups(info, HookOrder, h);
    HookCallsOrdered(info, HookOrder);
    HooksAfter(head, hooks);
  }

  /** The nodes the traversal constrains: the diagram and the elements. */
  predicate Constrained(k: Node) {
    k.nclass == DiagramClass || Cl.Alignable(k)
  }

  /** The calls for the constrained nodes among `ns`, in order. */
  function ConstrainAll(root: Node, infos: Infos, ns: seq<Node>): (r: Option<seq<Call>>)
    decreases |ns|
  {
    if |ns| == 0 then Some([])
    else
      var mine :- if Constrained(ns[0]) then Constrain(root, infos, ns[0]) else Some([]);
      var rest :- ConstrainAll(root, infos, ns[1..]);
      Some(mine + rest)
  }

  /** The nodes sized by a call sequence, in order. */
  function Sized(cs: seq<Call>): seq<string>
    decreases |cs|
  {
    if |cs| == 0 then [] else (if cs[0].SizeCall? then [cs[0].id] else []) + Sized(cs[1..])
  }

  lemma {:induction false} SizedConcat(a: seq<Call>, b: seq<Call>)
    ensures Sized(a + b) == Sized(a) + Sized(b)
    decreases |a|
  {
    if |a| == 0 {
      assert a + b == b;
    } else {
      assert (a + b)[0] == a[0];
      assert (a + b)[1..] == a[1..] + b;
      SizedConcat(a[1..], b);
    }
  }

  /** The ids of the constrained nodes among `ns`, in order. */
  function ConstrainedIds(ns: seq<Node>): seq<string>
    decreases |ns|
  {
    if |ns| == 0 then [] else (if Constrained(ns[0]) then [ns[0].id] else []) + ConstrainedIds(ns[1..])
  }

  /** Every constrained node is sized exactly once, in traversal order. */
  lemma {:induction false} ConstrainAllSizes(root: Node, infos: Infos, ns: seq<Node>)
    requires ConstrainAll(root, infos, ns).Some?
    ensures Sized(ConstrainAll(root, infos, ns).value) == ConstrainedIds(ns)
    decreases |ns|
  {
    if |ns| > 0 {
      var mine := if Constrained(ns[0]) then Constrain(root, infos, ns[0]).value else [];
      var rest := ConstrainAll(root, infos, ns[1..]).value;
      SizedConcat(mine, rest);
      ConstrainAllSizes(root, infos, ns[1..]);
      if Constrained(ns[0]) {
        ConstrainSized(root, infos, ns[0]);
      }
    }
  }

  /** Constraining a node sizes that node and no other. */
  lemma ConstrainSized(root: Node, infos: Infos, node: Node)
    requires Constrain(root, infos, node).Some?
    ensures Sized(Constrain(root, infos, node).value) == [node.id]
  {
    var m := Constrain(root, infos, node).value;
    var hd := Head(root, node);
    var rest := m[|hd|..];
    assert m == hd + rest;
    SizedConcat(hd, rest);
    SizedNone(rest);
    assert hd == [SizeCall(node.id)] + hd[1..];
    SizedConcat([SizeCall(node.id)], hd[1..]);
    assert forall c :: c in hd[1..] ==> c.WithinCall?;
    SizedNone(hd[1..]);
  }

  lemma {:induction false} SizedNone(cs: seq<Call>)
    requires forall c :: c in cs ==> !c.SizeCall?
    ensures Sized(cs) == []
    decreases |cs|
  {
    if |cs| > 0 {
      assert forall c :: c in cs[1..] ==> c in cs;
      SizedNone(cs[1..]);
    }
  }

  /** `layout`: the calls for the whole tree in postorder. */
  function Layout(root: Node, infos: Infos): Option<seq<Call>> {
    ConstrainAll(root, infos, Postorder(root))
  }

  /** Children are sized before their parents: the sizes follow postorder. */
  lemma LayoutSizes(root: Node, infos: Infos)
    requires Layout(root, infos).Some?
    ensures Sized(Layout(root, infos).value) == ConstrainedIds(Postorder(root))
  {
    ConstrainAllSizes(root, infos, Postorder(root));
  }
}

=== FILE: relations.dfy ===
/** The relationship lines of the piUML parser: associations, dependencies,
    comment lines, component assemblies and dependencies on folded
    interfaces, with the UML checks each of them makes, and the association
    end lines that follow an association. Nodes are seen through the cache as
    their element kind; generated ids (the source draws them from `uuid`) are
    given as parameters. */
module Relations {
  import opened Wrappers
  import Strings
  import Parser
  import Seqs

  /** The element kind of every node defined so far, by id. */
  type Kinds = Parser.Cache<string>

  /** A relationship line as the parser records it. */
  datatype Edge = Edge(element: string, tail: string, head: string, stereotypes: seq<string>)

  /** `_get_ends`: the element kinds of the nodes named first and last on the
      line; the first id is looked up first. */
  function Ends(c: Kinds, t: string, h: string): (r: Result<(string, string), Parser.Error>)
    ensures r.Success? <==> t in c && h in c
    ensures r.Success? ==> r.value == (c[t], c[h])
    ensures r.Failure? ==> r.error == Parser.NotDefined(if t !in c then t else h)
  {
    var kt :- Parser.Lookup(c, t);
    var kh :- Parser.Lookup(c, h);
    Success((kt, kh))
  }

  /** The stereotypes of an optional `<<...>>` token. */
  function Stereotypes(st: Option<string>): seq<string> {
    match st
    case Some(s) => Parser.StParse(s)
    case None => []
  }

  // ---------------------------------------------------------------------
  // Associations

  /** The kind of an association end. */
  datatype EndKind = NoEnd | Shared | Composite | Navigable | UnknownKind

  /** The end kind table: `x`, `O`, `*`, `<` or `>`, and `=`; no entry for
      any other character. */
  function EndOf(ch: char): (r: Option<EndKind>)
    ensures r.Some? <==> ch in "xO*<>="
    ensures r == Some(Navigable) <==> ch == '<' || ch == '>'
    ensures r == Some(UnknownKind) <==> ch == '='
  {
    if ch == 'x' then Some(NoEnd)
    else if ch == 'O' then Some(Shared)
    else if ch == '*' then Some(Composite)
    else if ch == '<' || ch == '>' then Some(Navigable)
    else if ch == '=' then Some(UnknownKind)
    else None
  }

  /** An association end: its name and multiplicity once an end line has
      filled them, and its kind. */
  datatype AssocEnd = AssocEnd(name: Option<string>, mult: Option<string>, kind: EndKind)

  datatype AssocElement = AssociationEdge | Extension

  /** An association; `direction` is the id of the end the operator points
      to, when it points. */
  datatype Association = Association(element: AssocElement, tail: string, head: string, name: Option<string>,
                                     stereotypes: seq<string>, tailEnd: AssocEnd, headEnd: AssocEnd,
                                     direction: Option<string>)

  /** A stereotype joined to a metaclass, in either order. */
  predicate ExtensionKinds(kt: string, kh: string) {
    (kt == "stereotype" && kh == "metaclass") || (kt == "metaclass" && kh == "stereotype")
  }

  /** `p_association` on the tail id, operator text, head id, optional name
      and optional stereotype token. An end character off the table is the
      key error the source lets escape. */
  function Associate(c: Kinds, t: string, v: string, h: string, name: Option<string>, st: Option<string>)
    : (r: Result<Association, Parser.Error>)
    requires |v| >= 1
  {
    var (kt, kh) :- Ends(c, t, h);
    var tk :- match EndOf(v[0]) case Some(k) => Success(k) case None => Failure(Parser.UnknownEnd(v[0]));
    var hk :- match EndOf(v[|v| - 1]) case Some(k) => Success(k) case None => Failure(Parser.UnknownEnd(v[|v| - 1]));
    var dir := if Strings.Contains(v, "=>=") then Some(h) else if Strings.Contains(v, "=<=") then Some(t) else None;
    Success(Association(if ExtensionKinds(kt, kh) then Extension else AssociationEdge, t, h, name, Stereotypes(st),
                        AssocEnd(None, None, tk), AssocEnd(None, None, hk), dir))
  }

  /** An association operator as the scanner accepts it: an optional tail
      mark, `=`, an optional direction mark, `=`, an optional head mark. */
  datatype AssocOp = AssocOp(tailMark: Option<char>, dirMark: Option<char>, headMark: Option<char>)

  predicate ValidAssocOp(op: AssocOp) {
    && (op.tailMark.Some? ==> op.tailMark.value in "xO*<")
    && (op.dirMark.Some? ==> op.dirMark.value in "<>")
    && (op.headMark.Some? ==> op.headMark.value in "xO*>")
  }

  function Mark(m: Option<char>): string {
    match m
    case Some(ch) => [ch]
    case None => ""
  }

  function AssocText(op: AssocOp): (v: string)
    ensures 2 <= |v| <= 5
  {
    Mark(op.tailMark) + "=" + Mark(op.dirMark) + "=" + Mark(op.headMark)
  }

  /** Reference definition of an end's kind: the mark's, or unknown when the
      operator has no mark there. */
  function MarkKind(m: Option<char>): EndKind {
    match m
    case None => UnknownKind
    case Some(ch) =>
      if ch == 'x' then NoEnd else if ch == 'O' then Shared else if ch == '*' then Composite else Navigable
  }

  /** The three characters starting at `i`. */
  lemma OccursThree(s: string, a: char, b: char, d: char, i: int)
    requires Strings.OccursAt(s, [a, b, d], i)
    ensures 0 <= i && i + 2 < |s| && s[i] == a && s[i + 1] == b && s[i + 2] == d
  {
    assert s[i..i + 3][0] == s[i] && s[i..i + 3][1] == s[i + 1] && s[i..i + 3][2] == s[i + 2];
  }

  /** `=>=` occurs in an operator exactly when its direction mark is `>`,
      and `=<=` exactly when it is `<`. */
  lemma DirectionMarks(op: AssocOp)
    requires ValidAssocOp(op)
    ensures Strings.Contains(AssocText(op), "=>=") <==> op.dirMark == Some('>')
    ensures Strings.Contains(AssocText(op), "=<=") <==> op.dirMark == Some('<')
  {
    var v := AssocText(op);
    var p := |Mark(op.tailMark)|;
    assert v[p] == '=';
    if op.dirMark.Some? {
      assert v[p + 2] == '=' && v[p + 1] == op.dirMark.value;
      assert v[p..p + 3] == [v[p], v[p + 1], v[p + 2]];
      assert Strings.OccursAt(v, ['=', op.dirMark.value, '='], p);
    }
    forall i, m | m in "<>" && Strings.OccursAt(v, ['=', m, '='], i)
      ensures op.dirMark == Some(m)
    {
      OccursThree(v, '=', m, '=', i);
    }
  }

  /** Decoding a scanned operator: the tail and head kinds are those of its
      marks, the direction is the head for `>` and the tail for `<`, and the
      association is an extension exactly between a stereotype and a
      metaclass. Only an undefined end id fails. */
  lemma AssociateDecodes(c: Kinds, t: string, op: AssocOp, h: string, name: Option<string>, st: Option<string>)
    requires ValidAssocOp(op)
    ensures var r := Associate(c, t, AssocText(op), h, name, st);
            && (r.Success? <==> t in c && h in c)
            && (r.Success? ==>
                  && r.value.tail == t && r.value.head == h && r.value.name == name
                  && r.value.stereotypes == Stereotypes(st)
                  && r.value.tailEnd == AssocEnd(None, None, MarkKind(op.tailMark))
                  && r.value.headEnd == AssocEnd(None, None, MarkKind(op.headMark))
                  && r.value.direction == (if op.dirMark == Some('>') then Some(h)
                                           else if op.dirMark == Some('<') then Some(t) else None)
                  && (r.value.element == Extension <==> ExtensionKinds(c[t], c[h])))
  {
    DirectionMarks(op);
    MarkEnds(op);
  }

  /** The first and last characters of an operator give the kinds of its marks. */
  lemma MarkEnds(op: AssocOp)
    requires ValidAssocOp(op)
    ensures var v := AssocText(op);
            EndOf(v[0]) == Some(MarkKind(op.tailMark)) && EndOf(v[|v| - 1]) == Some(MarkKind(op.headMark))
  {
    var v := AssocText(op);
    assert v[0] == (if op.tailMark.Some? then op.tailMark.value else '=');
    assert v[|v| - 1] == (if op.headMark.Some? then op.headMark.value else '=');
  }

  /** The direction test of the source's tests: `=>=` points to the head,
      `=<=` to the tail, `==` nowhere. */
  lemma AssociationDirections()
    ensures var c := map["c1" := "class", "c2" := "class", "c3" := "class"];
            && Associate(c, "c1", "=>=", "c2", None, None).value.direction == Some("c2")
            && Associate(c, "c2", "=<=", "c3", None, None).value.direction == Some("c2")
            && Associate(c, "c3", "==", "c1", None, None).value.direction == None
  {
    var c := map["c1" := "class", "c2" := "class", "c3" := "class"];
    AssociateDecodes(c, "c1", AssocOp(None, Some('>'), None), "c2", None, None);
    assert AssocText(AssocOp(None, Some('>'), None)) == "=>=";
    AssociateDecodes(c, "c2", AssocOp(None, Some('<'), None), "c3", None, None);
    assert AssocText(AssocOp(None, Some('<'), None)) == "=<=";
    AssociateDecodes(c, "c3", AssocOp(None, None, None), "c1", None, None);
    assert AssocText(AssocOp(None, None, None)) == "==";
  }

  // ---------------------------------------------------------------------
  // Association end lines

  /** What an end line under an association becomes: a filled end of a plain
      association, or, under an extension, an ordinary feature node with
      its indentation width and text, which `SetParent` then places. */
  datatype EndLine = EndFilled(assoc: Association) | EndFeature(level: nat, text: string)

  /** Length of `value.split(':')[0]`: the characters before the first colon. */
  function IndentWidth(line: string): (k: nat)
    ensures k <= |line| && ':' !in line[..k] && (k < |line| ==> line[k] == ':')
  {
    if |line| == 0 || line[0] == ':' then 0
    else
      var k := 1 + IndentWidth(line[1..]);
      assert line[..k] == [line[0]] + line[1..][..k - 1];
      k
  }

  /** `value.strip()[1:].strip()`: the line's text after its leading mark. */
  function FeatureText(line: string): string {
    var s := Strings.Strip(line);
    Strings.Strip(if |s| == 0 then s else s[1..])
  }

  /** `_feature` under an association. Only an element still named
      `association` takes end lines: a line not starting with `::` fills the
      tail when its name is still unset, otherwise the head when unset; a
      line with both ends set is one too many. A missing end name becomes
      the empty name; the end kind stays. Under an extension the line is an
      ordinary feature. */
  function AddEnd(a: Association, line: string, name: Option<string>, mult: Option<string>)
    : (r: Result<EndLine, Parser.Error>)
  {
    var isHead := Strings.StartsWith(Strings.Strip(line), "::");
    if a.element == Extension then
      Success(EndFeature(IndentWidth(line), FeatureText(line)))
    else if a.tailEnd.name.None? && !isHead then
      Success(EndFilled(a.(tailEnd := AssocEnd(Some(name.GetOr("")), mult, a.tailEnd.kind))))
    else if a.headEnd.name.None? then
      Success(EndFilled(a.(headEnd := AssocEnd(Some(name.GetOr("")), mult, a.headEnd.kind))))
    else Failure(Parser.TooManyEnds)
  }

  /** Number of ends an end line has filled. */
  function Filled(a: Association): nat {
    (if a.tailEnd.name.Some? then 1 else 0) + (if a.headEnd.name.Some? then 1 else 0)
  }

  /** On a plain association each end line fills exactly one more end and
      changes nothing else, the kinds of both ends included; it fails only
      when the head is set and either the tail is set or the line asks for
      the head. */
  lemma AddEndFills(a: Association, line: string, name: Option<string>, mult: Option<string>)
    ensures var r := AddEnd(a, line, name, mult);
            && (r.Success? && r.value.EndFilled? <==> a.element == AssociationEdge && r.Success?)
            && (a.element == AssociationEdge ==>
                  && (r.Failure? <==> a.headEnd.name.Some? && (a.tailEnd.name.Some? || Strings.StartsWith(Strings.Strip(line), "::")))
                  && (r.Failure? ==> r.error == Parser.TooManyEnds)
                  && (r.Success? ==>
                        && Filled(r.value.assoc) == Filled(a) + 1
                        && r.value.assoc.tailEnd.kind == a.tailEnd.kind && r.value.assoc.headEnd.kind == a.headEnd.kind
                        && r.value.assoc.(tailEnd := a.tailEnd, headEnd := a.headEnd) == a))
  {
  }

  /** Under an extension an end line never fails and never fills an end: it
      becomes a feature whose level is the width before the first colon. */
  lemma ExtensionEndIsFeature(a: Association, line: string, name: Option<string>, mult: Option<string>)
    requires a.element == Extension
    ensures var r := AddEnd(a, line, name, mult);
            && r.Success? && r.value.EndFeature?
            && r.value.level <= |line| && ':' !in line[..r.value.level]
            && (r.value.level < |line| ==> line[r.value.level] == ':')
            && r.value.text == FeatureText(line)
  {
  }

  /** A new plain association takes at most two end lines: the third always
      fails. */
  lemma ThirdEndFails(a: Association, l1: string, l2: string, l3: string, n1: Option<string>, n2: Option<string>,
                      n3: Option<string>, m1: Option<string>, m2: Option<string>, m3: Option<string>)
    requires a.element == AssociationEdge
    requires a.tailEnd.name.None? && a.headEnd.name.None?
    requires AddEnd(a, l1, n1, m1).Success?
    requires AddEnd(AddEnd(a, l1, n1, m1).value.assoc, l2, n2, m2).Success?
    ensures AddEnd(AddEnd(AddEnd(a, l1, n1, m1).value.assoc, l2, n2, m2).value.assoc, l3, n3, m3) == Failure(Parser.TooManyEnds)
  {
    AddEndFills(a, l1, n1, m1);
    var b := AddEnd(a, l1, n1, m1).value.assoc;
    AddEndFills(b, l2, n2, m2);
    AddEndFills(AddEnd(b, l2, n2, m2).value.assoc, l3, n3, m3);
  }

  // ---------------------------------------------------------------------
  // Dependencies

  /** The type letters whose dependencies check the kinds of their ends:
      import/include, merge and extend. */
  predicate CheckedLetter(ch: char) {
    ch == 'i' || ch == 'm' || ch == 'e'
  }

  /** The dependency type letters: use, realization and the checked ones. */
  predicate TypeLetter(ch: char) {
    ch == 'u' || ch == 'r' || CheckedLetter(ch)
  }

  /** The default stereotype of a dependency type letter. */
  function DefaultStereotype(ch: char): Option<string> {
    if ch == 'u' then Some("use")
    else if ch == 'r' then Some("realization")
    else if ch == 'i' then Some("import/include")
    else if ch == 'm' then Some("merge")
    else if ch == 'e' then Some("extend")
    else None
  }

  /** Whether a dependency of this type letter may join ends of these kinds:
      `i` two packages or two use cases, `m` two packages, `e` two use cases;
      any other letter any ends. */
  predicate DependencyAllowed(dt: char, kt: string, kh: string) {
    var pp := kt == "package" && kh == "package";
    var uu := kt == "usecase" && kh == "usecase";
    if dt == 'i' then pp || uu
    else if dt == 'm' then pp
    else if dt == 'e' then uu
    else true
  }

  /** A dependency; `supplier` is the id of its supplier end. */
  datatype Dependency = Dependency(tail: string, head: string, stereotypes: seq<string>, supplier: string)

  /** The stereotype list with its default entry renamed for an import
      between packages or an include between use cases. */
  function FixImport(sts: seq<string>, dt: char, kt: string, kh: string): seq<string>
    requires |sts| >= 1
  {
    if dt == 'i' && kt == "package" && kh == "package" then sts[0 := "import"]
    else if dt == 'i' && kt == "usecase" && kh == "usecase" then sts[0 := "include"]
    else sts
  }

  /** `p_dependency` on the tail id, operator text, head id and optional
      stereotype token. The letter after the first character selects the
      default stereotype and the ends it allows. */
  function Depend(c: Kinds, t: string, v: string, h: string, st: Option<string>): (r: Result<Dependency, Parser.Error>)
    requires |v| >= 2
  {
    DependWith(c, t, v, h, Stereotypes(st))
  }

  /** The dependency of `p_dependency` once the written stereotypes are parsed. */
  function DependWith(c: Kinds, t: string, v: string, h: string, written: seq<string>): (r: Result<Dependency, Parser.Error>)
    requires |v| >= 2
  {
    var dt := v[1];
    var sts := (match DefaultStereotype(dt) case Some(s) => [s] case None => []) + written;
    var (kt, kh) :- Ends(c, t, h);
    var supplier := if v[0] == '<' then t else h;
    if CheckedLetter(dt) then
      var pp := kt == "package" && kh == "package";
      var uu := kt == "usecase" && kh == "usecase";
      if dt == 'i' && !pp && !uu then Failure(Parser.ImportEnds)
      else if dt == 'm' && !pp then Failure(Parser.MergeEnds)
      else if dt == 'e' && !uu then Failure(Parser.ExtendEnds)
      else Success(Dependency(t, h, FixImport(sts, dt, kt, kh), supplier))
    else Success(Dependency(t, h, sts, supplier))
  }

  /** A dependency line succeeds exactly when both ids are defined and its
      type letter allows the kinds of its ends; a refused line names the
      letter's check. */
  lemma DependAllowed(c: Kinds, t: string, v: string, h: string, written: seq<string>)
    requires |v| >= 2
    ensures var r := DependWith(c, t, v, h, written);
            && (r.Success? <==> t in c && h in c && DependencyAllowed(v[1], c[t], c[h]))
            && (r.Failure? && t in c && h in c ==>
                  r.error == (if v[1] == 'i' then Parser.ImportEnds else if v[1] == 'm' then Parser.MergeEnds
                              else Parser.ExtendEnds))
  {
  }

  /** A dependency operator as the scanner accepts it: `<` + letter + `-`
      pointing to the tail, or `-` + letter + `>` pointing to the head, the
      letter optional. */
  datatype DepOp = DepOp(toTail: bool, letter: Option<char>)

  predicate ValidDepOp(op: DepOp) {
    op.letter.Some? ==> TypeLetter(op.letter.value)
  }

  /** The operator's text: its first character tells the direction and its
      second the letter, if any. */
  function DepText(op: DepOp): (v: string)
    ensures |v| >= 2
    ensures v[0] == (if op.toTail then '<' else '-')
    ensures v[1] == (if op.letter.Some? then op.letter.value else if op.toTail then '-' else '>')
  {
    if op.toTail then "<" + Mark(op.letter) + "-" else "-" + Mark(op.letter) + ">"
  }

  /** Decoding a scanned operator: the supplier is the tail exactly when the
      operator opens with `<`; a letter gives the first stereotype (import or
      include for `i` between packages or use cases), followed by the
      written ones; no letter gives only the written ones. */
  lemma DependDecodes(c: Kinds, t: string, op: DepOp, h: string, st: Option<string>)
    requires ValidDepOp(op)
    requires Depend(c, t, DepText(op), h, st).Success?
    ensures var d := Depend(c, t, DepText(op), h, st).value;
            && d.tail == t && d.head == h
            && d.supplier == (if op.toTail then t else h)
            && (op.letter.None? ==> d.stereotypes == Stereotypes(st))
            && (op.letter.Some? ==>
                  var dt := op.letter.value;
                  |d.stereotypes| == 1 + |Stereotypes(st)| && d.stereotypes[1..] == Stereotypes(st)
                  && Some(d.stereotypes[0]) == (if dt == 'i' && t in c && c[t] == "package" then Some("import")
                                                else if dt == 'i' then Some("include")
                                                else DefaultStereotype(dt)))
  {
    DependStereotypes(c, t, DepText(op), h, Stereotypes(st));
  }

  /** An accepted `i` dependency joins two packages, as an import, or two
      use cases, as an include. */
  lemma ImportStereotype(c: Kinds, t: string, v: string, h: string, written: seq<string>)
    requires |v| >= 2 && v[1] == 'i'
    requires DependWith(c, t, v, h, written).Success?
    ensures t in c && h in c
    ensures var d := DependWith(c, t, v, h, written).value;
            d.stereotypes == [if c[t] == "package" then "import" else "include"] + written
  {
    DependAllowed(c, t, v, h, written);
    var sts := [DefaultStereotype('i').value] + written;
    var d := DependWith(c, t, v, h, written).value;
    assert d.stereotypes == FixImport(sts, 'i', c[t], c[h]);
    if c[t] == "package" && c[h] == "package" {
      assert d.stereotypes == sts[0 := "import"];
      Seqs.UpdateHead(DefaultStereotype('i').value, "import", written);
    } else {
      assert c[t] == "usecase" && c[h] == "usecase";
      assert c[t] != "package" by {
        assert "package"[0] != "usecase"[0];
      }
      assert d.stereotypes == sts[0 := "include"];
      Seqs.UpdateHead(DefaultStereotype('i').value, "include", written);
    }
  }

  /** The stereotypes of an accepted dependency: the type letter's default
      one first, renamed for an import between packages or an include
      between use cases, then the written ones. */
  lemma DependStereotypes(c: Kinds, t: string, v: string, h: string, written: seq<string>)
    requires |v| >= 2
    requires DependWith(c, t, v, h, written).Success?
    ensures var d := DependWith(c, t, v, h, written).value;
            && t in c && h in c
            && d.tail == t && d.head == h
            && d.supplier == (if v[0] == '<' then t else h)
            && (!TypeLetter(v[1]) ==> d.stereotypes == written)
            && (TypeLetter(v[1]) ==>
                  |d.stereotypes| == 1 + |written| && d.stereotypes[1..] == written
                  && Some(d.stereotypes[0]) == (if v[1] == 'i' && c[t] == "package" then Some("import")
                                                else if v[1] == 'i' then Some("include")
                                                else DefaultStereotype(v[1])))
  {
    var dt := v[1];
    var d := DependWith(c, t, v, h, written).value;
    if TypeLetter(dt) {
      var sts := [DefaultStereotype(dt).value] + written;
      if dt == 'i' {
        ImportStereotype(c, t, v, h, written);
      } else if CheckedLetter(dt) {
        assert d.stereotypes == FixImport(sts, dt, c[t], c[h]) == sts;
      } else {
        assert d.stereotypes == sts;
      }
    } else {
      assert DefaultStereotype(dt).None?;
      assert d.stereotypes == [] + written;
    }
  }

  // ---------------------------------------------------------------------
  // Comment lines

  /** `p_commentline`: exactly one end must be a comment. */
  function CommentLine(c: Kinds, t: string, h: string): (r: Result<Edge, Parser.Error>) {
    var (kt, kh) :- Ends(c, t, h);
    if (kt == "comment") == (kh == "comment") then Failure(Parser.CommentLineEnds)
    else Success(Edge("commentline", t, h, []))
  }

  /** A comment line is made exactly between defined ids of which one, and
      only one, is a comment; a refused one is a UML error. */
  lemma CommentLineIff(c: Kinds, t: string, h: string)
    ensures CommentLine(c, t, h).Success? <==> t in c && h in c && ((c[t] == "comment") != (c[h] == "comment"))
    ensures CommentLine(c, t, h).Success? ==> CommentLine(c, t, h).value == Edge("commentline", t, h, [])
    ensures t in c && h in c && CommentLine(c, t, h).Failure? ==> CommentLine(c, t, h).error.Uml()
  {
  }

  /** Two comments or two classes cannot be joined by a comment line; a
      comment and a class can. */
  lemma CommentLineExamples()
    ensures CommentLine(map["c1" := "comment", "c2" := "comment"], "c1", "c2") == Failure(Parser.CommentLineEnds)
    ensures CommentLine(map["c1" := "class", "c2" := "class"], "c1", "c2") == Failure(Parser.CommentLineEnds)
    ensures CommentLine(map["c1" := "comment", "c2" := "class"], "c1", "c2").Success?
    ensures CommentLine(map["c1" := "class", "c2" := "class"], "c1", "cx") == Failure(Parser.NotDefined("cx"))
  {
    CommentLineIff(map["c1" := "comment", "c2" := "class"], "c1", "c2");
  }

  // ---------------------------------------------------------------------
  // Folded interfaces, assemblies and interface dependencies

  /** The symbol of a folded interface: `o)` or `(o`. */
  datatype Symbol = BallSocket | SocketBall

  function SymbolText(s: Symbol): string {
    match s
    case BallSocket => "o)"
    case SocketBall => "(o"
  }

  /** A folded interface with its id, symbol, the lines drawn to it so far,
      whether an assembly uses it and the dependency on it, if any. */
  datatype Iface = Iface(id: string, symbol: Symbol, lines: seq<Edge>, assembled: bool, dependency: Option<Edge>)

  /** A new folded interface has no lines. */
  function NewIface(id: string, symbol: Symbol): (f: Iface)
    ensures f.lines == [] && !f.assembled && f.dependency.None?
  {
    Iface(id, symbol, [], false, None)
  }

  /** Every connector drawn to the interface joins it to a component. */
  ghost predicate Wired(c: Kinds, f: Iface) {
    forall e :: e in f.lines && e.element == "connector" ==>
      (e.tail == f.id && e.head in c && c[e.head] == "component") ||
      (e.head == f.id && e.tail in c && c[e.tail] == "component")
  }

  function CheckComponent(c: Kinds, id: string): (r: Result<(), Parser.Error>)
    requires id in c
    ensures r.Success? <==> c[id] == "component"
    ensures r.Failure? ==> r.error == Parser.NotComponent(id)
  {
    if c[id] == "component" then Success(()) else Failure(Parser.NotComponent(id))
  }

  /** `p_assembly` on `id1 iface id2`: both ids are looked up, then each
      must be a component; the interface gets a connector from the first and
      one to the second. */
  function Assemble(c: Kinds, id1: string, f: Iface, id2: string): (r: Result<Iface, Parser.Error>) {
    var _ :- Ends(c, id1, id2);
    var _ :- CheckComponent(c, id1);
    var _ :- CheckComponent(c, id2);
    Success(f.(lines := f.lines + [Edge("connector", id1, f.id, []), Edge("connector", f.id, id2, [])],
               assembled := true))
  }

  /** `p_assembly` on `id assembly`: one more component connected into the
      interface. */
  function AssembleLeft(c: Kinds, id: string, f: Iface): (r: Result<Iface, Parser.Error>) {
    var _ :- Parser.Lookup(c, id);
    var _ :- CheckComponent(c, id);
    Success(f.(lines := f.lines + [Edge("connector", id, f.id, [])]))
  }

  /** `p_assembly` on `assembly id`: one more component connected out of the
      interface. */
  function AssembleRight(c: Kinds, f: Iface, id: string): (r: Result<Iface, Parser.Error>) {
    var _ :- Parser.Lookup(c, id);
    var _ :- CheckComponent(c, id);
    Success(f.(lines := f.lines + [Edge("connector", f.id, id, [])]))
  }

  lemma WiredAppend(c: Kinds, f: Iface, es: seq<Edge>)
    requires Wired(c, f)
    requires forall e :: e in es && e.element == "connector" ==>
               (e.tail == f.id && e.head in c && c[e.head] == "component") ||
               (e.head == f.id && e.tail in c && c[e.tail] == "component")
    ensures Wired(c, f.(lines := f.lines + es))
  {
    forall e | e in f.lines + es
      ensures e in f.lines || e in es
    {
    }
  }

  /** Assembling succeeds exactly on components, keeps the interface wired
      and only ever adds connectors. */
  lemma AssembleWired(c: Kinds, id1: string, f: Iface, id2: string)
    requires Wired(c, f)
    ensures var r := Assemble(c, id1, f, id2);
            && (r.Success? <==> id1 in c && id2 in c && c[id1] == "component" && c[id2] == "component")
            && (r.Success? ==> Wired(c, r.value) && r.value.assembled && |r.value.lines| == |f.lines| + 2
                               && r.value.lines[..|f.lines|] == f.lines)
            && (r.Failure? && id1 in c && id2 in c ==> r.error == Parser.NotComponent(if c[id1] != "component" then id1 else id2))
  {
    if id1 in c && id2 in c && c[id1] == "component" && c[id2] == "component" {
      WiredAppend(c, f, [Edge("connector", id1, f.id, []), Edge("connector", f.id, id2, [])]);
    }
  }

  lemma AssembleLeftWired(c: Kinds, id: string, f: Iface)
    requires Wired(c, f)
    ensures var r := AssembleLeft(c, id, f);
            && (r.Success? <==> id in c && c[id] == "component")
            && (r.Success? ==> Wired(c, r.value) && r.value.lines == f.lines + [Edge("connector", id, f.id, [])])
            && (r.Failure? ==> r.error == if id in c then Parser.NotComponent(id) else Parser.NotDefined(id))
  {
    if id in c && c[id] == "component" {
      WiredAppend(c, f, [Edge("connector", id, f.id, [])]);
    }
  }

  lemma AssembleRightWired(c: Kinds, f: Iface, id: string)
    requires Wired(c, f)
    ensures var r := AssembleRight(c, f, id);
            && (r.Success? <==> id in c && c[id] == "component")
            && (r.Success? ==> Wired(c, r.value) && r.value.lines == f.lines + [Edge("connector", f.id, id, [])])
            && (r.Failure? ==> r.error == if id in c then Parser.NotComponent(id) else Parser.NotDefined(id))
  {
    if id in c && c[id] == "component" {
      WiredAppend(c, f, [Edge("connector", f.id, id, [])]);
    }
  }

  /** The assembly tests: a component and a class cannot be assembled, nor
      can a class join an assembly of components. */
  lemma AssemblyExamples(f: Iface)
    ensures Assemble(map["c" := "component", "cls" := "class"], "c", f, "cls") == Failure(Parser.NotComponent("cls"))
    ensures var c := map["c1" := "component", "c2" := "component", "c3" := "component", "cls" := "class"];
            && Assemble(c, "c2", f, "c3").Success?
            && AssembleLeft(c, "c1", Assemble(c, "c2", f, "c3").value).Success?
            && AssembleRight(c, AssembleLeft(c, "c1", Assemble(c, "c2", f, "c3").value).value, "cls")
               == Failure(Parser.NotComponent("cls"))
  {
  }

  /** `p_fdifacedep`: a dependency between a node and a folded interface.
      The line is a realization exactly when the symbol's character next to
      the id is `o`, and a use otherwise; it is recorded on the interface. */
  function IfaceDepend(c: Kinds, f: Iface, id: string, idFirst: bool): (r: Result<(Edge, Iface), Parser.Error>) {
    var _ :- Parser.Lookup(c, id);
    var s := match (idFirst, f.symbol)
             case (true, BallSocket) => "realize"
             case (true, SocketBall) => "use"
             case (false, BallSocket) => "use"
             case (false, SocketBall) => "realize";
    var e := if idFirst then Edge("dependency", f.id, id, [s]) else Edge("dependency", id, f.id, [s]);
    Success((e, f.(dependency := Some(e), lines := f.lines + [e])))
  }

  /** The character of the symbol that touches the id on the line. */
  function Adjacent(f: Iface, idFirst: bool): char {
    var t := SymbolText(f.symbol);
    if idFirst then t[0] else t[1]
  }

  /** An interface dependency is a realization exactly when the symbol's
      `o` faces the id, records itself on the interface, and does not touch
      its connectors. */
  lemma IfaceDependStereotype(c: Kinds, f: Iface, id: string, idFirst: bool)
    requires Wired(c, f)
    ensures var r := IfaceDepend(c, f, id, idFirst);
            && (r.Success? <==> id in c)
            && (r.Success? ==>
                  && r.value.0.stereotypes == [if Adjacent(f, idFirst) == 'o' then "realize" else "use"]
                  && r.value.0.element == "dependency"
                  && (if idFirst then r.value.0.tail == f.id && r.value.0.head == id
                      else r.value.0.tail == id && r.value.0.head == f.id)
                  && r.value.1.dependency == Some(r.value.0)
                  && r.value.1.lines == f.lines + [r.value.0]
                  && Wired(c, r.value.1))
  {
    if id in c {
      var e := IfaceDepend(c, f, id, idFirst).value.0;
      WiredAppend(c, f, [e]);
    }
  }
}

=== FILE: seqs.dfy ===
/** Sequence helpers shared by the model: reversal, duplicate freedom and
    consecutive pairs. */
module Seqs {

  function Reverse<T>(s: seq<T>): (r: seq<T>)
    ensures |r| == |s|
    ensures forall i :: 0 <= i < |s| ==> r[i] == s[|s| - 1 - i]
  {
    if |s| == 0 then [] else [s[|s| - 1]] + Reverse(s[..|s| - 1])
  }

  lemma {:induction false} ReverseMultiset<T>(s: seq<T>)
    ensures multiset(Reverse(s)) == multiset(s)
    decreases |s|
  {
    if |s| > 0 {
      ReverseMultiset(s[..|s| - 1]);
      assert s == s[..|s| - 1] + [s[|s| - 1]];
    }
  }

  predicate Distinct<T(==)>(s: seq<T>) {
    forall i, j :: 0 <= i < j < |s| ==> s[i] != s[j]
  }

  /** `zip(xs[:-1], xs[1:])`: the consecutive pairs of `xs`, in order. */
  function Pairs<T>(xs: seq<T>): (r: seq<(T, T)>)
    ensures |xs| >= 1 ==> |r| == |xs| - 1
    ensures |xs| == 0 ==> r == []
    ensures forall i :: 0 <= i < |r| ==> r[i] == (xs[i], xs[i + 1])
  {
    if |xs| <= 1 then [] else [(xs[0], xs[1])] + Pairs(xs[1..])
  }

  /** Two elements are paired exactly when they are neighbours in `xs`. */
  lemma PairsAreNeighbours<T>(xs: seq<T>, a: T, b: T)
    ensures (a, b) in Pairs(xs) <==> exists i :: 0 <= i < |xs| - 1 && xs[i] == a && xs[i + 1] == b
  {
    if exists i :: 0 <= i < |xs| - 1 && xs[i] == a && xs[i + 1] == b {
      var i :| 0 <= i < |xs| - 1 && xs[i] == a && xs[i + 1] == b;
      assert Pairs(xs)[i] == (a, b);
    }
  }

  /** Replacing the head of a sequence keeps its tail. */
  lemma UpdateHead<T>(x: T, y: T, rest: seq<T>)
    ensures ([x] + rest)[0 := y] == [y] + rest
  {
  }
}

=== FILE: solver.dfy ===
/** The rectangle constraint solver: constraints over box styles named by
    element id, each a small update that reports the boxes it changed, and
    the worklist loop that re-queues the constraints depending on a changed
    box until nothing changes or the step budget runs out. */
module Solver {
  import opened Wrappers
  import opened Seqs
  import opened Style

  /** Box styles by element id; an id never stored has the default box style. */
  type Rects = Store<BoxStyle>

  function Box(s: Rects, id: string): BoxStyle {
    BoxOf(s, id)
  }

  datatype Constraint =
    | MinSize(r: string)
    | TopEq(a: string, b: string)
    | BottomEq(a: string, b: string)
    | LeftEq(a: string, b: string)
    | RightEq(a: string, b: string)
    | CenterEq(a: string, b: string)
    | MiddleEq(a: string, b: string)
    | MinHDist(a: string, b: string, dist: real)
    | MinVDist(a: string, b: string, dist: real)
    | Within(kid: string, parent: string, pad: Area)

  /** The boxes a constraint manipulates, in the order it was given them. */
  function Vars(c: Constraint): (r: seq<string>)
    ensures 1 <= |r| <= 2
  {
    match c
    case MinSize(r) => [r]
    case Within(kid, parent, _) => [kid, parent]
    case TopEq(a, b) => [a, b]
    case BottomEq(a, b) => [a, b]
    case LeftEq(a, b) => [a, b]
    case RightEq(a, b) => [a, b]
    case CenterEq(a, b) => [a, b]
    case MiddleEq(a, b) => [a, b]
    case MinHDist(a, b, _) => [a, b]
    case MinVDist(a, b, _) => [a, b]
  }

  /** The state a constraint leaves behind: the boxes and the ids of those it changed. */
  datatype Outcome = Outcome(rects: Rects, changed: set<string>)

  // Field updates of a box.
  function MoveX(b: BoxStyle, x: real): BoxStyle { b.(pos := b.pos.(x := x)) }
  function MoveY(b: BoxStyle, y: real): BoxStyle { b.(pos := b.pos.(y := y)) }
  function SetWidth(b: BoxStyle, w: real): BoxStyle { b.(size := b.size.(width := w)) }
  function SetHeight(b: BoxStyle, h: real): BoxStyle { b.(size := b.size.(height := h)) }


  /** The constraint reported exactly the boxes it changed, all of them among
      `vars`, and left every other box alone. */
  ghost predicate Reports(o: Outcome, s: Rects, vars: seq<string>) {
    && (forall id :: id in o.changed ==> id in vars)
    && (forall id :: id !in o.changed ==> Box(o.rects, id) == Box(s, id))
    && (forall id :: id in o.changed ==> Box(o.rects, id) != Box(s, id))
    && (o.changed == {} ==> o.rects == s)
  }

  /** A box below its minimum width (height) grows by 10 in that dimension. */
  function ApplyMinSize(id: string, s: Rects): (o: Outcome)
    ensures Reports(o, s, [id])
    ensures o.changed == {} <==> Box(s, id).size.width >= Box(s, id).minSize.width
                                 && Box(s, id).size.height >= Box(s, id).minSize.height
  {
    var r := Box(s, id);
    var wide := r.size.width < r.minSize.width;
    var r1 := if wide then SetWidth(r, r.size.width + 10.0) else r;
    var high := r1.size.height < r1.minSize.height;
    var r2 := if high then SetHeight(r1, r1.size.height + 10.0) else r1;
    if wide || high then
      assert r2.size != r.size;
      Outcome(s[id := r2], {id})
    else Outcome(s, {})
  }

  /** The four box edges an edge constraint can equate. */
  datatype Edge = TopEdge | BottomEdge | LeftEdge | RightEdge

  /** The coordinate of an edge of a box. */
  function Key(e: Edge, b: BoxStyle): real {
    match e
    case TopEdge => b.pos.y
    case BottomEdge => b.pos.y + b.size.height
    case LeftEdge => b.pos.x
    case RightEdge => b.pos.x + b.size.width
  }

  /** Moves a box, keeping its size, so that its edge `e` lies at `k`. */
  function Place(e: Edge, b: BoxStyle, k: real): (r: BoxStyle)
    ensures Key(e, r) == k && r.size == b.size
    ensures r == b <==> Key(e, b) == k
  {
    match e
    case TopEdge => MoveY(b, k)
    case BottomEdge => MoveY(b, k - b.size.height)
    case LeftEdge => MoveX(b, k)
    case RightEdge => MoveX(b, k - b.size.width)
  }

  /** The edge constraints: when edge `e` of `a` lies before that of `b`, `a`
      is moved to line up with `b`; then, on the updated boxes, when it lies
      after, `b` is moved to line up with `a`. */
  function Raise(e: Edge, a: string, b: string, s: Rects): (o: Outcome)
    ensures Reports(o, s, [a, b])
    ensures o.changed == {} <==> Key(e, Box(s, a)) == Key(e, Box(s, b))
  {
    var A := Box(s, a);
    var B := Box(s, b);
    var o1 := if Key(e, A) < Key(e, B) then Outcome(s[a := Place(e, A, Key(e, B))], {a}) else Outcome(s, {});
    var A1 := Box(o1.rects, a);
    var B1 := Box(o1.rects, b);
    if Key(e, A1) > Key(e, B1) then Outcome(o1.rects[b := Place(e, B1, Key(e, A1))], {b}) else o1
  }

  function HCenter(b: BoxStyle): real { b.pos.x + b.size.width / 2.0 }
  function VCenter(b: BoxStyle): real { b.pos.y + b.size.height / 2.0 }

  /** Moves the box whose horizontal centre is smaller so that both centres
      coincide; its width is recomputed from the new position, which keeps it. */
  function ApplyCenterEq(a: string, b: string, s: Rects): (o: Outcome)
    ensures Reports(o, s, [a, b])
    ensures o.changed == {} <==> HCenter(Box(s, a)) == HCenter(Box(s, b))
  {
    var A := Box(s, a);
    var B := Box(s, b);
    var wa := A.size.width / 2.0;
    var wb := B.size.width / 2.0;
    var v1 := A.pos.x + wa;
    var v2 := B.pos.x + wb;
    if v1 > v2 then
      var B1 := MoveX(B, v1 - wb);
      Outcome(s[b := SetWidth(B1, v1 + wb - B1.pos.x)], {b})
    else if v2 > v1 then
      var A1 := MoveX(A, v2 - wa);
      Outcome(s[a := SetWidth(A1, v2 + wa - A1.pos.x)], {a})
    else Outcome(s, {})
  }

  /** The vertical counterpart of `ApplyCenterEq`. */
  function ApplyMiddleEq(a: string, b: string, s: Rects): (o: Outcome)
    ensures Reports(o, s, [a, b])
    ensures o.changed == {} <==> VCenter(Box(s, a)) == VCenter(Box(s, b))
  {
    var A := Box(s, a);
    var B := Box(s, b);
    var ha := A.size.height / 2.0;
    var hb := B.size.height / 2.0;
    var v1 := A.pos.y + ha;
    var v2 := B.pos.y + hb;
    if v1 > v2 then
      var B1 := MoveY(B, v1 - hb);
      Outcome(s[b := SetHeight(B1, v1 + hb - B1.pos.y)], {b})
    else if v2 > v1 then
      var A1 := MoveY(A, v2 - ha);
      Outcome(s[a := SetHeight(A1, v2 + ha - A1.pos.y)], {a})
    else Outcome(s, {})
  }

  /** Pushes `b` right when it starts closer than `dist` after the right edge of `a`. */
  function ApplyMinHDist(a: string, b: string, dist: real, s: Rects): (o: Outcome)
    ensures Reports(o, s, [a, b])
    ensures o.changed == {} <==> Key(RightEdge, Box(s, a)) + dist <= Box(s, b).pos.x
  {
    var A := Box(s, a);
    var B := Box(s, b);
    if A.pos.x + A.size.width + dist > B.pos.x then
      Outcome(s[b := MoveX(B, A.pos.x + A.size.width + dist)], {b})
    else Outcome(s, {})
  }

  /** Pushes `b` down when it starts closer than `dist` below the bottom edge of `a`. */
  function ApplyMinVDist(a: string, b: string, dist: real, s: Rects): (o: Outcome)
    ensures Reports(o, s, [a, b])
    ensures o.changed == {} <==> Key(BottomEdge, Box(s, a)) + dist <= Box(s, b).pos.y
  {
    var A := Box(s, a);
    var B := Box(s, b);
    if A.pos.y + A.size.height + dist > B.pos.y then
      Outcome(s[b := MoveY(B, A.pos.y + A.size.height + dist)], {b})
    else Outcome(s, {})
  }

  /** The kid lies inside the parent inset by `pad` on every side. */
  predicate Inside(K: BoxStyle, P: BoxStyle, pad: Area) {
    && P.pos.x + pad.left <= K.pos.x
    && K.pos.x + K.size.width + pad.right <= P.pos.x + P.size.width
    && P.pos.y + pad.top <= K.pos.y
    && K.pos.y + K.size.height + pad.bottom <= P.pos.y + P.size.height
  }

  /** The style of `id` replaced by `b` when `fire`, otherwise left as it is. */
  function Update(s: Rects, id: string, fire: bool, b: BoxStyle): (r: Rects)
    ensures forall j :: j != id ==> Box(r, j) == Box(s, j)
    ensures Box(r, id) == if fire then b else Box(s, id)
    ensures !fire ==> r == s
  {
    if fire then s[id := b] else s
  }

  /** The first step of `Within` fires: the kid starts left of the parent's left inset. */
  predicate FiresLeft(k: string, p: string, pad: Area, s: Rects) {
    Box(s, p).pos.x + pad.left > Box(s, k).pos.x
  }

  /** The second step fires: the kid's right edge plus inset passes the parent's right edge. */
  predicate FiresRight(k: string, p: string, pad: Area, s: Rects) {
    Box(s, k).pos.x + Box(s, k).size.width + pad.right > Box(s, p).pos.x + Box(s, p).size.width
  }

  /** The third step fires: the kid starts above the parent's top inset. */
  predicate FiresTop(k: string, p: string, pad: Area, s: Rects) {
    Box(s, p).pos.y + pad.top > Box(s, k).pos.y
  }

  /** The fourth step fires: the kid's bottom edge plus inset passes the parent's bottom edge. */
  predicate FiresBottom(k: string, p: string, pad: Area, s: Rects) {
    Box(s, k).pos.y + Box(s, k).size.height + pad.bottom > Box(s, p).pos.y + Box(s, p).size.height
  }

  function StepLeft(k: string, p: string, pad: Area, s: Rects): Rects {
    Update(s, k, FiresLeft(k, p, pad, s), MoveX(Box(s, k), Box(s, p).pos.x + pad.left))
  }

  function StepRight(k: string, p: string, pad: Area, s: Rects): Rects {
    var K := Box(s, k);
    var P := Box(s, p);
    Update(s, p, FiresRight(k, p, pad, s), SetWidth(P, K.pos.x + K.size.width + pad.right - P.pos.x))
  }

  function StepTop(k: string, p: string, pad: Area, s: Rects): Rects {
    Update(s, k, FiresTop(k, p, pad, s), MoveY(Box(s, k), Box(s, p).pos.y + pad.top))
  }

  function StepBottom(k: string, p: string, pad: Area, s: Rects): Rects {
    var K := Box(s, k);
    var P := Box(s, p);
    Update(s, p, FiresBottom(k, p, pad, s), SetHeight(P, K.pos.y + K.size.height + pad.bottom - P.pos.y))
  }

  /** Four sequential steps: move the kid right of the parent's left inset,
      widen the parent to the kid's right edge plus inset, move the kid below
      the parent's top inset, heighten the parent to the kid's bottom plus inset.
      The kid is reported when it moved, the parent when it grew. */
  function ApplyWithin(k: string, p: string, pad: Area, s0: Rects): Outcome {
    var s1 := StepLeft(k, p, pad, s0);
    var s2 := StepRight(k, p, pad, s1);
    var s3 := StepTop(k, p, pad, s2);
    var s4 := StepBottom(k, p, pad, s3);
    var c1 := FiresLeft(k, p, pad, s0);
    var c2 := FiresRight(k, p, pad, s1);
    var c3 := FiresTop(k, p, pad, s2);
    var c4 := FiresBottom(k, p, pad, s3);
    Outcome(s4, (if c1 || c3 then {k} else {}) + (if c2 || c4 then {p} else {}))
  }

  /** Box `a` is `b` with position and size grown or kept component by component. */
  predicate Grown(a: BoxStyle, b: BoxStyle) {
    && a.pos.x >= b.pos.x && a.pos.y >= b.pos.y
    && a.size.width >= b.size.width && a.size.height >= b.size.height
    && a == b.(pos := a.pos, size := a.size)
  }

  /** Through the four steps: boxes other than the kid and the parent keep
      their style, the kid's and the parent's only grow, and a step that fires
      strictly grows the component it sets. */
  lemma {:induction false} WithinTrace(k: string, p: string, pad: Area, s0: Rects)
    ensures var s1 := StepLeft(k, p, pad, s0);
            var s2 := StepRight(k, p, pad, s1);
            var s3 := StepTop(k, p, pad, s2);
            var s4 := StepBottom(k, p, pad, s3);
            && (forall j :: j != k && j != p ==> Box(s4, j) == Box(s0, j))
            && Grown(Box(s4, k), Box(s0, k)) && Grown(Box(s4, p), Box(s0, p))
            && (FiresLeft(k, p, pad, s0) ==> Box(s4, k).pos.x > Box(s0, k).pos.x)
            && (FiresRight(k, p, pad, s1) ==> Box(s4, p).size.width > Box(s0, p).size.width)
            && (FiresTop(k, p, pad, s2) ==> Box(s4, k).pos.y > Box(s0, k).pos.y)
            && (FiresBottom(k, p, pad, s3) ==> Box(s4, p).size.height > Box(s0, p).size.height)
            && (k != p && !FiresLeft(k, p, pad, s0) && !FiresTop(k, p, pad, s2) ==> Box(s4, k) == Box(s0, k))
            && (k != p && !FiresRight(k, p, pad, s1) && !FiresBottom(k, p, pad, s3) ==> Box(s4, p) == Box(s0, p))
  {
    var s1 := StepLeft(k, p, pad, s0);
    var s2 := StepRight(k, p, pad, s1);
    var s3 := StepTop(k, p, pad, s2);
    var s4 := StepBottom(k, p, pad, s3);
    assert Box(s1, k).pos.x == Box(s4, k).pos.x;
    assert Box(s3, k).pos.y == Box(s4, k).pos.y;
    assert Box(s2, p).size.width == Box(s4, p).size.width;
  }

  /** `Within` reports exactly the boxes it changed and changes nothing
      precisely when the kid already lies inside the inset parent. */
  lemma {:induction false} WithinReports(k: string, p: string, pad: Area, s0: Rects)
    ensures Reports(ApplyWithin(k, p, pad, s0), s0, [k, p])
    ensures ApplyWithin(k, p, pad, s0).changed == {} <==> Inside(Box(s0, k), Box(s0, p), pad)
  {
    WithinTrace(k, p, pad, s0);
    var s1 := StepLeft(k, p, pad, s0);
    var s2 := StepRight(k, p, pad, s1);
    var s3 := StepTop(k, p, pad, s2);
    var o := ApplyWithin(k, p, pad, s0);
    if !FiresLeft(k, p, pad, s0) && !FiresRight(k, p, pad, s1) && !FiresTop(k, p, pad, s2) {
      assert s3 == s0;
    }
  }

  /** When a constraint holds: the state in which calling it changes nothing. */
  predicate Satisfied(c: Constraint, s: Rects) {
    match c
    case MinSize(r) =>
      Box(s, r).size.width >= Box(s, r).minSize.width && Box(s, r).size.height >= Box(s, r).minSize.height
    case TopEq(a, b) => Key(TopEdge, Box(s, a)) == Key(TopEdge, Box(s, b))
    case BottomEq(a, b) => Key(BottomEdge, Box(s, a)) == Key(BottomEdge, Box(s, b))
    case LeftEq(a, b) => Key(LeftEdge, Box(s, a)) == Key(LeftEdge, Box(s, b))
    case RightEq(a, b) => Key(RightEdge, Box(s, a)) == Key(RightEdge, Box(s, b))
    case CenterEq(a, b) => HCenter(Box(s, a)) == HCenter(Box(s, b))
    case MiddleEq(a, b) => VCenter(Box(s, a)) == VCenter(Box(s, b))
    case MinHDist(a, b, d) => Key(RightEdge, Box(s, a)) + d <= Box(s, b).pos.x
    case MinVDist(a, b, d) => Key(BottomEdge, Box(s, a)) + d <= Box(s, b).pos.y
    case Within(k, p, pad) => Inside(Box(s, k), Box(s, p), pad)
  }

  /** Calls a constraint: it reports exactly the boxes whose style it changed,
      these are among its variables, every other box is left alone, and it
      changes nothing precisely when it already holds. */
  function Apply(c: Constraint, s: Rects): (o: Outcome)
    ensures Reports(o, s, Vars(c))
  {
    match c
    case MinSize(r) => ApplyMinSize(r, s)
    case Within(k, p, pad) =>
      WithinReports(k, p, pad, s);
      ApplyWithin(k, p, pad, s)
    case _ => ApplyBinary(c, s)
  }

  /** The constraints between two boxes. */
  function ApplyBinary(c: Constraint, s: Rects): (o: Outcome)
    requires !c.MinSize? && !c.Within?
    ensures Reports(o, s, Vars(c))
  {
    match c
    case TopEq(a, b) => Raise(TopEdge, a, b, s)
    case BottomEq(a, b) => Raise(BottomEdge, a, b, s)
    case LeftEq(a, b) => Raise(LeftEdge, a, b, s)
    case RightEq(a, b) => Raise(RightEdge, a, b, s)
    case CenterEq(_, _) => ApplyDistance(c, s)
    case MiddleEq(_, _) => ApplyDistance(c, s)
    case MinHDist(_, _, _) => ApplyDistance(c, s)
    case MinVDist(_, _, _) => ApplyDistance(c, s)
  }

  /** The centring and distance constraints. */
  function ApplyDistance(c: Constraint, s: Rects): (o: Outcome)
    requires c.CenterEq? || c.MiddleEq? || c.MinHDist? || c.MinVDist?
    ensures Reports(o, s, Vars(c))
  {
    match c
    case CenterEq(a, b) => ApplyCenterEq(a, b, s)
    case MiddleEq(a, b) => ApplyMiddleEq(a, b, s)
    case MinHDist(a, b, d) => ApplyMinHDist(a, b, d, s)
    case MinVDist(a, b, d) => ApplyMinVDist(a, b, d, s)
  }

  /** A constraint changes nothing exactly when it holds. */
  lemma StableIffSatisfied(c: Constraint, s: Rects)
    ensures Apply(c, s).changed == {} <==> Satisfied(c, s)
  {
    if c.Within? {
      WithinReports(c.kid, c.parent, c.pad, s);
    }
  }

  /** Whether a constraint holds depends only on the boxes it names. */
  lemma SatisfiedFrame(c: Constraint, s1: Rects, s2: Rects)
    requires forall v :: v in Vars(c) ==> Box(s1, v) == Box(s2, v)
    ensures Satisfied(c, s1) == Satisfied(c, s2)
  {
    var vs := Vars(c);
    assert Box(s1, vs[0]) == Box(s2, vs[0]);
    assert Box(s1, vs[|vs| - 1]) == Box(s2, vs[|vs| - 1]);
  }

  function Max(x: real, y: real): real { if x >= y then x else y }

  /** `MinSize` never shrinks a box: a dimension below its minimum grows by
      exactly 10, the other dimension and everything else are kept, and the
      box is reported changed exactly when some dimension was below its minimum. */
  lemma MinSizePost(id: string, s: Rects)
    ensures var o := Apply(MinSize(id), s);
            var B := Box(s, id);
            var B' := Box(o.rects, id);
            && B'.size.width == (if B.size.width < B.minSize.width then B.size.width + 10.0 else B.size.width)
            && B'.size.height == (if B.size.height < B.minSize.height then B.size.height + 10.0 else B.size.height)
            && B' == B.(size := B'.size)
            && (id in o.changed <==> B.size.width < B.minSize.width || B.size.height < B.minSize.height)
  {
  }

  /** Equating an edge of two distinct boxes moves only the one whose edge
      comes first, keeps both sizes, and leaves both edges at the later of the
      two original positions. */
  lemma EdgeEqPost(e: Edge, a: string, b: string, s: Rects)
    requires a != b
    ensures var o := Raise(e, a, b, s);
            var A := Box(s, a);
            var B := Box(s, b);
            var A' := Box(o.rects, a);
            var B' := Box(o.rects, b);
            && Key(e, A') == Key(e, B') == Max(Key(e, A), Key(e, B))
            && A'.size == A.size && B'.size == B.size
            && (Key(e, A) < Key(e, B) ==> B' == B && o.changed == {a})
            && (Key(e, A) > Key(e, B) ==> A' == A && o.changed == {b})
  {
  }

  /** Centring two distinct boxes horizontally moves only the box whose centre
      is smaller, keeps its width, and leaves both centres at the larger of the
      two original centres. */
  lemma CenterEqPost(a: string, b: string, s: Rects)
    requires a != b
    ensures var o := Apply(CenterEq(a, b), s);
            var A := Box(s, a);
            var B := Box(s, b);
            var A' := Box(o.rects, a);
            var B' := Box(o.rects, b);
            && HCenter(A') == HCenter(B') == Max(HCenter(A), HCenter(B))
            && A'.size == A.size && B'.size == B.size
            && A'.pos.y == A.pos.y && B'.pos.y == B.pos.y
            && (HCenter(A) < HCenter(B) ==> B' == B && o.changed == {a})
            && (HCenter(A) > HCenter(B) ==> A' == A && o.changed == {b})
  {
  }

  /** Centring two distinct boxes vertically moves only the box whose centre
      is smaller, keeps its height, and leaves both centres at the larger of
      the two original centres. */
  lemma MiddleEqPost(a: string, b: string, s: Rects)
    requires a != b
    ensures var o := Apply(MiddleEq(a, b), s);
            var A := Box(s, a);
            var B := Box(s, b);
            var A' := Box(o.rects, a);
            var B' := Box(o.rects, b);
            && VCenter(A') == VCenter(B') == Max(VCenter(A), VCenter(B))
            && A'.size == A.size && B'.size == B.size
            && A'.pos.x == A.pos.x && B'.pos.x == B.pos.x
            && (VCenter(A) < VCenter(B) ==> B' == B && o.changed == {a})
            && (VCenter(A) > VCenter(B) ==> A' == A && o.changed == {b})
  {
  }

  /** Keeping a horizontal distance never touches `a`; `b` ends at least
      `dist` after `a`'s right edge, keeps its size and row, and moves only
      when it was closer. */
  lemma MinHDistPost(a: string, b: string, dist: real, s: Rects)
    requires a != b
    ensures var o := Apply(MinHDist(a, b, dist), s);
            var A := Box(s, a);
            var B := Box(s, b);
            var B' := Box(o.rects, b);
            && Box(o.rects, a) == A
            && B'.pos.x >= A.pos.x + A.size.width + dist
            && B'.pos.x == Max(B.pos.x, A.pos.x + A.size.width + dist)
            && B' == B.(pos := B.pos.(x := B'.pos.x))
            && (B' != B <==> A.pos.x + A.size.width + dist > B.pos.x)
  {
  }

  /** Keeping a vertical distance never touches `a`; `b` ends at least `dist`
      below `a`'s bottom edge, keeps its size and column, and moves only when
      it was closer. */
  lemma MinVDistPost(a: string, b: string, dist: real, s: Rects)
    requires a != b
    ensures var o := Apply(MinVDist(a, b, dist), s);
            var A := Box(s, a);
            var B := Box(s, b);
            var B' := Box(o.rects, b);
            && Box(o.rects, a) == A
            && B'.pos.y >= A.pos.y + A.size.height + dist
            && B'.pos.y == Max(B.pos.y, A.pos.y + A.size.height + dist)
            && B' == B.(pos := B.pos.(y := B'.pos.y))
            && (B' != B <==> A.pos.y + A.size.height + dist > B.pos.y)
  {
  }

  /** After `Within` on distinct boxes the kid lies inside the parent inset by
      `pad` on all four sides; the parent keeps its position, the kid its size. */
  lemma {:induction false} WithinPost(k: string, p: string, pad: Area, s: Rects)
    requires k != p
    ensures var o := Apply(Within(k, p, pad), s);
            && Inside(Box(o.rects, k), Box(o.rects, p), pad)
            && Box(o.rects, p).pos == Box(s, p).pos
            && Box(o.rects, k).size == Box(s, k).size
  {
    var s1 := StepLeft(k, p, pad, s);
    var s2 := StepRight(k, p, pad, s1);
    var s3 := StepTop(k, p, pad, s2);
    var s4 := StepBottom(k, p, pad, s3);
    assert Box(s4, k) == Box(s3, k);
    assert Box(s3, p) == Box(s2, p);
    assert Box(s2, k) == Box(s1, k);
    assert Box(s1, p) == Box(s, p);
  }

  // ---------------------------------------------------------------------
  // The solver

  /** The constraints in the order they were added, and for each box id the
      positions of the constraints that name it. */
  datatype Solver = Solver(constraints: seq<Constraint>, deps: map<string, set<nat>>)

  const EmptySolver := Solver([], map[])

  /** The constraint at position `i` exists and names box `v`. */
  ghost predicate Names(sv: Solver, i: int, v: string) {
    0 <= i < |sv.constraints| && v in Vars(sv.constraints[i])
  }

  /** The dependency map lists, under each box, exactly the constraints naming it. */
  ghost predicate WellFormed(sv: Solver) {
    && (forall i, v :: 0 <= i < |sv.constraints| && v in Vars(sv.constraints[i]) ==> v in sv.deps && i in sv.deps[v])
    && (forall v, i :: v in sv.deps && i in sv.deps[v] ==> Names(sv, i, v))
  }

  /** Registers constraint position `n` under each of `vars`. */
  function Register(deps: map<string, set<nat>>, vars: seq<string>, n: nat): (r: map<string, set<nat>>)
    ensures forall v :: v in r <==> v in deps || v in vars
    ensures forall v, i :: v in r && i in r[v] <==> (v in deps && i in deps[v]) || (v in vars && i == n)
    decreases |vars|
  {
    if |vars| == 0 then deps
    else
      var v := vars[0];
      var d := if v in deps then deps[v] else {};
      Register(deps[v := d + {n}], vars[1..], n)
  }

  /** Adds a constraint: it is appended and registered under each of its boxes. */
  function Add(sv: Solver, c: Constraint): (r: Solver)
    ensures r.constraints == sv.constraints + [c]
    ensures WellFormed(sv) ==> WellFormed(r)
  {
    var r := Solver(sv.constraints + [c], Register(sv.deps, Vars(c), |sv.constraints|));
    AddKeepsWellFormed(sv, c, r);
    r
  }

  lemma AddKeepsWellFormed(sv: Solver, c: Constraint, r: Solver)
    requires r == Solver(sv.constraints + [c], Register(sv.deps, Vars(c), |sv.constraints|))
    ensures WellFormed(sv) ==> WellFormed(r)
  {
    if WellFormed(sv) {
      AddKeepsRegistered(sv, c, r);
      AddKeepsNamed(sv, c, r);
    }
  }

  /** Every variable of every constraint stays registered under its position. */
  lemma AddKeepsRegistered(sv: Solver, c: Constraint, r: Solver)
    requires WellFormed(sv)
    requires r == Solver(sv.constraints + [c], Register(sv.deps, Vars(c), |sv.constraints|))
    ensures forall i, v :: 0 <= i < |r.constraints| && v in Vars(r.constraints[i]) ==> v in r.deps && i in r.deps[v]
  {
    var n := |sv.constraints|;
    forall i, v | 0 <= i < |r.constraints| && v in Vars(r.constraints[i])
      ensures v in r.deps && i in r.deps[v]
    {
      if i < n {
        assert r.constraints[i] == sv.constraints[i];
      } else {
        assert r.constraints[i] == c;
      }
    }
  }

  /** Every registered position still names a constraint over that variable. */
  lemma AddKeepsNamed(sv: Solver, c: Constraint, r: Solver)
    requires WellFormed(sv)
    requires r == Solver(sv.constraints + [c], Register(sv.deps, Vars(c), |sv.constraints|))
    ensures forall v, i :: v in r.deps && i in r.deps[v] ==> Names(r, i, v)
  {
    var n := |sv.constraints|;
    forall v, i | v in r.deps && i in r.deps[v]
      ensures Names(r, i, v)
    {
      if i == n && v in Vars(c) {
        assert r.constraints[i] == c;
      } else {
        assert v in sv.deps && i in sv.deps[v];
        assert i < n && v in Vars(sv.constraints[i]);
        assert r.constraints[i] == sv.constraints[i];
      }
    }
  }

  /** The solver after adding the given constraints in order. */
  function AddAll(sv: Solver, cs: seq<Constraint>): (r: Solver)
    ensures r.constraints == sv.constraints + cs
    ensures WellFormed(sv) ==> WellFormed(r)
    decreases |cs|
  {
    if |cs| == 0 then sv
    else
      var next := Add(sv, cs[0]);
      assert next.constraints + cs[1..] == sv.constraints + cs;
      AddAll(next, cs[1..])
  }

  /** The solver holding exactly the given constraints. */
  lemma BuildWellFormed(cs: seq<Constraint>)
    ensures AddAll(EmptySolver, cs).constraints == cs
    ensures WellFormed(AddAll(EmptySolver, cs))
  {
  }

  /** Positions of the constraints that name one of the given boxes. */
  function Dependents(deps: map<string, set<nat>>, changed: set<string>): (r: set<nat>)
    ensures forall i :: i in r <==> exists v :: v in changed && v in deps && i in deps[v]
  {
    set v, i | v in changed && v in deps && i in deps[v] :: i
  }

  /** The members of `S` below `n`, from `k` on, in ascending order. */
  function Ascending(S: set<nat>, k: nat, n: nat): (r: seq<nat>)
    requires k <= n
    ensures forall x :: x in r <==> x in S && k <= x < n
    ensures forall i, j :: 0 <= i < j < |r| ==> r[i] < r[j]
    decreases n - k
  {
    if k == n then []
    else
      var rest := Ascending(S, k + 1, n);
      assert forall j :: 0 <= j < |rest| ==> rest[j] in rest;
      (if k in S then [k] else []) + rest
  }

  /** The worklist: the boxes so far, the queue of constraint positions still
      to call, and the set of queued positions. */
  datatype Work = Work(rects: Rects, queue: seq<nat>, inque: set<nat>)

  /** The queue holds each position at most once, `inque` mirrors it, and all
      positions are valid. */
  ghost predicate QueueOk(n: nat, w: Work) {
    && Distinct(w.queue)
    && (forall i :: i in w.inque <==> i in w.queue)
    && (forall i :: i in w.inque ==> i < n)
  }

  /** Every constraint that is not queued holds. */
  ghost predicate SettledOutside(sv: Solver, w: Work) {
    forall i :: 0 <= i < |sv.constraints| && i !in w.inque ==> Satisfied(sv.constraints[i], w.rects)
  }

  /** One solving event: take the first queued constraint, call it, and queue
      (in ascending order) the constraints that name a changed box and are not
      queued already, the called one included. */
  function Step(sv: Solver, w: Work): (r: Work)
    requires QueueOk(|sv.constraints|, w) && |w.queue| > 0
  {
    var c := w.queue[0];
    assert c in w.inque;
    var inque := w.inque - {c};
    var o := Apply(sv.constraints[c], w.rects);
    var toSolve := Dependents(sv.deps, o.changed) - inque;
    Work(o.rects, w.queue[1..] + Ascending(toSolve, 0, |sv.constraints|), inque + toSolve)
  }

  /** A solving event keeps the queue well formed, and every constraint
      outside the queue still holds after it. */
  lemma {:induction false} StepInvariant(sv: Solver, w: Work)
    requires WellFormed(sv) && QueueOk(|sv.constraints|, w) && |w.queue| > 0
    ensures QueueOk(|sv.constraints|, Step(sv, w))
    ensures SettledOutside(sv, w) ==> SettledOutside(sv, Step(sv, w))
  {
    var c := w.queue[0];
    assert c in w.inque;
    var inque := w.inque - {c};
    var o := Apply(sv.constraints[c], w.rects);
    var toSolve := Dependents(sv.deps, o.changed) - inque;
    var added := Ascending(toSolve, 0, |sv.constraints|);
    assert Step(sv, w) == Work(o.rects, w.queue[1..] + added, inque + toSolve);
    StepKeepsQueue(sv, w, c, inque, o.changed, toSolve, added, o.rects);
    if SettledOutside(sv, w) {
      StepSettles(sv, w, c, inque, o, toSolve);
    }
  }

  lemma StepKeepsQueue(sv: Solver, w: Work, c: nat, inque: set<nat>, changed: set<string>, toSolve: set<nat>, added: seq<nat>, rects: Rects)
    requires WellFormed(sv) && QueueOk(|sv.constraints|, w) && |w.queue| > 0
    requires c == w.queue[0] && inque == w.inque - {c}
    requires toSolve == Dependents(sv.deps, changed) - inque
    requires added == Ascending(toSolve, 0, |sv.constraints|)
    ensures QueueOk(|sv.constraints|, Work(rects, w.queue[1..] + added, inque + toSolve))
  {
    forall i | i in toSolve
      ensures i < |sv.constraints|
    {
      assert i in Dependents(sv.deps, changed);
      var v :| v in changed && v in sv.deps && i in sv.deps[v];
      assert i < |sv.constraints| && v in Vars(sv.constraints[i]);
    }
    forall i | i in inque
      ensures i in w.queue[1..]
    {
      assert i in w.queue && i != w.queue[0];
    }
    QueueAppend(w.queue, inque, toSolve, added);
  }

  /** Dropping the head of a duplicate-free queue mirrored by a set and
      appending the members of a disjoint set keeps it duplicate-free and mirrored. */
  lemma QueueAppend(queue: seq<nat>, inque: set<nat>, toSolve: set<nat>, added: seq<nat>)
    requires |queue| > 0 && Distinct(queue)
    requires forall i :: i in inque <==> i in queue[1..]
    requires inque * toSolve == {}
    requires forall x :: x in added <==> x in toSolve
    requires forall i, j :: 0 <= i < j < |added| ==> added[i] < added[j]
    ensures Distinct(queue[1..] + added)
    ensures forall i :: i in inque + toSolve <==> i in queue[1..] + added
  {
    var q := queue[1..];
    var r := q + added;
    forall i, j | 0 <= i < j < |r|
      ensures r[i] != r[j]
    {
      if j < |q| {
        assert r[i] == queue[i + 1] && r[j] == queue[j + 1];
      } else if i < |q| {
        assert r[i] in inque by { assert r[i] == q[i]; }
        assert r[j] in toSolve by { assert r[j] == added[j - |q|]; }
        assert r[i] !in toSolve by { assert r[i] !in inque * toSolve; }
      } else {
        assert r[i] == added[i - |q|] && r[j] == added[j - |q|];
      }
    }
  }

  lemma StepSettles(sv: Solver, w: Work, c: nat, inque: set<nat>, o: Outcome, toSolve: set<nat>)
    requires WellFormed(sv) && QueueOk(|sv.constraints|, w) && |w.queue| > 0
    requires c == w.queue[0] && c < |sv.constraints| && inque == w.inque - {c}
    requires o == Apply(sv.constraints[c], w.rects)
    requires toSolve == Dependents(sv.deps, o.changed) - inque
    requires SettledOutside(sv, w)
    ensures SettledOutside(sv, Work(o.rects, w.queue[1..], inque + toSolve))
  {
    forall i | 0 <= i < |sv.constraints| && i !in inque + toSolve
      ensures Satisfied(sv.constraints[i], o.rects)
    {
      assert i !in Dependents(sv.deps, o.changed);
      if i == c {
        CalledSettles(sv, c, w.rects, o);
      } else {
        assert i !in w.inque;
        UntouchedStillHolds(sv, i, o.changed, w.rects, o.rects);
      }
    }
  }

  /** A called constraint that is not queued again changed nothing, so it held
      already and still holds. */
  lemma CalledSettles(sv: Solver, c: nat, s: Rects, o: Outcome)
    requires WellFormed(sv) && c < |sv.constraints|
    requires o == Apply(sv.constraints[c], s)
    requires c !in Dependents(sv.deps, o.changed)
    ensures Satisfied(sv.constraints[c], o.rects)
  {
    assert forall v :: v in Vars(sv.constraints[c]) ==> v in sv.deps && c in sv.deps[v];
    assert o.changed == {};
    StableIffSatisfied(sv.constraints[c], s);
    UntouchedStillHolds(sv, c, o.changed, s, o.rects);
  }

  /** A constraint that names no changed box and held before still holds. */
  lemma UntouchedStillHolds(sv: Solver, i: nat, changed: set<string>, before: Rects, after: Rects)
    requires WellFormed(sv) && i < |sv.constraints|
    requires i !in Dependents(sv.deps, changed)
    requires forall v :: v !in changed ==> Box(after, v) == Box(before, v)
    requires Satisfied(sv.constraints[i], before)
    ensures Satisfied(sv.constraints[i], after)
  {
    var ci := sv.constraints[i];
    forall v | v in Vars(ci)
      ensures Box(after, v) == Box(before, v)
    {
      assert v in sv.deps && i in sv.deps[v];
    }
    SatisfiedFrame(ci, after, before);
  }

  /** Why solving gave up: the number of constraints still queued and the
      number of solving events done. */
  datatype SolverError = SolverError(unsolved: nat, steps: nat)

  /** Solves all constraints starting from the boxes `s`: every constraint is
      queued once; solving events run while the queue is not empty, and the
      solver gives up as soon as the number of events exceeds the square of
      the number of constraints (even when that last event emptied the queue).
      On success every constraint holds on the returned boxes. */
  method Solve(sv: Solver, s: Rects) returns (r: Result<Rects, SolverError>)
    requires WellFormed(sv)
    ensures r.Success? ==> forall i :: 0 <= i < |sv.constraints| ==> Satisfied(sv.constraints[i], r.value)
    ensures r.Failure? ==> r.error.steps == |sv.constraints| * |sv.constraints| + 1
    ensures |sv.constraints| == 0 ==> r == Success(s)
  {
    var n := |sv.constraints|;
    var queue := seq(n, i => i);
    var w := Work(s, queue, set i | i in queue);
    assert Distinct(queue);
    assert forall i :: 0 <= i < n ==> i in w.inque by {
      forall i | 0 <= i < n ensures i in w.inque { assert queue[i] == i; }
    }
    var count := 0;
    var kill := n * n;
    while |w.queue| > 0
      invariant QueueOk(n, w)
      invariant SettledOutside(sv, w)
      invariant count <= kill
      invariant n == 0 ==> w.rects == s && |w.queue| == 0
      decreases kill - count
    {
      StepInvariant(sv, w);
      w := Step(sv, w);
      count := count + 1;
      assert |w.queue| > 0 ==> w.queue[0] in w.inque;
      if count > kill {
        return Failure(SolverError(|w.queue|, count));
      }
    }
    return Success(w.rects);
  }
}

=== FILE: strings.dfy ===
/** Python string operations the model relies on (`strip`, `split`, `join`,
    `replace`, substring test), restated over `seq<char>`. */
module Strings {

  /** Characters removed by Python's argument-less `str.strip()`. */
  predicate IsSpace(c: char) {
    || c == ' ' || c == '\t' || c == '\n' || c == '\r' || c == '\U{0B}' || c == '\U{0C}'
    || ('\U{1C}' <= c <= '\U{1F}') || c == '\U{85}' || c == '\U{A0}' || c == '\U{1680}'
    || ('\U{2000}' <= c <= '\U{200A}') || c == '\U{2028}' || c == '\U{2029}'
    || c == '\U{202F}' || c == '\U{205F}' || c == '\U{3000}'
  }

  predicate AllSpace(s: string) {
    forall i :: 0 <= i < |s| ==> IsSpace(s[i])
  }

  /** Neither end of `s` is whitespace (vacuously true of the empty string). */
  predicate Trimmed(s: string) {
    |s| == 0 || (!IsSpace(s[0]) && !IsSpace(s[|s| - 1]))
  }

  function StripLeft(s: string): (r: string)
    ensures |r| <= |s| && r == s[|s| - |r|..]
    ensures |r| > 0 ==> !IsSpace(r[0])
    ensures AllSpace(s[..|s| - |r|])
  {
    if |s| > 0 && IsSpace(s[0]) then StripLeft(s[1..]) else s
  }

  function StripRight(s: string): (r: string)
    ensures |r| <= |s| && r == s[..|r|]
    ensures |r| > 0 ==> !IsSpace(r[|r| - 1])
    ensures AllSpace(s[|r|..])
  {
    if |s| > 0 && IsSpace(s[|s| - 1]) then StripRight(s[..|s| - 1]) else s
  }

  /** Python's `s.strip()`: whitespace removed from both ends. */
  function Strip(s: string): (r: string)
    ensures Trimmed(r) && |r| <= |s|
  {
    StripRight(StripLeft(s))
  }

  /** What `strip` keeps is a middle slice of the text and everything it
      cuts off is whitespace. */
  lemma StripSlice(s: string)
    ensures exists i :: (0 <= i <= |s| - |Strip(s)| && Strip(s) == s[i..i + |Strip(s)|]
                         && AllSpace(s[..i]) && AllSpace(s[i + |Strip(s)|..]))
  {
    var i := |s| - |StripLeft(s)|;
    assert 0 <= i <= |s| - |Strip(s)| && Strip(s) == s[i..i + |Strip(s)|]
           && AllSpace(s[..i]) && AllSpace(s[i + |Strip(s)|..]) by {
      SliceOfSuffix(s, i, StripLeft(s), Strip(s));
    }
  }

  lemma SliceOfSuffix(s: string, i: nat, l: string, r: string)
    requires i <= |s| && l == s[i..] && |r| <= |l| && r == l[..|r|]
    ensures r == s[i..i + |r|] && l[|r|..] == s[i + |r|..]
  {
  }

  lemma {:induction false} StripLeftPadded(w: string, t: string)
    requires AllSpace(w)
    requires |t| == 0 || !IsSpace(t[0])
    ensures StripLeft(w + t) == t
    decreases |w|
  {
    if |w| > 0 {
      var x := w + t;
      assert x[0] == w[0];
      assert x[1..] == w[1..] + t;
      assert AllSpace(w[1..]) by {
        forall i | 0 <= i < |w| - 1 ensures IsSpace(w[1..][i]) {
          assert w[1..][i] == w[i + 1];
        }
      }
      StripLeftPadded(w[1..], t);
    } else {
      assert w + t == t;
    }
  }

  lemma {:induction false} StripRightPadded(t: string, w: string)
    requires AllSpace(w)
    requires |t| == 0 || !IsSpace(t[|t| - 1])
    ensures StripRight(t + w) == t
    decreases |w|
  {
    if |w| > 0 {
      var x := t + w;
      assert x[|x| - 1] == w[|w| - 1];
      assert x[..|x| - 1] == t + w[..|w| - 1];
      var u := w[..|w| - 1];
      assert AllSpace(u) by {
        forall i | 0 <= i < |u| ensures IsSpace(u[i]) {
          assert u[i] == w[i];
        }
      }
      StripRightPadded(t, u);
    } else {
      assert t + w == t;
    }
  }

  /** Stripping removes exactly the surrounding whitespace of a trimmed text. */
  lemma StripPadded(w1: string, t: string, w2: string)
    requires AllSpace(w1) && AllSpace(w2) && Trimmed(t)
    ensures Strip(w1 + t + w2) == t
  {
    if |t| == 0 {
      assert w1 + t + w2 == w1 + w2;
      StripLeftPadded(w1 + w2, []);
      assert w1 + w2 + [] == w1 + w2;
    } else {
      assert w1 + t + w2 == w1 + (t + w2);
      StripLeftPadded(w1, t + w2);
      StripRightPadded(t, w2);
    }
  }

  /** A trimmed text is its own `strip`. */
  lemma StripOfTrimmed(t: string)
    requires Trimmed(t)
    ensures Strip(t) == t
  {
    assert StripLeft(t) == t;
  }

  /** `strip` is idempotent. */
  lemma StripIdempotent(s: string)
    ensures Strip(Strip(s)) == Strip(s)
  {
    StripOfTrimmed(Strip(s));
  }

  /** `sub` occurs somewhere in `s` (Python's `sub in s`). */
  predicate Contains(s: string, sub: string) {
    exists i :: 0 <= i <= |s| && OccursAt(s, sub, i)
  }

  predicate OccursAt(s: string, sub: string, i: int) {
    0 <= i <= |s| - |sub| && s[i..i + |sub|] == sub
  }

  /** Python's `s.find(sub)`: index of the first occurrence, or -1. */
  function Find(s: string, sub: string): (r: int)
    ensures -1 <= r <= |s|
    ensures r == -1 <==> !Contains(s, sub)
    ensures r >= 0 ==> OccursAt(s, sub, r) && forall j :: 0 <= j < r ==> !OccursAt(s, sub, j)
  {
    FindFrom(s, sub, 0)
  }

  function FindFrom(s: string, sub: string, i: nat): (r: int)
    requires i <= |s| + 1
    requires forall j :: 0 <= j < i ==> !OccursAt(s, sub, j)
    ensures -1 <= r <= |s|
    ensures r == -1 <==> !Contains(s, sub)
    ensures r >= 0 ==> OccursAt(s, sub, r) && forall j :: 0 <= j < r ==> !OccursAt(s, sub, j)
    decreases |s| + 1 - i
  {
    if i > |s| then -1
    else if OccursAt(s, sub, i) then i
    else FindFrom(s, sub, i + 1)
  }

  /** A text without the first character of `sub` has no occurrence of `sub`. */
  lemma AbsentFirstChar(s: string, sub: string)
    requires |sub| > 0 && sub[0] !in s
    ensures !Contains(s, sub)
  {
    forall i | 0 <= i <= |s|
      ensures !OccursAt(s, sub, i)
    {
      if i <= |s| - |sub| {
        assert s[i..i + |sub|][0] == s[i];
      }
    }
  }

  predicate StartsWith(s: string, p: string) {
    |p| <= |s| && s[..|p|] == p
  }

  /** Python's `s.replace(pat, rep)` for a non-empty `pat`: occurrences are
      found left to right and never overlap. */
  function Replace(s: string, pat: string, rep: string): string
    requires |pat| > 0
    decreases |s|
  {
    if |s| == 0 then []
    else if StartsWith(s, pat) then rep + Replace(s[|pat|..], pat, rep)
    else [s[0]] + Replace(s[1..], pat, rep)
  }

  /** A text without any occurrence of `pat` is left unchanged. */
  lemma ReplaceAbsent(s: string, pat: string, rep: string)
    requires |pat| > 0 && !Contains(s, pat)
    ensures Replace(s, pat, rep) == s
  {
    if |s| > 0 {
      assert !StartsWith(s, pat) by {
        if StartsWith(s, pat) {
          assert OccursAt(s, pat, 0);
        }
      }
      assert !Contains(s[1..], pat) by {
        if Contains(s[1..], pat) {
          var i :| 0 <= i <= |s[1..]| && OccursAt(s[1..], pat, i);
          assert i + 1 + |pat| <= |s|;
          assert s[1..][i..i + |pat|] == s[i + 1..i + 1 + |pat|];
          assert OccursAt(s, pat, i + 1);
        }
      }
      ReplaceAbsent(s[1..], pat, rep);
    }
  }

  /** Replacing a single character distributes over concatenation. */
  lemma ReplaceCharConcat(a: string, b: string, pat: string, rep: string)
    requires |pat| == 1
    ensures Replace(a + b, pat, rep) == Replace(a, pat, rep) + Replace(b, pat, rep)
  {
    if |a| > 0 {
      assert (a + b)[1..] == a[1..] + b;
      assert (a + b)[..1] == a[..1];
      ReplaceCharConcat(a[1..], b, pat, rep);
    } else {
      assert a + b == b;
    }
  }

  /** After replacing character `d` by a text without `d`, no `d` is left,
      and every other character came from the input or from the replacement. */
  lemma ReplaceCharChars(s: string, d: char, rep: string, c: char)
    requires c in Replace(s, [d], rep)
    ensures (c in s && c != d) || c in rep
  {
    if |s| > 0 {
      if StartsWith(s, [d]) {
        if c !in rep {
          ReplaceCharChars(s[1..], d, rep, c);
        }
      } else {
        assert s[..1] == [s[0]];
        if c != s[0] {
          ReplaceCharChars(s[1..], d, rep, c);
        }
      }
    }
  }

  /** No occurrence of `pat` can start inside a prefix that lacks its first
      character, so such a prefix passes through `replace` untouched. */
  lemma {:induction false} ReplaceFreePrefix(x: string, y: string, pat: string, rep: string)
    requires |pat| > 0 && pat[0] !in x
    ensures Replace(x + y, pat, rep) == x + Replace(y, pat, rep)
    decreases |x|
  {
    if |x| > 0 {
      assert (x + y)[0] == x[0];
      assert !StartsWith(x + y, pat);
      assert (x + y)[1..] == x[1..] + y;
      ReplaceFreePrefix(x[1..], y, pat, rep);
      assert [x[0]] + x[1..] == x;
    } else {
      assert x + y == y;
    }
  }

  // One step of `Replace` for a two-character pattern `[a, b]`.

  lemma ReplacePairHit(a: char, b: char, y: string, rep: string)
    ensures Replace([a, b] + y, [a, b], rep) == rep + Replace(y, [a, b], rep)
  {
    var x := [a, b] + y;
    assert x[..2] == [a, b];
    assert x[2..] == y;
  }

  lemma ReplacePairMiss(a: char, b: char, c: char, y: string, rep: string)
    requires c != b
    ensures Replace([a, c] + y, [a, b], rep) == [a] + Replace([c] + y, [a, b], rep)
  {
    var x := [a, c] + y;
    assert x[1] == c;
    assert x[1..] == [c] + y;
  }

  lemma ReplaceLoneHead(a: char, b: char, y: string, rep: string)
    requires |y| == 0 || y[0] != b
    ensures Replace([a] + y, [a, b], rep) == [a] + Replace(y, [a, b], rep)
  {
    var x := [a] + y;
    if |y| > 0 {
      assert x[1] == y[0];
    }
    assert x[1..] == y;
  }

  /** Every character of a joined text comes from a piece or the separator. */
  lemma {:induction false} JoinChars(xs: seq<string>, sep: string, c: char)
    requires c in Join(xs, sep)
    ensures c in sep || exists i :: 0 <= i < |xs| && c in xs[i]
    decreases |xs|
  {
    if |xs| > 1 {
      if c !in xs[0] && c !in sep {
        JoinChars(xs[1..], sep, c);
        var i :| 0 <= i < |xs[1..]| && c in xs[1..][i];
        assert c in xs[i + 1];
      }
    }
  }

  /** Python's `sep.join(xs)`. */
  function Join(xs: seq<string>, sep: string): string {
    if |xs| == 0 then []
    else if |xs| == 1 then xs[0]
    else xs[0] + sep + Join(xs[1..], sep)
  }

  /** Python's `s.split(sep)` for a non-empty separator: always at least one
      piece. */
  function Split(s: string, sep: string): (r: seq<string>)
    requires |sep| > 0
    ensures |r| >= 1
  {
    SplitFrom(s, sep, [])
  }

  /** `Split` with the text `cur` of the current piece already consumed. */
  function SplitFrom(s: string, sep: string, cur: string): (r: seq<string>)
    requires |sep| > 0
    ensures |r| >= 1
    decreases |s|
  {
    if StartsWith(s, sep) then [cur] + SplitFrom(s[|sep|..], sep, [])
    else if |s| == 0 then [cur]
    else SplitFrom(s[1..], sep, cur + [s[0]])
  }

  lemma {:induction false} JoinSplitFrom(s: string, sep: string, cur: string)
    requires |sep| > 0
    ensures Join(SplitFrom(s, sep, cur), sep) == cur + s
    decreases |s|
  {
    if StartsWith(s, sep) {
      var rest := SplitFrom(s[|sep|..], sep, []);
      JoinSplitFrom(s[|sep|..], sep, []);
      assert ([cur] + rest)[1..] == rest;
      assert s == sep + s[|sep|..];
    } else if |s| == 0 {
    } else {
      JoinSplitFrom(s[1..], sep, cur + [s[0]]);
      assert cur + [s[0]] + s[1..] == cur + s;
    }
  }

  /** A character absent from a text and from the piece already consumed is
      absent from every piece of the split. */
  lemma {:induction false} SplitFromKeepsOut(s: string, sep: string, cur: string, c: char)
    requires |sep| > 0 && c !in s && c !in cur
    ensures forall i :: 0 <= i < |SplitFrom(s, sep, cur)| ==> c !in SplitFrom(s, sep, cur)[i]
    decreases |s|
  {
    if StartsWith(s, sep) {
      assert s == s[..|sep|] + s[|sep|..];
      SplitFromKeepsOut(s[|sep|..], sep, [], c);
      var rest := SplitFrom(s[|sep|..], sep, []);
      assert forall i :: 1 <= i < |[cur] + rest| ==> ([cur] + rest)[i] == rest[i - 1];
    } else if |s| > 0 {
      assert s == [s[0]] + s[1..];
      assert c !in cur + [s[0]];
      SplitFromKeepsOut(s[1..], sep, cur + [s[0]], c);
    }
  }

  /** Joining the pieces of a split with the same separator gives back the text. */
  lemma JoinSplit(s: string, sep: string)
    requires |sep| > 0
    ensures Join(Split(s, sep), sep) == s
  {
    JoinSplitFrom(s, sep, []);
  }

  lemma {:induction false} SplitFromPiece(p: string, t: string, c: char, cur: string)
    requires c !in p
    ensures SplitFrom(p + t, [c], cur) == SplitFrom(t, [c], cur + p)
    decreases |p|
  {
    if |p| > 0 {
      assert !StartsWith(p + t, [c]) by {
        assert (p + t)[0] == p[0];
      }
      assert (p + t)[1..] == p[1..] + t;
      SplitFromPiece(p[1..], t, c, cur + [p[0]]);
      assert cur + [p[0]] + p[1..] == cur + p;
    } else {
      assert p + t == t;
      assert cur + p == cur;
    }
  }

  lemma {:induction false} SplitFromJoin(xs: seq<string>, c: char, cur: string)
    requires |xs| >= 1
    requires forall i :: 0 <= i < |xs| ==> c !in xs[i]
    ensures SplitFrom(Join(xs, [c]), [c], cur) == [cur + xs[0]] + xs[1..]
    decreases |xs|
  {
    if |xs| == 1 {
      SplitFromPiece(xs[0], [], c, cur);
      assert xs[0] + [] == xs[0];
    } else {
      var rest := Join(xs[1..], [c]);
      assert Join(xs, [c]) == xs[0] + ([c] + rest);
      SplitFromPiece(xs[0], [c] + rest, c, cur);
      assert ([c] + rest)[1..] == rest;
      SplitFromJoin(xs[1..], c, []);
      assert [] + xs[1..][0] == xs[1];
      assert [xs[1]] + xs[1..][1..] == xs[1..];
    }
  }

  /** Splitting on a one-character separator undoes joining pieces that do not
      contain it. */
  lemma SplitJoin(xs: seq<string>, c: char)
    requires |xs| >= 1
    requires forall i :: 0 <= i < |xs| ==> c !in xs[i]
    ensures Split(Join(xs, [c]), [c]) == xs
  {
    SplitFromJoin(xs, c, []);
    assert [] + xs[0] == xs[0];
    assert [xs[0]] + xs[1..] == xs;
  }

  /** The two characters a backslash and `n` that stand for a line break
      inside names written in a diagram. */
  const LiteralNewline: string := ['\\', 'n']

  /** The first character after `replace`: the replacement's when the text
      starts with the pattern, the text's own otherwise. */
  lemma ReplaceHead(s: string, pat: string, rep: string)
    requires |pat| > 0 && |s| > 0 && |rep| > 0
    ensures Replace(s, pat, rep)[0] == (if StartsWith(s, pat) then rep[0] else s[0])
  {
  }

  /** `replace` brings in no character that neither the text nor the
      replacement has. */
  lemma {:induction false} ReplaceKeepsOut(s: string, pat: string, rep: string, c: char)
    requires |pat| > 0 && c !in s && c !in rep
    ensures c !in Replace(s, pat, rep)
    decreases |s|
  {
    if |s| > 0 {
      if StartsWith(s, pat) {
        assert forall d :: d in s[|pat|..] ==> d in s;
        ReplaceKeepsOut(s[|pat|..], pat, rep, c);
      } else {
        assert forall d :: d in s[1..] ==> d in s;
        ReplaceKeepsOut(s[1..], pat, rep, c);
      }
    }
  }
}

=== FILE: style.dfy ===
/** Style records attached to diagram items: positions, sizes, margins and
    paddings, and the per-item style store that hands out a default record
    the first time an item is asked for its style. */
module Style {

  datatype Pos = Pos(x: real, y: real)

  datatype Size = Size(width: real, height: real)

  /** Margins or paddings around an item. */
  datatype Area = Area(top: real, right: real, bottom: real, left: real)

  /** Iterating a position yields `x` then `y`. */
  function PosItems(p: Pos): (r: seq<real>)
    ensures |r| == 2
  {
    [p.x, p.y]
  }

  /** Iterating a size yields `width` then `height`. */
  function SizeItems(s: Size): (r: seq<real>)
    ensures |r| == 2
  {
    [s.width, s.height]
  }

  /** Iterating an area yields top, right, bottom, left (clockwise from the top). */
  function AreaItems(a: Area): (r: seq<real>)
    ensures |r| == 4
  {
    [a.top, a.right, a.bottom, a.left]
  }

  /** Rebuilds an area from the four values its iteration yields. */
  function AreaOf(items: seq<real>): Area
    requires |items| == 4
  {
    Area(items[0], items[1], items[2], items[3])
  }

  /** Unpacking an area and building a new one from the values gives the same area,
      and two areas with the same iteration are the same area. */
  lemma AreaItemsRoundTrip(a: Area, b: Area)
    ensures AreaOf(AreaItems(a)) == a
    ensures AreaItems(a) == AreaItems(b) <==> a == b
  {
    if AreaItems(a) == AreaItems(b) {
      assert AreaItems(a)[0] == AreaItems(b)[0] && AreaItems(a)[1] == AreaItems(b)[1];
      assert AreaItems(a)[2] == AreaItems(b)[2] && AreaItems(a)[3] == AreaItems(b)[3];
    }
  }

  /** Position equality compares both coordinates, i.e. it coincides with
      equality of the iterated pairs; the same holds for sizes. */
  lemma PosSizeItemsInjective(p: Pos, q: Pos, s: Size, t: Size)
    ensures PosItems(p) == PosItems(q) <==> p == q
    ensures SizeItems(s) == SizeItems(t) <==> s == t
  {
    if PosItems(p) == PosItems(q) {
      assert PosItems(p)[0] == PosItems(q)[0] && PosItems(p)[1] == PosItems(q)[1];
    }
    if SizeItems(s) == SizeItems(t) {
      assert SizeItems(s)[0] == SizeItems(t)[0] && SizeItems(s)[1] == SizeItems(t)[1];
    }
  }

  /** Style of a box: the base style's margin and padding, plus position,
      current size, icon size, minimum size and the height of each compartment. */
  datatype BoxStyle = BoxStyle(
    margin: Area,
    padding: Area,
    pos: Pos,
    size: Size,
    iconSize: Size,
    minSize: Size,
    compartment: seq<real>)

  /** Style of a line: the base style's margin and padding, its minimal
      length and its points. */
  datatype LineStyle = LineStyle(
    margin: Area,
    padding: Area,
    minLength: real,
    edges: seq<Pos>)

  const DefaultMargin := Area(10.0, 10.0, 10.0, 10.0)
  const DefaultPadding := Area(5.0, 10.0, 5.0, 10.0)

  /** An initial box style. */
  const DefaultBox := BoxStyle(DefaultMargin, DefaultPadding, Pos(0.0, 0.0),
    Size(80.0, 40.0), Size(0.0, 0.0), Size(80.0, 40.0), [0.0])

  /** An initial line style. */
  const DefaultLine := LineStyle(DefaultMargin, DefaultPadding, 100.0,
    [Pos(0.0, 0.0), Pos(0.0, 0.0)])

  /** An initial box starts at its minimum size, has one (empty) compartment and
      no icon, and its padding never exceeds its margin on any side. */
  lemma DefaultBoxShape()
    ensures DefaultBox.pos == Pos(0.0, 0.0)
    ensures DefaultBox.size == DefaultBox.minSize && DefaultBox.minSize == Size(80.0, 40.0)
    ensures |DefaultBox.compartment| == 1 && DefaultBox.compartment[0] == 0.0
    ensures DefaultBox.iconSize == Size(0.0, 0.0)
    ensures forall i :: 0 <= i < 4 ==> AreaItems(DefaultBox.padding)[i] <= AreaItems(DefaultBox.margin)[i]
    ensures AreaItems(DefaultBox.margin) == [10.0, 10.0, 10.0, 10.0]
    ensures AreaItems(DefaultBox.padding) == [5.0, 10.0, 5.0, 10.0]
  {
  }

  /** An initial line has two coincident points at the origin and a positive minimal length. */
  lemma DefaultLineShape()
    ensures |DefaultLine.edges| == 2 && DefaultLine.edges[0] == DefaultLine.edges[1] == Pos(0.0, 0.0)
    ensures DefaultLine.minLength == 100.0 && DefaultLine.margin == DefaultBox.margin
  {
  }

  /** Style store keyed by item: items compare by id, so the key is the id. */
  type Store<V> = map<string, V>

  /** Style lookup: an item seen for the first time is given `initial`, which
      is remembered; afterwards the remembered style is returned. */
  function Get<V>(data: Store<V>, key: string, initial: V): (r: (V, Store<V>))
    ensures key in r.1 && r.1[key] == r.0
    ensures key in data ==> r.0 == data[key] && r.1 == data
    ensures key !in data ==> r.0 == initial && r.1.Keys == data.Keys + {key}
    ensures forall k :: k in data ==> k in r.1 && r.1[k] == data[k]
  {
    if key in data then (data[key], data) else (initial, data[key := initial])
  }

  /** A second lookup of the same item returns the style handed out by the
      first one, whatever `initial` is offered the second time, and stores nothing new. */
  lemma GetStable<V>(data: Store<V>, key: string, initial1: V, initial2: V)
    ensures var (v1, d1) := Get(data, key, initial1);
            Get(d1, key, initial2) == (v1, d1)
  {
  }

  /** Read-only view of the store for box styles. */
  function BoxOf(data: Store<BoxStyle>, key: string): BoxStyle {
    if key in data then data[key] else DefaultBox
  }

  /** Reading a box style gives what a lookup would hand out: an item never
      looked up has the default style. */
  lemma BoxOfIsLookup(data: Store<BoxStyle>, key: string)
    ensures BoxOf(data, key) == Get(data, key, DefaultBox).0
    ensures key !in data ==> BoxOf(data, key) == DefaultBox
  {
  }
}

=== FILE: text.dfy ===
/** Placement of text at a box and the choice of text orientation along a
    line: the arithmetic of the text helpers used by the renderers. */
module Text {
  import opened Style
  import Seqs

  /** Alignment values: -1 is left (top, tail), 0 centre (middle), 1 right (bottom, head). */
  const AlignLeft := -1
  const AlignCenter := 0
  const AlignRight := 1

  /** Alignment along a line: -1 at its tail, 1 at its head, 0 in the middle. */
  const AlignTail := -1
  const AlignHead := 1

  /** Below this magnitude a coordinate difference counts as zero. */
  const Epsilon: real := 0.000001

  /** A valid alignment value; any other value is a programming error. */
  predicate IsAlign(a: int) {
    AlignLeft <= a <= AlignRight
  }

  /** Horizontal and vertical alignment of a text. */
  datatype Align = Align(h: int, v: int)

  function Abs(x: real): real {
    if x < 0.0 then -x else x
  }

  /** Position of the horizontal edge of a `w` wide text relative to a
      `width` wide box. */
  function AlignX(w: real, width: real, pad: Area, h: int, outside: bool): (x: real)
    requires IsAlign(h)
    // outside: the text sits left of the box, centred above/below it, or right of it
    ensures outside && h == AlignLeft ==> 0.0 - (x + w) == pad.left
    ensures outside && h == AlignCenter ==> x - 0.0 == width - (x + w)
    ensures outside && h == AlignRight ==> x - width == pad.right
    // inside: the text keeps the padding from the near side; centred text is
    // shifted by the whole padding difference on each side
    ensures !outside && h == AlignLeft ==> x == pad.left
    ensures !outside && h == AlignCenter ==> x - (width - (x + w)) == 2.0 * (pad.left - pad.right)
    ensures !outside && h == AlignRight ==> width - (x + w) == pad.right
  {
    if outside then
      if h == AlignLeft then -w - pad.left
      else if h == AlignCenter then (width - w) / 2.0
      else width + pad.right
    else
      if h == AlignLeft then pad.left
      else if h == AlignCenter then (width - w) / 2.0 + pad.left - pad.right
      else width - w - pad.right
  }

  /** Position of the vertical edge of an `h` high text relative to a
      `height` high box; the middle is computed the same way inside and outside. */
  function AlignY(h: real, height: real, pad: Area, v: int, outside: bool): (y: real)
    requires IsAlign(v)
    ensures outside && v == AlignLeft ==> 0.0 - (y + h) == pad.top
    ensures outside && v == AlignRight ==> y - height == pad.bottom
    ensures !outside && v == AlignLeft ==> y == pad.top
    ensures !outside && v == AlignRight ==> height - (y + h) == pad.bottom
    ensures v == AlignCenter ==> y - (height - (y + h)) == 2.0 * (pad.top - pad.bottom)
  {
    if v == AlignCenter then (height - h) / 2.0 + pad.top - pad.bottom
    else if outside then
      if v == AlignLeft then -h - pad.top else height + pad.bottom
    else
      if v == AlignLeft then pad.top else height - h - pad.bottom
  }

  /** `text_pos_at_box`: top-left corner of a text of `size` aligned at a
      `box` sized box whose style gives its position and padding. */
  function PosAtBox(size: Size, box: Size, style: BoxStyle, align: Align, outside: bool): (r: Pos)
    requires IsAlign(align.h) && IsAlign(align.v)
    ensures r.x - style.pos.x == AlignX(size.width, box.width, style.padding, align.h, outside)
    ensures r.y - style.pos.y == AlignY(size.height, box.height, style.padding, align.v, outside)
    ensures !outside && align == Align(AlignLeft, AlignLeft)
      ==> r == Pos(style.pos.x + style.padding.left, style.pos.y + style.padding.top)
  {
    Pos(AlignX(size.width, box.width, style.padding, align.h, outside) + style.pos.x,
        AlignY(size.height, box.height, style.padding, align.v, outside) + style.pos.y)
  }

  /** Padding with left and right exchanged. */
  function MirrorH(a: Area): Area {
    a.(left := a.right, right := a.left)
  }

  /** Padding with top and bottom exchanged. */
  function MirrorV(a: Area): Area {
    a.(top := a.bottom, bottom := a.top)
  }

  /** Placement is symmetric: aligning at the opposite side with the padding
      mirrored gives the mirror image of the text in the box, inside and outside. */
  lemma PosAtBoxMirror(size: Size, box: Size, style: BoxStyle, align: Align, outside: bool)
    requires IsAlign(align.h) && IsAlign(align.v)
    ensures var r := PosAtBox(size, box, style, align, outside);
            var m := PosAtBox(size, box, style.(padding := MirrorV(MirrorH(style.padding))),
                              Align(-align.h, -align.v), outside);
            && (r.x - style.pos.x) + (m.x - style.pos.x) == box.width - size.width
            && (r.y - style.pos.y) + (m.y - style.pos.y) == box.height - size.height
  {
  }

  /** Moving the box moves the text by the same amount. */
  lemma PosAtBoxTranslates(size: Size, box: Size, style: BoxStyle, align: Align, outside: bool, dx: real, dy: real)
    requires IsAlign(align.h) && IsAlign(align.v)
    ensures var r := PosAtBox(size, box, style, align, outside);
            var t := PosAtBox(size, box, style.(pos := Pos(style.pos.x + dx, style.pos.y + dy)), align, outside);
            t == Pos(r.x + dx, r.y + dy)
  {
  }

  /** Inside placement keeps a text that fits within the padded box: with
      non-negative padding, a left or right aligned text that is no wider
      than the box less its padding lies within the box. */
  lemma InsideFits(size: Size, box: Size, style: BoxStyle, align: Align)
    requires IsAlign(align.h) && IsAlign(align.v) && align.h != AlignCenter
    requires style.padding.left >= 0.0 && style.padding.right >= 0.0
    requires size.width + style.padding.left + style.padding.right <= box.width
    ensures var r := PosAtBox(size, box, style, align, false);
            style.pos.x + style.padding.left <= r.x
            && r.x + size.width <= style.pos.x + box.width - style.padding.right
  {
  }

  /** `line_middle_segment`: the two points in the middle of a line; as many
      points precede the segment as follow it, or one fewer. */
  function MiddleSegment(edges: seq<Pos>): (r: (Pos, Pos))
    requires |edges| >= 2
    ensures exists i :: 0 <= i < |edges| - 1 && r == (edges[i], edges[i + 1])
                        && (|edges| - 2 - i == i || |edges| - 2 - i == i + 1)
  {
    var med := |edges| / 2;
    var r := (edges[med - 1], edges[med]);
    assert med - 1 + 1 == med;
    r
  }

  /** The segment a text aligned along a line is placed at: the first one
      at the tail, the last one at the head, the middle one otherwise. */
  function Segment(line: seq<Pos>, v: int): (r: (Pos, Pos))
    requires |line| >= 2
    ensures v == AlignTail ==> r == (line[0], line[1])
    ensures v == AlignHead ==> r == (line[|line| - 2], line[|line| - 1])
    ensures exists i :: 0 <= i < |line| - 1 && r == (line[i], line[i + 1])
  {
    if v == AlignTail then (line[0], line[1])
    else if v == AlignHead then (line[|line| - 2], line[|line| - 1])
    else MiddleSegment(line)
  }

  /** The slope a text hint compares: zero for a segment that is (nearly)
      horizontal or vertical. */
  function Slope(p1: Pos, p2: Pos): (da: real)
    ensures da >= 0.0
  {
    var dx := p2.x - p1.x;
    var dy := p2.y - p1.y;
    if Abs(dx) < Epsilon || Abs(dy) < Epsilon then 0.0 else Abs(dy / dx)
  }

  /** A segment is steep when it is neither horizontal nor vertical within
      `Epsilon` and rises more than 3 units per 5 it runs. */
  predicate Steep(p1: Pos, p2: Pos) {
    var dx := p2.x - p1.x;
    var dy := p2.y - p1.y;
    Abs(dx) >= Epsilon && Abs(dy) >= Epsilon && 5.0 * Abs(dy) > 3.0 * Abs(dx)
  }

  /** `line_single_text_hint`: whether the text at the chosen segment of a
      line is to be placed as next to a steep segment. */
  function SingleTextHint(line: seq<Pos>, align: Align): (r: bool)
    requires |line| >= 2
    ensures r <==> Steep(Segment(line, align.v).0, Segment(line, align.v).1)
  {
    var (p1, p2) := Segment(line, align.v);
    SteepSlope(p1, p2);
    Slope(p1, p2) > 0.6
  }

  /** The magnitude of a quotient times that of its divisor is that of the dividend. */
  lemma QuotAbs(dy: real, dx: real)
    requires dx != 0.0
    ensures Abs(dy / dx) * Abs(dx) == Abs(dy)
  {
    var q := dy / dx;
    assert dy == q * dx;
    if q < 0.0 {
      if dx < 0.0 { assert Abs(dy) == q * dx; } else { assert Abs(dy) == -(q * dx); }
    } else {
      if dx < 0.0 { assert Abs(dy) == -(q * dx); } else { assert Abs(dy) == q * dx; }
    }
  }

  /** Comparing a ratio with 0.6 is comparing the scaled quantities with 3:5. */
  lemma ScaleCompare(q: real, a: real, b: real)
    requires a > 0.0 && b == q * a
    ensures q > 0.6 <==> 5.0 * b > 3.0 * a
  {
    assert 5.0 * b - 3.0 * a == 5.0 * a * (q - 0.6);
  }

  /** The slope exceeds 0.6 exactly when the segment is steep. */
  lemma SteepSlope(p1: Pos, p2: Pos)
    ensures Slope(p1, p2) > 0.6 <==> Steep(p1, p2)
  {
    var dx := p2.x - p1.x;
    var dy := p2.y - p1.y;
    if Abs(dx) >= Epsilon && Abs(dy) >= Epsilon {
      QuotAbs(dy, dx);
      ScaleCompare(Abs(dy / dx), Abs(dx), Abs(dy));
    }
  }

  /** The steepness of a segment does not depend on its direction. */
  lemma SteepSymmetric(p1: Pos, p2: Pos)
    ensures Steep(p1, p2) <==> Steep(p2, p1)
  {
  }

  /** Reading a line backwards exchanges its tail and its head but not the
      hint: the text at the head of the reversed line is placed as the text
      at the tail of the original one, and vice versa; for an even number of
      points the middle segment is the same one too. */
  lemma {:induction false} HintReversed(line: seq<Pos>, align: Align)
    requires |line| >= 2
    requires align.v == AlignTail || align.v == AlignHead || |line| % 2 == 0
    ensures SingleTextHint(Seqs.Reverse(line), Align(align.h, -align.v)) == SingleTextHint(line, align)
  {
    var rl := Seqs.Reverse(line);
    var n := |line|;
    var (p1, p2) := Segment(line, align.v);
    var (q1, q2) := Segment(rl, -align.v);
    if align.v == AlignTail {
      assert (q1, q2) == (rl[n - 2], rl[n - 1]);
      assert q1 == p2 && q2 == p1;
    } else if align.v == AlignHead {
      assert (q1, q2) == (rl[0], rl[1]);
      assert q1 == p2 && q2 == p1;
    } else {
      assert (q1, q2) == (rl[n / 2 - 1], rl[n / 2]);
      assert (p1, p2) == (line[n / 2 - 1], line[n / 2]);
      assert rl[n / 2 - 1] == line[n / 2];
      assert q1 == p2 && q2 == p1;
    }
    SteepSymmetric(p1, p2);
  }
}

=== FILE: wrappers.dfy ===
/** Failure-compatible wrappers used throughout the model: an optional value
    and a value-or-error result. Both work with Dafny's `:-` operator. */
module Wrappers {

  datatype Option<+T> = None | Some(value: T) {

    predicate IsFailure() {
      None?
    }

    function PropagateFailure<U>(): Option<U>
      requires None?
    {
      None
    }

    function Extract(): T
      requires Some?
    {
      value
    }

    function GetOr(default: T): T {
      match this
      case Some(v) => v
      case None => default
    }
  }

  datatype Result<+R, +E> = Success(value: R) | Failure(error: E) {

    predicate IsFailure() {
      Failure?
    }

    function PropagateFailure<U>(): Result<U, E>
      requires Failure?
    {
      Failure(error)
    }

    function Extract(): R
      requires Success?
    {
      value
    }
  }

  /** The values of a sequence of options, when every one of them is present. */
  function AllSome<T>(xs: seq<Option<T>>): (r: Option<seq<T>>)
    ensures r.Some? <==> forall i :: 0 <= i < |xs| ==> xs[i].Some?
    ensures r.Some? ==> |r.value| == |xs| && forall i :: 0 <= i < |xs| ==> xs[i] == Some(r.value[i])
    decreases |xs|
  {
    if |xs| == 0 then Some([])
    else if xs[0].None? then None
    else
      var rest := AllSome(xs[1..]);
      if rest.None? then
        assert exists i :: 1 <= i < |xs| && xs[i].None? by {
          var j :| 0 <= j < |xs[1..]| && xs[1..][j].None?;
          assert xs[1..][j] == xs[j + 1];
        }
        None
      else
        var r := [xs[0].value] + rest.value;
        assert forall i :: 1 <= i < |xs| ==> xs[i] == xs[1..][i - 1] && r[i] == rest.value[i - 1];
        Some(r)
  }
}
